=== FILE: README.md ===
# Guitar-effects engine and ngspice result readers, in Dafny

This project models two cores of a small audio and circuit-simulation toolkit.

**The effects engine** is `chain_hendrix.py`, `hendrix_lab.py` and `echo_ir.py`. It covers:
- peak normalisation;
- the fuzz, octave-up ("octavia"), hard-clip and soft-compressor shapers;
- the block-wise auto-wah;
- the four-stage all-pass "univibe";
- the rotary-speaker ("leslie") phase modulation;
- the tape echo with its feedback buffer and its impulse response;
- the bit crusher;
- the effect registry with the chain runner, which applies the effects in order and writes one stem per step.

Samples are reals. The transcendental functions and the scipy band-pass design and filter are supplied as a `Math` record parameter. The ghost predicate `Dsp.WellBehaved` states the range facts a true sine, tanh and exponential have. Effects fail with a `Dsp.Fault` (empty signal, unknown effect, invalid parameter, zero division, non-finite result, index out of range) exactly where the Python raises, or where numpy would silently produce NaN.

**The ngspice readers** are `plot_spice.py`, `bode_quotient.py`, `merge_bode.py`, `wah_q_table.py`, `wr_collapse.py` and `temp_bias_plot.py`. They turn `wrdata` tables and `.op`/`.four` logs into named columns. The model covers:
- line cleaning: comments, `Index`/`Title`-style metadata lines, and blank lines;
- header detection;
- the three dialects of `read_wrdata`;
- case-insensitive column lookup;
- frequency picking and column fetching;
- the finite-and-positive row mask with its placeholder;
- curve sorting and merging;
- the -3 dB band-edge, bandwidth and Q measurement with its result table;
- the three-column collapse;
- the temperature-block state machine.

Numbers are `Numbers.Num`, with `Fin(real)`, `NaN` and `Inf(neg)`. Python's `float()` grammar is a `FloatGrammar` parameter, and regular expressions are matcher parameters. Reader errors are `Table.ReadError` values, one per `sys.exit` or exception of the source.

The module layout follows the program:

| group | modules |
|---|---|
| numerics | `Dsp`, `Blocks`, `Decimal`, `Numbers`, `FloatOps` |
| effects | `Shapers`, `Fuzz`, `Wah`, `Vibe`, `Leslie`, `Echo`, `Bitcrush`, `Chain` |
| text and tables | `Text`, `Lines`, `Table`, `WrData`, `RowMask`, `Sorting` |
| one module per script | `PlotSpice`, `BodeQuotient`, `MergeBode`, `WahQ`, `WrCollapse`, `TempBias` |

Where a script's main path differs from what its comments and docstrings evidently intend, the project models both:
- The as-written member is named after the script's own function.
- The corrected member carries a `Fixed` suffix. Examples: `MergeBode.MergeAll` and `MergeBode.MergeAllFixed`; `WahQ.Analyse` and `WahQ.AnalyseFixed`; `WrCollapse.Collapse` and `WrCollapse.CollapseFixed`.
- The differences are listed under Findings.

Three behaviours of the code are easy to misread, and the model follows the code in each:
- The univibe all-pass state `xm1 = ym1 = 0` is set afresh on every `allpass` call, that is, once per 128-sample block (chain_hendrix.py:71, 79-80).
- The echo delay in samples is `int(SR*delay_ms/1000)`, which truncates toward zero (chain_hendrix.py:103, echo_ir.py:7).
- An unknown effect name raises only when the loop reaches it, after the stems of the earlier effects have been written (chain_hendrix.py:138-143).

## Model

| member | source | states |
|---|---|---|
| Dsp.Norm | chain_hendrix.py:10-12 | peak normalisation keeps the length, puts every sample strictly inside (-1, 1), and multiplying back by the divisor gives the input exactly (the map loses nothing) |
| Dsp.Divisor | chain_hendrix.py:11 | the divisor `max|x| + 1e-12` is positive and strictly above the magnitude of every sample, which is why the normalised samples stay below 1 |
| Dsp.MaxAbs | hendrix_lab.py:12 | `np.max(np.abs(x))` bounds every sample magnitude and is attained at some index |
| Dsp.NormMonotone | hendrix_lab.py:12 | normalisation keeps the order of samples: `x[i] <= x[j]` exactly when the normalised samples compare the same way |
| Dsp.Clip | hendrix_lab.py:67 | `np.clip(v, lo, hi)`: never above `hi`, at least `lo` when the bounds are ordered, in-range values untouched, values below `lo` become `lo`, values above `hi` become `hi`, and with crossed bounds everything becomes `hi` |
| Blocks.BlockStart | chain_hendrix.py:58 | the block `range(0, len, blk)` assigns to sample `i` starts at the largest multiple of `blk` not above `i`, and the block contains `i` |
| Blocks.BlockEnd | chain_hendrix.py:60 | the slice `x[s:s+blk]` ends at `s + blk` or at the buffer end, whichever comes first, so only the last block may be short |
| Blocks.StartOfBlock | chain_hendrix.py:58-60 | blocks partition the samples: a sample inside the k-th block `[k*blk, k*blk+blk)` belongs to no other block |
| Blocks.BlocksFrom | chain_hendrix.py:58-60 | the loop's output from block k on has the remaining length and holds at each sample the output of that sample's own block |
| Blocks.Blockwise | chain_hendrix.py:56-60 | the whole blockwise transform keeps the length and holds at each sample its own block's output |
| Blocks.BlockwiseAt | chain_hendrix.py:59-60 | sample `i` of the output is sample `i - s` of the transform of the slice `x[s:e]` of its block, `s` the block start and `e` the clamped block end |
| Blocks.ApplyBlocks | chain_hendrix.py:56-60 | the loop over a zero buffer, overwriting `y[i:i+blk]` block by block, produces exactly the blockwise transform, of the input's length |
| Blocks.Overwrite | chain_hendrix.py:60 | the slice assignment `y[s:s+len(out)] = out` changes only the target slice, which afterwards holds `out` |
| Blocks.BlockLocal | hendrix_lab.py:93-95 | filter state does not cross blocks: two inputs that agree on one block give the same output on that block, whatever they hold elsewhere |
| Blocks.StrideCount | chain_hendrix.py:58 | the number of iterations of `range(0, n, step)` is the number of multiples of `step` below `n` |
| Blocks.Collect | chain_hendrix.py:58-59 | the per-block parameter computations in block order succeed exactly when every one does, giving one value per block; otherwise the error is that of the first failing block, all earlier ones having succeeded |
| Shapers.Rectify | chain_hendrix.py:86-87 | octavia's pre-normalisation signal keeps the length and is `tanh(6*(|x[i]| - 0.1))` at each sample |
| Shapers.Octavia | chain_hendrix.py:85-88 | `octavia` keeps the length and every output sample lies strictly inside (-1, 1) |
| Shapers.OctaviaSeesMagnitude | hendrix_lab.py:123-127 | two inputs whose samples agree in absolute value give the same octavia output |
| Shapers.OctaviaEven | hendrix_lab.py:123-127 | `octavia(-x) == octavia(x)` |
| Shapers.ClipAll | hendrix_lab.py:67 | `np.clip` over a buffer keeps the length and clips each sample on its own |
| Shapers.HardClip | hendrix_lab.py:66-67 | `hard_clip` keeps the length and bounds every output sample strictly inside (-1, 1) |
| Shapers.ClampInRange | hendrix_lab.py:67 | with ordered bounds every clamped sample lies in `[lo, hi]` and samples already in range are unchanged |
| Shapers.ClipIdempotent | hendrix_lab.py:67 | clamping twice is clamping once |
| Shapers.HardClipBelowThreshold | hendrix_lab.py:66-67 | a signal already within `[-th, th]` comes out of `hard_clip` as its plain normalisation |
| Shapers.TanhAll | hendrix_lab.py:63 | elementwise `tanh` keeps the length and maps each sample on its own |
| Shapers.DbGain | hendrix_lab.py:60 | the gain is `10**(drive_db/20)`, positive whenever the power function is |
| Shapers.Compress | hendrix_lab.py:60-63 | the gain is always applied and `tanh` only when `knee == "soft"`; any other knee leaves the gained signal as is |
| Shapers.CompressKeepsOrder | hendrix_lab.py:59-63 | for both knees the gained (and saturated) signal keeps the order of the input samples, in both directions |
| Shapers.Compressor | hendrix_lab.py:59-64 | `compressor_soft` keeps the length and bounds every sample strictly inside (-1, 1) |
| Shapers.CompressorKeepsOrder | hendrix_lab.py:59-64 | the normalised compressor output keeps the order of the input samples, in both directions |
| Decimal.NatToString | chain_hendrix.py:143 | `str(n)`: decimal digits with no leading zero and at least one digit |
| Decimal.ParseNatToString | chain_hendrix.py:143 | reading the rendered digits back gives the number |
| Decimal.NatToStringInjective | chain_hendrix.py:143 | distinct numbers render to distinct strings |
| Decimal.Pad2 | chain_hendrix.py:143 | `f"{i:02d}"` is `str(i)` left-padded with zeros to two characters |
| Echo.Trunc | echo_ir.py:7 | Python's `int()` on a float truncates toward zero: for a non-negative value the result is the whole part, for a negative one it is the ceiling |
| Echo.DelaySamples | echo_ir.py:7 | `d = int(SR*delay_ms/1000)` truncates (never rounds up) and is negative exactly when `SR*delay_ms/1000 <= -1` |
| Echo.DelayDefaults | chain_hendrix.py:103 | the default 120 ms gives 5760 samples, and 1/32 ms gives 1 (or -1 for -1/32 ms), showing truncation toward zero |
| Echo.EchoRaw | echo_ir.py:6-14 | the loop's output keeps the length, leaves `y[n] = x[n]` whenever `d == 0` or `n < 2d` (the buffer below `d` is never written), and satisfies `y[n] = x[n] + feedback*(hf_loss*y[n-d])` for `n >= 2d` |
| Echo.NoFeedbackIdentity | echo_ir.py:11-12 | `feedback == 0` or `hf_loss == 0` leaves the buffer unchanged |
| Echo.TapeEchoLoop | echo_ir.py:8-14 | the in-place loop over `range(d, len(x))` with its zeroed feedback buffer computes exactly `EchoRaw` |
| Echo.TapeEcho | chain_hendrix.py:102-110 | a negative `d` is an index error and an empty buffer fails in `norm`, and these are the only failures; otherwise the result keeps the length, lies strictly inside (-1, 1), and with `feedback == 0` is `norm(x)` |
| Echo.Impulse | echo_ir.py:25-26 | the unit impulse of length N is 1 at index 0 and 0 elsewhere |
| Echo.SilentTailUnchanged | echo_ir.py:10-13 | any input silent from index `d` on comes out of the echo loop unchanged |
| Echo.SilentTailUpTo | echo_ir.py:10-13 | prefix form of the silent-tail fact, for every prefix length up to the buffer |
| Echo.ImpulseResponseIsImpulse | echo_ir.py:25-27 | the "impulse response" the script plots equals the impulse itself, whatever the delay, feedback and loss |
| Echo.ImpulseResponse | echo_ir.py:25-27 | the script's input succeeds exactly when `int(SR*dur) >= 1` and `d >= 0`; a negative length is a `np.zeros` error, length 0 fails at `x[0] = 1`, and the buffer is otherwise the unit impulse of length `int(SR*dur)` |
| Echo.EchoLinear | echo_ir.py:6-14 | over the reals the loop is linear: `tape_echo(a*x1 + x2) == a*tape_echo(x1) + tape_echo(x2)` |
| Echo.EchoAtAdditive | echo_ir.py:10-13 | each output sample of the sum of two inputs is the sum of their output samples |
| Echo.EchoAtHomogeneous | echo_ir.py:10-13 | each output sample of a scaled input is the scaled output sample |
| Echo.EchoFed | echo_ir.py:10-13 | the intended delay line, with the buffer fed for every sample: length kept, the first `d` samples unchanged, and `y[n] = x[n] + feedback*(hf_loss*y[n-d])` for every `n >= d` |
| Echo.FedStep | echo_ir.py:11-13 | the fed line's recurrence holds from `n = d` on |
| Echo.FedImpulseTrain | echo_ir.py:25-27 | with the buffer fed, the impulse response is the echo train: `(feedback*hf_loss)^(n/d)` at multiples of `d` and 0 elsewhere |
| Echo.FedImpulseUpTo | echo_ir.py:25-27 | prefix form of the echo train, for every prefix length |
| Echo.FedImpulseAt | echo_ir.py:11-13 | one step of the echo train: the value at `n` follows from the value at `n - d` |
| Echo.ImpulseEchoMissing | echo_ir.py:18-27 | with the script defaults (5760 samples, 0.6, 0.75), the first echo sample at index 5760 is 0 as written but 0.45 with the buffer fed |
| Fuzz.OnePole | chain_hendrix.py:34-39 | the one-pole recurrence keeps the length, sets `y[0] = x[0]`, and has `y[n] = alpha*y[n-1] + (1-alpha)*x[n]` for `n >= 1` |
| Fuzz.OnePoleLoop | chain_hendrix.py:36-39 | the in-place loop over `range(1, len(y))` on a copy computes exactly the recurrence |
| Fuzz.OnePoleBounded | chain_hendrix.py:37-38 | with `0 <= alpha <= 1` the filter output stays within any bound `b` the input stays within |
| Fuzz.OnePoleConstant | chain_hendrix.py:37-38 | a constant input passes the filter unchanged |
| Fuzz.PreEmphasisAlpha | chain_hendrix.py:35 | `alpha = exp(-1/(SR*rc))` with `rc = 1/(2*pi*fc)` equals `exp(-2*pi*fc/SR)`, and lies strictly between 0 and 1 for a positive cutoff |
| Fuzz.PreEmphasis | chain_hendrix.py:34-39 | `lp_pre_emphasis` keeps the length and, for a positive cutoff, never exceeds the input's peak magnitude |
| Fuzz.PreEmphasisBounded | chain_hendrix.py:34-39 | the recurrence with the pre-emphasis coefficient stays within `[-max|x|, max|x|]` |
| Fuzz.Shape | chain_hendrix.py:43-45 | the mix keeps the length and is `(1-hard)*tanh(drive*y) + hard*clip(drive*y, -0.6, 0.6)` at every sample |
| Fuzz.DefaultShapeBounded | hendrix_lab.py:78-80 | with the 0.55/0.45 mix every pre-normalisation sample is strictly inside (-0.82, 0.82), the clip term contributing at most 0.45*0.6 |
| Fuzz.FuzzEffect | chain_hendrix.py:41-45 | `fuzz` keeps the length and bounds every output sample strictly inside (-1, 1) |
| Fuzz.FuzzFaceLike | hendrix_lab.py:69-80 | `fuzz_face_like` keeps the length |
| Fuzz.FuzzFaceLikeIsFuzz | hendrix_lab.py:69-80 | `fuzz_face_like(x)` equals chain_hendrix's `fuzz(x, 8.0, 0.45)`: same recurrence, gain and mix |
| Wah.BandEdges | chain_hendrix.py:47-50 | for every `fc` and non-zero `q` the edges satisfy `low >= 30` and `high <= SR/2 - 100`; `low` is `30` or `fc - bw/2` (whichever is larger) and `high` is `SR/2 - 100` or `fc + bw/2` (whichever is smaller) |
| Wah.DesignableEdges | chain_hendrix.py:51 | the band can be designed (both normalised edges strictly inside (0, 1)) exactly when `low` is below Nyquist and `high` above 0 |
| Wah.Design | chain_hendrix.py:47-51 | `q == 0` is a ZeroDivisionError for a Python float centre; for a numpy centre it gives the clamped band 30 to `SR/2 - 100` when `fc >= 0`; a non-zero `q` designs exactly when the clamped edges are designable, and gives those edges; every designed band starts at 30 Hz or above and ends below Nyquist |
| Wah.Sweep | chain_hendrix.py:55 | the sweep factor `0.5*(1 + sin(...))` lies in [0, 1] |
| Wah.CenterInSweep | chain_hendrix.py:55 | every centre frequency lies between `f_lo` and `f_hi` |
| Wah.BlockCountCovers | chain_hendrix.py:58 | block `j` exists exactly when `j*256 < len(x)`, and every sample falls in an existing block |
| Wah.BandFilter | chain_hendrix.py:60 | the per-block filter (block `j` filtered from rest with block `j`'s band) keeps every block's length |
| Wah.WahRaw | chain_hendrix.py:56-60 | before normalisation, every output sample `i` is the band-pass, from fresh state, of the samples from its block start up to `i`, with the band designed for `centers[block start]` |
| Wah.WahSample | chain_hendrix.py:58-60 | sample `i` of the blockwise output is the band-pass, with its block's band, of the block's samples up to `i` |
| Wah.FilterSample | chain_hendrix.py:60 | the filter of a block, read at sample `i`, sees only the block's samples up to `i` |
| Wah.FilterAt | chain_hendrix.py:60 | `sosfilt` on a slice from rest is causal: output `n` depends on the first `n + 1` samples of the slice |
| Wah.WahAuto | chain_hendrix.py:53-61 | `wah_auto` fails exactly when some block's band cannot be designed; otherwise it keeps the length, lies strictly inside (-1, 1), and is the normalisation of the blockwise filtered signal for the designed bands |
| Wah.AllDesigns | chain_hendrix.py:58-59 | designing the bands of every block in order succeeds exactly when every block's design does, giving each block's band |
| Wah.DefaultWahDesignable | chain_hendrix.py:53 | with the default parameters (350 to 2000 Hz, q = 2.5) `wah_auto` never fails |
| Wah.DefaultBlockDesignable | chain_hendrix.py:53-59 | with the defaults every block's band designs and lies within 280 to 2400 Hz |
| Wah.WahBlockLocal | chain_hendrix.py:58-60 | two inputs agreeing on one block give the same filtered output on that block: the filter state does not cross blocks |
| Wah.WahRawIsBlockwise | chain_hendrix.py:56-60 | the pre-normalisation output is exactly the generic blockwise transform with the per-block band filter |
| Vibe.Lfo | chain_hendrix.py:65 | the LFO `0.6 + 0.4*sin(...)` lies in [0.2, 1.0] |
| Vibe.Coefficient | chain_hendrix.py:69-70 | the all-pass coefficient fails (numpy inf/nan) exactly when `sin(w0) == -1`; otherwise it satisfies `a*(1 + sin w0) == 1 - sin w0` |
| Vibe.CoefficientRange | chain_hendrix.py:69-70 | for `0 < w0 < pi` the coefficient exists and lies in [0, 1) |
| Vibe.Allpass | chain_hendrix.py:71-74 | the all-pass keeps the length, starts from `xm1 = ym1 = 0` (`out[0] = -a*seg[0]`), and has `out[n] = -a*seg[n] + seg[n-1] + a*out[n-1]` |
| Vibe.AllpassLoop | chain_hendrix.py:71-74 | the source loop with its two state variables computes exactly the recurrence |
| Vibe.AllpassCausal | chain_hendrix.py:72-74 | the all-pass output at `n` depends only on the segment up to `n` |
| Vibe.AllpassDc | chain_hendrix.py:72-74 | on a constant segment the deviation from the constant starts at `-(1+a)*v` and is multiplied by `a` each step |
| Vibe.Mix | chain_hendrix.py:75 | the dry/wet blend keeps the length; depth 0 gives the dry segment and depth 1 the all-pass output |
| Vibe.StageFilter | chain_hendrix.py:79-80 | the per-block all-pass stage keeps every block's length |
| Vibe.Stage | chain_hendrix.py:78-81 | one all-pass stage over 128-sample blocks keeps the length |
| Vibe.VibeBlocksCover | chain_hendrix.py:79 | every sample falls in one of the `ceil(len/128)` blocks |
| Vibe.StageSample | chain_hendrix.py:79-80 | sample `i` of a stage is the blend of `x[i]` with the all-pass, restarted at its block start, of the block's samples up to `i` |
| Vibe.StageInBlock | chain_hendrix.py:79-80 | sample `i` of a stage is read from the all-pass of its own clamped block |
| Vibe.StageFilterSample | chain_hendrix.py:80 | the stage filter of block `j` at sample `i` uses block `j`'s coefficient |
| Vibe.BlockPrefix | chain_hendrix.py:72-74 | reading the all-pass of a block at `i` equals reading it on the block's prefix up to `i` |
| Vibe.StageFilterAt | chain_hendrix.py:80 | the stage filter at block position `n` is the blend of the input with the all-pass output at `n` |
| Vibe.StageBlockLocal | hendrix_lab.py:115-117 | the all-pass state does not persist across blocks: inputs agreeing on one block agree on that block's stage output |
| Vibe.Stages | chain_hendrix.py:77-81 | running the stages in turn keeps the length |
| Vibe.StagesSnoc | chain_hendrix.py:77-81 | the stages run in base order: one more stage is applied to the result of the earlier ones |
| Vibe.StageCoeffs | chain_hendrix.py:79-80 | the coefficients of one stage succeed exactly when every block's coefficient does, one per block |
| Vibe.AllCoeffs | chain_hendrix.py:77-80 | the coefficients for the four bases 220/440/700/1100 succeed exactly when every block of every stage does |
| Vibe.ThrobGain | chain_hendrix.py:82 | the throb gain `0.9*(1 + 0.15*sin(...))` lies in [0.765, 1.035] |
| Vibe.Throb | chain_hendrix.py:82 | the throb multiplies each sample by its gain and keeps the length |
| Vibe.VibeRaw | chain_hendrix.py:77-82 | the four stages and the throb keep the length |
| Vibe.Univibe | chain_hendrix.py:63-83 | `univibe` fails exactly when some block of some stage has `sin(w0) == -1`; otherwise it keeps the length, lies strictly inside (-1, 1), and normalises the four-stage, throbbed signal |
| Vibe.DefaultVibeFinite | chain_hendrix.py:63 | with the default rate and depth every coefficient exists, so `univibe` never fails |
| Vibe.BasesRange | chain_hendrix.py:66 | every base frequency lies in [220, 1100] |
| Vibe.UnivibeOk | chain_hendrix.py:63-83 | when every coefficient exists the effect succeeds |
| Vibe.DefaultCoeffFinite | chain_hendrix.py:69-70 | with the defaults every block centre `base*(0.5 + lfo)` gives `0 < w0 < pi`, hence a finite coefficient |
| Leslie.Am | chain_hendrix.py:92 | the amplitude modulation `1 + am_depth*sin(...)` lies within `1 +/- am_depth` |
| Leslie.Fm | chain_hendrix.py:93 | the frequency deviation has one value per sample, `dev_hz*sin(2*pi*rate*t)` |
| Leslie.CumSum | chain_hendrix.py:94 | `np.cumsum` keeps the length, starts at the first value and adds one value per step |
| Leslie.DiffCumSum | chain_hendrix.py:94 | taking successive differences of the running sum gives the original sequence back |
| Leslie.CumSumDiff | chain_hendrix.py:94 | the running sum of the successive differences gives the original sequence back, so `cumsum` is a bijection |
| Leslie.PrefixSumOfDiff | chain_hendrix.py:94 | each prefix sum of the differences is the corresponding element |
| Leslie.Phase | chain_hendrix.py:94 | the phase has one value per sample |
| Leslie.PhaseStep | chain_hendrix.py:94 | consecutive phase values differ by `2*pi*fm[i]/SR` |
| Leslie.LeslieRaw | chain_hendrix.py:97-99 | before normalisation the output keeps the length and mixes 0.6 of the modulated carrier with 0.4 of the input, sample by sample |
| Leslie.DryPathOnly | chain_hendrix.py:97-99 | the input reaches the output only through the 0.4 dry path: two inputs' outputs differ by 0.4 times their difference |
| Leslie.WetBounded | chain_hendrix.py:97-99 | the wet part of each sample is bounded by `0.6*(1 + am_depth)` |
| Leslie.WetRange | chain_hendrix.py:97 | the modulated carrier lies within `1 +/- am_depth` in magnitude |
| Leslie.LeslieEffect | chain_hendrix.py:90-100 | `leslie` keeps the length, bounds every sample strictly inside (-1, 1) and is the normalisation of the mixed signal |
| Bitcrush.Pow2Real | hendrix_lab.py:151 | `2**bits` for any integer exponent (a float for negative ones) is positive |
| Bitcrush.Levels | hendrix_lab.py:152 | the level count `2**bits/2 - 1` is zero exactly when `bits == 1`, at least 1 from 2 bits on, and in (-1, 0) for `bits <= 0` |
| Bitcrush.LevelsEight | hendrix_lab.py:150-152 | the default 8 bits give 127 levels |
| Bitcrush.RoundHalfEven | hendrix_lab.py:152 | `np.round` gives the nearest integer, ties going to the even one |
| Bitcrush.RoundIsNearestEven | hendrix_lab.py:152 | any integer nearer than one half, or an even one at exactly one half, is the rounding result (uniqueness) |
| Bitcrush.QuantizeSample | hendrix_lab.py:152 | a quantised sample times the level count is the rounded scaled sample |
| Bitcrush.Quantize | hendrix_lab.py:152 | quantisation keeps the length and acts on each sample |
| Bitcrush.QuantizeOnGrid | hendrix_lab.py:152 | every quantised sample is an integer multiple of `1/(2**bits/2 - 1)` within half a step of the input |
| Bitcrush.SliceIndexInRange | hendrix_lab.py:153 | every index `y[::step]` visits is inside the buffer, for positive and negative steps |
| Bitcrush.Slice | hendrix_lab.py:153 | `y[::step]` has `ceil(len/|step|)` elements and element `k` is `y[k*step]` (counted from the end for a negative step) |
| Bitcrush.SliceUnit | hendrix_lab.py:153 | `y[::1] == y` |
| Bitcrush.SliceReverse | hendrix_lab.py:153 | `y[::-1]` is the reversal of `y` |
| Bitcrush.SliceReverseTwice | hendrix_lab.py:153 | reversing twice gives the buffer back |
| Bitcrush.CrushRaw | hendrix_lab.py:152-153 | before normalisation, the crushed buffer has `ceil(len/|downsample|)` samples, sample `k` taken from `x[k*downsample]` and lying on the quantisation grid |
| Bitcrush.BitcrushEffect | hendrix_lab.py:150-153 | a zero step is a ValueError, an empty buffer fails in `norm`, `bits == 1` divides by zero, and these are the only failures; otherwise the output has `ceil(len/|downsample|)` samples strictly inside (-1, 1) and is the normalisation of the crushed buffer |
| Chain.Apply | chain_hendrix.py:112-119 | every named effect keeps the length and bounds its samples strictly inside (-1, 1) when it succeeds, and never fails when the real functions have their usual ranges |
| Chain.Effects | chain_hendrix.py:112-119 | the registry has exactly the names `fuzz`, `wah`, `univibe`, `octavia`, `leslie`, `tape`, every entry is shape-preserving, and none fails for well-behaved real functions |
| Chain.Step | chain_hendrix.py:139-141 | a name missing from the registry raises `Unknown effect`, an empty buffer fails, and a successful step keeps the length and bounds the samples |
| Chain.Fold | chain_hendrix.py:138-141 | folding a shape-preserving registry over the chain keeps the buffer length |
| Chain.FoldSnoc | chain_hendrix.py:138-141 | the chain result is a left fold: one more name applies its effect to the result of the earlier ones, and an earlier error is passed through |
| Chain.StemNamePosition | chain_hendrix.py:143 | the stem name for step `i < 100` is two digits reading back as `i`, an underscore, the effect name and `.wav` |
| Chain.Steps | chain_hendrix.py:138-143 | the loop's result is the fold of the chain; without a stem folder nothing is written, and at most one stem is written per name |
| Chain.Run | chain_hendrix.py:133-145 | a successful run ends with the final output, normalised, written to `--out` |
| Chain.RunIsFold | chain_hendrix.py:133-145 | the run's result is the left fold of the effects over the chain order |
| Chain.EmptyInputFails | chain_hendrix.py:133-145 | an empty input writes nothing and fails: with a stem folder in `norm` of the clean stem, otherwise at the first unknown name or in the first effect |
| Chain.UnknownWhenReached | chain_hendrix.py:134-143 | an unknown name at position k raises only when reached: the clean stem `00_clean.wav` and the k stems `NN_name.wav` (1-based) of the earlier effects are already written |
| Chain.StepsUntilUnknown | chain_hendrix.py:138-143 | the loop writes exactly the stems of the names before the first unknown one, then fails with that name |
| Chain.StepsCons | chain_hendrix.py:138-143 | one loop iteration writes the stem of its name with the current index, then continues with the next index |
| Chain.ShiftedStems | chain_hendrix.py:143 | stems written from index `i + 1` on, preceded by the stem for index `i`, are the stems from index `i` on |
| Chain.KnownChainSucceeds | chain_hendrix.py:138-141 | a chain of known names over a never-failing registry succeeds, and a non-empty one ends strictly inside (-1, 1) |
| Chain.StepsAllKnown | chain_hendrix.py:138-143 | a chain of known names writes exactly one stem per name, numbered from the start index |
| Chain.KnownRunWrites | chain_hendrix.py:133-145 | a run of known names with stems writes `00_clean.wav`, one `NN_name.wav` per effect, then the final output: `len(chain) + 2` files |
| Chain.DefaultRun | chain_hendrix.py:125 | the default chain over the real registry succeeds and writes 8 files, `01_fuzz.wav` first among the stems and `06_tape.wav` last |
| Chain.DefaultChainWrites | chain_hendrix.py:125 | the default chain over any never-failing registry with these names writes 8 files, from `01_fuzz.wav` to `06_tape.wav` |
| Chain.DefaultStemNames | chain_hendrix.py:143 | the first and last default stems are named `01_fuzz.wav` and `06_tape.wav` |
| FloatOps.Neg | bode_quotient.py:134 | negating a float keeps finiteness and NaN-ness and flips the sign of a finite value |
| FloatOps.Add | wah_q_table.py:51 | float addition is finite exactly when both operands are, adds them then, and propagates NaN |
| FloatOps.Sub | wah_q_table.py:51 | float subtraction is finite exactly when both operands are, subtracts them then, and propagates NaN |
| FloatOps.Mul | wah_q_table.py:60 | float multiplication is finite exactly when both operands are, multiplies them then, and propagates NaN |
| FloatOps.Div | wah_q_table.py:75 | numpy division of finite values by a non-zero divisor is exact; NaN propagates; a finite value over an infinity is 0; a non-zero value over 0 is an infinity |
| FloatOps.Max | wah_q_table.py:73 | Python's `max(a, b)` returns one of its arguments, nothing it returns is beaten by the other, and a NaN first argument wins |
| FloatOps.GtIsLess | wah_q_table.py:54 | on non-NaN values `a > b` holds exactly when `a` does not sort at or below `b` |
| Numbers.Floats | plot_spice.py:81 | keeping a row's float tokens gives at most one value per token, and none exactly when no token parses |
| Numbers.AllFloats | merge_bode.py:61 | converting every token succeeds exactly when every token parses, giving one value per token in order; otherwise it names a token that does not parse |
| Numbers.FloatsOfAll | merge_bode.py:61 | on a row whose every token parses, converting all tokens and keeping the float tokens agree |
| Numbers.NumLeTotal | merge_bode.py:89 | the order `np.argsort` uses (`-inf`, finite values, `+inf`, NaN last) is reflexive, total and transitive |
| Text.LStrip | plot_spice.py:35 | `lstrip` removes a leading run of whitespace and nothing else: the result is a suffix, every removed character is whitespace, and the result does not start with whitespace |
| Text.RStrip | plot_spice.py:35 | `rstrip` removes a trailing run of whitespace and nothing else |
| Text.StrippedFixed | plot_spice.py:35 | stripping an already stripped string changes nothing |
| Text.StripSound | plot_spice.py:35 | `strip` gives a stripped slice of its input, and gives the empty string exactly when the input is all whitespace |
| Text.StripIdempotent | plot_spice.py:35 | stripping twice is stripping once |
| Text.Word | plot_spice.py:45 | the leading token of a string is its longest whitespace-free prefix, non-empty when the string starts with a non-space |
| Text.Split | plot_spice.py:44-45 | every token of `re.split(r'\s+', line.strip())` is a non-empty run without whitespace |
| Text.SplitEmpty | plot_spice.py:44-45 | a line has no tokens exactly when it is all whitespace |
| Text.SplitJoin | plot_spice.py:44-45 | splitting tokens joined by single spaces gives the tokens back |
| Text.SplitWord | plot_spice.py:44-45 | a single word splits into itself |
| Text.SplitCons | plot_spice.py:44-45 | a word followed by a space and the rest splits into the word and the rest's tokens |
| Text.SplitSkipsSpace | plot_spice.py:44-45 | leading whitespace does not change the tokens |
| Text.WordOfWord | plot_spice.py:44-45 | a word followed by whitespace or nothing is its own leading token |
| Text.LowerChar | plot_spice.py:114 | `lower` maps `A`-`Z` to `a`-`z` and leaves every other character unchanged |
| Text.Lower | plot_spice.py:114 | lower-casing keeps the length and maps each character on its own |
| Text.LowerIdempotent | plot_spice.py:114 | lower-casing twice is lower-casing once |
| Text.LowerKeepsLetters | merge_bode.py:52 | a string contains an ASCII letter exactly when its lower-cased form does |
| Lines.CleanLines | plot_spice.py:30-42 | the cleaned lines are stripped, non-empty, do not start with `*`, `;` or `.`, and do not start case-insensitively with `no.`, `title`, `plotname` or `flags` (nor `index` where that prefix is dropped) |
| Lines.Filter | plot_spice.py:34-42 | a filtered line is the stripped form of some input line and satisfies the filter |
| Lines.FilterLine | plot_spice.py:35-42 | one raw line yields its stripped form exactly when that form passes the filter, and nothing otherwise |
| Lines.CleanLinesMember | plot_spice.py:30-42 | a line is among the cleaned lines exactly when it is the stripped form of some raw line and passes the filter (both directions) |
| Lines.FilterMember | plot_spice.py:34-42 | a line is in the filtered output exactly when some raw line strips to it and it passes the filter |
| Lines.FilterSource | plot_spice.py:34-42 | every filtered line comes from an input line that strips to it |
| Lines.FilterKeeps | plot_spice.py:34-42 | every raw line whose stripped form passes the filter appears in the output |
| Lines.CleanLinesAppend | plot_spice.py:34-42 | cleaning is line by line: cleaning a concatenation is concatenating the cleaned parts |
| Lines.FilterAppend | plot_spice.py:34-42 | the filter distributes over concatenation |
| Lines.CleanLinesIdempotent | plot_spice.py:30-42 | cleaning cleaned lines changes nothing |
| Lines.FilterIdempotent | plot_spice.py:34-42 | filtering filtered lines changes nothing |
| Lines.IndexLines | merge_bode.py:42 | a line starting case-insensitively with `index` is kept by plot_spice's filter and dropped by merge_bode's |
| Table.MatrixWidth | plot_spice.py:90-91 | `np.asarray(data)` builds a matrix exactly when every row has the first row's width, whose width it then is; ragged rows are an error |
| Table.ColumnOf | plot_spice.py:104 | `arr[:, j]` has one value per row, the j-th of each |
| Table.Columns | plot_spice.py:104 | the matrix's columns, one per index below the width, each `arr[:, j]` |
| Table.Keys | plot_spice.py:104 | a column dictionary's keys, in insertion order |
| Table.DistinctPair | merge_bode.py:71 | two different names are distinct keys |
| Table.Find | plot_spice.py:113 | dictionary lookup finds the position of the key if present (the only one with that name before it), and reports absence only when no entry has that name |
| Table.Get | plot_spice.py:113 | a lookup succeeds exactly when the key is among the keys |
| Table.GetEntry | plot_spice.py:113 | a successful lookup returns an entry of the dictionary |
| Table.HeightGet | merge_bode.py:71 | every column of a dictionary of height n has n values |
| Table.FindUnique | plot_spice.py:104 | with unique keys, looking up an entry's name finds that entry |
| Table.Put | bode_quotient.py:54 | `cols[k] = v` keeps the keys unique, appends `k` only when it is new (an existing key keeps its position), makes `k` map to `v`, and leaves every other key's value as it was |
| Table.PutOthers | bode_quotient.py:54 | an update that rewrites only entries named `k` or appends entries named `k` leaves the other keys' values unchanged |
| Table.FromNames | plot_spice.py:104 | the dict comprehension `{name: arr[:, i] for i, name in enumerate(header)}` has unique keys and every value is one of the columns |
| Table.Insert | plot_spice.py:104 | inserting names with their columns, in order, keeps the keys unique |
| Table.DictExt | plot_spice.py:104 | two dictionaries with the same key order and the same value for every key are equal |
| Table.PutTwice | bode_quotient.py:54-57 | storing the same value twice under one key is storing it once |
| Table.InsertSnoc | plot_spice.py:104 | inserting one more name is one more assignment after the earlier ones |
| Table.InsertAbsent | plot_spice.py:104 | a key none of the inserted names equals keeps its value |
| Table.InsertLast | plot_spice.py:104 | a repeated header name ends up holding the column of its last occurrence |
| Table.FromNamesLast | plot_spice.py:104 | in the dict comprehension, a duplicated name maps to the column of its last occurrence |
| Table.FromNamesKeys | plot_spice.py:104 | a key is present in the comprehension exactly when it is one of the names |
| Table.LastIndex | plot_spice.py:104 | every name present has a last occurrence |
| Table.InsertValues | plot_spice.py:104 | every value in the result comes from the original dictionary or the inserted columns |
| Table.InsertDistinct | plot_spice.py:104 | inserting distinct new names appends exactly those names to the key order |
| Table.InsertCons | plot_spice.py:104 | inserting a list of names is inserting the first and then the rest |
| Table.FreshAfterPut | plot_spice.py:104 | after inserting the first of some distinct fresh names, the rest are still fresh |
| Table.DistinctTail | plot_spice.py:104 | the tail of a distinct list is distinct |
| Table.FromNamesDistinct | plot_spice.py:104 | with distinct names the comprehension's keys are the names in order and each maps to its own column |
| Table.ColNames | plot_spice.py:96 | the synthesised names are `col0 .. col{n-1}`, one per column |
| Table.ColNamesDistinct | plot_spice.py:96 | the synthesised names are pairwise distinct |
| Table.FirstCaseMatch | plot_spice.py:114-116 | the scan finds the first key equal to the wanted one ignoring case, and reports none only when no key matches |
| Table.CaseGet | plot_spice.py:112-117 | `_case_get` returns the exact key when present; otherwise the first key, in dict order, that matches ignoring case; `None` exactly when no key matches ignoring case |
| Table.LookupWithAlts | plot_spice.py:192-201 | the lookup finds nothing exactly when neither the name nor any alternative matches (exactly or ignoring case), prefers the name's own match, and returns only existing keys |
| Table.FirstFound | plot_spice.py:197-200 | the alternatives are tried in order: the result is the match of the first alternative that has one, and none only when none matches |
| WrData.RowsOf | plot_spice.py:74-85 | the parsed rows are at most one per line |
| WrData.RowsOfMember | plot_spice.py:74-85 | a row is among the parsed rows exactly when some line parses to it (both directions) |
| WrData.RowsOfSource | plot_spice.py:74-85 | every parsed row comes from a line that parses to it |
| WrData.RowsOfKeeps | plot_spice.py:74-85 | every line that parses contributes its row |
| WrData.RowsOfFirst | plot_spice.py:74-85 | when the first line parses, its row comes first |
| WrData.LayoutOf | plot_spice.py:93-104 | the column layout names every kept column and skips at most the first (the index column) |
| WrData.Read | plot_spice.py:47-105 | the reader fails with "empty" exactly when no line is left, with "no numeric rows" exactly when no row parses, and with ragged rows exactly when the rows differ in width; otherwise the keys are unique and every column has one value per data row |
| WrData.ReadHeaderless | plot_spice.py:64-71 | a first line that is not a header makes every line data, and the columns are `col0..col{n-1}` holding the matrix columns |
| WrData.HeaderlessFirstValues | plot_spice.py:64-71 | without a header the first line is the first data row: column `colj` starts with its j-th value |
| WrData.ReadNamed | plot_spice.py:93-104 | a header of distinct names, as wide as the data and not starting with an index name, names the columns in order |
| WrData.NamedColumns | plot_spice.py:104 | naming the matrix columns with distinct names maps each name to its column |
| WrData.ReadIndexDropped | plot_spice.py:99-102 | a header starting with `index` or `no.` (any case) as wide as the data loses that name and the first data column; the other names keep their columns |
| WrData.IndexDroppedColumns | plot_spice.py:100-101 | dropping the first name and the first column keeps every other name with its own column |
| WrData.DropFirstEntries | plot_spice.py:100-101 | lookups stated on the tail of the header hold for every header position after the first |
| WrData.ReadWidthMismatch | plot_spice.py:93-96 | a header whose width differs from the data is replaced by `col0..col{w-1}` |
| WrData.ReadSpice | plot_spice.py:56-105 | plot_spice's reader fails with "empty" exactly when no line survives the filter, and a successful read has unique keys and one value per data row in every column |
| WrData.SpiceNumericFirstLine | plot_spice.py:64-71 | a first line whose every token is a float (scientific notation included) is data, not a header: the columns are `col0..` and each starts with that line's values |
| WrData.HeaderlessFirstTokens | plot_spice.py:64-71 | without a header, column `colj` starts with the value of the first line's j-th token |
| WrData.FirstValuesAs | plot_spice.py:81 | the first values, stated over the row, are the values of the tokens |
| WrData.NumericFirstRow | plot_spice.py:65-81 | an all-float first line is not a header and parses to the values of its tokens |
| WrData.ReadStrict | merge_bode.py:45-71 | merge_bode's reader fails with "empty" exactly when no line survives its filter, and a successful read has unique keys, one value per data row in every column, and at least one data row |
| WrData.ReadStrictFixed | merge_bode.py:45-71 | the reader with the float-token header rule has the same failure and shape guarantees, at least one data row included |
| WrData.ReadStrictErrors | merge_bode.py:49-68 | the only failures are an empty file, no numeric rows and ragged rows |
| WrData.ReadStrictFixedErrors | merge_bode.py:49-68 | the corrected reader has the same three failures only |
| WrData.ReadRows | plot_spice.py:87-88 | any successful read has at least one data row |
| WrData.ReadErrors | plot_spice.py:61-90 | any reader fails only with an empty file, no numeric rows or ragged rows |
| WrData.RowsOfTwo | merge_bode.py:58-65 | two lines that both parse give their two rows in order |
| WrData.DataAfterHeader | merge_bode.py:52-56 | after a header line, the next line is the only data |
| WrData.ColumnOfOneRow | merge_bode.py:71 | a one-row matrix has one-value columns |
| WrData.ColumnOfTwoRows | merge_bode.py:71 | a two-row matrix's column j holds the two rows' j-th values |
| WrData.ReadHeaderOneRow | merge_bode.py:52-71 | a header line and one data row give the header's names mapped to one-value columns |
| WrData.ReadTwoRows | merge_bode.py:52-71 | two data lines with no header give `col0..` mapped to two-value columns |
| WrData.StrictRowValues | merge_bode.py:59-65 | a line of floats parses to the values of its tokens |
| WrData.ExponentLineTakenAsHeader | merge_bode.py:52 | as written: a first line of floats that contains a letter (`1e3 0.5`) is taken as the header, its numbers become column names, and only the second line is data |
| WrData.ExponentLineReadAsData | merge_bode.py:52 | with the float-token header rule the same two lines are both data, under `col0..` |
| WrData.TwoRowsAsValues | merge_bode.py:61 | two-value columns stated over the rows are the values of the two lines' tokens |
| PlotSpice.TimeX | plot_spice.py:122-127 | the x column is the `_case_get` match when there is one; otherwise `col0` when the wanted name is `time` (any case) and `col0` exists; otherwise an error exit naming the column |
| PlotSpice.Named | plot_spice.py:133-140 | the named series are at most one per requested name, each keyed by the `_case_get` match of its legend, and there are none exactly when no requested name matches |
| PlotSpice.NamedMember | plot_spice.py:135-138 | a series is named exactly when some requested name matches, with that name as legend and its match as key (both directions) |
| PlotSpice.Present | plot_spice.py:144-145 | the `colN` names that exist, in increasing order, each from the requested range, and every existing one is listed |
| PlotSpice.TimeSeries | plot_spice.py:133-146 | the plotted series are at most one per requested name and use only existing keys |
| PlotSpice.TimeSeriesFallback | plot_spice.py:142-146 | when no requested name matches, the series are the existing `col1..colN` in order, labelled with the requested names in order |
| PlotSpice.TimeSeriesNamed | plot_spice.py:135-142 | when some requested name matches, only named matches are plotted, and that name's series is among them |
| PlotSpice.FftLength | plot_spice.py:172-175 | fewer than 4 samples is an error exit; otherwise the FFT length is even, at least 4, at most the sample count and at most 65536 |
| PlotSpice.FftLengthLargest | plot_spice.py:175 | the FFT length is the largest even count not above the samples or 65536 |
| PlotSpice.FftInput | plot_spice.py:167-177 | the FFT fails exactly when the column is missing or has fewer than 4 samples; otherwise its input is the column's prefix of the FFT length |
| PlotSpice.BodeColumns | plot_spice.py:191-221 | the Bode plot fails exactly when the frequency (with its alternatives), real or imaginary column is missing; otherwise it plots the row mask (or the placeholder) of exactly the three columns looked up: three aligned, non-empty columns whose every row is finite with positive frequency |
| PlotSpice.BodeRaw | plot_spice.py:203-211 | the three columns looked up are missing exactly when the frequency (with its alternatives), real or imaginary lookup fails; otherwise they are the columns stored under the keys found, of one length |
| PlotSpice.ThreeAligned | plot_spice.py:209-211 | three columns of one height are aligned |
| PlotSpice.Convert | plot_spice.py:273-277 | a matched harmonic row converts exactly when its three numbers parse, and is stored as `(n, col3, col4, col2)` |
| PlotSpice.Step | plot_spice.py:257-279 | one log line: a marker line not naming the node (case-insensitively) stops capture; one naming it starts capture, reads the fundamental and adds no row; while capturing, a matching row is appended exactly when its numbers convert and raises otherwise; a non-matching line ends the scan exactly when it is blank and a row exists, and changes nothing else; without capture nothing changes |
| PlotSpice.Scan | plot_spice.py:257-279 | the scan only ever appends rows, keeping earlier ones in order |
| PlotSpice.ParseFourLog | plot_spice.py:245-281 | the only failure is a matched number that does not convert; ParseFourBlock gives the fundamental and the rows of a selected table |
| PlotSpice.BlankHasNoMarker | plot_spice.py:258 | a blank line never holds the marker text |
| PlotSpice.NoMarkerNoRows | plot_spice.py:257-270 | without a marker line, a scan that is not capturing changes nothing |
| PlotSpice.ParseFourNoMarker | plot_spice.py:245-281 | a log without `Fourier components of` gives no fundamental and no rows |
| PlotSpice.StopAtBlank | plot_spice.py:278-279 | once capturing with a row stored, a blank line ends the scan and ignores the rest |
| PlotSpice.ScanRowSource | plot_spice.py:271-277 | every stored row is the conversion of some matching line |
| PlotSpice.MatchedRows | plot_spice.py:270-277 | the rows a table yields: the conversion of every line the row pattern matches, in line order, at most one per line |
| PlotSpice.ScanBlock | plot_spice.py:257-279 | while capturing, the lines of one table store every row the pattern matches, in line order, and nothing else: the scan ends with exactly those rows appended, at the end of the log or at a blank line once a row is stored |
| PlotSpice.SkipNoMarker | plot_spice.py:258-270 | outside a table, lines without the marker text are skipped: the scan of them followed by the rest is the scan of the rest |
| PlotSpice.ParseFourBlock | plot_spice.py:245-281 | a log whose first marker line names the node gives that line's fundamental and every row of the table after it, in line order, up to the blank line that ends it |
| RowMask.Kept | bode_quotient.py:134-135 | the kept rows are in increasing order, each one valid (all five values finite and `f > 0`), and every valid row is kept |
| RowMask.Placeholder | bode_quotient.py:137-140 | the placeholder is `f = [1, 10]` with zero data in every other column |
| RowMask.Mask | bode_quotient.py:134-140 | masking keeps the column count and alignment; with no valid row it gives the placeholder, otherwise every column is gathered at exactly the valid rows |
| RowMask.MaskValid | bode_quotient.py:134-140 | every row left after masking (the placeholder included) is valid |
| RowMask.MaskIdempotent | bode_quotient.py:134-140 | masking masked columns changes nothing |
| RowMask.KeptAll | bode_quotient.py:134-135 | when every row is valid, every row is kept in order |
| Sorting.Range | merge_bode.py:89 | the identity permutation |
| Sorting.InsertionPoint | merge_bode.py:89 | a new index goes after every element not above it and before every element above it |
| Sorting.InsertSorted | merge_bode.py:89 | inserting an index keeps the order sorted and adds exactly that index |
| Sorting.SortPrefix | merge_bode.py:89 | the first n indices sorted are a permutation of them, in range and in ascending value order |
| Sorting.ArgSort | merge_bode.py:89 | `np.argsort(f)` is a permutation of the indices and orders the values ascending |
| Sorting.Gather | merge_bode.py:90 | `a[order]` has one element per index, `a[order[k]]` at position k |
| Sorting.GatherAppend | merge_bode.py:90 | gathering by two index lists one after the other is gathering by their concatenation |
| Sorting.GatherSameMultiset | merge_bode.py:90 | gathering by index lists with the same elements gives the same multiset |
| Sorting.GatherPermutation | merge_bode.py:90 | gathering by a permutation rearranges the elements without losing or adding any |
| BodeQuotient.FirstInk | bode_quotient.py:15 | the first non-blank line, every line before it blank |
| BodeQuotient.LastInk | bode_quotient.py:15 | the position after the last non-blank line, every line from there on blank |
| BodeQuotient.StripEnds | bode_quotient.py:15 | stripping the whole text touches only its first and last lines, and the first line then starts with a non-space |
| BodeQuotient.TrimText | bode_quotient.py:15 | `text.strip().splitlines()` is empty exactly when every line is blank; otherwise it runs from the first to the last non-blank line, keeps the lines in between, and its first line starts with a non-space |
| BodeQuotient.Tokens | bode_quotient.py:39 | converting a row succeeds exactly when every token is `nan`, `NaN` or a float, giving one value per token; otherwise it names a bad token |
| BodeQuotient.Fit | bode_quotient.py:35-38 | a row is padded with `nan` or cut to the header length, keeping its first tokens |
| BodeQuotient.NonBlank | bode_quotient.py:32 | the blank lines are skipped, and nothing is left exactly when every line is blank |
| BodeQuotient.PaddedRows | bode_quotient.py:31-39 | the header path's rows convert exactly when every fitted row does, one row per line |
| BodeQuotient.PaddedRowsCells | bode_quotient.py:31-39 | each converted row has the header width; kept cells are their token's value and padded cells are NaN |
| BodeQuotient.FitTokens | bode_quotient.py:35-39 | a fitted row converts to the header width, its own tokens' values first and NaN after |
| BodeQuotient.SplitAll | bode_quotient.py:33 | each line is split into its tokens |
| BodeQuotient.NumericRows | bode_quotient.py:27 | `list(map(float, line.split()))` for every line succeeds only when every row's tokens are floats, one value row per line |
| BodeQuotient.DupKeys | bode_quotient.py:44-53 | the key of each header position is the bare name for its first occurrence and `name_k` for the k-th repeat |
| BodeQuotient.CountPositive | bode_quotient.py:47 | a name has been seen exactly when it occurs earlier |
| BodeQuotient.CountGrows | bode_quotient.py:47-49 | each occurrence raises the seen count of its name |
| BodeQuotient.SuffixSplit | bode_quotient.py:50 | without underscores in the names, `a_b == c_d` forces `a == c` and `b == d` |
| BodeQuotient.DupKeyPair | bode_quotient.py:44-53 | two header positions get different keys when no name contains an underscore |
| BodeQuotient.DupKeysDistinct | bode_quotient.py:44-53 | the suffixed keys are pairwise distinct when no name contains an underscore |
| BodeQuotient.DupKeysOfDistinct | bode_quotient.py:44-57 | a header without duplicates keeps its names as keys |
| BodeQuotient.DupKeysClash | bode_quotient.py:44-57 | a header `a a a_1` gives the key `a_1` twice, so the second repeat overwrites the literal `a_1` column |
| BodeQuotient.Bump | bode_quotient.py:47-52 | after a name is recorded it is in the seen map |
| BodeQuotient.SeenCount | bode_quotient.py:44-52 | the seen map holds a name exactly when it occurred, with its occurrence count minus one |
| BodeQuotient.SeenKey | bode_quotient.py:47-53 | the key the loop computes at position j is that position's suffixed key |
| BodeQuotient.SeenSnoc | bode_quotient.py:47-52 | one more iteration updates the seen map to that of the longer prefix |
| BodeQuotient.DedupLoop | bode_quotient.py:44-57 | the deduplicating loop keeps the keys unique |
| BodeQuotient.DedupColumns | bode_quotient.py:44-57 | the loop's dictionary is the comprehension of the suffixed keys over the columns (the bare-name store for first occurrences adds nothing new) |
| BodeQuotient.DedupLoopFrom | bode_quotient.py:44-57 | from any iteration whose state matches the first j keys, the loop ends with the full comprehension |
| BodeQuotient.DedupLoopStep | bode_quotient.py:47-57 | one iteration extends the seen map and the dictionary by position j |
| BodeQuotient.TokenColumn | bode_quotient.py:27 | a numeric column has one value per row |
| BodeQuotient.ReadQuotient | bode_quotient.py:13-58 | the reader raises for an empty text exactly when every line is blank; its other failures are a bad float, ragged rows or a header without rows; a success has unique keys and columns of one height; ReadQuotientNumeric and ReadQuotientHeader give its keys and columns on each side of the first-token test |
| BodeQuotient.FirstToken | bode_quotient.py:15-24 | the first token of the stripped text, absent exactly when every line is blank |
| BodeQuotient.ReadQuotientNumeric | bode_quotient.py:24-27 | when the first token is a float, the columns are `col0..col{k-1}` for the first line's k tokens, `colj` holding the j-th token of every line |
| BodeQuotient.ReadQuotientHeader | bode_quotient.py:28-57 | when the first token is not a float, the file is read by the header path, whose keys are the suffixed header names in order, each holding its padded column of the non-blank lines after the header (the names themselves when no name repeats) |
| BodeQuotient.Header | bode_quotient.py:19 | the header is the non-empty token list of the first line |
| BodeQuotient.NumericPath | bode_quotient.py:24-27 | the numeric path fails only on a bad float or ragged rows, and gives unique keys and one value per line |
| BodeQuotient.HeaderPath | bode_quotient.py:28-41 | the header path fails with no rows exactly when every body line is blank, succeeds exactly when every kept cell converts, and gives unique keys and one value per non-blank line |
| BodeQuotient.PaddedRowsOk | bode_quotient.py:31-39 | the padded rows convert exactly when every kept cell of every row converts (padding never fails) |
| BodeQuotient.Store | bode_quotient.py:41-58 | storing a rectangular matrix under the header gives unique keys and one value per row |
| BodeQuotient.NumericPathOk | bode_quotient.py:24-27 | the numeric path succeeds exactly when every line has the first line's token count and all tokens are floats |
| BodeQuotient.NumericPathKeys | bode_quotient.py:24-27 | the numeric path names the columns `col0..col{k-1}`, each holding its token column |
| BodeQuotient.TokenColumnOf | bode_quotient.py:27 | the matrix column j is the converted j-th token of every line |
| BodeQuotient.HeaderPathKeys | bode_quotient.py:28-57 | the header path's keys are the suffixed header names, each holding its padded column; a header without duplicates keeps its names |
| BodeQuotient.MainPrefer | bode_quotient.py:117 | the preference list starts with `--fcol` and has five entries |
| BodeQuotient.Candidates | bode_quotient.py:62 | the candidates are exactly the keys starting with `frequency` or equal to `freq`, ignoring case |
| BodeQuotient.Extra | bode_quotient.py:64 | the extra candidates are exactly those not already preferred |
| BodeQuotient.FirstUsable | bode_quotient.py:65-69 | the scan returns the first key with a finite and a positive value, and none exactly when no key has both |
| BodeQuotient.FirstWhereAfter | bode_quotient.py:64-65 | behind a prefix of `ordered` in which no key is usable, the scan stops at the first usable key of the rest, offset by the prefix length |
| BodeQuotient.FirstWhereWithin | bode_quotient.py:64-65 | a usable key of the preference list with none usable before it is where the scan of `ordered` stops |
| BodeQuotient.PickFrequency | bode_quotient.py:60-75 | `pick_frequency` raises exactly when no column has both a finite and a positive value; otherwise it returns an existing, usable column |
| BodeQuotient.PickPreferred | bode_quotient.py:64-69 | the first usable preferred name wins |
| BodeQuotient.PickFrequencyLike | bode_quotient.py:62-69 | with no usable preferred name but some usable frequency-like key, the pick is the first usable key, in dictionary order, among the frequency-like keys not in the preference list |
| BodeQuotient.PickFallback | bode_quotient.py:71-74 | with no usable candidate, the first usable column in dict order is chosen |
| BodeQuotient.GetCol | bode_quotient.py:77-88 | `getcol` fails exactly when neither the name nor an alternative matches (exactly or ignoring case), raises with the name, returns the exact column when present, and returns a column of the table's height |
| BodeQuotient.BodeData | bode_quotient.py:112-140 | a reader error passes through; otherwise the result is the frequency pick, lookups and mask over the columns read; a success is five aligned, non-empty columns whose every row is finite with positive frequency |
| BodeQuotient.Select | bode_quotient.py:115-140 | no usable frequency is the pick's error; otherwise the result fails exactly when a lookup does, and a success is the row mask (or the placeholder) of exactly the fetched columns: five aligned, non-empty, valid columns |
| BodeQuotient.Fetch | bode_quotient.py:122-131 | the lookups are made in the order `an`, `ai`, `bn`, `bi` and the first failing one names the error; the result fails exactly when one of them does; otherwise it is `[cols[kf], Ar, Ai, Br, Bi]` with each part the `getcol` result, all of one length |
| BodeQuotient.FiveAligned | bode_quotient.py:127-131 | five columns of one height are aligned |
| MergeBode.FirstExact | merge_bode.py:76-77 | the fallbacks are tried in order: the first one present as an exact key, and none only when no fallback is present |
| MergeBode.Grab | merge_bode.py:73-82 | `grab` returns the exact name when present, else the first fallback present exactly, else a key equal to the name ignoring case; it raises exactly when all three fail; a case-insensitive match is only ever made on the primary name |
| MergeBode.GrabWithoutFallbacks | merge_bode.py:79-82 | when no fallback is present, `grab` is `_case_get` on the primary name |
| MergeBode.GrabPrefersFallback | merge_bode.py:74-77 | a fallback present exactly wins over a case-insensitive match of the primary name |
| MergeBode.Points | merge_bode.py:89-90 | a curve's triples `(f, re, im)`, one per row |
| MergeBode.SortCurve | merge_bode.py:89-90 | sorting keeps the curve's length, orders `f` ascending, and permutes the `(f, re, im)` triples together without losing or adding any |
| MergeBode.PointsGather | merge_bode.py:90 | applying one index order to `f`, `re` and `im` applies it to the triples |
| MergeBode.SortCurveSorted | merge_bode.py:89-90 | a curve already strictly increasing in `f` is left unchanged |
| MergeBode.SortedStrictIdentity | merge_bode.py:89 | on strictly increasing values the sorting permutation is the identity |
| MergeBode.AtLeastIndex | merge_bode.py:89 | an increasing index sequence has `p[k] >= k` |
| MergeBode.AtMostIndex | merge_bode.py:89 | an increasing permutation of `0..n-1` has `p[k] <= k` |
| MergeBode.DistinctEntries | merge_bode.py:89 | a permutation has no repeated index |
| MergeBode.RangeCount | merge_bode.py:89 | each index occurs at most once in `range(n)`, and occurs exactly when below n |
| MergeBode.Grabbed | merge_bode.py:84-87 | the three columns `add_curve` grabs are missing exactly when one of the three `grab` calls raises; otherwise they are the columns stored under the grabbed keys and have one length |
| MergeBode.AddCurve | merge_bode.py:84-90 | `add_curve` fails exactly when one of the three `grab` calls raises; otherwise the three columns have one length, `f` is ascending, and the rows are the grabbed `(f, re, im)` rows rearranged as whole rows (one permutation applied to all three columns) |
| MergeBode.FirstColon | merge_bode.py:128 | the position of the first `:` in the spec, if any |
| MergeBode.Partition | merge_bode.py:128 | `spec.partition(':')` gives a path without `:`, the whole spec with an empty label when there is no colon, and otherwise path, colon and label rebuild the spec |
| MergeBode.PartitionJoin | merge_bode.py:128 | a colon-free path joined to a label with `:` splits back into the same path and label (the label may itself contain colons) |
| MergeBode.NameStart | merge_bode.py:131 | the file name starts after the last `/` |
| MergeBode.TrimSlashes | merge_bode.py:131 | trailing slashes are dropped |
| MergeBode.LastDot | merge_bode.py:131 | the position of the last `.`, if any |
| MergeBode.Stem | merge_bode.py:131 | the file stem contains no `/` |
| MergeBode.Label | merge_bode.py:128-131 | the legend is the label after the first colon when non-empty, and the file stem of the path otherwise |
| MergeBode.StemOfFile | merge_bode.py:131 | `Path("dir/name.ext").stem == "name"` |
| MergeBode.NameStartAfter | merge_bode.py:131 | the name of `dir/file` starts right after the directory |
| MergeBode.LastDotAt | merge_bode.py:131 | in `name.ext` with a dot-free extension the last dot precedes the extension |
| MergeBode.MergeAll | merge_bode.py:114-133 | no inputs is an error exit; otherwise the run succeeds exactly when every input's curve does, giving one legend and curve per input in order |
| MergeBode.MergeAllFixed | merge_bode.py:114-133 | the same, with the corrected header rule for each input |
| MergeBode.Curves | merge_bode.py:127-133 | the inputs are processed in order: the first failing input's error ends the run, all before it having succeeded |
| MergeBode.OneCurve | merge_bode.py:127-133 | one input as written: a reader error is passed through; a curve carries the input's label, has aligned columns and ascending `f`, and is `add_curve` of the columns read from that input |
| MergeBode.OneCurveFixed | merge_bode.py:127-133 | one input read with the float-token header rule: the same guarantees, over the columns that reader returns |
| WahQ.Truth | wah_q_table.py:100 | the truth value of `cols.get(x)`: `None` is false, a one-element array is its element's truth, and any other array raises `ValueError` |
| WahQ.OrChain | wah_q_table.py:100 | an `or` chain returns one of its operands, and its only failure is an ambiguous array truth value |
| WahQ.Lookups | wah_q_table.py:100 | each operand of the chain is `cols.get` of its name |
| WahQ.OrGetAmbiguous | wah_q_table.py:100 | as written: when the first name is present with two or more rows, the chain raises instead of returning the column |
| WahQ.OrGetSkipsZero | wah_q_table.py:100 | as written: a present one-row column holding 0 is falsy and is skipped in favour of the next name |
| WahQ.DefaultFrequencyRejected | wah_q_table.py:100 | as written: a `frequency` column with the two values 100 and 200 makes the chain raise, where the first present column (the evident intent) is that column |
| WahQ.FirstPresent | wah_q_table.py:100-104 | intended lookup: the column of the first name present, and none exactly when no name is present |
| WahQ.OrGetAgrees | wah_q_table.py:100-104 | when only the last name can be present, the `or` chain and the first-present lookup agree |
| WahQ.OrChainAbsent | wah_q_table.py:100 | a chain whose operands before the last are all `None` yields the last operand |
| WahQ.Target | wah_q_table.py:51 | the target is the peak level minus 3 dB (an infinite or NaN peak stays as it is) |
| WahQ.ScanLeft | wah_q_table.py:53-55 | the left scan stops at or below the peak index, at 0 or at the first index (going left) whose level is not above the target, every index passed being above it |
| WahQ.ScanRight | wah_q_table.py:64-66 | the right scan stops in `[peak, len-1]`, at the last index or at the first index (going right) not above the target, every index passed being above it |
| WahQ.RisingBetween | wah_q_table.py:58-60 | on a rising step that crosses the target, the interpolated edge lies between the two frequencies |
| WahQ.FallingBetween | wah_q_table.py:68-70 | on a falling step that crosses the target, the interpolated edge lies between the two frequencies |
| WahQ.LowerEdge | wah_q_table.py:52-62 | when the left scan takes no step `flo = f[0]`; when it stops on a finite crossing, `flo` lies between `f[lo]` and `f[lo+1]` |
| WahQ.UpperEdge | wah_q_table.py:63-72 | when the right scan takes no step `fhi = f[-1]`; when it stops on a finite crossing, `fhi` lies between `f[hi-1]` and `f[hi]` |
| WahQ.Bandwidth | wah_q_table.py:73 | `bw = max(fhi - flo, 1e-9)` is NaN only when the difference is, is positive otherwise, at least 1e-9 when finite, and is the difference whenever that is at least 1e-9 |
| WahQ.Quality | wah_q_table.py:74-75 | `Q = f0/bw` satisfies `Q*bw == f0` for finite values and is NaN when either is |
| WahQ.FindBandEdges | wah_q_table.py:49-76 | the measurement holds `f[peak]`, the two edges, `bw` from the edges and `Q` from `f0` and `bw`; the bandwidth is positive unless NaN |
| WahQ.ArgMaxFrom | wah_q_table.py:79 | the scan ends at a maximum that is the first of its value |
| WahQ.NewMaximum | wah_q_table.py:79 | a strictly larger value becomes the new first maximum |
| WahQ.ArgMax | wah_q_table.py:79 | `np.argmax` returns an index whose value is not below any other, and every earlier value is strictly smaller (the first maximum) |
| WahQ.ArgMaxFirstNaN | wah_q_table.py:79 | `np.argmax` returns the first NaN when there is one |
| WahQ.F0BwQ | wah_q_table.py:78-80 | `f0_bw_q` measures the band at the first maximum of the magnitudes |
| WahQ.Measure | wah_q_table.py:100-112 | as written: the measurement fails exactly when one of the three `or` chains does not yield a column; failures are an ambiguous truth value or a missing column (a missing frequency column gives its own error); the bandwidth is positive unless NaN |
| WahQ.OrGetHeight | wah_q_table.py:100-104 | a column found by the chain has the table's height |
| WahQ.MeasureFixed | wah_q_table.py:100-112 | intended: the measurement fails exactly when no name of one of the three lists is present; otherwise the three columns have one length and `f0` is the frequency of a row whose level is maximal |
| WahQ.MeasureAgrees | wah_q_table.py:100-112 | when no alias is present, the as-written and intended measurements agree |
| WahQ.FirstPresentHeight | wah_q_table.py:100-104 | the first present column has the table's height |
| WahQ.Resonance | wah_q_table.py:107-112 | after sorting by frequency, `f0` is the frequency of a row whose level is maximal, and the bandwidth is positive unless NaN |
| WahQ.Levels | wah_q_table.py:108-109 | one level per row, computed from that row's real and imaginary parts |
| WahQ.PeakOfSorted | wah_q_table.py:111 | the maximum of the sorted levels is the maximum of all levels |
| WahQ.Covers | wah_q_table.py:111 | every row appears in the sort order |
| WahQ.Analyse | wah_q_table.py:97-112 | one input as written: reader errors pass through, and a file that reads is measured by `Measure` on exactly the columns read; the other failures are an ambiguous truth value or a missing column; the bandwidth is positive unless NaN |
| WahQ.AnalyseFixed | wah_q_table.py:97-112 | one input with the corrected reader and lookup: reader errors pass through, a file that reads is measured by `MeasureFixed` on exactly the columns read, and there is no ambiguous-truth failure |
| WahQ.FirstDot | wah_q_table.py:113 | the position of the first `.`, if any |
| WahQ.Unsigned | wah_q_table.py:113 | an optional leading sign is dropped |
| WahQ.PlainDecimal | wah_q_table.py:113 | a signed `digits.digits` label matches `[-+]?\d*\.?\d+` |
| WahQ.DecimalParts | wah_q_table.py:113 | `a.b` with digit strings splits at its only dot |
| WahQ.SignedPlain | wah_q_table.py:113 | a sign in front of a plain number keeps it plain |
| WahQ.PlainInteger | wah_q_table.py:113 | a signed run of digits matches the pattern |
| WahQ.UnsignedOf | wah_q_table.py:113 | dropping the sign of a signed string gives the rest |
| WahQ.DotAfterDigits | wah_q_table.py:113 | in `digits.rest` the first dot follows the digits |
| WahQ.ToPosition | wah_q_table.py:113 | a label becomes a number exactly when it matches the plain-number pattern, and otherwise stays the label text |
| WahQ.SortKey | wah_q_table.py:117 | the sort key `float(r[0])` fails exactly for a text label that is not a float |
| WahQ.SortRows | wah_q_table.py:115-119 | the sort permutes the rows; if some key fails the rows stay in their original order; with no NaN key the labels come out ascending |
| WahQ.SortRowsSorted | wah_q_table.py:115-119 | rows already strictly ascending by label are left unchanged |
| WahQ.Labels | wah_q_table.py:92 | the labels are the given ones when there are any, and the input stems otherwise |
| WahQ.Stems | wah_q_table.py:92 | one stem per input path |
| WahQ.MeasureAll | wah_q_table.py:96-113 | the measurements are taken in input order: all succeed, one per input, or the run fails with the error of the first failing input, all earlier ones having succeeded; it fails exactly when some input does |
| WahQ.MeasureAllFixed | wah_q_table.py:96-113 | the same, with the corrected per-input analysis: the first failing input's error, and failure exactly when some input fails |
| WahQ.WahTable | wah_q_table.py:92-119 | no inputs is a usage error; a label count that differs from the input count is an error exit; otherwise the table fails exactly when a measurement does; a table is a permutation of the rows `zip(labels, bands)`, one row per input pairing its label with its own measurement, ascending by label when every key is a non-NaN number, and exactly `zip(labels, bands)` in input order when some label has no float key |
| WahQ.RunPairs | wah_q_table.py:92-119 | every row of the as-written table pairs an input's label with that input's own measurement |
| WahQ.RunFixedPairs | wah_q_table.py:92-119 | every row of the corrected table pairs an input's label with that input's own measurement |
| WahQ.Tabulate | wah_q_table.py:96-119 | the table is a permutation of the rows `zip(labels, bands)` (each input's row exactly once), ascending by label when every key is a non-NaN number, and left in zip order when some label has no float key |
| WahQ.SortedRowsSorted | wah_q_table.py:115-119 | the sorted rows are ascending by label whenever every key is a non-NaN number |
| WrCollapse.Widest | wr_collapse.py:78 | `max(f_idx, r_idx, i_idx)` is one of the three indices and bounds all of them |
| WrCollapse.FirstIndex | wr_collapse.py:69-72 | the first header position whose lower-cased name is a candidate, and none exactly when no position is |
| WrCollapse.MapColumns | wr_collapse.py:62-75 | the named mapping exists exactly when there is a non-empty header in which all three candidate lists are found; its indices lie inside the header and name matching columns |
| WrCollapse.ScanHeader | wr_collapse.py:69-72 | the single left-to-right loop finds for each list the first index whose name is a candidate |
| WrCollapse.Note | wr_collapse.py:70-72 | one loop step keeps an index already found, and otherwise takes the current position if its name matches |
| WrCollapse.FirstIndexSnoc | wr_collapse.py:69-72 | the first match in a longer prefix is the earlier match, or the new position when there was none |
| WrCollapse.Select | wr_collapse.py:76-79 | the ragged-row guard never emits more rows than there are data rows |
| WrCollapse.Fallback | wr_collapse.py:82-84 | the fallback never emits more rows than there are data rows |
| WrCollapse.FallbackIsFirstThree | wr_collapse.py:76-84 | the fallback is the named path with the mapping (0, 1, 2): rows shorter than 3 are skipped |
| WrCollapse.FirstThreeFits | wr_collapse.py:83-84 | a row of at least three numbers gives its first three |
| WrCollapse.SelectMember | wr_collapse.py:76-79 | a triple is emitted exactly when some data row is long enough and picks to it |
| WrCollapse.SelectSource | wr_collapse.py:76-79 | every emitted triple comes from a long-enough data row |
| WrCollapse.SelectKeeps | wr_collapse.py:76-79 | every long-enough data row is emitted |
| WrCollapse.SelectAllFit | wr_collapse.py:76-79 | when every row is long enough the output has one triple per row, in order |
| WrCollapse.Emit | wr_collapse.py:74-84 | the output uses the named mapping when all three names are found and the first three numbers otherwise |
| WrCollapse.CollapseLines | wr_collapse.py:40-84 | no cleaned lines is the empty-input error; lines with no numeric row is the no-numeric-rows error; these are the only errors, and the output has at most one triple per data row |
| WrCollapse.Collapse | wr_collapse.py:21-84 | as written: an argument count other than 3 is the usage error, an empty cleaned input is the empty-input error, and the output is no longer than the input |
| WrCollapse.CollapseFixed | wr_collapse.py:21-84 | the same contract, with a line taken as the header only when one of its tokens is not a float |
| WrCollapse.CollapseRows | wr_collapse.py:74-84 | a triple is emitted exactly when some data row is long enough for the chosen mapping and picks to it |
| WrCollapse.NamedColumns | wr_collapse.py:69-75 | when all three names are found, the chosen columns carry candidate names |
| WrCollapse.UnnamedColumns | wr_collapse.py:80-84 | when some name is missing, the first three numbers are used |
| WrCollapse.CollapseLinesOk | wr_collapse.py:58-84 | with at least one numeric row the result is the selection under the chosen mapping |
| WrCollapse.ChosenWithoutFrequency | wr_collapse.py:75 | a header without a frequency name falls back to the first three numbers |
| WrCollapse.HeaderLineFacts | wr_collapse.py:45-56 | a header line followed by one data row leaves exactly that row as data |
| WrCollapse.DataLinesFacts | wr_collapse.py:48-56 | two data lines with no header both stay data |
| WrCollapse.SelectOne | wr_collapse.py:82-84 | one row of three or more numbers gives its first three |
| WrCollapse.SelectTwo | wr_collapse.py:82-84 | two such rows give their first three numbers, in order |
| WrCollapse.HeaderOverOneRow | wr_collapse.py:45-84 | a header over one data row collapses to that row's first three numbers |
| WrCollapse.TwoRowsNoHeader | wr_collapse.py:48-84 | two data rows with no header collapse to two triples, in order |
| WrCollapse.ExponentRowDropped | wr_collapse.py:45-47 | as written: a first data line such as `1.0e+01 0.5 0.1`, whose exponent letter makes it look like a header, is lost from the output |
| WrCollapse.ExponentRowKept | wr_collapse.py:45-47 | corrected: with the header test on a float first token that line is kept as data |
| TempBias.Complete | temp_bias_plot.py:30-31 | a record is pushed exactly when the temperature and all three node values are set |
| TempBias.ToFloat | temp_bias_plot.py:32 | `float(m.group(1))` succeeds exactly when the text is a Python float literal, and otherwise fails with that text |
| TempBias.Update | temp_bias_plot.py:34-36 | a line without a match leaves the value; a match replaces it with its float, or raises when the text is not a float |
| TempBias.ParseOpLog | temp_bias_plot.py:13-43 | the only failures are a non-float capture and no complete temperature block; success has at least one record |
| TempBias.LastTemp | temp_bias_plot.py:27 | the last line holding a temperature, and none exactly when no line does |
| TempBias.Latest | temp_bias_plot.py:34-36 | a node has a value in a block exactly when some line of the block matches it |
| TempBias.CloseOpen | temp_bias_plot.py:38-39 | pushing the open block onto the closed ones gives the per-block records |
| TempBias.LatestSnoc | temp_bias_plot.py:34-36 | a later match overrides an earlier one; a line without a match keeps it |
| TempBias.LastTempSnoc | temp_bias_plot.py:27 | a line without a temperature does not move the last temperature |
| TempBias.NodeLineExtends | temp_bias_plot.py:34-36 | a node line leaves the closed blocks alone and updates only the matched values of the open block |
| TempBias.ExtendBlock | temp_bias_plot.py:34-36 | a block grows by one line by updating the values that line matches |
| TempBias.StepParses | temp_bias_plot.py:34-36 | a parsable node line updates the pending values it matches and nothing else |
| TempBias.StepFails | temp_bias_plot.py:32-36 | a line whose capture is not a float raises |
| TempBias.TempLineStarts | temp_bias_plot.py:27-33 | a temperature line closes the previous block and opens a new one holding only the temperature |
| TempBias.ScanIsBlocks | temp_bias_plot.py:26-36 | when every capture parses, the line-by-line scan equals the block-wise description: closed blocks before the last temperature, one open block after it |
| TempBias.ScanErrors | temp_bias_plot.py:26-36 | the scan can only fail on a non-float capture |
| TempBias.BadLineFails | temp_bias_plot.py:26-36 | one non-float capture anywhere makes the scan fail |
| TempBias.ParseIsBlocks | temp_bias_plot.py:13-43 | the parse fails on a non-float capture exactly when some capture does not parse; otherwise it is the block records, or the no-records error when there are none |
| TempBias.BlocksBound | temp_bias_plot.py:26-39 | there are no more records than temperature lines, and so no more than lines |
| TempBias.TempCountBefore | temp_bias_plot.py:26-32 | a temperature line leaves more temperature lines in the log than there are before it |
| TempBias.BlocksTemps | temp_bias_plot.py:29-32 | every record's temperature is the value of some temperature line |
| TempBias.OneBlock | temp_bias_plot.py:26-39 | a single complete temperature block gives exactly one record holding the last value of each node in the block |
| TempBias.NoTempNoBlocks | temp_bias_plot.py:26-39 | a log without a temperature line gives no records |
| TempBias.LastTempOfBlock | temp_bias_plot.py:27 | the last temperature of `head + [line] + block` is `line` when the block has none |
| TempBias.LastTempAppend | temp_bias_plot.py:27 | the last temperature of a concatenation is found in the second part first |

## Left out

- Command-line parsing (`argparse`), file reading and writing, `soundfile`, the SVG and PNG plotting with matplotlib, and the `print` messages are I/O. Each `sys.exit` of a reader is a `Table.ReadError` value; each exit of the effects engine is a `Dsp.Fault` value.
- Floating point: samples are exact reals. IEEE rounding, overflow, the sign of zero and the `float32` cast in chain_hendrix.py's `norm` are not modelled.
- Floating point in the readers: a value read from a file is `Numbers.Num`, and its finite part is exact.
- `np.tanh`, `np.sin`, `np.exp` and `10**x` are fields of the `Math` parameter. So are scipy's `butter` and `sosfilt`, as a causal filter from rest. Their numerics are foreign code; only the range facts in `Dsp.WellBehaved` are assumed of them.
- Python's `float()` grammar and the regular expressions of `parse_four_log` and `parse_op_log` are parameters (`FloatGrammar`, matchers). The exact grammar is foreign code.
- The complex quotient, `log10`, `np.unwrap` and the magnitude/phase arithmetic of bode_quotient.py and plot_spice.py's Bode plot are foreign numerics. The model stops at the masked columns handed to them.
- `np.fft.rfft` and the FFT-based spectrum of plot_spice.py and of hendrix_lab.py's `leslie` variant (hendrix_lab.py:129-138) are foreign numerics. Only the rotary-speaker variant of chain_hendrix.py is modelled.
- hendrix_lab.py's `process` driver and `guitarish_note` test-signal generator are a script around the effects, made of I/O and synthesis.
- The CSV formatting of wah_q_table.py's output and the text formatting of wr_collapse.py's output lines are I/O. `WrCollapse.Collapse` returns the triples and their count.
- A ragged table, which numpy would turn into an object array or reject, appears only as the `RaggedRows` read error.
- Linearity of the univibe all-pass stage is not stated as a lemma. Only its coefficient range and block structure are.
- Dsp.Norm: requires a non-empty signal, because `np.max` of an empty array raises. `Chain.Step`, `Echo.TapeEcho` and `Bitcrush.BitcrushEffect` return `EmptySignal` for that case instead.
- Dsp.MaxAbs: requires a non-empty signal for the same reason.
- Dsp.Divisor: requires a non-empty signal for the same reason.
- Shapers.Octavia: requires a non-empty signal. The source raises in `norm` for it.
- Shapers.HardClip: requires a non-empty signal. The source raises in `norm` for it.
- Shapers.Compressor: requires a non-empty signal. The source raises in `norm` for it.
- Fuzz.FuzzEffect: requires a non-empty signal. The source raises in `norm` for it.
- Fuzz.FuzzFaceLike: requires a non-empty signal. The source raises in `norm` for it.
- Wah.WahAuto: requires a non-empty signal. The source raises in `norm` for it.
- Vibe.Univibe: requires a non-empty signal. The source raises in `norm` for it.
- Leslie.LeslieEffect: requires a non-empty signal. The source raises in `norm` for it.
- Chain.Apply: requires a non-empty signal and a registered name. `Chain.Step` handles both failures as `EmptySignal` and `UnknownEffect`.
- Vibe.Coefficient: when `sin(w0) == -1` the source's `(1 - sin w0)/(1 + sin w0)` is a numpy division by zero, giving an infinite or NaN coefficient and a warning. The model returns `Err(NonFinite)` rather than a non-finite signal.
- Vibe.Univibe: the same case, reached through any stage's coefficient, gives `Err(NonFinite)` where numpy would return a buffer of infinities or NaN.
- Bitcrush.BitcrushEffect: with `bits == 1` the source divides zero by zero and returns an all-NaN buffer with a numpy warning. The model returns `Err(NonFinite)` rather than a NaN signal.
- Wah.Design: a band whose clamped lower edge is not below its upper edge is accepted. Whether `butter` refuses it depends on the scipy version.
- Sorting.ArgSort: ties are kept in input order. numpy's default `argsort` (`kind='quicksort'`) is not stable, so rows with equal frequencies may come out in another order. The contracts state sortedness and permutation only.
- MergeBode.SortCurve: the same tie-order caveat as `Sorting.ArgSort`.
- WahQ.SortRows: the order is stated only when no key is NaN. Python's `sort` compares NaN keys with `<`, which is false both ways, so the result with a NaN label depends on Timsort's runs. That order is left unspecified.
- Text.IsSpace: only the Latin-1 whitespace characters separate tokens. Python's `split()` and `strip()` also treat other Unicode spaces (such as U+2003) as whitespace.
- Text.Lower: lower-cases ASCII letters only. Python's `lower()` is Unicode-aware (U+212A KELVIN SIGN becomes `k`), which can change the case-insensitive column lookups of plot_spice.py, bode_quotient.py and merge_bode.py.
- Undecodable bytes are dropped by `errors="ignore"` before the text reaches the model. Lines are given as already-decoded strings.

## Findings

| source | as written | input that shows it | evidently intended | confidence | as-written member | corrected member |
|---|---|---|---|---|---|---|
| echo_ir.py:9-13 | `buf[n] = y[n]` is written only for `n >= d`, so `buf[0..d)` stays zero. The first `d` samples are never fed back, and the impulse response script's output is the impulse itself. The same loop is in chain_hendrix.py:102-110 and hendrix_lab.py:140-148. | `x = [1, 0, 0, ...]` with the default 120 ms delay: sample `d = 5760` of the response is 0 | every sample is fed back after `d` samples, giving echoes `(feedback*hf_loss)^k` at `k*d` | not executed | Echo.ImpulseResponseIsImpulse, Echo.ImpulseEchoMissing | Echo.EchoFed, Echo.FedImpulseTrain |
| merge_bode.py:52 | the first cleaned line is a header when it contains any ASCII letter, so a number in exponent notation counts as a header (same rule at wah_q_table.py:25) | cleaned lines `1.0e+01 0.5` then `2.0e+01 0.4`: the first row becomes the column names | a header is a line with a token that is not a number, as plot_spice.py:67 tests | not executed | WrData.ReadStrict, WrData.ExponentLineTakenAsHeader | WrData.ReadStrictFixed, WrData.ExponentLineReadAsData |
| wr_collapse.py:45 | the same letter rule decides the header, so a first data line in exponent notation is dropped | cleaned lines `1.0e+01 0.5 0.1` then `2.0e+01 0.4 0.2`: only the second triple is written | the first line is data | not executed | WrCollapse.Collapse, WrCollapse.ExponentRowDropped | WrCollapse.CollapseFixed, WrCollapse.ExponentRowKept |
| wah_q_table.py:100-104 | `cols.get(a) or cols.get(b) or ...` takes the truth value of a numpy array, which raises `ValueError` for two or more rows and skips a one-row column holding 0 | a file with header `frequency real(v(out)) imag(v(out))` and two data rows | the first column that is present | not executed | WahQ.OrGetAmbiguous, WahQ.DefaultFrequencyRejected | WahQ.FirstPresent, WahQ.OrGetAgrees, WahQ.MeasureAgrees |

=== FILE: bitcrush.dfy ===
/**
 * hendrix_lab.py `bitcrush`: quantise to `2**bits/2 - 1` levels per unit with
 * numpy's round-half-to-even, keep every `downsample`-th sample (Python slice
 * `y[::downsample]`), then normalise.
 */
module Bitcrush {
  import opened Dsp
  import opened Blocks
  import opened Wrappers

  function Pow2(n: nat): (p: nat)
    ensures p >= 1 && (n >= 1 ==> p >= 2)
  {
    if n == 0 then 1 else 2 * Pow2(n - 1)
  }

  /** Python's `2**bits`: an int for bits >= 0 and the float 1/2**-bits below. */
  function Pow2Real(b: int): (p: real)
    ensures p > 0.0
  {
    if b >= 0 then Pow2(b) as real else 1.0 / (Pow2(-b) as real)
  }

  /**
   * `q/2 - 1` with `q = 2**bits`: the number of quantisation steps per unit
   * amplitude. It is zero exactly for bits == 1, where the source divides 0 by 0.
   */
  function Levels(bits: int): (l: real)
    ensures l == 0.0 <==> bits == 1
    ensures bits >= 2 ==> l >= 1.0
    ensures bits <= 0 ==> -1.0 < l < 0.0
  {
    if bits >= 0 then
      assert bits >= 2 ==> Pow2(bits) >= 4 by {
        if bits >= 2 { assert Pow2(bits) == 2 * Pow2(bits - 1); }
      }
      assert bits == 1 ==> Pow2(bits) == 2;
      assert bits == 0 ==> Pow2(bits) == 1;
      Pow2Real(bits) / 2.0 - 1.0
    else
      SmallRecip(Pow2(-bits) as real);
      Pow2Real(bits) / 2.0 - 1.0
  }

  lemma SmallRecip(p: real)
    requires p >= 2.0
    ensures 0.0 < 1.0 / p <= 0.5
  {
  }

  /** The default depth of 8 bits gives 127 levels. */
  lemma LevelsEight()
    ensures Levels(8) == 127.0
  {
    assert Pow2(8) == 256;
  }

  /** numpy's `round`: to the nearest integer, ties to the even one. */
  function RoundHalfEven(v: real): (r: int)
    ensures -0.5 <= r as real - v <= 0.5
    ensures (r as real - v == 0.5 || v - r as real == 0.5) ==> r % 2 == 0
  {
    var f := v.Floor;
    var d := v - f as real;
    if d < 0.5 then f
    else if d > 0.5 then f + 1
    else if f % 2 == 0 then f
    else f + 1
  }

  /**
   * The rounding is the unique nearest integer, with ties going to the even
   * neighbour: any k strictly closer than one half, or exactly one half away and
   * even, is the rounded value.
   */
  lemma RoundIsNearestEven(v: real, k: int)
    requires -0.5 < k as real - v < 0.5 || ((k as real - v == 0.5 || v - k as real == 0.5) && k % 2 == 0)
    ensures RoundHalfEven(v) == k
  {
  }

  /** One quantised sample, `round(v*L)/L`: L times it is the rounded integer. */
  function QuantizeSample(v: real, l: real): (z: real)
    requires l != 0.0
    ensures z * l == RoundHalfEven(v * l) as real
  {
    DivMul(RoundHalfEven(v * l) as real, l);
    RoundHalfEven(v * l) as real / l
  }

  lemma DivMul(r: real, l: real)
    requires l != 0.0
    ensures (r / l) * l == r
  {
  }

  /** `np.round(x*L)/L` for every sample. */
  function Quantize(x: seq<real>, l: real): (z: seq<real>)
    requires l != 0.0
    ensures |z| == |x|
    ensures forall i :: 0 <= i < |x| ==> z[i] == QuantizeSample(x[i], l)
  {
    seq(|x|, i requires 0 <= i < |x| => QuantizeSample(x[i], l))
  }

  /**
   * `z` sits on the grid of multiples of 1/L within half a step of `v`: `z*L` is
   * an integer and `|z*L - v*L| <= 1/2`.
   */
  predicate OnGrid(z: real, v: real, l: real) {
    var zl := z * l;
    zl == zl.Floor as real && -0.5 <= zl - v * l <= 0.5
  }

  /** Every quantised sample is on the grid, within half a step of its input. */
  lemma QuantizeOnGrid(x: seq<real>, l: real)
    requires l != 0.0
    ensures forall i :: 0 <= i < |x| ==> OnGrid(Quantize(x, l)[i], x[i], l)
  {
    forall i | 0 <= i < |x|
      ensures OnGrid(Quantize(x, l)[i], x[i], l)
    {
      var r := RoundHalfEven(x[i] * l);
      assert Quantize(x, l)[i] * l == r as real;
      assert (r as real).Floor == r;
    }
  }

  function AbsInt(v: int): nat { if v < 0 then -v else v }

  /** The position in the input of output sample k of the slice `y[::step]`. */
  function SliceIndex(n: nat, step: int, k: nat): int
    requires step != 0
  {
    if step > 0 then k * AbsInt(step) else n - 1 - k * AbsInt(step)
  }

  lemma SliceIndexInRange(n: nat, step: int, k: nat)
    requires step != 0 && k < StrideCount(n, AbsInt(step))
    ensures 0 <= SliceIndex(n, step, k) < n
  {
    assert k * AbsInt(step) < n;
  }

  /**
   * Python's `y[::step]` for a non-zero step: ceil(n/|step|) samples, taken
   * forwards from index 0 for a positive step and backwards from the last index
   * for a negative one.
   */
  function Slice(y: seq<real>, step: int): (z: seq<real>)
    requires step != 0
    ensures |z| == StrideCount(|y|, AbsInt(step))
    ensures forall k :: 0 <= k < |z| ==>
      0 <= SliceIndex(|y|, step, k) < |y| && z[k] == y[SliceIndex(|y|, step, k)]
  {
    var c := StrideCount(|y|, AbsInt(step));
    seq(c, k requires 0 <= k < c =>
      SliceIndexInRange(|y|, step, k);
      y[SliceIndex(|y|, step, k)])
  }

  lemma StrideCountUnit(n: nat)
    ensures StrideCount(n, 1) == n
  {
  }

  lemma SliceIndexUnit(n: nat, k: nat)
    ensures SliceIndex(n, 1, k) == k
    ensures SliceIndex(n, -1, k) == n - 1 - k
  {
  }

  /** A unit step copies the buffer. */
  lemma SliceUnit(y: seq<real>)
    ensures Slice(y, 1) == y
  {
    StrideCountUnit(|y|);
    forall k | 0 <= k < |y|
      ensures Slice(y, 1)[k] == y[k]
    {
      SliceIndexUnit(|y|, k);
    }
  }

  /** `z` is `y` read backwards. */
  predicate Reverses(y: seq<real>, z: seq<real>) {
    |z| == |y| && forall k :: 0 <= k < |y| ==> z[k] == y[|y| - 1 - k]
  }

  lemma ReversesTwice(a: seq<real>, b: seq<real>, c: seq<real>)
    requires Reverses(a, b) && Reverses(b, c)
    ensures c == a
  {
    forall k | 0 <= k < |a|
      ensures c[k] == a[k]
    {
      assert c[k] == b[|a| - 1 - k];
    }
  }

  /** A step of -1 reverses the buffer. */
  lemma SliceReverse(y: seq<real>)
    ensures Reverses(y, Slice(y, -1))
  {
    StrideCountUnit(|y|);
    forall k | 0 <= k < |y|
      ensures Slice(y, -1)[k] == y[|y| - 1 - k]
    {
      SliceIndexUnit(|y|, k);
    }
  }

  /** Reversing twice is the identity. */
  lemma SliceReverseTwice(y: seq<real>)
    ensures Slice(Slice(y, -1), -1) == y
  {
    SliceReverse(y);
    SliceReverse(Slice(y, -1));
    ReversesTwice(y, Slice(y, -1), Slice(Slice(y, -1), -1));
  }

  /** The crushed signal before normalisation. */
  function CrushRaw(x: seq<real>, bits: int, step: int): (z: seq<real>)
    requires Levels(bits) != 0.0 && step != 0
    ensures |z| == StrideCount(|x|, AbsInt(step))
    ensures forall k :: 0 <= k < |z| ==>
      0 <= SliceIndex(|x|, step, k) < |x| && OnGrid(z[k], x[SliceIndex(|x|, step, k)], Levels(bits))
  {
    var l := Levels(bits);
    var q := Quantize(x, l);
    QuantizeOnGrid(x, l);
    var z := Slice(q, step);
    assert forall k :: 0 <= k < |z| ==> z[k] == q[SliceIndex(|x|, step, k)];
    z
  }

  /**
   * `bitcrush(x, bits, downsample)`: a zero step is the error numpy raises for
   * `y[::0]`; an empty buffer makes `norm` raise; `bits == 1` divides zero by
   * zero and fills the buffer with NaN; otherwise the normalised crushed
   * signal, of length ceil(len/|downsample|).
   */
  function BitcrushEffect(x: seq<real>, bits: int, step: int): (r: Result<seq<real>, Fault>)
    ensures r.Err? <==> step == 0 || |x| == 0 || bits == 1
    ensures step == 0 ==> r.Err? && r.error.InvalidParameter?
    ensures step != 0 && |x| == 0 ==> r == Err(EmptySignal)
    ensures step != 0 && |x| > 0 && bits == 1 ==> r == Err(NonFinite)
    ensures r.Ok? ==> |r.value| == StrideCount(|x|, AbsInt(step)) && |r.value| > 0
    ensures r.Ok? ==> forall k :: 0 <= k < |r.value| ==> -1.0 < r.value[k] < 1.0
    ensures r.Ok? ==> Scale(Divisor(CrushRaw(x, bits, step)), r.value) == CrushRaw(x, bits, step)
  {
    if step == 0 then Err(InvalidParameter("slice step cannot be zero"))
    else if |x| == 0 then Err(EmptySignal)
    else if bits == 1 then Err(NonFinite)
    else
      var z := CrushRaw(x, bits, step);
      assert 0 * AbsInt(step) < |x|;
      Ok(Norm(z))
  }
}

=== FILE: blocks.dfy ===
/**
 * Fixed-size block partitioning, the shape shared by the auto-wah (256-sample
 * blocks) and the vibe (128-sample blocks): the loop
 * `for i in range(0, len(x), blk): y[i:i+blk] = f(i, x[i:i+blk])`.
 */
module Blocks {
  import opened Dsp
  import opened Wrappers

  /** First sample of the block that holds sample `i`: the largest multiple of `blk` not above `i`. */
  function BlockStart(i: nat, blk: nat): (s: nat)
    requires blk > 0
    ensures s <= i < s + blk
    ensures s == (i / blk) * blk
  {
    DivBounds(i, blk);
    (i / blk) * blk
  }

  lemma DivBounds(i: nat, blk: nat)
    requires blk > 0
    ensures (i / blk) * blk <= i < (i / blk) * blk + blk
  {
    var q, r := i / blk, i % blk;
    assert i == q * blk + r;
  }

  /** One past the last sample of the block starting at `s` (the last block may be short). */
  function BlockEnd(s: nat, blk: nat, n: nat): (e: nat)
    requires s <= n
    ensures s <= e <= n && e <= s + blk
    ensures e == s + blk || e == n
  {
    Min(s + blk, n)
  }

  /**
   * Blocks partition the samples: if the k-th block [k*blk, k*blk + blk) holds
   * `i`, it is the block `BlockStart` assigns to `i`, so no sample lies in two blocks.
   */
  lemma StartOfBlock(i: nat, k: nat, blk: nat)
    requires blk > 0 && k * blk <= i < k * blk + blk
    ensures BlockStart(i, blk) == k * blk
  {
    var q := i / blk;
    DivBounds(i, blk);
    if q < k {
      MulMono(q + 1, k, blk);
      assert false;
    } else if q > k {
      MulMono(k + 1, q, blk);
      assert false;
    }
  }

  lemma MulMono(a: int, b: int, c: nat)
    requires a <= b
    ensures a * c <= b * c
  {
  }

  /** A block transform returns as many samples as it is given. */
  ghost predicate LengthPreserving(f: (nat, seq<real>) -> seq<real>) {
    forall s, b :: |f(s, b)| == |b|
  }

  /** What block transform `f` gives at sample `i` of `x`: `f` run on `i`'s block alone. */
  ghost function AtSample(x: seq<real>, blk: nat, f: (nat, seq<real>) -> seq<real>, i: nat): real
    requires blk > 0 && i < |x|
    requires LengthPreserving(f)
  {
    var s := BlockStart(i, blk);
    f(s, x[s..BlockEnd(s, blk, |x|)])[i - s]
  }

  /** Output of the loop from the k-th block on: each block transformed on its own. */
  function BlocksFrom(x: seq<real>, blk: nat, f: (nat, seq<real>) -> seq<real>, k: nat): (y: seq<real>)
    requires blk > 0 && k * blk <= |x|
    requires LengthPreserving(f)
    ensures |y| == |x| - k * blk
    ensures forall i :: k * blk <= i < |x| ==> y[i - k * blk] == AtSample(x, blk, f, i)
    decreases |x| - k * blk
  {
    var s := k * blk;
    if s == |x| then []
    else
      var e := BlockEnd(s, blk, |x|);
      var head := f(s, x[s..e]);
      forall i | s <= i < e
        ensures BlockStart(i, blk) == s
      {
        StartOfBlock(i, k, blk);
      }
      if e == |x| then head
      else
        assert (k + 1) * blk == e;
        head + BlocksFrom(x, blk, f, k + 1)
  }

  /** Every sample's block output, for the whole buffer. */
  function Blockwise(x: seq<real>, blk: nat, f: (nat, seq<real>) -> seq<real>): (y: seq<real>)
    requires blk > 0
    requires LengthPreserving(f)
    ensures |y| == |x|
    ensures forall i :: 0 <= i < |x| ==> y[i] == AtSample(x, blk, f, i)
  {
    BlocksFrom(x, blk, f, 0)
  }

  /** Sample `i` of the blockwise output is sample `i - s` of its block's output, `s` the block start. */
  lemma BlockwiseAt(x: seq<real>, blk: nat, f: (nat, seq<real>) -> seq<real>, i: nat, s: nat, e: nat)
    requires blk > 0 && LengthPreserving(f) && i < |x|
    requires s == BlockStart(i, blk) && e == BlockEnd(s, blk, |x|)
    ensures s <= i < e && Blockwise(x, blk, f)[i] == f(s, x[s..e])[i - s]
  {
    assert Blockwise(x, blk, f)[i] == AtSample(x, blk, f, i);
  }

  /**
   * The source loop: a zero buffer overwritten block by block, each slice taken
   * with Python's clamp to the buffer end.
   */
  method ApplyBlocks(x: seq<real>, blk: nat, f: (nat, seq<real>) -> seq<real>) returns (y: seq<real>)
    requires blk > 0
    requires LengthPreserving(f)
    ensures |y| == |x|
    ensures forall i :: 0 <= i < |x| ==> y[i] == AtSample(x, blk, f, i)
  {
    y := seq(|x|, _ => 0.0);
    var i := 0;
    var k := 0;
    while i < |x|
      invariant i == k * blk
      invariant |y| == |x|
      invariant forall j :: 0 <= j < Min(i, |x|) ==> y[j] == AtSample(x, blk, f, j)
      decreases |x| - i
    {
      var e := BlockEnd(i, blk, |x|);
      var out := f(i, x[i..e]);
      y := Overwrite(y, i, out);
      forall j | 0 <= j < e
        ensures y[j] == AtSample(x, blk, f, j)
      {
        if j >= i {
          StartOfBlock(j, k, blk);
        }
      }
      i, k := i + blk, k + 1;
    }
  }

  /** `y[s:s+|out|] = out` on a buffer long enough to hold it. */
  function Overwrite(y: seq<real>, s: nat, out: seq<real>): (z: seq<real>)
    requires s + |out| <= |y|
    ensures |z| == |y|
    ensures forall j :: 0 <= j < s ==> z[j] == y[j]
    ensures forall j :: s <= j < s + |out| ==> z[j] == out[j - s]
    ensures forall j :: s + |out| <= j < |y| ==> z[j] == y[j]
  {
    y[..s] + out + y[s + |out|..]
  }

  /**
   * Filter state does not cross blocks: two inputs that agree on the k-th block
   * give the same output on that block, whatever they hold elsewhere.
   */
  lemma {:induction false} BlockLocal(x1: seq<real>, x2: seq<real>, blk: nat, f: (nat, seq<real>) -> seq<real>, k: nat)
    requires blk > 0 && LengthPreserving(f)
    requires |x1| == |x2| && k * blk < |x1|
    requires x1[k * blk..BlockEnd(k * blk, blk, |x1|)] == x2[k * blk..BlockEnd(k * blk, blk, |x2|)]
    ensures forall i :: k * blk <= i < BlockEnd(k * blk, blk, |x1|) ==>
      Blockwise(x1, blk, f)[i] == Blockwise(x2, blk, f)[i]
  {
    forall i | k * blk <= i < BlockEnd(k * blk, blk, |x1|)
      ensures Blockwise(x1, blk, f)[i] == Blockwise(x2, blk, f)[i]
    {
      StartOfBlock(i, k, blk);
    }
  }

  /** The number of iterations of `range(0, n, step)`: ceil(n / step). */
  function StrideCount(n: nat, step: nat): (c: nat)
    requires step > 0
    ensures forall k: nat :: k < c <==> k * step < n
  {
    var c := (n + step - 1) / step;
    forall k: nat
      ensures k < c <==> k * step < n
    {
      DivBounds(n + step - 1, step);
      if k < c {
        MulMono(k + 1, c, step);
      } else {
        MulMono(c, k, step);
      }
    }
    c
  }

  /** Euclidean division is unique: `n = q*d + r` with `0 <= r < d` fixes `q` and `r`. */
  lemma DivUnique(n: nat, d: nat, q: nat, r: nat)
    requires d > 0 && r < d && n == q * d + r
    ensures n / d == q && n % d == r
  {
    StartOfBlock(n, q, d);
  }

  /**
   * Per-block parameter computation, in block order, stopping at the first block
   * whose computation fails (the exception the loop raises at that block).
   */
  function Collect<T>(g: nat -> Result<T, Fault>, c: nat, k: nat): (r: Result<seq<T>, Fault>)
    requires k <= c
    ensures r.Ok? <==> forall j :: k <= j < c ==> g(j).Ok?
    ensures r.Ok? ==> |r.value| == c - k
    ensures r.Ok? ==> forall j :: k <= j < c ==> g(j) == Ok(r.value[j - k])
    ensures r.Err? ==> exists j :: k <= j < c && g(j) == Err(r.error) && forall i :: k <= i < j ==> g(i).Ok?
    decreases c - k
  {
    if k == c then Ok([])
    else
      match g(k)
      case Err(e) => Err(e)
      case Ok(v) =>
        match Collect(g, c, k + 1)
        case Err(e) => Err(e)
        case Ok(rest) => Ok([v] + rest)
  }
}

=== FILE: bodequotient.dfy ===
/**
 * bode_quotient.py: its own WRDATA reader (whole-text strip, a numeric test of
 * the first token only, NaN padding, `name_k` keys for repeated header names),
 * the choice of a usable frequency column, the column lookup with aliases and
 * the row mask applied before the quotient is formed.
 */
module BodeQuotient {
  import opened Wrappers
  import opened Text
  import opened Numbers
  import opened Table
  import opened RowMask
  import Decimal

  // ---------------------------------------------------------------------------
  // `p.read_text().strip().splitlines()`

  /** The position of the first line holding a non-space character, or `|lines|`. */
  function FirstInk(lines: seq<string>): (i: nat)
    ensures i <= |lines|
    ensures forall k :: 0 <= k < i ==> AllSpace(lines[k])
    ensures i < |lines| ==> !AllSpace(lines[i])
    decreases |lines|
  {
    if |lines| == 0 || !AllSpace(lines[0]) then 0
    else
      var i := FirstInk(lines[1..]);
      assert forall k :: 0 < k <= i ==> lines[k] == lines[1..][k - 1];
      1 + i
  }

  /** One past the last line holding a non-space character, or 0. */
  function LastInk(lines: seq<string>): (j: nat)
    ensures j <= |lines|
    ensures forall k :: j <= k < |lines| ==> AllSpace(lines[k])
    ensures j > 0 ==> !AllSpace(lines[j - 1])
    decreases |lines|
  {
    if |lines| == 0 || !AllSpace(lines[|lines| - 1]) then |lines|
    else LastInk(lines[..|lines| - 1])
  }

  /** Stripping the ends of a line that holds a non-space character leaves one that starts with it. */
  lemma InkedEnds(s: string)
    requires !AllSpace(s)
    ensures var l := LStrip(s); |l| > 0 && !IsSpace(l[0])
    ensures var r := RStrip(LStrip(s)); |r| > 0 && !IsSpace(r[0])
  {
  }

  /** `lstrip` the first line and `rstrip` the last; the lines between are untouched. */
  function StripEnds(m: seq<string>): (r: seq<string>)
    requires |m| > 0 && !AllSpace(m[0])
    ensures |r| == |m| && |r[0]| > 0 && !IsSpace(r[0][0])
    ensures forall k :: 0 < k < |m| - 1 ==> r[k] == m[k]
  {
    InkedEnds(m[0]);
    if |m| == 1 then [RStrip(LStrip(m[0]))]
    else
      MiddleKept(LStrip(m[0]), m, RStrip(m[|m| - 1]));
      [LStrip(m[0])] + m[1..|m| - 1] + [RStrip(m[|m| - 1])]
  }

  /** Replacing the two ends of a sequence keeps everything between them. */
  lemma MiddleKept<T>(a: T, m: seq<T>, b: T)
    requires |m| >= 2
    ensures var r := [a] + m[1..|m| - 1] + [b]; |r| == |m| && r[0] == a && forall k :: 0 < k < |m| - 1 ==> r[k] == m[k]
  {
  }

  /**
   * The lines of the stripped text: surrounding blank lines dropped, leading
   * space removed from the first line and trailing space from the last.
   */
  function TrimText(lines: seq<string>): (r: seq<string>)
    ensures |r| == 0 <==> forall k :: 0 <= k < |lines| ==> AllSpace(lines[k])
    ensures |r| > 0 ==> |r[0]| > 0 && !IsSpace(r[0][0])
    ensures |r| > 0 ==> FirstInk(lines) + |r| == LastInk(lines)
    ensures forall k :: 0 < k < |r| - 1 ==> r[k] == lines[FirstInk(lines) + k]
  {
    var i, j := FirstInk(lines), LastInk(lines);
    if i == |lines| then []
    else
      assert i < j;
      StripEnds(lines[i..j])
  }

  // ---------------------------------------------------------------------------
  // Rows

  /** `float(x) if x not in ('nan', 'NaN') else float('nan')`. */
  function Token(g: FloatGrammar, t: string): Result<Num, ReadError> {
    if t == "nan" || t == "NaN" then Ok(NaN)
    else if g.parses(t) then Ok(g.value(t))
    else Err(NotAFloat(t))
  }

  /** One row of tokens; the first token that does not convert is the error. */
  function Tokens(g: FloatGrammar, ts: seq<string>): (r: Result<seq<Num>, ReadError>)
    ensures r.Ok? ==> |r.value| == |ts| && forall i :: 0 <= i < |ts| ==> Token(g, ts[i]) == Ok(r.value[i])
    ensures r.Err? <==> exists i :: 0 <= i < |ts| && Token(g, ts[i]).Err?
    ensures r.Err? ==> r.error.NotAFloat?
    decreases |ts|
  {
    if |ts| == 0 then Ok([])
    else
      match Token(g, ts[0])
      case Err(e) => Err(e)
      case Ok(v) =>
        var rest := Tokens(g, ts[1..]);
        assert forall i :: 0 < i < |ts| ==> ts[i] == ts[1..][i - 1];
        match rest
        case Err(e) => Err(e)
        case Ok(vs) => Ok([v] + vs)
  }

  /** `parts += ['nan'] * (n - len(parts))` for a short row, `parts[:n]` for a long one. */
  function Fit(parts: seq<string>, n: nat): (r: seq<string>)
    ensures |r| == n
    ensures forall i :: 0 <= i < n && i < |parts| ==> r[i] == parts[i]
    ensures forall i :: |parts| <= i < n ==> r[i] == "nan"
  {
    if |parts| < n then parts + seq(n - |parts|, _ => "nan") else parts[..n]
  }

  /** The lines after the header that hold something besides whitespace, in order. */
  function NonBlank(lines: seq<string>): (r: seq<string>)
    ensures |r| <= |lines|
    ensures forall i :: 0 <= i < |r| ==> !AllSpace(r[i])
    ensures |r| == 0 <==> forall k :: 0 <= k < |lines| ==> AllSpace(lines[k])
    decreases |lines|
  {
    if |lines| == 0 then []
    else
      assert forall k :: 0 < k < |lines| ==> lines[k] == lines[1..][k - 1];
      (if AllSpace(lines[0]) then [] else [lines[0]]) + NonBlank(lines[1..])
  }

  /**
   * The header path, given the tokens of each non-blank line: every row fitted
   * to `n` entries, the missing ones NaN, and converted.
   */
  function PaddedRows(g: FloatGrammar, rows: seq<seq<string>>, n: nat): (r: Result<seq<seq<Num>>, ReadError>)
    ensures r.Ok? ==> |r.value| == |rows| && forall i :: 0 <= i < |rows| ==> Tokens(g, Fit(rows[i], n)) == Ok(r.value[i])
    ensures r.Err? <==> exists i :: 0 <= i < |rows| && Tokens(g, Fit(rows[i], n)).Err?
    ensures r.Err? ==> r.error.NotAFloat?
  {
    AllOk(seq(|rows|, i requires 0 <= i < |rows| => Tokens(g, Fit(rows[i], n))))
  }

  /**
   * The fitted matrix is `n` wide; an entry the line has is its converted token,
   * a missing one is NaN.
   */
  lemma PaddedRowsCells(g: FloatGrammar, rows: seq<seq<string>>, n: nat)
    requires PaddedRows(g, rows, n).Ok?
    ensures var m := PaddedRows(g, rows, n).value;
      |m| == |rows| && Rectangular(m, n)
      && (forall i, j :: 0 <= i < |rows| && 0 <= j < n && j < |rows[i]| ==> Token(g, rows[i][j]) == Ok(m[i][j]))
      && (forall i, j :: 0 <= i < |rows| && |rows[i]| <= j < n ==> m[i][j] == NaN)
  {
    var m := PaddedRows(g, rows, n).value;
    forall i | 0 <= i < |rows|
      ensures |m[i]| == n
      ensures forall j :: 0 <= j < n && j < |rows[i]| ==> Token(g, rows[i][j]) == Ok(m[i][j])
      ensures forall j :: |rows[i]| <= j < n ==> m[i][j] == NaN
    {
      FitTokens(g, rows[i], n, m[i]);
    }
  }

  /** One fitted line: its kept tokens converted, its padding NaN. */
  lemma FitTokens(g: FloatGrammar, parts: seq<string>, n: nat, v: seq<Num>)
    requires Tokens(g, Fit(parts, n)) == Ok(v)
    ensures |v| == n
    ensures forall j :: 0 <= j < n && j < |parts| ==> Token(g, parts[j]) == Ok(v[j])
    ensures forall j :: |parts| <= j < n ==> v[j] == NaN
  {
    var f := Fit(parts, n);
    forall j | |parts| <= j < n
      ensures v[j] == NaN
    {
      assert f[j] == "nan";
    }
  }

  /** Every line cut into its tokens. */
  function SplitAll(lines: seq<string>): (r: seq<seq<string>>)
    ensures |r| == |lines|
    ensures forall i :: 0 <= i < |lines| ==> r[i] == Split(lines[i])
  {
    seq(|lines|, i requires 0 <= i < |lines| => Split(lines[i]))
  }

  /** The numeric path: `list(map(float, line.split()))` for every line, given its tokens. */
  function NumericRows(g: FloatGrammar, rows: seq<seq<string>>): (r: Result<seq<seq<Num>>, ReadError>)
    ensures r.Ok? ==> |r.value| == |rows|
    ensures r.Ok? ==> forall i :: 0 <= i < |rows| ==> AllFloats(g, rows[i]) == Ok(r.value[i])
    ensures r.Err? ==> exists i :: 0 <= i < |rows| && AllFloats(g, rows[i]).Err?
    ensures r.Err? ==> r.error.NotAFloat?
    decreases |rows|
  {
    if |rows| == 0 then Ok([])
    else
      match AllFloats(g, rows[0])
      case Err(t) => Err(NotAFloat(t))
      case Ok(v) =>
        var rest := NumericRows(g, rows[1..]);
        assert forall i :: 0 < i < |rows| ==> rows[i] == rows[1..][i - 1];
        match rest
        case Err(e) => Err(e)
        case Ok(vs) => Ok([v] + vs)
  }

  // ---------------------------------------------------------------------------
  // Keys for repeated header names

  /** How often `x` occurs in `s`. */
  function Count(s: seq<string>, x: string): nat
    decreases |s|
  {
    if |s| == 0 then 0 else Count(s[..|s| - 1], x) + (if s[|s| - 1] == x then 1 else 0)
  }

  /** `nm` itself for a first occurrence, `f"{nm}_{k}"` for the k-th repeat. */
  function KeyName(nm: string, k: nat): string {
    if k == 0 then nm else nm + "_" + Decimal.NatToString(k)
  }

  /** The key of header position `j`: the bare name at its first occurrence, `name_k` at its k-th repeat. */
  function DupKey(names: seq<string>, j: nat): string
    requires j < |names|
  {
    KeyName(names[j], Count(names[..j], names[j]))
  }

  function DupKeys(names: seq<string>): (keys: seq<string>)
    ensures |keys| == |names|
    ensures forall j :: 0 <= j < |names| ==> keys[j] == DupKey(names, j)
  {
    seq(|names|, j requires 0 <= j < |names| => DupKey(names, j))
  }

  /** No `_` in the name. */
  predicate NoUnderscore(s: string) {
    forall k :: 0 <= k < |s| ==> s[k] != '_'
  }

  /** A name occurs in a list exactly when it is counted there. */
  lemma {:induction false} CountPositive(s: seq<string>, x: string)
    ensures Count(s, x) > 0 <==> x in s
    decreases |s|
  {
    if |s| > 0 {
      var init := s[..|s| - 1];
      assert s == init + [s[|s| - 1]];
      CountPositive(init, x);
    }
  }

  /** A later prefix counts an occurrence the earlier one does not. */
  lemma {:induction false} CountGrows(s: seq<string>, i: nat, j: nat)
    requires i < j <= |s|
    ensures Count(s[..j], s[i]) > Count(s[..i], s[i])
    decreases j
  {
    assert s[..j][..j - 1] == s[..j - 1];
    if j > i + 1 {
      CountGrows(s, i, j - 1);
    } else {
      assert s[..j][j - 1] == s[i];
    }
  }

  /** Where the `_` separates the name from the counter, when the name has none. */
  lemma SuffixSplit(a: string, b: string, c: string, d: string)
    requires NoUnderscore(a) && NoUnderscore(c)
    requires a + "_" + b == c + "_" + d
    ensures a == c && b == d
  {
    var s := a + "_" + b;
    UnderscoreAt(a, b);
    UnderscoreAt(c, d);
    assert |a| == |c|;
    assert a == s[..|a|] && c == s[..|c|];
    assert b == s[|a| + 1..] && d == s[|c| + 1..];
  }

  /** The first `_` of `a_b` is the one after `a` when `a` has none. */
  lemma UnderscoreAt(a: string, b: string)
    requires NoUnderscore(a)
    ensures (a + "_" + b)[|a|] == '_'
    ensures forall k :: 0 <= k < |a| ==> (a + "_" + b)[k] != '_'
  {
  }

  /** Two header positions get different keys when no header name holds a `_`. */
  lemma DupKeyPair(names: seq<string>, i: nat, j: nat)
    requires i < j < |names|
    requires forall k :: 0 <= k < |names| ==> NoUnderscore(names[k])
    ensures DupKey(names, i) != DupKey(names, j)
  {
    var ki, kj := Count(names[..i], names[i]), Count(names[..j], names[j]);
    var a, b := DupKey(names, i), DupKey(names, j);
    if names[i] == names[j] {
      CountGrows(names, i, j);
      assert kj > ki;
      if ki == 0 {
        assert b[|names[j]|] == '_';
        assert a == names[i];
      } else if a == b {
        SuffixSplit(names[i], Decimal.NatToString(ki), names[j], Decimal.NatToString(kj));
        Decimal.NatToStringInjective(ki, kj);
      }
    } else if ki == 0 && kj == 0 {
    } else if ki == 0 {
      assert b[|names[j]|] == '_';
      assert a == names[i];
    } else if kj == 0 {
      assert a[|names[i]|] == '_';
      assert b == names[j];
    } else if a == b {
      SuffixSplit(names[i], Decimal.NatToString(ki), names[j], Decimal.NatToString(kj));
    }
  }

  /** With no `_` in any header name the keys never clash, so every column is kept. */
  lemma DupKeysDistinct(names: seq<string>)
    requires forall k :: 0 <= k < |names| ==> NoUnderscore(names[k])
    ensures Distinct(DupKeys(names))
  {
    var keys := DupKeys(names);
    forall i, j | 0 <= i < j < |keys|
      ensures keys[i] != keys[j]
    {
      DupKeyPair(names, i, j);
    }
  }

  /** A header without repeats keeps its names as keys. */
  lemma DupKeysOfDistinct(names: seq<string>)
    requires Distinct(names)
    ensures DupKeys(names) == names
  {
    var keys := DupKeys(names);
    forall j | 0 <= j < |names|
      ensures keys[j] == names[j]
    {
      CountPositive(names[..j], names[j]);
      assert names[j] !in names[..j];
    }
  }

  /** A name `a_1` in the header clashes with the key of a repeated `a`; the later column wins. */
  lemma DupKeysClash(a: string)
    ensures DupKeys([a, a, a + "_1"]) == [a, a + "_1", a + "_1"]
  {
    var names := [a, a, a + "_1"];
    assert names[..1] == [a];
    assert Count([a], a) == 1 by {
      assert [a][..0] == [];
    }
    assert DupKey(names, 1) == a + "_" + Decimal.NatToString(1);
    assert Decimal.NatToString(1) == "1";
    assert a + "_" + "1" == a + "_1";
    assert names[2] !in names[..2] by {
      assert |names[2]| == |a| + 2;
    }
    CountPositive(names[..2], names[2]);
  }

  /** `seen` after the names of `s`: for each name, how often it repeated so far. */
  function Seen(s: seq<string>): (m: map<string, nat>)
    decreases |s|
  {
    if |s| == 0 then map[]
    else
      Bump(Seen(s[..|s| - 1]), s[|s| - 1])
  }

  /** Meeting `nm` once more: a first meeting records 0 repeats, a later one adds a repeat. */
  function Bump(m: map<string, nat>, nm: string): (r: map<string, nat>)
    ensures nm in r
  {
    if nm in m then m[nm := m[nm] + 1] else m[nm := 0]
  }

  /** `seen` holds exactly the names met so far, each with one less than its count. */
  lemma {:induction false} SeenCount(s: seq<string>, x: string)
    ensures x in Seen(s) <==> Count(s, x) > 0
    ensures x in Seen(s) ==> Seen(s)[x] + 1 == Count(s, x)
    decreases |s|
  {
    if |s| > 0 {
      SeenCount(s[..|s| - 1], x);
    }
  }

  /** The key the loop picks from `seen` is the key of the position. */
  lemma SeenKey(names: seq<string>, j: nat, m: map<string, nat>, key: string)
    requires j < |names| && m == Seen(names[..j])
    requires key == KeyName(names[j], Bump(m, names[j])[names[j]])
    ensures key == DupKeys(names)[j]
  {
    var nm := names[j];
    SeenCount(names[..j], nm);
    var k := Count(names[..j], nm);
    assert DupKeys(names)[j] == DupKey(names, j);
    if nm in m {
      assert m[nm] + 1 == k;
    }
  }

  /** The update of `seen` for position `j` gives `seen` after `j + 1` names. */
  lemma SeenSnoc(s: seq<string>, j: nat, m: map<string, nat>, m2: map<string, nat>)
    requires j < |s| && m == Seen(s[..j])
    requires m2 == Bump(m, s[j])
    ensures m2 == Seen(s[..j + 1])
  {
    assert s[..j + 1][..j] == s[..j];
  }

  /**
   * The loop of `read_wrdata` that fills `cols`, from position `j` on: `seen`
   * counts the repeats of each name, each column is stored under its key and a
   * first occurrence is stored a second time under its bare name.
   */
  function DedupLoop(names: seq<string>, columns: seq<seq<Num>>, j: nat, seen: map<string, nat>, cols: Cols): (r: Cols)
    requires j <= |names| == |columns| && UniqueKeys(cols)
    ensures UniqueKeys(r)
    decreases |names| - j
  {
    if j == |names| then cols
    else
      var nm := names[j];
      var seen2 := Bump(seen, nm);
      var key := KeyName(nm, seen2[nm]);
      var cols2 := Put(cols, key, columns[j]);
      DedupLoop(names, columns, j + 1, seen2, if seen2[nm] == 0 then Put(cols2, nm, columns[j]) else cols2)
  }

  /** The loop stores every column under its `DupKeys` key, exactly as the dictionary built from them. */
  lemma DedupColumns(names: seq<string>, columns: seq<seq<Num>>)
    requires |names| == |columns|
    ensures DedupLoop(names, columns, 0, map[], []) == FromNames(DupKeys(names), columns)
  {
    DedupLoopFrom(names, columns, 0, map[], []);
  }

  lemma {:induction false} DedupLoopFrom(names: seq<string>, columns: seq<seq<Num>>, j: nat, seen: map<string, nat>, cols: Cols)
    requires j <= |names| == |columns|
    requires seen == Seen(names[..j]) && cols == Insert([], DupKeys(names)[..j], columns[..j])
    ensures DedupLoop(names, columns, j, seen, cols) == FromNames(DupKeys(names), columns)
    decreases |names| - j
  {
    if j == |names| {
      assert DupKeys(names)[..j] == DupKeys(names) && columns[..j] == columns;
    } else {
      var nm := names[j];
      var seen2 := Bump(seen, nm);
      var key := KeyName(nm, seen2[nm]);
      var cols2 := Put(cols, key, columns[j]);
      if seen2[nm] == 0 {
        PutTwice(cols, nm, columns[j]);
      }
      DedupLoopStep(names, columns, j, seen, seen2, cols, cols2, key);
      DedupLoopFrom(names, columns, j + 1, seen2, cols2);
    }
  }

  /** One pass of the loop keeps `seen` and `cols` in step with the first `j + 1` names. */
  lemma DedupLoopStep(names: seq<string>, columns: seq<seq<Num>>, j: nat, seen: map<string, nat>, seen2: map<string, nat>,
                      cols: Cols, cols2: Cols, key: string)
    requires j < |names| == |columns|
    requires seen == Seen(names[..j]) && cols == Insert([], DupKeys(names)[..j], columns[..j])
    requires seen2 == Bump(seen, names[j])
    requires key == KeyName(names[j], seen2[names[j]])
    requires cols2 == Put(cols, key, columns[j])
    ensures seen2 == Seen(names[..j + 1])
    ensures cols2 == Insert([], DupKeys(names)[..j + 1], columns[..j + 1])
  {
    SeenKey(names, j, seen, key);
    SeenSnoc(names, j, seen, seen2);
    InsertSnoc([], DupKeys(names)[..j], columns[..j], key, columns[j]);
    PrefixSnoc(DupKeys(names), j);
    PrefixSnoc(columns, j);
  }

  /** The prefix one longer is the prefix and one more element. */
  lemma PrefixSnoc<T>(s: seq<T>, j: nat)
    requires j < |s|
    ensures s[..j + 1] == s[..j] + [s[j]]
  {
  }

  // ---------------------------------------------------------------------------
  // read_wrdata

  /** The numeric path's own columns: token `j` of every line, converted. */
  function TokenColumn(g: FloatGrammar, toks: seq<seq<string>>, j: nat): (c: seq<Num>)
    ensures |c| == |toks|
  {
    seq(|toks|, i requires 0 <= i < |toks| => if j < |toks[i]| then g.value(toks[i][j]) else NaN)
  }

  /**
   * `read_wrdata`: the whole text stripped and cut into lines; when the first
   * token of the first line converts, every line is numeric and the columns are
   * named `col0`, `col1`, ...; otherwise the first line names the columns, and the
   * non-blank lines after it are padded or cut to the header's width. The
   * columns are stored under `DupKeys` of the names.
   */
  function ReadQuotient(g: FloatGrammar, lines: seq<string>): (r: Result<Cols, ReadError>)
    ensures r == Err(EmptyFile) <==> forall k :: 0 <= k < |lines| ==> AllSpace(lines[k])
    ensures r.Err? ==> r.error in {EmptyFile, RaggedRows, NoDataRows} || r.error.NotAFloat?
    ensures r.Ok? ==> UniqueKeys(r.value) && exists n :: Height(r.value, n)
  {
    var text := TrimText(lines);
    if |text| == 0 then Err(EmptyFile)
    else
      var hdr := Header(text);
      if g.parses(hdr[0]) then NumericPath(g, SplitAll(text), |hdr|)
      else HeaderPath(g, hdr, text[1..])
  }

  /** The first token of the stripped text, which decides between the two paths; none for a blank file. */
  function FirstToken(lines: seq<string>): (t: Option<string>)
    ensures t.None? <==> forall k :: 0 <= k < |lines| ==> AllSpace(lines[k])
    ensures t.Some? ==> |TrimText(lines)| > 0 && t.value == Header(TrimText(lines))[0]
  {
    var text := TrimText(lines);
    if |text| == 0 then None else Some(Header(text)[0])
  }

  /** A file whose first token is a float is read headerless: `col0`, `col1`, ... hold the token columns of every line. */
  lemma ReadQuotientNumeric(g: FloatGrammar, lines: seq<string>)
    requires ReadQuotient(g, lines).Ok?
    requires FirstToken(lines).Some? && g.parses(FirstToken(lines).value)
    ensures var text := TrimText(lines); var n := |Header(text)|; var r := ReadQuotient(g, lines).value;
      Keys(r) == ColNames(n)
      && forall j :: 0 <= j < n ==> Get(r, ColNames(n)[j]) == Some(TokenColumn(g, SplitAll(text), j))
  {
    var text := TrimText(lines);
    NumericPathKeys(g, SplitAll(text), |Header(text)|);
  }

  /**
   * The columns the header path stores: the suffixed names of `hdr`, in order,
   * key the padded columns of the non-blank lines of `body`.
   */
  predicate HeaderKeyed(g: FloatGrammar, hdr: seq<string>, body: seq<string>, r: Cols) {
    var toks := SplitAll(NonBlank(body));
    PaddedRows(g, toks, |hdr|).Ok?
    && Rectangular(PaddedRows(g, toks, |hdr|).value, |hdr|)
    && Keys(r) == DupKeys(hdr)
    && (forall j :: 0 <= j < |hdr| ==> Get(r, DupKeys(hdr)[j]) == Some(ColumnOf(PaddedRows(g, toks, |hdr|).value, |hdr|, j)))
    && (Distinct(hdr) ==> Keys(r) == hdr)
  }

  /**
   * A file whose first token is not a float is read under its header: the
   * suffixed names key the padded columns of the non-blank lines after it.
   */
  lemma ReadQuotientHeader(g: FloatGrammar, lines: seq<string>) returns (hdr: seq<string>, body: seq<string>)
    requires ReadQuotient(g, lines).Ok?
    requires FirstToken(lines).Some? && !g.parses(FirstToken(lines).value)
    requires forall k :: 0 <= k < |Header(TrimText(lines))| ==> NoUnderscore(Header(TrimText(lines))[k])
    ensures |TrimText(lines)| > 0 && hdr == Header(TrimText(lines)) && body == TrimText(lines)[1..]
    ensures ReadQuotient(g, lines) == HeaderPath(g, hdr, body)
    ensures HeaderKeyed(g, hdr, body, ReadQuotient(g, lines).value)
  {
    var text := TrimText(lines);
    hdr, body := Header(text), text[1..];
    HeaderPathKeys(g, hdr, body);
  }

  /** `text[0].split()`: never empty, since the stripped text starts with a non-space. */
  function Header(text: seq<string>): (hdr: seq<string>)
    requires |text| > 0 && |text[0]| > 0 && !IsSpace(text[0][0])
    ensures |hdr| > 0 && hdr == Split(text[0])
  {
    SplitEmpty(text[0]);
    Split(text[0])
  }

  /** Every line numeric (given its tokens), the columns named `col0`, `col1`, ...; `np.array` refuses ragged rows. */
  function NumericPath(g: FloatGrammar, toks: seq<seq<string>>, n: nat): (r: Result<Cols, ReadError>)
    ensures r.Err? ==> r.error.NotAFloat? || r.error == RaggedRows
    ensures r.Ok? ==> UniqueKeys(r.value) && Height(r.value, |toks|)
  {
    match NumericRows(g, toks)
    case Err(e) => Err(e)
    case Ok(rows) =>
      if !Rectangular(rows, n) then Err(RaggedRows)
      else Ok(Store(ColNames(n), rows))
  }

  /** The header names the columns; with no data row `arr[:, j]` fails on the empty array. */
  function HeaderPath(g: FloatGrammar, hdr: seq<string>, body: seq<string>): (r: Result<Cols, ReadError>)
    ensures r.Err? ==> r.error.NotAFloat? || r.error == NoDataRows
    ensures r == Err(NoDataRows) <==> forall k :: 0 <= k < |body| ==> AllSpace(body[k])
    ensures var toks := SplitAll(NonBlank(body));
      r.Ok? <==> |toks| > 0 && forall i, j :: 0 <= i < |toks| && 0 <= j < |hdr| && j < |toks[i]| ==> Token(g, toks[i][j]).Ok?
    ensures r.Ok? ==> UniqueKeys(r.value) && Height(r.value, |NonBlank(body)|)
  {
    var toks := SplitAll(NonBlank(body));
    PaddedRowsOk(g, toks, |hdr|);
    match PaddedRows(g, toks, |hdr|)
    case Err(e) => Err(e)
    case Ok(rows) =>
      PaddedRowsCells(g, toks, |hdr|);
      if |rows| == 0 then Err(NoDataRows)
      else Ok(Store(hdr, rows))
  }

  /** Fitting succeeds exactly when every token it keeps converts. */
  lemma PaddedRowsOk(g: FloatGrammar, rows: seq<seq<string>>, n: nat)
    ensures PaddedRows(g, rows, n).Ok? <==>
      forall i, j :: 0 <= i < |rows| && 0 <= j < n && j < |rows[i]| ==> Token(g, rows[i][j]).Ok?
  {
    if PaddedRows(g, rows, n).Err? {
      var i :| 0 <= i < |rows| && Tokens(g, Fit(rows[i], n)).Err?;
      var f := Fit(rows[i], n);
      var j :| 0 <= j < |f| && Token(g, f[j]).Err?;
      assert j < |rows[i]| && Token(g, rows[i][j]).Err?;
    } else {
      PaddedRowsCells(g, rows, n);
    }
  }

  /** The columns of a rectangular matrix under the `DupKeys` of its names, all of one height. */
  function Store(names: seq<string>, rows: seq<seq<Num>>): (r: Cols)
    requires Rectangular(rows, |names|)
    ensures UniqueKeys(r) && Height(r, |rows|)
  {
    var columns := Columns(rows, |names|);
    var r := FromNames(DupKeys(names), columns);
    assert forall c :: c in r ==> c.values in columns;
    r
  }

  /** The numeric path succeeds exactly when every line has width `n` and every token converts. */
  lemma NumericPathOk(g: FloatGrammar, toks: seq<seq<string>>, n: nat)
    ensures NumericPath(g, toks, n).Ok? <==>
      forall i :: 0 <= i < |toks| ==> |toks[i]| == n && forall t :: 0 <= t < |toks[i]| ==> g.parses(toks[i][t])
  {
    match NumericRows(g, toks)
    case Err(_) =>
    case Ok(rows) =>
      assert forall i :: 0 <= i < |toks| ==> |rows[i]| == |toks[i]|;
  }

  /** The numeric path names the columns `col0`, `col1`, ..., each holding its token of every line. */
  lemma NumericPathKeys(g: FloatGrammar, toks: seq<seq<string>>, n: nat)
    requires NumericPath(g, toks, n).Ok?
    ensures var r := NumericPath(g, toks, n);
      Keys(r.value) == ColNames(n)
      && forall j :: 0 <= j < n ==> Get(r.value, ColNames(n)[j]) == Some(TokenColumn(g, toks, j))
  {
    var rows := NumericRows(g, toks).value;
    ColNamesDistinct(n);
    DupKeysOfDistinct(ColNames(n));
    var columns := Columns(rows, n);
    FromNamesDistinct(ColNames(n), columns);
    forall j | 0 <= j < n
      ensures columns[j] == TokenColumn(g, toks, j)
    {
      TokenColumnOf(g, toks, rows, n, j);
    }
  }

  /** A column of the converted matrix holds the converted tokens of that column. */
  lemma TokenColumnOf(g: FloatGrammar, toks: seq<seq<string>>, rows: seq<seq<Num>>, n: nat, j: nat)
    requires NumericRows(g, toks) == Ok(rows) && Rectangular(rows, n) && j < n
    ensures ColumnOf(rows, n, j) == TokenColumn(g, toks, j)
  {
    forall i | 0 <= i < |toks|
      ensures rows[i][j] == g.value(toks[i][j])
    {
      assert AllFloats(g, toks[i]) == Ok(rows[i]);
    }
  }

  /**
   * With no `_` in any header name, every header position keeps its own
   * column under its `DupKeys` key, in header order; with distinct names the
   * keys are the names themselves.
   */
  lemma HeaderPathKeys(g: FloatGrammar, hdr: seq<string>, body: seq<string>)
    requires HeaderPath(g, hdr, body).Ok?
    requires forall k :: 0 <= k < |hdr| ==> NoUnderscore(hdr[k])
    ensures var toks := SplitAll(NonBlank(body)); var r := HeaderPath(g, hdr, body);
      PaddedRows(g, toks, |hdr|).Ok?
      && Rectangular(PaddedRows(g, toks, |hdr|).value, |hdr|)
      && Keys(r.value) == DupKeys(hdr)
      && (forall j :: 0 <= j < |hdr| ==> Get(r.value, DupKeys(hdr)[j]) == Some(ColumnOf(PaddedRows(g, toks, |hdr|).value, |hdr|, j)))
      && (Distinct(hdr) ==> Keys(r.value) == hdr)
  {
    var rows := PaddedRows(g, SplitAll(NonBlank(body)), |hdr|).value;
    PaddedRowsCells(g, SplitAll(NonBlank(body)), |hdr|);
    DupKeysDistinct(hdr);
    FromNamesDistinct(DupKeys(hdr), Columns(rows, |hdr|));
    if Distinct(hdr) {
      DupKeysOfDistinct(hdr);
    }
  }

  // ---------------------------------------------------------------------------
  // pick_frequency

  /** `np.isfinite(f).any() and (f > 0).any()`: some entry finite and some entry positive, not necessarily the same one. */
  predicate Usable(v: seq<Num>) {
    (exists i :: 0 <= i < |v| && Finite(v[i])) && (exists i :: 0 <= i < |v| && Positive(v[i]))
  }

  /** `k in cols` and its column usable. */
  predicate UsableKey(cols: Cols, k: string) {
    Get(cols, k).Some? && Usable(Get(cols, k).value)
  }

  /** `k.lower().startswith("frequency") or k.lower() == "freq"`. */
  predicate FrequencyLike(k: string) {
    StartsWith(Lower(k), "frequency") || Lower(k) == "freq"
  }

  /** The default `prefer` tuple of `pick_frequency`. */
  const DefaultPrefer: seq<string> := ["frequency", "freq", "Frequency", "frequency_1", "frequency_2"]

  /** The `prefer` tuple `main` passes: the `--fcol` name first. */
  function MainPrefer(fcol: string): (p: seq<string>)
    ensures |p| == 5 && p[0] == fcol
  {
    [fcol, "frequency", "freq", "frequency_1", "frequency_2"]
  }

  /** The keys of `ks` that pass `keep`, in order. */
  function Candidates(ks: seq<string>): (r: seq<string>)
    ensures forall k :: k in r <==> k in ks && FrequencyLike(k)
    decreases |ks|
  {
    if |ks| == 0 then []
    else (if FrequencyLike(ks[0]) then [ks[0]] else []) + Candidates(ks[1..])
  }

  /** `[k for k in candidates if k not in prefer]`. */
  function Extra(prefer: seq<string>, cands: seq<string>): (r: seq<string>)
    ensures forall k :: k in r <==> k in cands && k !in prefer
    decreases |cands|
  {
    if |cands| == 0 then []
    else (if cands[0] in prefer then [] else [cands[0]]) + Extra(prefer, cands[1..])
  }

  /** The first position of `s` whose element satisfies `p`. */
  function FirstWhere<T>(p: T -> bool, s: seq<T>): (r: Option<nat>)
    ensures r.None? <==> forall i :: 0 <= i < |s| ==> !p(s[i])
    ensures r.Some? ==> r.value < |s| && p(s[r.value])
    ensures r.Some? ==> forall i :: 0 <= i < r.value ==> !p(s[i])
    decreases |s|
  {
    if |s| == 0 then None
    else if p(s[0]) then Some(0)
    else
      match FirstWhere(p, s[1..])
      case None => None
      case Some(i) => Some(i + 1)
  }

  /** Behind a prefix with no match, the first match is the first match of the rest, shifted. */
  lemma {:induction false} FirstWhereAfter<T>(p: T -> bool, a: seq<T>, b: seq<T>)
    requires forall j :: 0 <= j < |a| ==> !p(a[j])
    ensures FirstWhere(p, a + b) ==
      match FirstWhere(p, b) case None => None case Some(i) => Some(|a| + i)
    decreases |a|
  {
    if |a| == 0 {
      assert a + b == b;
    } else {
      assert (a + b)[1..] == a[1..] + b;
      FirstWhereAfter(p, a[1..], b);
    }
  }

  /** A match inside the prefix, with none before it, is the first match of the whole. */
  lemma FirstWhereWithin<T>(p: T -> bool, a: seq<T>, b: seq<T>, i: nat)
    requires i < |a| && p(a[i])
    requires forall j :: 0 <= j < i ==> !p(a[j])
    ensures FirstWhere(p, a + b) == Some(i)
  {
    assert (a + b)[i] == a[i];
    assert forall j :: 0 <= j < i ==> (a + b)[j] == a[j];
  }

  /** Behind a prefix with no match, a match in the rest makes the first match the rest's first match, shifted. */
  lemma FirstWhereBehind<T>(p: T -> bool, a: seq<T>, b: seq<T>, x: T)
    requires forall j :: 0 <= j < |a| ==> !p(a[j])
    requires x in b && p(x)
    ensures FirstWhere(p, b).Some?
    ensures FirstWhere(p, a + b) == Some(|a| + FirstWhere(p, b).value)
    ensures (a + b)[|a| + FirstWhere(p, b).value] == b[FirstWhere(p, b).value]
  {
    FirstWhereAfter(p, a, b);
  }

  /** The first key of `ks` whose column is usable. */
  function FirstUsable(cols: Cols, ks: seq<string>): (r: Option<nat>)
    ensures r.None? <==> forall i :: 0 <= i < |ks| ==> !UsableKey(cols, ks[i])
    ensures r.Some? ==> r.value < |ks| && UsableKey(cols, ks[r.value])
    ensures r.Some? ==> forall i :: 0 <= i < r.value ==> !UsableKey(cols, ks[i])
  {
    var r := FirstWhere(UsableTest(cols), ks);
    assert forall i :: 0 <= i < |ks| ==> UsableTest(cols)(ks[i]) == UsableKey(cols, ks[i]);
    r
  }

  /** `UsableKey` as a test on keys. */
  function UsableTest(cols: Cols): string -> bool {
    k => UsableKey(cols, k)
  }

  /** `FirstUsable` is `FirstWhere` with the usability test. */
  lemma FirstUsableIsFirstWhere(cols: Cols, ks: seq<string>)
    ensures FirstUsable(cols, ks) == FirstWhere(UsableTest(cols), ks)
  {
  }

  /**
   * `pick_frequency`: the first usable key of the preference list extended by
   * the frequency-like keys; failing that the first usable key of the
   * dictionary; failing that an error.
   */
  function PickFrequency(cols: Cols, prefer: seq<string>): (r: Result<string, ReadError>)
    ensures r.Err? <==> forall k :: k in Keys(cols) ==> !UsableKey(cols, k)
    ensures r.Err? ==> r.error == NoUsableFrequency
    ensures r.Ok? ==> UsableKey(cols, r.value) && r.value in Keys(cols)
  {
    var ordered := prefer + Extra(prefer, Candidates(Keys(cols)));
    match FirstUsable(cols, ordered)
    case Some(i) => Ok(ordered[i])
    case None =>
      match FirstUsable(cols, Keys(cols))
      case Some(i) => Ok(Keys(cols)[i])
      case None => Err(NoUsableFrequency)
  }

  /** When the extended preference list has a usable key, the first one is the pick. */
  lemma PickOrdered(cols: Cols, prefer: seq<string>, i: nat)
    requires FirstUsable(cols, prefer + Extra(prefer, Candidates(Keys(cols)))) == Some(i)
    ensures PickFrequency(cols, prefer) == Ok((prefer + Extra(prefer, Candidates(Keys(cols))))[i])
  {
  }

  /** The first usable name of `prefer` wins, whatever else the dictionary holds. */
  lemma PickPreferred(cols: Cols, prefer: seq<string>, i: nat)
    requires i < |prefer| && UsableKey(cols, prefer[i])
    requires forall j :: 0 <= j < i ==> !UsableKey(cols, prefer[j])
    ensures PickFrequency(cols, prefer) == Ok(prefer[i])
  {
    var extra := Extra(prefer, Candidates(Keys(cols)));
    var t := UsableTest(cols);
    assert forall j :: 0 <= j < i ==> !t(prefer[j]);
    assert t(prefer[i]);
    FirstWhereWithin(t, prefer, extra, i);
    FirstUsableIsFirstWhere(cols, prefer + extra);
    assert (prefer + extra)[i] == prefer[i];
    PickOrdered(cols, prefer, i);
  }

  /**
   * With no usable preferred name, a usable frequency-like key wins over every
   * other key: the pick is the first usable one of the frequency-like keys
   * outside `prefer`, in dictionary order.
   */
  lemma PickFrequencyLike(cols: Cols, prefer: seq<string>, k: string)
    requires forall j :: 0 <= j < |prefer| ==> !UsableKey(cols, prefer[j])
    requires k in Keys(cols) && FrequencyLike(k) && UsableKey(cols, k)
    ensures PickFrequency(cols, prefer).Ok?
    ensures FrequencyLike(PickFrequency(cols, prefer).value) && PickFrequency(cols, prefer).value !in prefer
    ensures var extra := Extra(prefer, Candidates(Keys(cols)));
      FirstWhere(UsableTest(cols), extra).Some? &&
      PickFrequency(cols, prefer) == Ok(extra[FirstWhere(UsableTest(cols), extra).value])
  {
    var extra := Extra(prefer, Candidates(Keys(cols)));
    var t := UsableTest(cols);
    assert forall j :: 0 <= j < |prefer| ==> !t(prefer[j]);
    assert k in extra && t(k);
    FirstWhereBehind(t, prefer, extra, k);
    FirstUsableIsFirstWhere(cols, prefer + extra);
    PickOrdered(cols, prefer, |prefer| + FirstWhere(t, extra).value);
    assert extra[FirstWhere(t, extra).value] in extra;
  }

  /** With no usable preferred or frequency-like key, the first usable key in dictionary order wins. */
  lemma PickFallback(cols: Cols, prefer: seq<string>)
    requires forall j :: 0 <= j < |prefer| ==> !UsableKey(cols, prefer[j])
    requires forall k :: k in Keys(cols) && FrequencyLike(k) ==> !UsableKey(cols, k)
    ensures var r := PickFrequency(cols, prefer);
      r.Ok? ==> exists i :: 0 <= i < |Keys(cols)| && Keys(cols)[i] == r.value && forall j :: 0 <= j < i ==> !UsableKey(cols, Keys(cols)[j])
  {
    var extra := Extra(prefer, Candidates(Keys(cols)));
    var ordered := prefer + extra;
    assert FirstUsable(cols, ordered).None? by {
      forall i | 0 <= i < |ordered|
        ensures !UsableKey(cols, ordered[i])
      {
        if i >= |prefer| {
          assert ordered[i] == extra[i - |prefer|];
          assert ordered[i] in extra;
        }
      }
    }
    var f := FirstUsable(cols, Keys(cols));
    if f.Some? {
      assert PickFrequency(cols, prefer) == Ok(Keys(cols)[f.value]);
    }
  }

  // ---------------------------------------------------------------------------
  // getcol and main

  /** `getcol`: the name, then each alias, each tried exactly and then ignoring case. */
  function GetCol(cols: Cols, name: string, alts: seq<string>): (r: Result<seq<Num>, ReadError>)
    ensures r.Err? <==> LookupWithAlts(Keys(cols), name, alts).None?
    ensures r.Err? ==> r.error == MissingColumn(name)
    ensures name in Keys(cols) ==> r == Ok(Get(cols, name).value)
    ensures r.Ok? ==> forall n :: Height(cols, n) ==> |r.value| == n
  {
    match LookupWithAlts(Keys(cols), name, alts)
    case None => Err(MissingColumn(name))
    case Some(k) =>
      HeightGet(cols, k);
      Ok(Get(cols, k).value)
  }

  /** The aliases `main` allows for the real and imaginary parts of A and B. */
  const ARealAlts: seq<string> := ["re:real(v(in))", "real(v(in))", "re(v(in))", "col3"]
  const AImagAlts: seq<string> := ["im:imag(v(in))", "imag(v(in))", "im(v(in))", "col4"]
  const BRealAlts: seq<string> := ["real(i(vsig))", "re(i(vsig))", "real(@vsig[i])", "re(@vsig[i])", "col5", "col7"]
  const BImagAlts: seq<string> := ["imag(i(vsig))", "im(i(vsig))", "imag(@vsig[i])", "im(@vsig[i])", "col6", "col8"]

  /** The alias lists of the four parts. */
  datatype Aliases = Aliases(ar: seq<string>, ai: seq<string>, br: seq<string>, bi: seq<string>)

  const MainAliases: Aliases := Aliases(ARealAlts, AImagAlts, BRealAlts, BImagAlts)

  /** The column arguments of the command line. */
  datatype Args = Args(fcol: string, an: string, ai: string, bn: string, bi: string)

  /**
   * `main` up to the quotient: read the file, pick the frequency column, fetch
   * the four parts and keep the rows the mask accepts (or the placeholder).
   * The result is `[f, Ar, Ai, Br, Bi]`.
   */
  function BodeData(g: FloatGrammar, lines: seq<string>, args: Args): (r: Result<seq<seq<Num>>, ReadError>)
    ensures r.Ok? ==> |r.value| == 5 && Aligned(r.value) && |r.value[0]| > 0
    ensures r.Ok? ==> forall i :: 0 <= i < |r.value[0]| ==> Valid(r.value, i)
    ensures r.Err? && r.error.MissingColumn? ==> r.error.name in [args.an, args.ai, args.bn, args.bi]
    ensures ReadQuotient(g, lines).Err? ==> r == Err(ReadQuotient(g, lines).error)
    ensures ReadQuotient(g, lines).Ok? ==> r == Select(ReadQuotient(g, lines).value, args, MainAliases)
  {
    match ReadQuotient(g, lines)
    case Err(e) => Err(e)
    case Ok(cols) => Select(cols, args, MainAliases)
  }

  /** After the read: pick the frequency column, fetch the parts, apply the mask. */
  function Select(cols: Cols, args: Args, al: Aliases): (r: Result<seq<seq<Num>>, ReadError>)
    requires exists n :: Height(cols, n)
    ensures r.Ok? ==> |r.value| == 5 && Aligned(r.value) && |r.value[0]| > 0
    ensures r.Ok? ==> forall i :: 0 <= i < |r.value[0]| ==> Valid(r.value, i)
    ensures r.Err? ==> r.error == NoUsableFrequency || (r.error.MissingColumn? && r.error.name in [args.an, args.ai, args.bn, args.bi])
    ensures PickFrequency(cols, MainPrefer(args.fcol)).Err? ==> r == Err(NoUsableFrequency)
    ensures PickFrequency(cols, MainPrefer(args.fcol)).Ok? ==>
      (r.Err? <==> Fetch(cols, PickFrequency(cols, MainPrefer(args.fcol)).value, args, al).Err?)
    ensures r.Ok? ==> PickFrequency(cols, MainPrefer(args.fcol)).Ok?
                      && Fetch(cols, PickFrequency(cols, MainPrefer(args.fcol)).value, args, al).Ok?
                      && r.value == Mask(Fetch(cols, PickFrequency(cols, MainPrefer(args.fcol)).value, args, al).value)
  {
    match PickFrequency(cols, MainPrefer(args.fcol))
    case Err(e) => Err(e)
    case Ok(kf) =>
      match Fetch(cols, kf, args, al)
      case Err(e) => Err(e)
      case Ok(raw) =>
        MaskValid(raw);
        Ok(Mask(raw))
  }

  /** `f = cols[kf]` and the four parts, as the columns of one array. */
  function Fetch(cols: Cols, kf: string, args: Args, al: Aliases): (r: Result<seq<seq<Num>>, ReadError>)
    requires kf in Keys(cols) && exists n :: Height(cols, n)
    ensures r.Ok? ==> |r.value| == 5 && Aligned(r.value) && r.value[0] == Get(cols, kf).value
    ensures r.Err? ==> r.error.MissingColumn? && r.error.name in [args.an, args.ai, args.bn, args.bi]
    ensures r.Err? <==> GetCol(cols, args.an, al.ar).Err? || GetCol(cols, args.ai, al.ai).Err?
                        || GetCol(cols, args.bn, al.br).Err? || GetCol(cols, args.bi, al.bi).Err?
    ensures GetCol(cols, args.an, al.ar).Err? ==> r == Err(MissingColumn(args.an))
    ensures GetCol(cols, args.an, al.ar).Ok? && GetCol(cols, args.ai, al.ai).Err? ==> r == Err(MissingColumn(args.ai))
    ensures r.Ok? ==> r.value == [Get(cols, kf).value, GetCol(cols, args.an, al.ar).value, GetCol(cols, args.ai, al.ai).value,
                                  GetCol(cols, args.bn, al.br).value, GetCol(cols, args.bi, al.bi).value]
  {
    var f := Get(cols, kf).value;
    var ar := GetCol(cols, args.an, al.ar);
    var ai := GetCol(cols, args.ai, al.ai);
    var br := GetCol(cols, args.bn, al.br);
    var bi := GetCol(cols, args.bi, al.bi);
    if ar.Err? then Err(ar.error)
    else if ai.Err? then Err(ai.error)
    else if br.Err? then Err(br.error)
    else if bi.Err? then Err(bi.error)
    else
      var raw := [f, ar.value, ai.value, br.value, bi.value];
      HeightGet(cols, kf);
      assert Aligned(raw) by {
        var n :| Height(cols, n);
        FiveAligned(f, ar.value, ai.value, br.value, bi.value, n);
      }
      Ok(raw)
  }

  /** Five columns of one height form one array. */
  lemma FiveAligned(a: seq<Num>, b: seq<Num>, c: seq<Num>, d: seq<Num>, e: seq<Num>, n: nat)
    requires |a| == n && |b| == n && |c| == n && |d| == n && |e| == n
    ensures Aligned([a, b, c, d, e])
  {
    var cols := [a, b, c, d, e];
    assert forall k :: 0 <= k < 5 ==> |cols[k]| == n;
  }
}

=== FILE: chain.dfy ===
/**
 * The effect chain of chain_hendrix.py: the `EFFECTS` registry and the loop in
 * `main` that applies the named effects in order, writing a normalised stem
 * after the clean input and after every effect, then the final output.
 * Audio files are modelled as a list of writes; paths are reduced to file names.
 */
module Chain {
  import opened Dsp
  import opened Wrappers
  import opened Decimal
  import Echo
  import Fuzz
  import Wah
  import Vibe
  import Shapers
  import Leslie

  /** The registry keys, in dict order. */
  const EffectNames: seq<string> := ["fuzz", "wah", "univibe", "octavia", "leslie", "tape"]

  /** The `--chain` default: every effect once, in registry order. */
  const DefaultChain: seq<string> := EffectNames

  /** `EFFECTS[name](x)`: every registry entry calls its effect with the default arguments. */
  function Apply(m: Math, name: string, x: seq<real>): (r: Result<seq<real>, Fault>)
    requires |x| > 0 && name in EffectNames
    ensures r.Ok? ==> |r.value| == |x| && forall i :: 0 <= i < |x| ==> -1.0 < r.value[i] < 1.0
    ensures WellBehaved(m) ==> r.Ok?
  {
    if name == "fuzz" then Ok(Fuzz.FuzzEffect(m, x, 8.0, 0.45))
    else if name == "wah" then
      assert WellBehaved(m) ==> Wah.WahAuto(m, x, Wah.WahDefaults).Ok? by {
        if WellBehaved(m) {
          Wah.DefaultWahDesignable(m, x);
        }
      }
      Wah.WahAuto(m, x, Wah.WahDefaults)
    else if name == "univibe" then
      assert WellBehaved(m) ==> Vibe.Univibe(m, x, Vibe.VibeDefaults).Ok? by {
        if WellBehaved(m) {
          Vibe.DefaultVibeFinite(m, x);
        }
      }
      Vibe.Univibe(m, x, Vibe.VibeDefaults)
    else if name == "octavia" then Ok(Shapers.Octavia(m, x))
    else if name == "leslie" then Ok(Leslie.LeslieEffect(m, x, Leslie.LeslieDefaults))
    else
      Echo.DelayDefaults();
      Echo.TapeEcho(x, 120.0, 0.6, 0.75)
  }

  /** What the loop needs of a registry: its keys, and the outcome of each name on a buffer. */
  datatype Registry = Registry(keys: seq<string>, apply: (string, seq<real>) -> Result<seq<real>, Fault>)

  /** `EFFECTS` for the given transcendentals. */
  function Effects(m: Math): (reg: Registry)
    ensures reg.keys == EffectNames
    ensures ShapePreserving(reg)
    ensures WellBehaved(m) ==> NeverFails(reg)
  {
    Registry(EffectNames, (name: string, x: seq<real>) => if |x| > 0 && name in EffectNames then Apply(m, name, x) else Err(EmptySignal))
  }

  /** Every successful effect keeps the length and leaves samples strictly inside (-1, 1). */
  ghost predicate ShapePreserving(reg: Registry) {
    forall name, x :: reg.apply(name, x).Ok? ==>
      (|reg.apply(name, x).value| == |x| && forall i :: 0 <= i < |x| ==> -1.0 < reg.apply(name, x).value[i] < 1.0)
  }

  /** Every registered effect succeeds on every non-empty buffer. */
  ghost predicate NeverFails(reg: Registry) {
    forall name, x :: name in reg.keys && |x| > 0 ==> reg.apply(name, x).Ok?
  }

  /**
   * One pass of the loop body: the membership test first, then the effect, which
   * fails on an empty buffer because every effect ends in `norm`.
   */
  function Step(reg: Registry, name: string, cur: seq<real>): (r: Result<seq<real>, Fault>)
    ensures name !in reg.keys ==> r == Err(UnknownEffect(name))
    ensures name in reg.keys && |cur| == 0 ==> r == Err(EmptySignal)
    ensures ShapePreserving(reg) && r.Ok? ==> |cur| > 0 && |r.value| == |cur| && forall i :: 0 <= i < |cur| ==> -1.0 < r.value[i] < 1.0
    ensures name in reg.keys && |cur| > 0 && NeverFails(reg) ==> r.Ok?
  {
    if name !in reg.keys then Err(UnknownEffect(name))
    else if |cur| == 0 then Err(EmptySignal)
    else reg.apply(name, cur)
  }

  /** The chain as a plain left fold of `Step` over the names, stopping at the first failure. */
  function Fold(reg: Registry, x: seq<real>, names: seq<string>): (r: Result<seq<real>, Fault>)
    ensures ShapePreserving(reg) && r.Ok? ==> |r.value| == |x|
    decreases |names|
  {
    if |names| == 0 then Ok(x)
    else
      match Step(reg, names[0], x)
      case Err(e) => Err(e)
      case Ok(y) => Fold(reg, y, names[1..])
  }

  /** Folding over one more name applies that name to the result so far. */
  lemma {:induction false} FoldSnoc(reg: Registry, x: seq<real>, names: seq<string>, n: string)
    ensures Fold(reg, x, names + [n]) == (match Fold(reg, x, names) case Err(e) => Err(e) case Ok(y) => Step(reg, n, y))
    decreases |names|
  {
    if |names| == 0 {
      assert [n][1..] == [];
    } else {
      assert (names + [n])[1..] == names[1..] + [n];
      assert (names + [n])[0] == names[0];
      match Step(reg, names[0], x)
      case Err(e) =>
      case Ok(y) => FoldSnoc(reg, y, names[1..], n);
    }
  }

  /** `f"{i:02d}_{ef}.wav"`. */
  function StemName(i: nat, name: string): string {
    Pad2(i) + "_" + name + ".wav"
  }

  /** The stem name keeps the 1-based position, readable back from its first characters. */
  lemma StemNamePosition(i: nat, name: string)
    requires i < 100
    ensures |StemName(i, name)| == |name| + 7
    ensures ParseNat(StemName(i, name)[..2]) == i
    ensures StemName(i, name)[2] == '_' && StemName(i, name)[3..3 + |name|] == name
  {
    assert StemName(i, name)[..2] == Pad2(i);
  }

  /** Where a write goes: a stem under `--stems`, or the `--out` file. */
  datatype File = Stem(name: string) | Out

  /** One `save_wav(path, x)`, which writes `norm(x)`. */
  datatype Write = Write(file: File, audio: seq<real>)

  /** The files written, in order, and how the run ended. */
  datatype Outcome = Outcome(writes: seq<Write>, result: Result<seq<real>, Fault>)

  /** The loop from position `i` on, writing a stem after each effect when `stems` is set. */
  function Steps(reg: Registry, cur: seq<real>, names: seq<string>, i: nat, stems: bool): (o: Outcome)
    requires ShapePreserving(reg)
    ensures o.result == Fold(reg, cur, names)
    ensures !stems ==> o.writes == []
    ensures |o.writes| <= |names|
    decreases |names|
  {
    if |names| == 0 then Outcome([], Ok(cur))
    else
      match Step(reg, names[0], cur)
      case Err(e) => Outcome([], Err(e))
      case Ok(y) =>
        var rest := Steps(reg, y, names[1..], i + 1, stems);
        var here := if stems then [Write(Stem(StemName(i, names[0])), Norm(y))] else [];
        Outcome(here + rest.writes, rest.result)
  }

  /**
   * `main` from the loaded input on: the clean stem, the loop, then the output
   * file. An empty input fails at its first `norm`.
   */
  function Run(reg: Registry, x: seq<real>, names: seq<string>, stems: bool): (o: Outcome)
    requires ShapePreserving(reg)
    ensures o.result.Ok? ==> |o.writes| > 0 && |o.result.value| > 0
    ensures o.result.Ok? ==> o.writes[|o.writes| - 1] == Write(Out, Norm(o.result.value))
  {
    if stems && |x| == 0 then Outcome([], Err(EmptySignal))
    else
      var clean := if stems then [Write(Stem("00_clean.wav"), Norm(x))] else [];
      var loop := Steps(reg, x, names, 1, stems);
      match loop.result
      case Err(e) => Outcome(clean + loop.writes, Err(e))
      case Ok(y) =>
        if |y| == 0 then Outcome(clean + loop.writes, Err(EmptySignal))
        else Outcome(clean + loop.writes + [Write(Out, Norm(y))], Ok(y))
  }

  /** On a non-empty input the run's result is exactly the left fold of the named effects. */
  lemma RunIsFold(reg: Registry, x: seq<real>, names: seq<string>, stems: bool)
    requires ShapePreserving(reg) && |x| > 0
    ensures Run(reg, x, names, stems).result == Fold(reg, x, names)
  {
  }

  /** An empty input never produces a file, and the run fails. */
  lemma EmptyInputFails(reg: Registry, names: seq<string>, stems: bool)
    requires ShapePreserving(reg)
    ensures Run(reg, [], names, stems).writes == []
    ensures Run(reg, [], names, stems).result.Err?
    ensures |names| > 0 && names[0] !in reg.keys && !stems ==>
      Run(reg, [], names, stems).result == Err(UnknownEffect(names[0]))
    ensures (|names| == 0 || names[0] in reg.keys || stems) ==>
      Run(reg, [], names, stems).result == Err(EmptySignal)
  {
  }

  /**
   * An unknown name fails only when the loop reaches it: with every earlier name
   * known, the earlier effects have run and the clean stem plus one stem per
   * earlier effect, numbered from 1, are already written; the output file is not.
   */
  lemma UnknownWhenReached(reg: Registry, x: seq<real>, names: seq<string>, k: nat)
    requires ShapePreserving(reg) && NeverFails(reg) && |x| > 0 && k < |names|
    requires forall j :: 0 <= j < k ==> names[j] in reg.keys
    requires names[k] !in reg.keys
    ensures Run(reg, x, names, true).result == Err(UnknownEffect(names[k]))
    ensures |Run(reg, x, names, true).writes| == k + 1
    ensures Run(reg, x, names, true).writes[0] == Write(Stem("00_clean.wav"), Norm(x))
    ensures forall j :: 1 <= j <= k ==> Run(reg, x, names, true).writes[j].file == Stem(StemName(j, names[j - 1]))
  {
    StepsUntilUnknown(reg, x, names, 1, k);
  }

  lemma {:induction false} StepsUntilUnknown(reg: Registry, cur: seq<real>, names: seq<string>, i: nat, k: nat)
    requires ShapePreserving(reg) && NeverFails(reg) && |cur| > 0 && k < |names|
    requires forall j :: 0 <= j < k ==> names[j] in reg.keys
    requires names[k] !in reg.keys
    ensures Steps(reg, cur, names, i, true).result == Err(UnknownEffect(names[k]))
    ensures |Steps(reg, cur, names, i, true).writes| == k
    ensures StemsFrom(Steps(reg, cur, names, i, true).writes, names, i)
    decreases k
  {
    if k > 0 {
      var y := Step(reg, names[0], cur).value;
      assert |y| > 0;
      assert names[1..][k - 1] !in reg.keys && forall j :: 0 <= j < k - 1 ==> names[1..][j] in reg.keys by {
        assert forall j :: 0 <= j < k - 1 ==> names[1..][j] == names[j + 1];
      }
      StepsUntilUnknown(reg, y, names[1..], i + 1, k - 1);
      StepsCons(reg, cur, names, i);
      ShiftedStems(Steps(reg, cur, names, i, true).writes, names, i);
      assert names[1..][k - 1] == names[k];
    } else {
      assert Step(reg, names[0], cur) == Err(UnknownEffect(names[0]));
    }
  }

  /** A successful first step writes its stem ahead of the rest of the loop. */
  lemma StepsCons(reg: Registry, cur: seq<real>, names: seq<string>, i: nat)
    requires ShapePreserving(reg) && |names| > 0 && Step(reg, names[0], cur).Ok?
    ensures var o, rest := Steps(reg, cur, names, i, true), Steps(reg, Step(reg, names[0], cur).value, names[1..], i + 1, true);
      |o.writes| == |rest.writes| + 1 && o.writes[0].file == Stem(StemName(i, names[0])) &&
      o.writes[1..] == rest.writes && o.result == rest.result
  {
    var y := Step(reg, names[0], cur).value;
    var rest := Steps(reg, y, names[1..], i + 1, true);
    assert Steps(reg, cur, names, i, true).writes == [Write(Stem(StemName(i, names[0])), Norm(y))] + rest.writes;
  }

  /** Write `j` goes to the stem of the `j`-th name, numbered from `i`. */
  predicate StemsFrom(ws: seq<Write>, names: seq<string>, i: nat) {
    |ws| <= |names| && forall j :: 0 <= j < |ws| ==> ws[j].file == Stem(StemName(i + j, names[j]))
  }

  /** The stem of position `i` followed by the stems from `i + 1` on are the stems from `i` on. */
  lemma ShiftedStems(ws: seq<Write>, names: seq<string>, i: nat)
    requires 0 < |ws| <= |names|
    requires ws[0].file == Stem(StemName(i, names[0]))
    requires StemsFrom(ws[1..], names[1..], i + 1)
    ensures StemsFrom(ws, names, i)
  {
    forall j | 0 < j < |ws|
      ensures ws[j].file == Stem(StemName(i + j, names[j]))
    {
      assert ws[1..][j - 1] == ws[j] && names[1..][j - 1] == names[j] && i + 1 + (j - 1) == i + j;
    }
  }

  /** With only known names and effects that never fail, the whole chain succeeds. */
  lemma {:induction false} KnownChainSucceeds(reg: Registry, x: seq<real>, names: seq<string>)
    requires ShapePreserving(reg) && NeverFails(reg) && |x| > 0
    requires forall j :: 0 <= j < |names| ==> names[j] in reg.keys
    ensures Fold(reg, x, names).Ok?
    ensures |names| > 0 ==> forall i :: 0 <= i < |x| ==> -1.0 < Fold(reg, x, names).value[i] < 1.0
    decreases |names|
  {
    if |names| > 0 {
      var y := Step(reg, names[0], x).value;
      KnownChainSucceeds(reg, y, names[1..]);
      if |names| == 1 {
        assert Fold(reg, y, names[1..]) == Ok(y);
      }
    }
  }

  lemma {:induction false} StepsAllKnown(reg: Registry, cur: seq<real>, names: seq<string>, i: nat)
    requires ShapePreserving(reg) && NeverFails(reg) && |cur| > 0
    requires forall j :: 0 <= j < |names| ==> names[j] in reg.keys
    ensures |Steps(reg, cur, names, i, true).writes| == |names|
    ensures StemsFrom(Steps(reg, cur, names, i, true).writes, names, i)
    decreases |names|
  {
    if |names| > 0 {
      var y := Step(reg, names[0], cur).value;
      assert |y| > 0;
      assert forall j :: 0 <= j < |names[1..]| ==> names[1..][j] in reg.keys by {
        assert forall j :: 0 <= j < |names[1..]| ==> names[1..][j] == names[j + 1];
      }
      StepsAllKnown(reg, y, names[1..], i + 1);
      StepsCons(reg, cur, names, i);
      ShiftedStems(Steps(reg, cur, names, i, true).writes, names, i);
    }
  }

  /**
   * With only known names and effects that never fail, a run with stems writes
   * the clean stem, one stem per effect numbered from 1, then the output file.
   */
  lemma KnownRunWrites(reg: Registry, x: seq<real>, names: seq<string>)
    requires ShapePreserving(reg) && NeverFails(reg) && |x| > 0
    requires forall j :: 0 <= j < |names| ==> names[j] in reg.keys
    ensures Run(reg, x, names, true).result.Ok?
    ensures |Run(reg, x, names, true).writes| == |names| + 2
    ensures Run(reg, x, names, true).writes[0].file == Stem("00_clean.wav")
    ensures forall j :: 1 <= j <= |names| ==> Run(reg, x, names, true).writes[j].file == Stem(StemName(j, names[j - 1]))
    ensures Run(reg, x, names, true).writes[|names| + 1].file == Out
  {
    KnownChainSucceeds(reg, x, names);
    StepsAllKnown(reg, x, names, 1);
  }

  /**
   * chain_hendrix.py's default run with stems writes eight files: the clean
   * stem, one stem per effect named `01_fuzz.wav` to `06_tape.wav`, then the output.
   */
  lemma DefaultRun(m: Math, x: seq<real>)
    requires WellBehaved(m) && |x| > 0
    ensures Run(Effects(m), x, DefaultChain, true).result.Ok?
    ensures |Run(Effects(m), x, DefaultChain, true).writes| == 8
    ensures Run(Effects(m), x, DefaultChain, true).writes[1].file == Stem("01_fuzz.wav")
    ensures Run(Effects(m), x, DefaultChain, true).writes[6].file == Stem("06_tape.wav")
  {
    DefaultChainWrites(Effects(m), x);
  }

  lemma DefaultChainWrites(reg: Registry, x: seq<real>)
    requires ShapePreserving(reg) && NeverFails(reg) && |x| > 0 && reg.keys == DefaultChain
    ensures Run(reg, x, DefaultChain, true).result.Ok?
    ensures |Run(reg, x, DefaultChain, true).writes| == 8
    ensures Run(reg, x, DefaultChain, true).writes[1].file == Stem("01_fuzz.wav")
    ensures Run(reg, x, DefaultChain, true).writes[6].file == Stem("06_tape.wav")
  {
    KnownRunWrites(reg, x, DefaultChain);
    var w := Run(reg, x, DefaultChain, true).writes;
    assert w[1].file == Stem(StemName(1, DefaultChain[0]));
    assert w[6].file == Stem(StemName(6, DefaultChain[5]));
    DefaultStemNames();
  }

  lemma DefaultStemNames()
    ensures StemName(1, "fuzz") == "01_fuzz.wav" && StemName(6, "tape") == "06_tape.wav"
  {
    assert Pad2(1) == "01" && Pad2(6) == "06";
  }
}

=== FILE: decimal.dfy ===
/**
 * Decimal rendering of naturals, as Python's `str(n)` and `f"{n:02d}"` produce
 * it: used for stem file names and for generated column names such as `col3`.
 */
module Decimal {

  predicate IsDigit(c: char) {
    '0' <= c <= '9'
  }

  function DigitChar(d: nat): (c: char)
    requires d < 10
    ensures IsDigit(c) && (c as int) - ('0' as int) == d
  {
    (d + '0' as int) as char
  }

  function DigitValue(c: char): (d: nat)
    requires IsDigit(c)
    ensures d < 10
  {
    (c as int) - ('0' as int)
  }

  /** `str(n)`: no leading zeros, at least one digit. */
  function NatToString(n: nat): (s: string)
    ensures |s| >= 1
    ensures forall k :: 0 <= k < |s| ==> IsDigit(s[k])
    ensures n >= 10 <==> |s| >= 2
    ensures s[0] != '0' || n == 0
    decreases n
  {
    if n < 10 then [DigitChar(n)] else NatToString(n / 10) + [DigitChar(n % 10)]
  }

  /** The value of a string of decimal digits (`int(s)` on such a string). */
  function ParseNat(s: string): nat
    requires forall k :: 0 <= k < |s| ==> IsDigit(s[k])
    decreases |s|
  {
    if |s| == 0 then 0
    else 10 * ParseNat(s[..|s| - 1]) + DigitValue(s[|s| - 1])
  }

  /** Rendering then parsing gives the number back. */
  lemma {:induction false} ParseNatToString(n: nat)
    ensures ParseNat(NatToString(n)) == n
    decreases n
  {
    var s := NatToString(n);
    if n >= 10 {
      ParseNatToString(n / 10);
      assert s[..|s| - 1] == NatToString(n / 10);
    }
  }

  /** Distinct numbers render differently. */
  lemma NatToStringInjective(a: nat, b: nat)
    requires NatToString(a) == NatToString(b)
    ensures a == b
  {
    ParseNatToString(a);
    ParseNatToString(b);
  }

  /** `f"{n:02d}"`: zero-padded to at least two digits. */
  function Pad2(n: nat): (s: string)
    ensures |s| >= 2 && (n < 100 <==> |s| == 2)
    ensures forall k :: 0 <= k < |s| ==> IsDigit(s[k])
    ensures ParseNat(s) == n
  {
    var t := NatToString(n);
    ParseNatToString(n);
    if n < 10 then
      var s := ['0'] + t;
      assert s[..|s| - 1] == ['0'];
      assert ParseNat(['0']) == 0 by {
        assert ['0'][..0] == [];
      }
      s
    else
      assert n < 100 <==> |t| == 2 by {
        TwoDigits(n);
      }
      t
  }

  lemma TwoDigits(n: nat)
    requires n >= 10
    ensures n < 100 <==> |NatToString(n)| == 2
  {
    assert NatToString(n) == NatToString(n / 10) + [DigitChar(n % 10)];
  }
}

=== FILE: dsp.dfy ===
/**
 * Samples, peak normalisation and the foreign numeric functions the effects use.
 * Samples are exact reals; numpy's float64/float32 rounding is not modelled.
 */
module Dsp {

  /** The fixed sample rate of every script (SR = 48000). */
  const SR: int := 48000

  /** The guard added to the peak before dividing (1e-12). */
  const Eps: real := 0.000000000001

  /** numpy's `np.pi`, as the double it is. */
  const Pi: real := 3.141592653589793

  /** Why an effect or the chain stops instead of returning a buffer. */
  datatype Fault =
    | EmptySignal                  // `np.max` of an empty buffer raises
    | UnknownEffect(name: string)  // a chain name missing from the registry
    | InvalidParameter(why: string)
    | ZeroDivision                 // a Python float divided by zero
    | NonFinite                    // numpy would produce inf or nan
    | IndexOutOfRange              // an index past either end of a buffer

  /**
   * The transcendental functions and the scipy band-pass the effects call, left
   * uninterpreted. `bandpass(lo, hi, p)` is the output, at the last position of the
   * prefix `p`, of the second-order Butterworth band-pass with edges `lo`..`hi` Hz
   * run over `p` from rest (scipy `sosfilt` with zero initial state is causal, so
   * each output sample is a function of the input prefix up to it).
   */
  datatype Math = Math(
    sin: real -> real,
    tanh: real -> real,
    exp: real -> real,
    pow10: real -> real,
    bandpass: (real, real, seq<real>) -> real)

  /** The ranges the real functions have; only some lemmas assume them. */
  ghost predicate WellBehaved(m: Math) {
    && (forall t :: -1.0 <= m.sin(t) <= 1.0)
    && (forall t :: 0.0 < t < Pi ==> m.sin(t) > 0.0)
    && (forall t :: -1.0 < m.tanh(t) < 1.0)
    && (forall s, t :: s < t ==> m.tanh(s) < m.tanh(t))
    && (forall t :: m.exp(t) > 0.0)
    && (forall t :: t < 0.0 ==> m.exp(t) < 1.0)
    && (forall t :: m.pow10(t) > 0.0)
  }

  function Abs(v: real): (r: real)
    ensures r >= 0.0 && (r == v || r == -v)
  {
    if v < 0.0 then -v else v
  }

  function Min(a: int, b: int): int { if a < b then a else b }

  /**
   * numpy's `clip(v, lo, hi)`, which is `minimum(maximum(v, lo), hi)`: with the
   * bounds crossed (lo > hi) every value becomes `hi`.
   */
  function Clip(v: real, lo: real, hi: real): (r: real)
    ensures r <= hi
    ensures lo <= hi ==> lo <= r
    ensures lo <= v <= hi ==> r == v
    ensures v < lo && lo <= hi ==> r == lo
    ensures v > hi ==> r == hi
    ensures lo > hi ==> r == hi
  {
    var up := if v < lo then lo else v;
    if up > hi then hi else up
  }

  /** `np.max(np.abs(x))`: the largest magnitude, attained at some index. */
  function MaxAbs(x: seq<real>): (r: real)
    requires |x| > 0
    ensures forall i :: 0 <= i < |x| ==> Abs(x[i]) <= r
    ensures exists i :: 0 <= i < |x| && Abs(x[i]) == r
    decreases |x|
  {
    if |x| == 1 then Abs(x[0])
    else
      var m := MaxAbs(x[1..]);
      assert forall i :: 1 <= i < |x| ==> x[i] == x[1..][i - 1];
      if Abs(x[0]) >= m then Abs(x[0]) else m
  }

  lemma MulLe(a: real, u: real, v: real)
    requires a >= 0.0 && u <= v
    ensures a * u <= a * v
  {
    assert a * v - a * u == a * (v - u);
  }

  /** An amplitude in [0, b] times a value in [-1, 1] stays within [-b, b]. */
  lemma UnitProduct(a: real, s: real, b: real)
    requires 0.0 <= a <= b && -1.0 <= s <= 1.0
    ensures -b <= a * s <= b
  {
    MulLe(a, s, 1.0);
    assert a * s <= a;
    MulLe(a, -1.0, s);
    assert -a <= a * s;
  }

  lemma MulLt(a: real, u: real, v: real)
    requires a > 0.0 && u < v
    ensures a * u < a * v
  {
    assert a * v - a * u == a * (v - u);
  }

  /** Every sample multiplied by `c`. */
  function Scale(c: real, x: seq<real>): (y: seq<real>)
    ensures |y| == |x|
    ensures forall i :: 0 <= i < |x| ==> y[i] == c * x[i]
  {
    seq(|x|, i requires 0 <= i < |x| => c * x[i])
  }

  /** Sample-wise sum of two buffers of one length. */
  function Add(x: seq<real>, z: seq<real>): (y: seq<real>)
    requires |x| == |z|
    ensures |y| == |x|
    ensures forall i :: 0 <= i < |x| ==> y[i] == x[i] + z[i]
  {
    seq(|x|, i requires 0 <= i < |x| => x[i] + z[i])
  }

  /** Every sample negated (used to state symmetry). */
  function Neg(x: seq<real>): (y: seq<real>)
    ensures |y| == |x|
    ensures forall i :: 0 <= i < |x| ==> y[i] == -x[i]
  {
    seq(|x|, i requires 0 <= i < |x| => -x[i])
  }

  /**
   * Peak normalisation `x / (max|x| + 1e-12)` of both scripts (chain_hendrix also
   * casts to float32, not modelled). numpy's max raises on an empty buffer, so the
   * buffer must be non-empty. The divisor exceeds every |x_i|, so every output
   * sample lies strictly inside (-1, 1); multiplying back by the divisor recovers x.
   */
  function Norm(x: seq<real>): (y: seq<real>)
    requires |x| > 0
    ensures |y| == |x|
    ensures forall i :: 0 <= i < |x| ==> -1.0 < y[i] < 1.0
    ensures Scale(Divisor(x), y) == x
  {
    var d := Divisor(x);
    var y := Scale(1.0 / d, x);
    NormFacts(x, d, y);
    y
  }

  lemma NormFacts(x: seq<real>, d: real, y: seq<real>)
    requires d > 0.0 && forall i :: 0 <= i < |x| ==> Abs(x[i]) < d
    requires y == Scale(1.0 / d, x)
    ensures forall i :: 0 <= i < |x| ==> -1.0 < y[i] < 1.0
    ensures Scale(d, y) == x
  {
    ScaledBelowOne(x, d, 1.0 / d, y);
    RoundTrip(x, d, y);
  }

  lemma ScaledBelowOne(x: seq<real>, d: real, c: real, y: seq<real>)
    requires d > 0.0 && c == 1.0 / d
    requires forall i :: 0 <= i < |x| ==> Abs(x[i]) < d
    requires |y| == |x| && forall i :: 0 <= i < |x| ==> y[i] == c * x[i]
    ensures forall i :: 0 <= i < |x| ==> -1.0 < y[i] < 1.0
  {
    forall i | 0 <= i < |x|
      ensures -1.0 < y[i] < 1.0
    {
      NormSample(x[i], d);
    }
  }

  lemma RoundTrip(x: seq<real>, d: real, y: seq<real>)
    requires d > 0.0
    requires y == Scale(1.0 / d, x)
    ensures Scale(d, y) == x
  {
    forall i | 0 <= i < |x|
      ensures Scale(d, y)[i] == x[i]
    {
      Cancel(d, x[i]);
    }
  }

  lemma Cancel(d: real, v: real)
    requires d > 0.0
    ensures d * ((1.0 / d) * v) == v
  {
  }

  /** The divisor `max|x| + 1e-12`, strictly above every sample magnitude. */
  function Divisor(x: seq<real>): (d: real)
    requires |x| > 0
    ensures d > 0.0
    ensures forall i :: 0 <= i < |x| ==> Abs(x[i]) < d
  {
    MaxAbs(x) + Eps
  }

  /** |v| < d gives |v / d| < 1. */
  lemma NormSample(v: real, d: real)
    requires Abs(v) < d
    ensures -1.0 < (1.0 / d) * v < 1.0
  {
    var q := (1.0 / d) * v;
    assert q * d == v;
    MulBelow(Abs(q), d);
  }

  /** a * d < d with d > 0 gives a < 1. */
  lemma MulBelow(a: real, d: real)
    requires d > 0.0 && a * d < d
    ensures a < 1.0
  {
    assert (a - 1.0) * d < 0.0;
  }

  /** Normalisation keeps the order of samples (it divides by a positive number). */
  lemma NormMonotone(x: seq<real>, i: nat, j: nat)
    requires |x| > 0 && i < |x| && j < |x|
    ensures x[i] <= x[j] <==> Norm(x)[i] <= Norm(x)[j]
  {
    ScaledOrder(Norm(x), Divisor(x), x, i, j);
  }

  lemma ScaledOrder(y: seq<real>, d: real, x: seq<real>, i: nat, j: nat)
    requires d > 0.0 && Scale(d, y) == x && i < |x| && j < |x|
    ensures x[i] <= x[j] <==> y[i] <= y[j]
  {
    var a, b := y[i], y[j];
    assert x[i] == d * a && x[j] == d * b;
    assert x[j] - x[i] == d * (b - a);
  }
}

=== FILE: echo.dfy ===
/**
 * The tape echo of chain_hendrix.py, hendrix_lab.py and echo_ir.py: a feedback
 * delay whose buffer is zero-filled and only written for n >= d.
 */
module Echo {
  import opened Dsp
  import opened Blocks
  import opened Wrappers

  /** Python's `int(r)` on a float: truncation toward zero. */
  function Trunc(r: real): (t: int)
    ensures r >= 0.0 ==> 0 <= t && t as real <= r < t as real + 1.0
    ensures r < 0.0 ==> t <= 0 && t as real - 1.0 < r <= t as real
  {
    if r >= 0.0 then r.Floor else -((-r).Floor)
  }

  /** `d = int(SR*delay_ms/1000.0)`: the delay in samples, truncated toward zero rather than rounded. */
  function DelaySamples(delayMs: real): (d: int)
    ensures delayMs >= 0.0 ==> d as real <= SR as real * delayMs / 1000.0 < d as real + 1.0
    ensures delayMs < 0.0 ==> d as real - 1.0 < SR as real * delayMs / 1000.0 <= d as real
    ensures d < 0 <==> SR as real * delayMs / 1000.0 <= -1.0
  {
    Trunc(SR as real * delayMs / 1000.0)
  }

  /** The default 120 ms gives 5760 samples; 1.5 samples truncates to 1, not 2, and -1.5 to -1. */
  lemma DelayDefaults()
    ensures DelaySamples(120.0) == 5760
    ensures DelaySamples(0.03125) == 1
    ensures DelaySamples(-0.03125) == -1
  {
  }

  /** Whether sample n receives feedback: the buffer slot n-d was written (n-d >= d) before n. */
  predicate Echoes(n: nat, d: nat) {
    d > 0 && n >= 2 * d
  }

  /** Sample n of the un-normalised echo, by recursion on the feedback path. */
  function EchoAt(x: seq<real>, d: nat, fb: real, hf: real, n: nat): real
    requires n < |x|
    decreases n
  {
    if Echoes(n, d) then x[n] + fb * (hf * EchoAt(x, d, fb, hf, n - d)) else x[n]
  }

  /**
   * The un-normalised echo (echo_ir.py `tape_echo`). Samples below 2d are the input
   * unchanged, because `buf[0..d)` is never written and `buf[n]` for n in [d, 2d)
   * is read only after its slot is zero; later samples add `feedback*hf_loss` times
   * the output d samples back.
   */
  function EchoRaw(x: seq<real>, d: nat, fb: real, hf: real): (y: seq<real>)
    ensures |y| == |x|
    ensures forall n :: 0 <= n < |x| && !Echoes(n, d) ==> y[n] == x[n]
    ensures forall n, m {:trigger y[n], y[m]} :: 0 <= m && n == m + d && n < |x| && Echoes(n, d) ==>
      y[n] == x[n] + fb * (hf * y[m])
  {
    seq(|x|, n requires 0 <= n < |x| => EchoAt(x, d, fb, hf, n))
  }

  /** With no feedback (or total loss) the echo is the identity. */
  lemma NoFeedbackIdentity(x: seq<real>, d: nat, fb: real, hf: real)
    ensures fb == 0.0 || hf == 0.0 ==> EchoRaw(x, d, fb, hf) == x
  {
    var y := EchoRaw(x, d, fb, hf);
    forall n | 0 <= n < |x| && (fb == 0.0 || hf == 0.0)
      ensures y[n] == x[n]
    {
      if Echoes(n, d) {
        assert y[n] == x[n] + fb * (hf * y[n - d]);
      }
    }
  }

  /**
   * The source loop over `n in range(d, len(x))`, with the explicit zero-filled
   * buffer; it computes `EchoRaw`.
   */
  method TapeEchoLoop(x: seq<real>, d: nat, fb: real, hf: real) returns (y: seq<real>)
    ensures y == EchoRaw(x, d, fb, hf)
  {
    y := x;
    var buf := seq(|x|, _ => 0.0);
    var n := d;
    while n < |x|
      invariant d <= n
      invariant |y| == |x| && |buf| == |x|
      invariant forall k :: 0 <= k < |x| && (k < d || k >= n) ==> y[k] == x[k]
      invariant forall k :: d <= k < n && k < |x| ==> y[k] == EchoAt(x, d, fb, hf, k)
      invariant forall k :: 0 <= k < |x| ==> buf[k] == (if d <= k < n then y[k] else 0.0)
    {
      var prev := hf * buf[n - d];
      y := y[n := y[n] + fb * prev];
      buf := buf[n := y[n]];
      n := n + 1;
    }
  }

  /**
   * chain_hendrix.py / hendrix_lab.py `tape_echo`: the echo, then peak
   * normalisation. A negative delay starts the loop at a negative `n`, and the
   * read `buf[n-d]` runs past the end by the last sample at the latest, so it
   * always raises `IndexError`; an empty buffer reaches `norm`, which raises.
   */
  function TapeEcho(x: seq<real>, delayMs: real, fb: real, hf: real): (r: Result<seq<real>, Fault>)
    ensures r.Err? <==> DelaySamples(delayMs) < 0 || |x| == 0
    ensures DelaySamples(delayMs) < 0 ==> r == Err(IndexOutOfRange)
    ensures DelaySamples(delayMs) >= 0 && |x| == 0 ==> r == Err(EmptySignal)
    ensures r.Ok? ==> |r.value| == |x| && forall n :: 0 <= n < |x| ==> -1.0 < r.value[n] < 1.0
    ensures r.Ok? && fb == 0.0 ==> r.value == Norm(x)
  {
    var d := DelaySamples(delayMs);
    if d < 0 then Err(IndexOutOfRange)
    else if |x| == 0 then Err(EmptySignal)
    else
      NoFeedbackIdentity(x, d, fb, hf);
      Ok(Norm(EchoRaw(x, d, fb, hf)))
  }

  /** The unit impulse of echo_ir.py: `x = zeros(N); x[0] = 1`. */
  function Impulse(len: nat): (x: seq<real>)
    requires len >= 1
    ensures |x| == len && x[0] == 1.0
    ensures forall n :: 1 <= n < len ==> x[n] == 0.0
  {
    [1.0] + seq(len - 1, _ => 0.0)
  }

  /**
   * Input that is silent from sample d on is never echoed: everything it holds
   * lies in the prefix whose buffer slots are never written.
   */
  lemma {:induction false} SilentTailUnchanged(x: seq<real>, d: nat, fb: real, hf: real)
    requires forall n :: d <= n < |x| ==> x[n] == 0.0
    ensures EchoRaw(x, d, fb, hf) == x
  {
    var y := EchoRaw(x, d, fb, hf);
    SilentTailUpTo(x, d, fb, hf, |x|);
    assert forall n :: 0 <= n < |x| ==> y[n] == x[n];
  }

  lemma {:induction false} SilentTailUpTo(x: seq<real>, d: nat, fb: real, hf: real, m: nat)
    requires forall n :: d <= n < |x| ==> x[n] == 0.0
    requires m <= |x|
    ensures forall n :: 0 <= n < m ==> EchoRaw(x, d, fb, hf)[n] == x[n]
    decreases m
  {
    if m > 0 {
      SilentTailUpTo(x, d, fb, hf, m - 1);
      var y := EchoRaw(x, d, fb, hf);
      var n := m - 1;
      if Echoes(n, d) {
        assert y[n - d] == x[n - d] == 0.0;
        assert y[n] == x[n] + fb * (hf * 0.0);
      }
    }
  }

  /**
   * echo_ir.py's "impulse response": the impulse sits at sample 0, inside the
   * never-fed-back prefix, so the computed response is the impulse itself and no
   * echo train appears, whatever the delay, feedback and loss.
   */
  lemma ImpulseResponseIsImpulse(len: nat, d: nat, fb: real, hf: real)
    requires len >= 1
    ensures EchoRaw(Impulse(len), d, fb, hf) == Impulse(len)
  {
    if d == 0 {
      var x := Impulse(len);
      assert forall n :: 0 <= n < len ==> !Echoes(n, d);
      assert EchoRaw(x, d, fb, hf) == x;
    } else {
      SilentTailUnchanged(Impulse(len), d, fb, hf);
    }
  }

  /**
   * echo_ir.py `main`: `N = int(SR*dur)` samples. A negative `N` makes
   * `np.zeros` raise, `N == 0` makes `x[0] = 1.0` raise, and a negative delay
   * makes `tape_echo` raise; otherwise the response to the unit impulse.
   */
  function ImpulseResponse(durS: real, delayMs: real, fb: real, hf: real): (r: Result<seq<real>, Fault>)
    ensures r.Ok? <==> Trunc(SR as real * durS) >= 1 && DelaySamples(delayMs) >= 0
    ensures Trunc(SR as real * durS) < 0 ==> r.Err? && r.error.InvalidParameter?
    ensures Trunc(SR as real * durS) == 0 ==> r == Err(IndexOutOfRange)
    ensures r.Ok? ==> |r.value| == Trunc(SR as real * durS) && r.value == Impulse(|r.value|)
  {
    var n := Trunc(SR as real * durS);
    var d := DelaySamples(delayMs);
    if n < 0 then Err(InvalidParameter("negative dimensions are not allowed"))
    else if n == 0 then Err(IndexOutOfRange)
    else if d < 0 then Err(IndexOutOfRange)
    else
      ImpulseResponseIsImpulse(n, d, fb, hf);
      Ok(EchoRaw(Impulse(n), d, fb, hf))
  }

  /** Over the reals the echo is linear: echo(a*x1 + x2) = a*echo(x1) + echo(x2). */
  lemma EchoLinear(x1: seq<real>, x2: seq<real>, a: real, d: nat, fb: real, hf: real)
    requires |x1| == |x2|
    ensures EchoRaw(Add(Scale(a, x1), x2), d, fb, hf)
         == Add(Scale(a, EchoRaw(x1, d, fb, hf)), EchoRaw(x2, d, fb, hf))
  {
    var ax1 := Scale(a, x1);
    var y, y1, y2 := EchoRaw(Add(ax1, x2), d, fb, hf), EchoRaw(x1, d, fb, hf), EchoRaw(x2, d, fb, hf);
    forall n | 0 <= n < |x1|
      ensures y[n] == a * y1[n] + y2[n]
    {
      EchoAtAdditive(ax1, x2, d, fb, hf, n);
      EchoAtHomogeneous(x1, a, d, fb, hf, n);
    }
    ScaleAddOf(a, y, y1, y2);
  }

  /** A buffer equal sample by sample to `a*y1 + y2` is that buffer. */
  lemma ScaleAddOf(a: real, y: seq<real>, y1: seq<real>, y2: seq<real>)
    requires |y| == |y1| == |y2|
    requires forall n :: 0 <= n < |y| ==> y[n] == a * y1[n] + y2[n]
    ensures y == Add(Scale(a, y1), y2)
  {
  }

  /** The echo of a sum is the sum of the echoes, sample by sample. */
  lemma {:induction false} EchoAtAdditive(x1: seq<real>, x2: seq<real>, d: nat, fb: real, hf: real, n: nat)
    requires |x1| == |x2| && n < |x1|
    ensures EchoAt(Add(x1, x2), d, fb, hf, n) == EchoAt(x1, d, fb, hf, n) + EchoAt(x2, d, fb, hf, n)
    decreases n
  {
    var x := Add(x1, x2);
    assert x[n] == x1[n] + x2[n];
    if Echoes(n, d) {
      EchoAtAdditive(x1, x2, d, fb, hf, n - d);
      SumStep(fb, hf, x1[n], x2[n], EchoAt(x1, d, fb, hf, n - d), EchoAt(x2, d, fb, hf, n - d));
    }
  }

  /** The echo of a scaled input is the scaled echo, sample by sample. */
  lemma {:induction false} EchoAtHomogeneous(x: seq<real>, a: real, d: nat, fb: real, hf: real, n: nat)
    requires n < |x|
    ensures EchoAt(Scale(a, x), d, fb, hf, n) == a * EchoAt(x, d, fb, hf, n)
    decreases n
  {
    var ax := Scale(a, x);
    assert ax[n] == a * x[n];
    if Echoes(n, d) {
      EchoAtHomogeneous(x, a, d, fb, hf, n - d);
      ScaleStep(a, fb, hf, x[n], EchoAt(x, d, fb, hf, n - d));
    }
  }

  lemma SumStep(fb: real, hf: real, u1: real, u2: real, v1: real, v2: real)
    ensures (u1 + u2) + fb * (hf * (v1 + v2)) == (u1 + fb * (hf * v1)) + (u2 + fb * (hf * v2))
  {
  }

  lemma ScaleStep(a: real, fb: real, hf: real, u: real, v: real)
    ensures a * u + fb * (hf * (a * v)) == a * (u + fb * (hf * v))
  {
  }

  // ---------------------------------------------------------------------------
  // The delay line as evidently intended: fed from the first sample on.

  function EchoFedAt(x: seq<real>, d: nat, fb: real, hf: real, n: nat): real
    requires n < |x|
    decreases n
  {
    if 0 < d <= n then x[n] + fb * (hf * EchoFedAt(x, d, fb, hf, n - d)) else x[n]
  }

  /**
   * The echo with `buf[n] = y[n]` for every n, so that every sample is fed back
   * after d samples: y[n] = x[n] + feedback*hf_loss*y[n-d] for all n >= d.
   */
  function EchoFed(x: seq<real>, d: nat, fb: real, hf: real): (y: seq<real>)
    ensures |y| == |x|
    ensures forall n :: 0 <= n < |x| && (d == 0 || n < d) ==> y[n] == x[n]
    ensures forall n, m {:trigger y[n], y[m]} :: 0 <= m && n == m + d && 0 < d && n < |x| ==>
      y[n] == x[n] + fb * (hf * y[m])
  {
    seq(|x|, n requires 0 <= n < |x| => EchoFedAt(x, d, fb, hf, n))
  }

  function Pow(g: real, k: nat): real {
    if k == 0 then 1.0 else g * Pow(g, k - 1)
  }

  /**
   * The fed delay line turns the unit impulse into a decaying echo train, the
   * response echo_ir.py's plot title "Tape Echo Impulse Response" (echo_ir.py:31)
   * announces: (feedback*hf_loss)^k at every multiple k*d of the delay, zero elsewhere.
   */
  lemma {:induction false} FedImpulseTrain(len: nat, d: nat, fb: real, hf: real)
    requires len >= 1 && d >= 1
    ensures forall n :: 0 <= n < len ==>
      EchoFed(Impulse(len), d, fb, hf)[n] == (if n % d == 0 then Pow(fb * hf, n / d) else 0.0)
  {
    FedImpulseUpTo(len, d, fb, hf, len);
  }

  lemma {:induction false} FedImpulseUpTo(len: nat, d: nat, fb: real, hf: real, m: nat)
    requires len >= 1 && d >= 1 && m <= len
    ensures forall n :: 0 <= n < m ==>
      EchoFed(Impulse(len), d, fb, hf)[n] == (if n % d == 0 then Pow(fb * hf, n / d) else 0.0)
    decreases m
  {
    if m > 0 {
      FedImpulseUpTo(len, d, fb, hf, m - 1);
      FedImpulseAt(len, d, fb, hf, m - 1);
    }
  }

  /** One sample of the fed impulse response, given the sample one delay earlier. */
  lemma FedImpulseAt(len: nat, d: nat, fb: real, hf: real, n: nat)
    requires len >= 1 && d >= 1 && n < len
    requires n >= d ==> (EchoFed(Impulse(len), d, fb, hf)[n - d] ==
      if (n - d) % d == 0 then Pow(fb * hf, (n - d) / d) else 0.0)
    ensures EchoFed(Impulse(len), d, fb, hf)[n] == (if n % d == 0 then Pow(fb * hf, n / d) else 0.0)
  {
    var y := EchoFed(Impulse(len), d, fb, hf);
    if n < d {
      DivUnique(n, d, 0, n);
    } else {
      FedStep(Impulse(len), d, fb, hf, n);
      TrainStep(d, fb, hf, n, y[n - d], y[n]);
    }
  }

  /** The impulse train one delay later: the gain times the value one delay earlier. */
  lemma TrainStep(d: nat, fb: real, hf: real, n: nat, prev: real, cur: real)
    requires 1 <= d <= n
    requires prev == (if (n - d) % d == 0 then Pow(fb * hf, (n - d) / d) else 0.0)
    requires cur == 0.0 + fb * (hf * prev)
    ensures cur == (if n % d == 0 then Pow(fb * hf, n / d) else 0.0)
  {
    var q, r := (n - d) / d, (n - d) % d;
    DivUnique(n, d, q + 1, r);
    if r == 0 {
      PowStep(fb, hf, q, prev);
    }
  }

  /** From sample `d` on, the fed line adds the scaled sample one delay earlier. */
  lemma FedStep(x: seq<real>, d: nat, fb: real, hf: real, n: nat)
    requires 0 < d <= n < |x|
    ensures EchoFed(x, d, fb, hf)[n] == x[n] + fb * (hf * EchoFed(x, d, fb, hf)[n - d])
  {
  }

  /** Scaling the `q`-th power of the loop gain by the gain gives the next power. */
  lemma PowStep(fb: real, hf: real, q: nat, p: real)
    requires p == Pow(fb * hf, q)
    ensures fb * (hf * p) == Pow(fb * hf, q + 1)
  {
  }

  /**
   * The discrepancy, on the default settings: the as-written loop leaves the
   * impulse untouched, so sample d of the response is 0, where the fed delay line
   * gives feedback*hf_loss = 0.45.
   */
  lemma ImpulseEchoMissing(len: nat)
    requires len > 5760
    ensures EchoRaw(Impulse(len), 5760, 0.6, 0.75)[5760] == 0.0
    ensures EchoFed(Impulse(len), 5760, 0.6, 0.75)[5760] == 0.45
  {
    ImpulseResponseIsImpulse(len, 5760, 0.6, 0.75);
    FedImpulseTrain(len, 5760, 0.6, 0.75);
    DivUnique(5760, 5760, 1, 0);
  }
}

=== FILE: floatops.dfy ===
/**
 * Python float arithmetic on `Numbers.Num`: NaN propagates, infinities absorb
 * finite values, and the indeterminate forms give NaN. Finite results are
 * exact reals: rounding, overflow and the sign of zero are not modelled.
 */
module FloatOps {
  import opened Numbers

  function Neg(a: Num): (r: Num)
    ensures r.Fin? <==> a.Fin?
    ensures a.Fin? ==> r.r == -a.r
    ensures r.NaN? <==> a.NaN?
  {
    match a
    case Fin(x) => Fin(-x)
    case NaN => NaN
    case Inf(neg) => Inf(!neg)
  }

  /** `a + b`; `inf + -inf` is NaN. */
  function Add(a: Num, b: Num): (r: Num)
    ensures r.Fin? <==> a.Fin? && b.Fin?
    ensures r.Fin? ==> r.r == a.r + b.r
    ensures a.NaN? || b.NaN? ==> r.NaN?
  {
    match (a, b)
    case (Fin(x), Fin(y)) => Fin(x + y)
    case (Inf(s), Inf(t)) => if s == t then a else NaN
    case (Inf(_), Fin(_)) => a
    case (Fin(_), Inf(_)) => b
    case _ => NaN
  }

  /** `a - b`. */
  function Sub(a: Num, b: Num): (r: Num)
    ensures r.Fin? <==> a.Fin? && b.Fin?
    ensures r.Fin? ==> r.r == a.r - b.r
    ensures a.NaN? || b.NaN? ==> r.NaN?
  {
    Add(a, Neg(b))
  }

  /** The sign bit of a non-NaN value; zero counts as positive. */
  function Negative(a: Num): bool
    requires !a.NaN?
  {
    if a.Fin? then a.r < 0.0 else a.neg
  }

  /** `a * b`; an infinity times zero is NaN. */
  function Mul(a: Num, b: Num): (r: Num)
    ensures r.Fin? <==> a.Fin? && b.Fin?
    ensures r.Fin? ==> r.r == a.r * b.r
    ensures a.NaN? || b.NaN? ==> r.NaN?
  {
    if a.NaN? || b.NaN? then NaN
    else if a.Fin? && b.Fin? then Fin(a.r * b.r)
    else if a == Fin(0.0) || b == Fin(0.0) then NaN
    else Inf(Negative(a) != Negative(b))
  }

  /**
   * numpy's `a / b` on float64 scalars: dividing a non-zero value by zero gives
   * an infinity, `0 / 0` and `inf / inf` give NaN, a finite value over an
   * infinity gives zero.
   */
  function Div(a: Num, b: Num): (r: Num)
    ensures a.Fin? && b.Fin? && b.r != 0.0 ==> r == Fin(a.r / b.r)
    ensures a.NaN? || b.NaN? ==> r.NaN?
    ensures a.Fin? && b.Inf? ==> r == Fin(0.0)
    ensures b == Fin(0.0) && a.Fin? && a.r != 0.0 ==> r.Inf?
  {
    if a.NaN? || b.NaN? then NaN
    else if a.Fin? && b.Fin? then
      if b.r != 0.0 then Fin(a.r / b.r)
      else if a.r == 0.0 then NaN
      else Inf(a.r < 0.0)
    else if a.Fin? then Fin(0.0)
    else if b.Inf? then NaN
    else Inf(Negative(a) != Negative(b))
  }

  /** `a > b`: false whenever either side is NaN. */
  predicate Gt(a: Num, b: Num) {
    !a.NaN? && !b.NaN? && (Rank(b) < Rank(a) || (a.Fin? && b.Fin? && a.r > b.r))
  }

  /** Python's built-in `max(a, b)`: `b` only when `b > a`, so a NaN first argument wins. */
  function Max(a: Num, b: Num): (r: Num)
    ensures r == a || r == b
    ensures !Gt(b, r)
    ensures a.NaN? ==> r.NaN?
  {
    if Gt(b, a) then b else a
  }

  /** On two non-NaN values `>` is the strict form of the sort order. */
  lemma GtIsLess(a: Num, b: Num)
    requires !a.NaN? && !b.NaN?
    ensures Gt(a, b) <==> !NumLe(a, b)
  {
  }
}

=== FILE: fuzz.dfy ===
/**
 * The fuzz of chain_hendrix.py (`lp_pre_emphasis`, `fuzz`) and its older copy in
 * hendrix_lab.py (`fuzz_face_like`): a one-pole low-pass, then a mix of a soft
 * (tanh) and a hard (clip at 0.6) saturation, then peak normalisation.
 */
module Fuzz {
  import opened Dsp

  /** Sample n of the one-pole recurrence, by recursion on n. */
  function OnePoleAt(x: seq<real>, alpha: real, n: nat): real
    requires n < |x|
    decreases n
  {
    if n == 0 then x[0] else alpha * OnePoleAt(x, alpha, n - 1) + (1.0 - alpha) * x[n]
  }

  /**
   * The one-pole low-pass from `y = copy(x)`: the first sample passes through and
   * every later one is `alpha*y[n-1] + (1-alpha)*x[n]`.
   */
  function OnePole(x: seq<real>, alpha: real): (y: seq<real>)
    ensures |y| == |x|
    ensures |x| > 0 ==> y[0] == x[0]
    ensures forall n, m {:trigger y[n], y[m]} :: 0 <= m && n == m + 1 && n < |x| ==>
      y[n] == alpha * y[m] + (1.0 - alpha) * x[n]
  {
    seq(|x|, n requires 0 <= n < |x| => OnePoleAt(x, alpha, n))
  }

  /** The in-place loop `for n in range(1, len(y))` of `lp_pre_emphasis`. */
  method OnePoleLoop(x: seq<real>, alpha: real) returns (y: seq<real>)
    ensures y == OnePole(x, alpha)
  {
    y := x;
    var n := 1;
    while n < |y|
      invariant |y| == |x| && 1 <= n
      invariant forall k :: 0 <= k < n && k < |x| ==> y[k] == OnePoleAt(x, alpha, k)
      invariant forall k :: n <= k < |x| ==> y[k] == x[k]
    {
      assert alpha * y[n - 1] + (1.0 - alpha) * x[n] == OnePoleAt(x, alpha, n);
      y := y[n := alpha * y[n - 1] + (1.0 - alpha) * x[n]];
      n := n + 1;
    }
    OnePoleOf(x, alpha, y);
  }

  /** A buffer holding the recurrence's value at every sample is the low-pass output. */
  lemma OnePoleOf(x: seq<real>, alpha: real, y: seq<real>)
    requires |y| == |x| && forall k :: 0 <= k < |x| ==> y[k] == OnePoleAt(x, alpha, k)
    ensures y == OnePole(x, alpha)
  {
  }

  /**
   * The low-pass never leaves the range of its input: with `0 <= alpha <= 1`
   * every output is a convex combination of input samples.
   */
  lemma {:induction false} OnePoleBounded(x: seq<real>, alpha: real, b: real)
    requires 0.0 <= alpha <= 1.0
    requires forall i :: 0 <= i < |x| ==> -b <= x[i] <= b
    ensures forall n :: 0 <= n < |x| ==> -b <= OnePole(x, alpha)[n] <= b
  {
    forall n | 0 <= n < |x|
      ensures -b <= OnePole(x, alpha)[n] <= b
    {
      OnePoleAtBounded(x, alpha, b, n);
    }
  }

  lemma {:induction false} OnePoleAtBounded(x: seq<real>, alpha: real, b: real, n: nat)
    requires 0.0 <= alpha <= 1.0 && n < |x|
    requires forall i :: 0 <= i < |x| ==> -b <= x[i] <= b
    ensures -b <= OnePoleAt(x, alpha, n) <= b
    decreases n
  {
    if n > 0 {
      OnePoleAtBounded(x, alpha, b, n - 1);
      Convex(alpha, OnePoleAt(x, alpha, n - 1), x[n], b);
    }
  }

  lemma Convex(a: real, u: real, v: real, b: real)
    requires 0.0 <= a <= 1.0 && -b <= u <= b && -b <= v <= b
    ensures -b <= a * u + (1.0 - a) * v <= b
  {
    var w := 1.0 - a;
    var p, q := a * u, w * v;
    assert -(a * b) <= p <= a * b by { MulLe(a, u, b); MulLe(a, -b, u); }
    assert -(w * b) <= q <= w * b by { MulLe(w, v, b); MulLe(w, -b, v); }
    assert a * b + w * b == b;
  }

  /** A constant input is a fixed point of the low-pass (unity gain at DC). */
  lemma {:induction false} OnePoleConstant(x: seq<real>, alpha: real, c: real)
    requires forall i :: 0 <= i < |x| ==> x[i] == c
    ensures OnePole(x, alpha) == x
  {
    forall n | 0 <= n < |x|
      ensures OnePole(x, alpha)[n] == x[n]
    {
      OnePoleAtConstant(x, alpha, c, n);
    }
  }

  lemma {:induction false} OnePoleAtConstant(x: seq<real>, alpha: real, c: real, n: nat)
    requires forall i :: 0 <= i < |x| ==> x[i] == c
    requires n < |x|
    ensures OnePoleAt(x, alpha, n) == c
    decreases n
  {
    if n > 0 {
      OnePoleAtConstant(x, alpha, c, n - 1);
      assert OnePoleAt(x, alpha, n) == alpha * c + (1.0 - alpha) * c;
    }
  }

  /**
   * `rc = 1/(2*pi*fc); alpha = exp(-1/(SR*rc))`, which is `exp(-2*pi*fc/SR)`; for a
   * positive cut-off the pole lies strictly between 0 and 1.
   */
  function PreEmphasisAlpha(m: Math, fc: real): (alpha: real)
    requires fc != 0.0
    ensures alpha == m.exp(-(2.0 * Pi * fc / SR as real))
    ensures WellBehaved(m) && fc > 0.0 ==> 0.0 < alpha < 1.0
  {
    var rc := 1.0 / (2.0 * Pi * fc);
    RecipOfRecip(SR as real, 2.0 * Pi * fc);
    assert -1.0 / (SR as real * rc) == -(2.0 * Pi * fc / SR as real);
    m.exp(-1.0 / (SR as real * rc))
  }

  lemma RecipOfRecip(k: real, c: real)
    requires k != 0.0 && c != 0.0
    ensures 1.0 / (k * (1.0 / c)) == c / k
  {
    var r := 1.0 / c;
    var p := k * r;
    assert r * c == 1.0;
    assert (c / k) * k == c;
    assert (c / k) * p == ((c / k) * k) * r;
    assert (c / k) * p == 1.0;
    assert p != 0.0;
  }

  /**
   * `lp_pre_emphasis(x, fc)`: for a positive cut-off the output stays within the
   * input's peak magnitude.
   */
  function PreEmphasis(m: Math, x: seq<real>, fc: real): (y: seq<real>)
    requires fc != 0.0
    ensures |y| == |x|
    ensures WellBehaved(m) && fc > 0.0 && |x| > 0 ==>
      forall n :: 0 <= n < |x| ==> -MaxAbs(x) <= y[n] <= MaxAbs(x)
  {
    PreEmphasisBounded(m, x, fc);
    OnePole(x, PreEmphasisAlpha(m, fc))
  }

  lemma PreEmphasisBounded(m: Math, x: seq<real>, fc: real)
    requires fc != 0.0
    ensures WellBehaved(m) && fc > 0.0 && |x| > 0 ==>
      forall n :: 0 <= n < |x| ==> -MaxAbs(x) <= OnePole(x, PreEmphasisAlpha(m, fc))[n] <= MaxAbs(x)
  {
    if WellBehaved(m) && fc > 0.0 && |x| > 0 {
      OnePoleBounded(x, PreEmphasisAlpha(m, fc), MaxAbs(x));
    }
  }

  /** One sample of the saturator: `dry*tanh(drive*v) + wet*clip(drive*v, -0.6, 0.6)`. */
  function Saturate(m: Math, v: real, drive: real, dry: real, wet: real): real {
    dry * m.tanh(drive * v) + wet * Clip(drive * v, -0.6, 0.6)
  }

  /** The saturator over a buffer, before normalisation; it works sample by sample. */
  function Shape(m: Math, y: seq<real>, drive: real, dry: real, wet: real): (z: seq<real>)
    ensures |z| == |y|
    ensures forall i :: 0 <= i < |y| ==> z[i] == Saturate(m, y[i], drive, dry, wet)
  {
    seq(|y|, i requires 0 <= i < |y| => Saturate(m, y[i], drive, dry, wet))
  }

  /**
   * At the default mix (0.55 soft, 0.45 hard) the soft part is bounded by tanh and
   * the hard part is clipped at 0.6, so before normalisation every shaped sample
   * lies strictly inside (-0.82, 0.82), whatever the drive.
   */
  lemma DefaultShapeBounded(m: Math, y: seq<real>, drive: real)
    requires WellBehaved(m)
    ensures forall i :: 0 <= i < |y| ==> -0.82 < Shape(m, y, drive, 0.55, 0.45)[i] < 0.82
  {
  }

  /** chain_hendrix.py `fuzz(x, drive, hard)`: pre-emphasis at 3.5 kHz, saturate, normalise. */
  function FuzzEffect(m: Math, x: seq<real>, drive: real, hard: real): (y: seq<real>)
    requires |x| > 0
    ensures |y| == |x|
    ensures forall i :: 0 <= i < |x| ==> -1.0 < y[i] < 1.0
  {
    Norm(Shape(m, PreEmphasis(m, x, 3500.0), drive, 1.0 - hard, hard))
  }

  /**
   * hendrix_lab.py `fuzz_face_like`, written with its own constants: the inline
   * 3.5 kHz low-pass, gain 8, and the fixed 0.55/0.45 mix.
   */
  function FuzzFaceLike(m: Math, x: seq<real>): (y: seq<real>)
    requires |x| > 0
    ensures |y| == |x|
  {
    var rc := 1.0 / (2.0 * Pi * 3500.0);
    var alpha := m.exp(-1.0 / (SR as real * rc));
    var y := OnePole(x, alpha);
    Norm(seq(|x|, i requires 0 <= i < |x| =>
      0.55 * m.tanh(8.0 * y[i]) + 0.45 * Clip(8.0 * y[i], -0.6, 0.6)))
  }

  /** The older Fuzz Face copy is the chain's fuzz at its defaults (drive 8, hard 0.45). */
  lemma FuzzFaceLikeIsFuzz(m: Math, x: seq<real>)
    requires |x| > 0
    ensures FuzzFaceLike(m, x) == FuzzEffect(m, x, 8.0, 0.45)
  {
    var y := PreEmphasis(m, x, 3500.0);
    var rc := 1.0 / (2.0 * Pi * 3500.0);
    assert y == OnePole(x, m.exp(-1.0 / (SR as real * rc)));
    var inner := seq(|x|, i requires 0 <= i < |x| =>
      0.55 * m.tanh(8.0 * y[i]) + 0.45 * Clip(8.0 * y[i], -0.6, 0.6));
    assert inner == Shape(m, y, 8.0, 1.0 - 0.45, 0.45);
  }
}

=== FILE: leslie.dfy ===
/**
 * The rotary-speaker effect of chain_hendrix.py (`leslie`): a 330 Hz sine
 * carrier with amplitude and phase modulation, mixed 0.6/0.4 with the dry input.
 * The carrier never depends on the input.
 */
module Leslie {
  import opened Dsp

  /** `leslie`'s keyword arguments. */
  datatype LeslieParams = LeslieParams(rate: real, dev: real, amDepth: real)

  /** The defaults the chain registry uses. */
  const LeslieDefaults: LeslieParams := LeslieParams(5.5, 3.0, 0.5)

  /** The carrier frequency `fc = 330.0`. */
  const Carrier: real := 330.0

  /** `t[i] = i/SR`. */
  function Time(i: nat): real {
    i as real / SR as real
  }

  /** `sin(2π·rate·t)`, the rotor position shared by the AM and FM terms. */
  function Rotor(m: Math, p: LeslieParams, i: nat): real {
    m.sin(2.0 * Pi * p.rate * Time(i))
  }

  /** `am[i] = 1 + am_depth·sin(2π·rate·t)`. */
  function Am(m: Math, p: LeslieParams, i: nat): (a: real)
    ensures WellBehaved(m) && 0.0 <= p.amDepth <= 1.0 ==> 1.0 - p.amDepth <= a <= 1.0 + p.amDepth
  {
    var r := Rotor(m, p, i);
    assert WellBehaved(m) && 0.0 <= p.amDepth <= 1.0 ==> 1.0 - p.amDepth <= 1.0 + p.amDepth * r <= 1.0 + p.amDepth by {
      if WellBehaved(m) && 0.0 <= p.amDepth <= 1.0 {
        assert -1.0 <= r <= 1.0;
        MulLe(p.amDepth, -1.0, r);
        MulLe(p.amDepth, r, 1.0);
      }
    }
    1.0 + p.amDepth * r
  }

  /** `fm`: the frequency deviation `dev·sin(2π·rate·t)` at every sample of an `n`-sample buffer. */
  function Fm(m: Math, p: LeslieParams, n: nat): (f: seq<real>)
    ensures |f| == n
    ensures forall i :: 0 <= i < n ==> f[i] == p.dev * Rotor(m, p, i)
  {
    seq(n, i requires 0 <= i < n => p.dev * Rotor(m, p, i))
  }

  /** `s[0] + ... + s[i]`. */
  function PrefixSum(s: seq<real>, i: nat): real
    requires i < |s|
  {
    if i == 0 then s[0] else PrefixSum(s, i - 1) + s[i]
  }

  /** `np.cumsum(s)`: the running sum, one entry per sample. */
  function CumSum(s: seq<real>): (c: seq<real>)
    ensures |c| == |s|
    ensures |s| > 0 ==> c[0] == s[0]
    ensures forall i, k {:trigger c[i], c[k]} :: 0 <= k && i == k + 1 < |s| ==> c[i] == c[k] + s[i]
  {
    seq(|s|, i requires 0 <= i < |s| => PrefixSum(s, i))
  }

  /** The first difference, `[c[0], c[1]-c[0], ...]`: the inverse of the running sum. */
  function Diff(c: seq<real>): (s: seq<real>)
    ensures |s| == |c|
  {
    seq(|c|, i requires 0 <= i < |c| => if i == 0 then c[0] else c[i] - c[i - 1])
  }

  /** Differencing a running sum gives back the summed sequence. */
  lemma DiffCumSum(s: seq<real>)
    ensures Diff(CumSum(s)) == s
  {
    var c := CumSum(s);
    forall i | 0 <= i < |s|
      ensures Diff(c)[i] == s[i]
    {
      if i > 0 {
        assert c[i] == c[i - 1] + s[i];
      }
    }
  }

  /** Summing a first difference gives back the sequence it came from. */
  lemma CumSumDiff(c: seq<real>)
    ensures CumSum(Diff(c)) == c
  {
    var d := Diff(c);
    forall i | 0 <= i < |c|
      ensures CumSum(d)[i] == c[i]
    {
      PrefixSumOfDiff(c, i);
    }
  }

  lemma {:induction false} PrefixSumOfDiff(c: seq<real>, i: nat)
    requires i < |c|
    ensures PrefixSum(Diff(c), i) == c[i]
  {
    if i > 0 {
      PrefixSumOfDiff(c, i - 1);
    }
  }

  /** `phase = 2π·cumsum(fm)/SR`: the integrated frequency deviation. */
  function Phase(m: Math, p: LeslieParams, n: nat): (ph: seq<real>)
    ensures |ph| == n
  {
    var c := CumSum(Fm(m, p, n));
    seq(n, i requires 0 <= i < n => 2.0 * Pi * c[i] / SR as real)
  }

  /** The phase advances by `2π·fm[i]/SR` from one sample to the next. */
  lemma PhaseStep(m: Math, p: LeslieParams, n: nat, i: nat)
    requires 0 < i < n
    ensures Phase(m, p, n)[i] - Phase(m, p, n)[i - 1] == 2.0 * Pi * (p.dev * Rotor(m, p, i)) / SR as real
  {
    var f := Fm(m, p, n);
    var c := CumSum(f);
    assert c[i] == c[i - 1] + f[i];
  }

  /** The modulated carrier `am·sin(2π·fc·t + phase)`. */
  function Wet(m: Math, p: LeslieParams, n: nat, i: nat): real
    requires i < n
  {
    Am(m, p, i) * m.sin(2.0 * Pi * Carrier * Time(i) + Phase(m, p, n)[i])
  }

  /** `y = 0.6*carrier + 0.4*x`, before `norm`. */
  function LeslieRaw(m: Math, p: LeslieParams, x: seq<real>): (y: seq<real>)
    ensures |y| == |x|
    ensures forall i :: 0 <= i < |x| ==> y[i] == 0.6 * Wet(m, p, |x|, i) + 0.4 * x[i]
  {
    seq(|x|, i requires 0 <= i < |x| => 0.6 * Wet(m, p, |x|, i) + 0.4 * x[i])
  }

  /**
   * The input reaches the output only through the dry path: two inputs of the
   * same length differ, before `norm`, by exactly 0.4 times their difference.
   */
  lemma DryPathOnly(m: Math, p: LeslieParams, x1: seq<real>, x2: seq<real>)
    requires |x1| == |x2|
    ensures forall i :: 0 <= i < |x1| ==>
      LeslieRaw(m, p, x1)[i] - LeslieRaw(m, p, x2)[i] == 0.4 * (x1[i] - x2[i])
  {
  }

  /** With a true sine and depth in [0, 1], the wet part never exceeds `0.6·(1 + depth)`. */
  lemma WetBounded(m: Math, p: LeslieParams, x: seq<real>, i: nat)
    requires WellBehaved(m) && 0.0 <= p.amDepth <= 1.0 && i < |x|
    ensures Abs(LeslieRaw(m, p, x)[i] - 0.4 * x[i]) <= 0.6 * (1.0 + p.amDepth)
  {
    var w := Wet(m, p, |x|, i);
    WetRange(m, p, |x|, i);
    assert LeslieRaw(m, p, x)[i] - 0.4 * x[i] == 0.6 * w;
  }

  lemma WetRange(m: Math, p: LeslieParams, n: nat, i: nat)
    requires WellBehaved(m) && 0.0 <= p.amDepth <= 1.0 && i < n
    ensures -(1.0 + p.amDepth) <= Wet(m, p, n, i) <= 1.0 + p.amDepth
  {
    var a := Am(m, p, i);
    var s := m.sin(2.0 * Pi * Carrier * Time(i) + Phase(m, p, n)[i]);
    assert -1.0 <= s <= 1.0;
    UnitProduct(a, s, 1.0 + p.amDepth);
  }

  /** `leslie(x, rate_hz, dev_hz, am_depth)`. */
  function LeslieEffect(m: Math, x: seq<real>, p: LeslieParams): (y: seq<real>)
    requires |x| > 0
    ensures |y| == |x|
    ensures forall i :: 0 <= i < |x| ==> -1.0 < y[i] < 1.0
    ensures Scale(Divisor(LeslieRaw(m, p, x)), y) == LeslieRaw(m, p, x)
  {
    Norm(LeslieRaw(m, p, x))
  }
}

=== FILE: lines.dfy ===
/**
 * The line filter every ngspice reader applies first (`_clean_lines` in
 * plot_spice.py, merge_bode.py and wah_q_table.py, `load_rows` in
 * wr_collapse.py): strip each line, drop blanks, comments and metadata.
 * plot_spice.py keeps `Index ...` header lines; the others drop them.
 */
module Lines {
  import opened Text

  /** `COMMENT_PREFIXES`: every comment prefix is a single character. */
  predicate IsCommentStart(c: char) {
    c == '*' || c == ';' || c == '.'
  }

  /** The lower-cased metadata prefixes plot_spice.py drops. */
  const MetaPrefixes: seq<string> := ["no.", "title", "plotname", "flags"]

  /** The readers that also drop `index` lines. */
  const MetaPrefixesWithIndex: seq<string> := ["index"] + MetaPrefixes

  function Meta(dropIndex: bool): seq<string> {
    if dropIndex then MetaPrefixesWithIndex else MetaPrefixes
  }

  /** Whether a stripped line survives the filter. */
  predicate Keep(s: string, dropIndex: bool) {
    |s| > 0 && !IsCommentStart(s[0]) && !StartsWithAny(Lower(s), Meta(dropIndex))
  }

  /** The filter as a function value, so the lemmas below need not look inside it. */
  function KeepFn(dropIndex: bool): string -> bool {
    s => Keep(s, dropIndex)
  }

  /** The stripped lines that survive, in their original order. */
  function CleanLines(raw: seq<string>, dropIndex: bool): (r: seq<string>)
    ensures |r| <= |raw|
    ensures forall i :: 0 <= i < |r| ==> Keep(r[i], dropIndex) && Stripped(r[i])
    ensures forall i :: 0 <= i < |r| ==> |r[i]| > 0
  {
    Filter(raw, KeepFn(dropIndex))
  }

  /** Strip every line and keep those `keep` accepts. */
  function Filter(raw: seq<string>, keep: string -> bool): (r: seq<string>)
    ensures |r| <= |raw|
    ensures forall i :: 0 <= i < |r| ==> keep(r[i]) && Stripped(r[i])
    decreases |raw|
  {
    if |raw| == 0 then [] else FilterLine(raw[0], keep) + Filter(raw[1..], keep)
  }

  function FilterLine(line: string, keep: string -> bool): (r: seq<string>)
    ensures |r| <= 1
    ensures |r| == 1 <==> keep(Strip(line))
    ensures |r| == 1 ==> r[0] == Strip(line) && Stripped(r[0])
  {
    StripSound(line);
    if keep(Strip(line)) then [Strip(line)] else []
  }

  /** A line is in the output exactly when some input line strips to it and it passes the filter. */
  lemma CleanLinesMember(raw: seq<string>, dropIndex: bool, s: string)
    ensures s in CleanLines(raw, dropIndex) <==> exists i :: 0 <= i < |raw| && Strip(raw[i]) == s && Keep(s, dropIndex)
  {
    FilterMember(raw, KeepFn(dropIndex), s);
    assert KeepFn(dropIndex)(s) == Keep(s, dropIndex);
  }

  lemma FilterMember(raw: seq<string>, keep: string -> bool, s: string)
    ensures s in Filter(raw, keep) <==> exists i :: 0 <= i < |raw| && Strip(raw[i]) == s && keep(s)
  {
    if s in Filter(raw, keep) {
      var i := FilterSource(raw, keep, s);
    }
    if exists i :: 0 <= i < |raw| && Strip(raw[i]) == s && keep(s) {
      var i :| 0 <= i < |raw| && Strip(raw[i]) == s && keep(s);
      FilterKeeps(raw, keep, i);
    }
  }

  lemma {:induction false} FilterSource(raw: seq<string>, keep: string -> bool, s: string) returns (i: nat)
    requires s in Filter(raw, keep)
    ensures i < |raw| && Strip(raw[i]) == s && keep(s)
    decreases |raw|
  {
    FilterSplit(raw, keep, s);
    if s in FilterLine(raw[0], keep) {
      i := 0;
    } else {
      var rest := raw[1..];
      var j := FilterSource(rest, keep, s);
      var x := rest[j];
      assert x == raw[j + 1];
      assert Strip(x) == s;
      i := j + 1;
    }
  }

  lemma FilterSplit(raw: seq<string>, keep: string -> bool, s: string)
    requires s in Filter(raw, keep)
    ensures |raw| > 0
    ensures s in FilterLine(raw[0], keep) ==> Strip(raw[0]) == s && keep(s)
    ensures s in FilterLine(raw[0], keep) || s in Filter(raw[1..], keep)
  {
    assert Filter(raw, keep) == FilterLine(raw[0], keep) + Filter(raw[1..], keep);
  }

  lemma {:induction false} FilterKeeps(raw: seq<string>, keep: string -> bool, i: nat)
    requires i < |raw| && keep(Strip(raw[i]))
    ensures Strip(raw[i]) in Filter(raw, keep)
    decreases i
  {
    var rest := raw[1..];
    assert Filter(raw, keep) == FilterLine(raw[0], keep) + Filter(rest, keep);
    if i > 0 {
      assert raw[i] == rest[i - 1];
      FilterKeeps(rest, keep, i - 1);
    }
  }

  /** Filtering distributes over concatenation: the filter looks at one line at a time. */
  lemma CleanLinesAppend(a: seq<string>, b: seq<string>, dropIndex: bool)
    ensures CleanLines(a + b, dropIndex) == CleanLines(a, dropIndex) + CleanLines(b, dropIndex)
  {
    FilterAppend(a, b, KeepFn(dropIndex));
  }

  lemma {:induction false} FilterAppend(a: seq<string>, b: seq<string>, keep: string -> bool)
    ensures Filter(a + b, keep) == Filter(a, keep) + Filter(b, keep)
    decreases |a|
  {
    if |a| > 0 {
      assert (a + b)[1..] == a[1..] + b;
      FilterAppend(a[1..], b, keep);
    } else {
      assert a + b == b;
    }
  }

  /** Cleaning already clean lines changes nothing. */
  lemma CleanLinesIdempotent(raw: seq<string>, dropIndex: bool)
    ensures CleanLines(CleanLines(raw, dropIndex), dropIndex) == CleanLines(raw, dropIndex)
  {
    FilterIdempotent(raw, KeepFn(dropIndex));
  }

  lemma {:induction false} FilterIdempotent(raw: seq<string>, keep: string -> bool)
    ensures Filter(Filter(raw, keep), keep) == Filter(raw, keep)
    decreases |raw|
  {
    if |raw| > 0 {
      var a := FilterLine(raw[0], keep);
      FilterAppend(a, Filter(raw[1..], keep), keep);
      if |a| == 1 {
        StrippedFixed(a[0]);
        assert FilterLine(a[0], keep) == a;
        assert a[1..] == [];
      }
      FilterIdempotent(raw[1..], keep);
    }
  }

  /**
   * An `Index ...` header line (any case) survives plot_spice.py's filter unless it
   * is a comment, and never survives the filter of the other readers.
   */
  lemma IndexLines(s: string)
    requires StartsWith(Lower(s), "index")
    ensures Keep(s, false)
    ensures !Keep(s, true)
  {
    assert Lower(s)[0] == 'i';
    assert s[0] == 'i' || s[0] == 'I';
    assert MetaPrefixesWithIndex[0] == "index";
  }
}

=== FILE: mask.dfy ===
/**
 * The row mask of `plot_bode_svg` in plot_spice.py and of bode_quotient.py's
 * `main`: keep the rows whose values are all finite and whose frequency (the
 * first column) is above zero; when none survive, plot a placeholder of two
 * rows at 1 Hz and 10 Hz with zero data.
 */
module RowMask {
  import opened Numbers
  import opened Sorting

  /** Columns of one array: every column has `n` entries. */
  predicate SameLength(cols: seq<seq<Num>>, n: nat) {
    forall c :: 0 <= c < |cols| ==> |cols[c]| == n
  }

  /** A non-empty set of columns of equal length, the first one the frequency. */
  predicate Aligned(cols: seq<seq<Num>>) {
    |cols| > 0 && SameLength(cols, |cols[0]|)
  }

  /** `np.isfinite(f) & ... & (f > 0)` at row `i`. */
  predicate Valid(cols: seq<seq<Num>>, i: nat)
    requires Aligned(cols) && i < |cols[0]|
  {
    (forall c :: 0 <= c < |cols| ==> Finite(cols[c][i])) && Positive(cols[0][i])
  }

  /** The rows below `n` the mask keeps, in ascending order. */
  function Kept(cols: seq<seq<Num>>, n: nat): (ks: seq<nat>)
    requires Aligned(cols) && n <= |cols[0]|
    ensures |ks| <= n
    ensures forall k :: 0 <= k < |ks| ==> ks[k] < n && Valid(cols, ks[k])
    ensures forall a, b :: 0 <= a < b < |ks| ==> ks[a] < ks[b]
    ensures forall i :: 0 <= i < n && Valid(cols, i) ==> i in ks
    decreases n
  {
    if n == 0 then []
    else Kept(cols, n - 1) + (if Valid(cols, n - 1) then [n - 1] else [])
  }

  /** The placeholder: `f = [1, 10]`, every other column `[0, 0]`. */
  function Placeholder(m: nat): (r: seq<seq<Num>>)
    requires m > 0
    ensures |r| == m && Aligned(r) && |r[0]| == 2
    ensures r[0] == [Fin(1.0), Fin(10.0)]
    ensures forall c :: 1 <= c < m ==> r[c] == [Fin(0.0), Fin(0.0)]
  {
    seq(m, c requires 0 <= c < m => if c == 0 then [Fin(1.0), Fin(10.0)] else [Fin(0.0), Fin(0.0)])
  }

  /** `f, re, im = f[mask], re[mask], im[mask]`, then the placeholder when nothing survives. */
  function Mask(cols: seq<seq<Num>>): (r: seq<seq<Num>>)
    requires Aligned(cols)
    ensures |r| == |cols| && Aligned(r)
    ensures |Kept(cols, |cols[0]|)| == 0 ==> r == Placeholder(|cols|)
    ensures |Kept(cols, |cols[0]|)| > 0 ==>
      var ks := Kept(cols, |cols[0]|);
      |r[0]| == |ks| && forall c, k :: 0 <= c < |cols| && 0 <= k < |ks| ==> r[c][k] == cols[c][ks[k]]
  {
    var ks := Kept(cols, |cols[0]|);
    if |ks| == 0 then Placeholder(|cols|)
    else seq(|cols|, c requires 0 <= c < |cols| => Gather(cols[c], ks))
  }

  /** Every row of the result is one the mask would keep: finite, with a positive frequency. */
  lemma MaskValid(cols: seq<seq<Num>>)
    requires Aligned(cols)
    ensures var r := Mask(cols); forall i :: 0 <= i < |r[0]| ==> Valid(r, i)
  {
    var r := Mask(cols);
    var ks := Kept(cols, |cols[0]|);
    forall i | 0 <= i < |r[0]|
      ensures Valid(r, i)
    {
      if |ks| > 0 {
        assert Valid(cols, ks[i]);
        assert forall c :: 0 <= c < |cols| ==> r[c][i] == cols[c][ks[i]];
      }
    }
  }

  /** Masking twice is masking once: the second pass keeps every row. */
  lemma MaskIdempotent(cols: seq<seq<Num>>)
    requires Aligned(cols)
    ensures Mask(Mask(cols)) == Mask(cols)
  {
    var r := Mask(cols);
    MaskValid(cols);
    var ks := KeptAll(r, |r[0]|);
    assert |ks| == |r[0]|;
    var r2 := Mask(r);
    assert |r2| == |r|;
    forall c | 0 <= c < |r|
      ensures r2[c] == r[c]
    {
      assert |r[c]| == |r[0]|;
      assert forall k :: 0 <= k < |ks| ==> r2[c][k] == r[c][k];
    }
  }

  /** When every row is valid the mask keeps them all, as `0..n-1`. */
  lemma {:induction false} KeptAll(cols: seq<seq<Num>>, n: nat) returns (ks: seq<nat>)
    requires Aligned(cols) && n <= |cols[0]|
    requires forall i :: 0 <= i < n ==> Valid(cols, i)
    ensures ks == Kept(cols, n) && |ks| == n
    ensures forall k :: 0 <= k < n ==> ks[k] == k
    decreases n
  {
    if n == 0 {
      ks := [];
    } else {
      var prev := KeptAll(cols, n - 1);
      ks := prev + [n - 1];
    }
  }
}

=== FILE: mergebode.dfy ===
/**
 * merge_bode.py: the column lookup `grab`, the frequency sort of `add_curve`,
 * the `PATH[:LABEL]` split of the inputs and the loop that reads one curve per
 * input. `MergeAll` reads the files with the strict reader as written, whose
 * letter rule takes a line in exponent notation for a header;
 * `MergeAllFixed` reads them with the float header rule
 * (`WrData.ReadStrictFixed`).
 */
module MergeBode {
  import opened Wrappers
  import opened Text
  import opened Numbers
  import opened Table
  import opened Sorting
  import WrData

  // ---------------------------------------------------------------------------
  // grab

  /** The first of `names` that is a key, exactly. */
  function FirstExact(ks: seq<string>, names: seq<string>): (r: Option<nat>)
    ensures r.Some? ==> r.value < |names| && names[r.value] in ks
    ensures r.Some? ==> forall b :: 0 <= b < r.value ==> names[b] !in ks
    ensures r.None? <==> forall b :: 0 <= b < |names| ==> names[b] !in ks
    decreases |names|
  {
    if |names| == 0 then None
    else if names[0] in ks then Some(0)
    else
      match FirstExact(ks, names[1..])
      case None => None
      case Some(a) => Some(a + 1)
  }

  /**
   * `grab`: the name exactly, then each fallback exactly, in order, then the
   * first key equal to the name ignoring case. Fallbacks are never tried
   * ignoring case.
   */
  function Grab(ks: seq<string>, name: string, fallbacks: seq<string>): (r: Option<string>)
    ensures r.Some? ==> r.value in ks
    ensures name in ks ==> r == Some(name)
    ensures name !in ks && FirstExact(ks, fallbacks).Some? ==> r == Some(fallbacks[FirstExact(ks, fallbacks).value])
    ensures r.None? <==> CaseGet(ks, name).None? && forall b :: 0 <= b < |fallbacks| ==> fallbacks[b] !in ks
    ensures r.Some? && r.value != name && r.value !in fallbacks ==> Lower(r.value) == Lower(name)
  {
    if name in ks then Some(name)
    else
      match FirstExact(ks, fallbacks)
      case Some(a) => Some(fallbacks[a])
      case None =>
        match FirstCaseMatch(ks, name)
        case Some(i) => Some(ks[i])
        case None => None
  }

  /** With no fallback present, `grab` is `_case_get` of plot_spice.py. */
  lemma GrabWithoutFallbacks(ks: seq<string>, name: string, fallbacks: seq<string>)
    requires forall b :: 0 <= b < |fallbacks| ==> fallbacks[b] !in ks
    ensures Grab(ks, name, fallbacks) == CaseGet(ks, name)
  {
  }

  /** A fallback present exactly wins over a key that matches the name only ignoring case. */
  lemma GrabPrefersFallback(ks: seq<string>, name: string, fallbacks: seq<string>, b: nat)
    requires name !in ks && b < |fallbacks| && fallbacks[b] in ks
    requires forall c :: 0 <= c < b ==> fallbacks[c] !in ks
    ensures Grab(ks, name, fallbacks) == Some(fallbacks[b])
  {
    var r := FirstExact(ks, fallbacks);
    assert r.Some? && r.value <= b;
  }

  // ---------------------------------------------------------------------------
  // add_curve

  /** One row of a curve. */
  datatype Point = Point(f: Num, re: Num, im: Num)

  /** A curve: frequency, real and imaginary part, row by row. */
  datatype Curve = Curve(f: seq<Num>, re: seq<Num>, im: seq<Num>)

  predicate WellFormed(c: Curve) {
    |c.f| == |c.re| == |c.im|
  }

  /** The rows of a curve. */
  function Points(c: Curve): (r: seq<Point>)
    requires WellFormed(c)
    ensures |r| == |c.f|
    ensures forall k :: 0 <= k < |r| ==> r[k] == Point(c.f[k], c.re[k], c.im[k])
  {
    seq(|c.f|, k requires 0 <= k < |c.f| => Point(c.f[k], c.re[k], c.im[k]))
  }

  /**
   * `order = np.argsort(f)` and `f, re_, im_ = f[order], re_[order], im_[order]`:
   * the frequencies ascend, and the rows are those of the input, rearranged
   * as whole rows.
   */
  function SortCurve(c: Curve): (r: Curve)
    requires WellFormed(c)
    ensures WellFormed(r) && |r.f| == |c.f|
    ensures forall a, b :: 0 <= a < b < |r.f| ==> NumLe(r.f[a], r.f[b])
    ensures multiset(Points(r)) == multiset(Points(c))
  {
    var order := ArgSort(c.f);
    var r := Curve(Gather(c.f, order), Gather(c.re, order), Gather(c.im, order));
    PointsGather(c, order);
    GatherPermutation(Points(c), order);
    r
  }

  /** Reading each column through the same positions reads the rows through them. */
  lemma PointsGather(c: Curve, p: seq<nat>)
    requires WellFormed(c) && InBounds(p, |c.f|)
    ensures var r := Curve(Gather(c.f, p), Gather(c.re, p), Gather(c.im, p));
      WellFormed(r) && Points(r) == Gather(Points(c), p)
  {
  }

  /** A curve whose frequencies already ascend strictly is left as it is. */
  lemma SortCurveSorted(c: Curve)
    requires WellFormed(c)
    requires forall a, b :: 0 <= a < b < |c.f| ==> Less(c.f[a], c.f[b])
    ensures SortCurve(c) == c
  {
    var order := ArgSort(c.f);
    InBoundsFromMultiset(order, |c.f|);
    SortedStrictIdentity(c.f, order);
    assert Gather(c.f, order) == c.f;
    assert Gather(c.re, order) == c.re;
    assert Gather(c.im, order) == c.im;
  }

  /** The only sorting permutation of strictly ascending keys is the identity. */
  lemma SortedStrictIdentity(v: seq<Num>, p: seq<nat>)
    requires |p| == |v| && IsPermutation(p, |v|) && InBounds(p, |v|) && SortedBy(v, p)
    requires forall a, b :: 0 <= a < b < |v| ==> Less(v[a], v[b])
    ensures forall k :: 0 <= k < |p| ==> p[k] == k
  {
    // two different positions read through p are distinct, so their keys
    // differ, so the sort put them in ascending order of position
    forall a, b | 0 <= a < b < |p|
      ensures p[a] < p[b]
    {
      DistinctEntries(p, |v|, a, b);
      assert NumLe(v[p[a]], v[p[b]]);
    }
    forall k | 0 <= k < |p|
      ensures p[k] == k
    {
      AtLeastIndex(p, k);
      AtMostIndex(p, |v|, k);
    }
  }

  predicate Increasing(p: seq<nat>) {
    forall a, b :: 0 <= a < b < |p| ==> p[a] < p[b]
  }

  /** A strictly increasing sequence of naturals has `p[k] >= k`. */
  lemma {:induction false} AtLeastIndex(p: seq<nat>, k: nat)
    requires Increasing(p) && k < |p|
    ensures p[k] >= k
    decreases k
  {
    if k > 0 {
      AtLeastIndex(p, k - 1);
    }
  }

  /** A strictly increasing sequence of `n` naturals below `n` has `p[k] <= k`. */
  lemma {:induction false} AtMostIndex(p: seq<nat>, n: nat, k: nat)
    requires Increasing(p) && InBounds(p, n) && |p| == n && k < n
    ensures p[k] <= k
    decreases n - k
  {
    if k + 1 < n {
      AtMostIndex(p, n, k + 1);
    }
  }

  /** A permutation has no repeated entry. */
  lemma DistinctEntries(p: seq<nat>, n: nat, a: nat, b: nat)
    requires IsPermutation(p, n) && a < b < |p|
    ensures p[a] != p[b]
  {
    if p[a] == p[b] {
      var x := p[a];
      assert p == p[..a] + [x] + p[a + 1..b] + [x] + p[b + 1..];
      assert multiset(p)[x] >= 2;
      assert multiset(Range(n))[x] <= 1 by {
        RangeCount(n, x);
      }
      assert false;
    }
  }

  /** Every number occurs at most once in `range(n)`. */
  lemma {:induction false} RangeCount(n: nat, x: nat)
    ensures multiset(Range(n))[x] <= 1
    ensures x < n <==> x in multiset(Range(n))
    decreases n
  {
    if n > 0 {
      assert Range(n) == Range(n - 1) + [n - 1];
      RangeCount(n - 1, x);
    }
  }

  /** The fallbacks `add_curve` gives each column. */
  datatype CurveAliases = CurveAliases(f: seq<string>, re: seq<string>, im: seq<string>)

  const MainAliases: CurveAliases := CurveAliases(["Frequency", "freq", "f"], ["re:re", "real(v(out))", "re", "real"], ["im:im", "imag(v(out))", "im", "imag"])

  /** The names of the three columns on the command line. */
  datatype ColumnNames = ColumnNames(fcol: string, recol: string, imcol: string)

  /** The default `--fcol`, `--recol` and `--imcol`. */
  const DefaultNames: ColumnNames := ColumnNames("frequency", "real(v(out))", "imag(v(out))")

  /** The three columns `add_curve` grabs, in file order; `None` when one of them is missing. */
  function Grabbed(cols: Cols, names: ColumnNames, al: CurveAliases): (c: Option<Curve>)
    requires exists n :: Height(cols, n)
    ensures c.None? <==> (Grab(Keys(cols), names.fcol, al.f).None? || Grab(Keys(cols), names.recol, al.re).None?
                          || Grab(Keys(cols), names.imcol, al.im).None?)
    ensures c.Some? ==> WellFormed(c.value)
    ensures c.Some? ==> Some(c.value.f) == Get(cols, Grab(Keys(cols), names.fcol, al.f).value)
    ensures c.Some? ==> Some(c.value.re) == Get(cols, Grab(Keys(cols), names.recol, al.re).value)
    ensures c.Some? ==> Some(c.value.im) == Get(cols, Grab(Keys(cols), names.imcol, al.im).value)
  {
    var kf := Grab(Keys(cols), names.fcol, al.f);
    var kr := Grab(Keys(cols), names.recol, al.re);
    var ki := Grab(Keys(cols), names.imcol, al.im);
    if kf.None? || kr.None? || ki.None? then None
    else
      var c := Curve(Get(cols, kf.value).value, Get(cols, kr.value).value, Get(cols, ki.value).value);
      assert WellFormed(c) by {
        var n :| Height(cols, n);
        HeightGet(cols, kf.value);
        HeightGet(cols, kr.value);
        HeightGet(cols, ki.value);
      }
      Some(c)
  }

  /** `add_curve` up to the plot: grab the three columns, then sort by frequency. */
  function AddCurve(cols: Cols, names: ColumnNames, al: CurveAliases): (r: Result<Curve, ReadError>)
    requires exists n :: Height(cols, n)
    ensures r.Ok? ==> WellFormed(r.value)
    ensures r.Ok? ==> forall a, b :: 0 <= a < b < |r.value.f| ==> NumLe(r.value.f[a], r.value.f[b])
    ensures r.Err? <==> (Grab(Keys(cols), names.fcol, al.f).None? || Grab(Keys(cols), names.recol, al.re).None?
                         || Grab(Keys(cols), names.imcol, al.im).None?)
    ensures r.Ok? ==> Grabbed(cols, names, al).Some?
    ensures r.Ok? ==> multiset(Points(r.value)) == multiset(Points(Grabbed(cols, names, al).value))
  {
    if Grab(Keys(cols), names.fcol, al.f).None? then Err(MissingColumn(names.fcol))
    else if Grab(Keys(cols), names.recol, al.re).None? then Err(MissingColumn(names.recol))
    else if Grab(Keys(cols), names.imcol, al.im).None? then Err(MissingColumn(names.imcol))
    else Ok(SortCurve(Grabbed(cols, names, al).value))
  }

  // ---------------------------------------------------------------------------
  // PATH[:LABEL]

  /** The first `:` of the text, if any. */
  function FirstColon(s: string): (r: Option<nat>)
    ensures r.Some? ==> r.value < |s| && s[r.value] == ':'
    ensures r.Some? ==> forall k :: 0 <= k < r.value ==> s[k] != ':'
    ensures r.None? ==> forall k :: 0 <= k < |s| ==> s[k] != ':'
    decreases |s|
  {
    if |s| == 0 then None
    else if s[0] == ':' then Some(0)
    else
      match FirstColon(s[1..])
      case None => None
      case Some(i) => Some(i + 1)
  }

  /** `spec.partition(':')` without the separator: the path and the raw label. */
  function Partition(spec: string): (r: (string, string))
    ensures forall k :: 0 <= k < |r.0| ==> r.0[k] != ':'
    ensures FirstColon(spec).None? ==> r == (spec, "")
    ensures FirstColon(spec).Some? ==> spec == r.0 + ":" + r.1
  {
    match FirstColon(spec)
    case None => (spec, "")
    case Some(i) =>
      assert spec == spec[..i] + ":" + spec[i + 1..];
      (spec[..i], spec[i + 1..])
  }

  /** Joining a colon-free path and a label with `:` and partitioning again gives both back. */
  lemma PartitionJoin(path: string, legend: string)
    requires forall k :: 0 <= k < |path| ==> path[k] != ':'
    ensures Partition(path + ":" + legend) == (path, legend)
  {
    var s := path + ":" + legend;
    var i := FirstColon(s);
    assert s[|path|] == ':';
    assert forall k :: 0 <= k < |path| ==> s[k] == path[k];
    assert i == Some(|path|);
    assert s[..|path|] == path && s[|path| + 1..] == legend;
  }

  /** The position just after the last `/`, or 0. */
  function NameStart(p: string): (i: nat)
    ensures i <= |p|
    ensures i > 0 ==> p[i - 1] == '/'
    ensures forall k :: i <= k < |p| ==> p[k] != '/'
    decreases |p|
  {
    if |p| == 0 then 0
    else if p[|p| - 1] == '/' then |p|
    else NameStart(p[..|p| - 1])
  }

  /** The path without trailing `/`s, as `Path` normalises it. */
  function TrimSlashes(p: string): (r: string)
    ensures |r| <= |p| && r == p[..|r|]
    ensures |r| == 0 || r[|r| - 1] != '/'
    decreases |p|
  {
    if |p| > 0 && p[|p| - 1] == '/' then TrimSlashes(p[..|p| - 1]) else p
  }

  /** The last `.` of a name, if any. */
  function LastDot(s: string): (r: Option<nat>)
    ensures r.Some? ==> r.value < |s| && s[r.value] == '.'
    ensures r.Some? ==> forall k :: r.value < k < |s| ==> s[k] != '.'
    ensures r.None? ==> forall k :: 0 <= k < |s| ==> s[k] != '.'
    decreases |s|
  {
    if |s| == 0 then None
    else if s[|s| - 1] == '.' then Some(|s| - 1)
    else LastDot(s[..|s| - 1])
  }

  /**
   * `Path(p).stem`: the last component without its suffix, where the suffix
   * starts at the last `.` unless that `.` opens or ends the name.
   */
  function Stem(p: string): (r: string)
    ensures forall k :: 0 <= k < |r| ==> r[k] != '/'
  {
    var t := TrimSlashes(p);
    var name := t[NameStart(t)..];
    match LastDot(name)
    case Some(i) => if 0 < i < |name| - 1 then name[..i] else name
    case None => name
  }

  /** The label of an input: the text after the first `:`, or the file stem when that is empty. */
  function Label(spec: string): (r: string)
    ensures |Partition(spec).1| > 0 ==> r == Partition(spec).1
    ensures |Partition(spec).1| == 0 ==> r == Stem(Partition(spec).0)
  {
    var (p, legend) := Partition(spec);
    if |legend| > 0 then legend else Stem(p)
  }

  /** A stem keeps the directory out: `dir/name.ext` gives `name`. */
  lemma StemOfFile(dir: string, name: string, ext: string)
    requires |name| > 0 && name[0] != '.'
    requires forall k :: 0 <= k < |name| ==> name[k] != '/' && name[k] != '.'
    requires |ext| > 0 && forall k :: 0 <= k < |ext| ==> ext[k] != '/' && ext[k] != '.'
    ensures Stem(dir + "/" + name + "." + ext) == name
  {
    var p := dir + "/" + name + "." + ext;
    var file := name + "." + ext;
    assert p == (dir + "/") + file;
    assert p[|p| - 1] != '/';
    NameStartAfter(dir + "/", file);
    assert p[NameStart(p)..] == file;
    assert file[|name|] == '.';
    LastDotAt(name, ext);
    assert file[..|name|] == name;
  }

  /** The name starts right after the last `/`. */
  lemma {:induction false} NameStartAfter(d: string, file: string)
    requires |d| > 0 && d[|d| - 1] == '/'
    requires forall k :: 0 <= k < |file| ==> file[k] != '/'
    ensures NameStart(d + file) == |d|
    decreases |file|
  {
    if |file| == 0 {
      assert d + file == d;
    } else {
      var s := d + file;
      assert s[..|s| - 1] == d + file[..|file| - 1];
      NameStartAfter(d, file[..|file| - 1]);
    }
  }

  /** The last `.` of `name.ext` is the one before `ext`. */
  lemma {:induction false} LastDotAt(name: string, ext: string)
    requires forall k :: 0 <= k < |ext| ==> ext[k] != '.'
    ensures LastDot(name + "." + ext) == Some(|name|)
    decreases |ext|
  {
    var s := name + "." + ext;
    if |ext| > 0 {
      var e := ext[..|ext| - 1];
      assert s[..|s| - 1] == name + "." + e;
      assert s[|s| - 1] == ext[|ext| - 1];
      LastDotAt(name, e);
    } else {
      assert s[|s| - 1] == '.';
    }
  }

  // ---------------------------------------------------------------------------
  // main

  /** One input: its `PATH[:LABEL]` text and the lines of the file it names. */
  datatype Input = Input(spec: string, lines: seq<string>)

  /** A curve ready to plot, with its legend label. */
  datatype Plotted = Plotted(legend: string, curve: Curve)

  /**
   * The loop of `main`, as written: each input is read and its curve added,
   * in order; the first failure ends the run. No input at all is a usage error.
   */
  function MergeAll(g: FloatGrammar, inputs: seq<Input>, names: ColumnNames, al: CurveAliases): (r: Result<seq<Plotted>, ReadError>)
    ensures |inputs| == 0 ==> r == Err(Usage)
    ensures r.Ok? ==> |r.value| == |inputs|
    ensures r.Ok? ==> forall k :: 0 <= k < |inputs| ==> OneCurve(g, inputs[k], names, al) == Ok(r.value[k])
    ensures |inputs| > 0 ==> (r.Err? <==> exists k :: 0 <= k < |inputs| && OneCurve(g, inputs[k], names, al).Err?)
  {
    if |inputs| == 0 then Err(Usage)
    else
      var read := (i: Input) => OneCurve(g, i, names, al);
      var r := Curves(read, inputs);
      assert forall k :: 0 <= k < |inputs| ==> read(inputs[k]) == OneCurve(g, inputs[k], names, al);
      r
  }

  /** The same loop over the corrected reader. */
  function MergeAllFixed(g: FloatGrammar, inputs: seq<Input>, names: ColumnNames, al: CurveAliases): (r: Result<seq<Plotted>, ReadError>)
    ensures |inputs| == 0 ==> r == Err(Usage)
    ensures r.Ok? ==> |r.value| == |inputs|
    ensures r.Ok? ==> forall k :: 0 <= k < |inputs| ==> OneCurveFixed(g, inputs[k], names, al) == Ok(r.value[k])
    ensures |inputs| > 0 ==> (r.Err? <==> exists k :: 0 <= k < |inputs| && OneCurveFixed(g, inputs[k], names, al).Err?)
  {
    if |inputs| == 0 then Err(Usage)
    else
      var read := (i: Input) => OneCurveFixed(g, i, names, al);
      var r := Curves(read, inputs);
      assert forall k :: 0 <= k < |inputs| ==> read(inputs[k]) == OneCurveFixed(g, inputs[k], names, al);
      r
  }

  /** Each input read in turn, or the error of the first input that fails: the loop of `main`, which exits at the first bad file. */
  function Curves<T>(read: Input -> Result<T, ReadError>, inputs: seq<Input>): (r: Result<seq<T>, ReadError>)
    ensures r.Ok? ==> |r.value| == |inputs|
    ensures r.Ok? ==> forall k :: 0 <= k < |inputs| ==> read(inputs[k]) == Ok(r.value[k])
    ensures r.Err? <==> exists k :: 0 <= k < |inputs| && read(inputs[k]).Err?
    ensures r.Err? ==> exists k :: (0 <= k < |inputs| && read(inputs[k]) == Err(r.error)
                                    && forall j :: 0 <= j < k ==> read(inputs[j]).Ok?)
    decreases |inputs|
  {
    if |inputs| == 0 then Ok([])
    else
      var rest := inputs[1..];
      assert forall k :: 0 < k < |inputs| ==> inputs[k] == rest[k - 1];
      match read(inputs[0])
      case Err(e) => Err(e)
      case Ok(p) =>
        match Curves(read, rest)
        case Err(e) =>
          var j :| 0 <= j < |rest| && read(rest[j]) == Err(e) && forall i :: 0 <= i < j ==> read(rest[i]).Ok?;
          assert read(inputs[j + 1]) == Err(e);
          Err(e)
        case Ok(ps) => Ok([p] + ps)
  }

  /** `add_curve` on what a reader returned, labelled with the legend of `spec`; a reader's error passes through. */
  function Attach(read: Result<Cols, ReadError>, spec: string, names: ColumnNames, al: CurveAliases): (r: Result<Plotted, ReadError>)
    requires read.Ok? ==> exists n :: Height(read.value, n)
    ensures r.Ok? ==> r.value.legend == Label(spec) && WellFormed(r.value.curve)
    ensures r.Ok? ==> forall a, b :: 0 <= a < b < |r.value.curve.f| ==> NumLe(r.value.curve.f[a], r.value.curve.f[b])
    ensures read.Err? ==> r == Err(read.error)
    ensures r.Ok? ==> read.Ok? && AddCurve(read.value, names, al) == Ok(r.value.curve)
  {
    match read
    case Err(e) => Err(e)
    case Ok(cols) =>
      match AddCurve(cols, names, al)
      case Err(e) => Err(e)
      case Ok(c) => Ok(Plotted(Label(spec), c))
  }

  /** `read_wrdata` and `add_curve` for one input, as written. */
  function OneCurve(g: FloatGrammar, input: Input, names: ColumnNames, al: CurveAliases): (r: Result<Plotted, ReadError>)
    ensures r.Ok? ==> r.value.legend == Label(input.spec) && WellFormed(r.value.curve)
    ensures r.Ok? ==> forall a, b :: 0 <= a < b < |r.value.curve.f| ==> NumLe(r.value.curve.f[a], r.value.curve.f[b])
    ensures WrData.ReadStrict(g, input.lines).Err? ==> r == Err(WrData.ReadStrict(g, input.lines).error)
    ensures r.Ok? ==> WrData.ReadStrict(g, input.lines).Ok? && AddCurve(WrData.ReadStrict(g, input.lines).value, names, al) == Ok(r.value.curve)
  {
    Attach(WrData.ReadStrict(g, input.lines), input.spec, names, al)
  }

  /** The same with the corrected reader. */
  function OneCurveFixed(g: FloatGrammar, input: Input, names: ColumnNames, al: CurveAliases): (r: Result<Plotted, ReadError>)
    ensures r.Ok? ==> r.value.legend == Label(input.spec) && WellFormed(r.value.curve)
    ensures r.Ok? ==> forall a, b :: 0 <= a < b < |r.value.curve.f| ==> NumLe(r.value.curve.f[a], r.value.curve.f[b])
    ensures WrData.ReadStrictFixed(g, input.lines).Err? ==> r == Err(WrData.ReadStrictFixed(g, input.lines).error)
    ensures r.Ok? ==> WrData.ReadStrictFixed(g, input.lines).Ok? && AddCurve(WrData.ReadStrictFixed(g, input.lines).value, names, al) == Ok(r.value.curve)
  {
    Attach(WrData.ReadStrictFixed(g, input.lines), input.spec, names, al)
  }
}

=== FILE: numbers.dfy ===
/**
 * Numbers read from ngspice text: Python floats, which may be NaN or infinite,
 * and the float grammar, which is left abstract (`float(tok)` either parses a
 * token or raises `ValueError`).
 */
module Numbers {
  import opened Wrappers

  /** A Python float: finite, NaN, or an infinity of either sign. */
  datatype Num = Fin(r: real) | NaN | Inf(neg: bool)

  /** `np.isfinite`. */
  predicate Finite(n: Num) {
    n.Fin?
  }

  /** `n > 0` (false for NaN, true for `+inf`). */
  predicate Positive(n: Num) {
    (n.Fin? && n.r > 0.0) || n == Inf(false)
  }

  /** Which tokens `float()` accepts and what it returns for them. */
  datatype FloatGrammar = FloatGrammar(parses: string -> bool, value: string -> Num)

  /** `[float(t) for t in toks if is_float(t)]`: the float tokens of a row, in order. */
  function Floats(g: FloatGrammar, toks: seq<string>): (vals: seq<Num>)
    ensures |vals| <= |toks|
    ensures |vals| == 0 <==> forall i :: 0 <= i < |toks| ==> !g.parses(toks[i])
    decreases |toks|
  {
    if |toks| == 0 then []
    else (if g.parses(toks[0]) then [g.value(toks[0])] else []) + Floats(g, toks[1..])
  }

  /** `[float(tok) for tok in toks]`, which raises on the first token that is not a float. */
  function AllFloats(g: FloatGrammar, toks: seq<string>): (r: Result<seq<Num>, string>)
    ensures r.Ok? <==> forall i :: 0 <= i < |toks| ==> g.parses(toks[i])
    ensures r.Ok? ==> |r.value| == |toks| && forall i :: 0 <= i < |toks| ==> r.value[i] == g.value(toks[i])
    ensures r.Err? ==> exists i :: 0 <= i < |toks| && toks[i] == r.error && !g.parses(toks[i])
    decreases |toks|
  {
    if |toks| == 0 then Ok([])
    else if !g.parses(toks[0]) then Err(toks[0])
    else
      match AllFloats(g, toks[1..])
      case Err(t) => Err(t)
      case Ok(rest) => Ok([g.value(toks[0])] + rest)
  }

  /** On a row of floats, keeping the float tokens and converting every token agree. */
  lemma {:induction false} FloatsOfAll(g: FloatGrammar, toks: seq<string>)
    requires forall i :: 0 <= i < |toks| ==> g.parses(toks[i])
    ensures AllFloats(g, toks) == Ok(Floats(g, toks))
    decreases |toks|
  {
    if |toks| > 0 {
      FloatsOfAll(g, toks[1..]);
    }
  }

  /** Where numpy's sort puts a value: `-inf`, the finite values, `+inf`, then NaN. */
  function Rank(n: Num): nat {
    match n
    case Inf(neg) => if neg then 0 else 2
    case Fin(_) => 1
    case NaN => 3
  }

  /** The order `np.argsort` sorts by. */
  predicate NumLe(a: Num, b: Num) {
    Rank(a) < Rank(b) || (Rank(a) == Rank(b) && (a.Fin? ==> a.r <= b.r))
  }

  /** `NumLe` is a total preorder. */
  lemma NumLeTotal(a: Num, b: Num, c: Num)
    ensures NumLe(a, a)
    ensures NumLe(a, b) || NumLe(b, a)
    ensures NumLe(a, b) && NumLe(b, c) ==> NumLe(a, c)
  {
  }
}

=== FILE: plotspice.dfy ===
/**
 * plot_spice.py after `read_wrdata`: the column choices of the time, FFT and
 * Bode plots, the FFT length, the Bode row mask, and `parse_four_log`, the
 * scan of an ngspice log for a table of Fourier components.
 */
module PlotSpice {
  import opened Wrappers
  import opened Text
  import opened Numbers
  import opened Table
  import opened RowMask
  import Decimal

  // ---------------------------------------------------------------------------
  // plot_time_svg

  /** The x column: `_case_get`, then `col0` standing in for a missing `time`. */
  function TimeX(ks: seq<string>, xcol: string): (r: Result<string, ReadError>)
    ensures r.Ok? ==> r.value in ks
    ensures CaseGet(ks, xcol).Some? ==> r == Ok(CaseGet(ks, xcol).value)
    ensures r.Err? <==> CaseGet(ks, xcol).None? && !(Lower(xcol) == "time" && "col0" in ks)
    ensures r.Err? ==> r.error == MissingColumn(xcol)
  {
    match CaseGet(ks, xcol)
    case Some(k) => Ok(k)
    case None =>
      if Lower(xcol) == "time" && "col0" in ks then Ok("col0")
      else Err(MissingColumn(xcol))
  }

  /** A plotted series: the key of its column and its legend label. */
  datatype Series = Series(key: string, legend: string)

  /** `[(ky, yname) for yname in ycols if _case_get(dat, yname) is not None]`. */
  function Named(ks: seq<string>, ycols: seq<string>): (r: seq<Series>)
    ensures |r| <= |ycols|
    ensures forall k :: 0 <= k < |r| ==> CaseGet(ks, r[k].legend) == Some(r[k].key)
    ensures |r| == 0 <==> forall i :: 0 <= i < |ycols| ==> CaseGet(ks, ycols[i]).None?
    decreases |ycols|
  {
    if |ycols| == 0 then []
    else
      assert forall i :: 0 < i < |ycols| ==> ycols[i] == ycols[1..][i - 1];
      (match CaseGet(ks, ycols[0])
       case Some(k) => [Series(k, ycols[0])]
       case None => []) + Named(ks, ycols[1..])
  }

  /** A series is named exactly when one of the requested names resolves to its key. */
  lemma {:induction false} NamedMember(ks: seq<string>, ycols: seq<string>, s: Series)
    ensures s in Named(ks, ycols) <==> exists i :: 0 <= i < |ycols| && ycols[i] == s.legend && CaseGet(ks, ycols[i]) == Some(s.key)
    decreases |ycols|
  {
    if |ycols| > 0 {
      var rest := ycols[1..];
      NamedMember(ks, rest, s);
      assert forall i :: 0 < i < |ycols| ==> ycols[i] == rest[i - 1];
      if exists i :: 0 <= i < |ycols| && ycols[i] == s.legend && CaseGet(ks, ycols[i]) == Some(s.key) {
        var i :| 0 <= i < |ycols| && ycols[i] == s.legend && CaseGet(ks, ycols[i]) == Some(s.key);
        if i > 0 {
          assert rest[i - 1] == s.legend;
        }
      }
    }
  }

  /** `f"col{i}"`. */
  function ColName(i: nat): string {
    "col" + Decimal.NatToString(i)
  }

  /** The numbers `i` in `lo..hi-1`, in order, whose `col{i}` is a key. */
  function Present(ks: seq<string>, lo: nat, hi: nat): (r: seq<nat>)
    ensures forall k :: 0 <= k < |r| ==> lo <= r[k] < hi && ColName(r[k]) in ks
    ensures forall a, b :: 0 <= a < b < |r| ==> r[a] < r[b]
    ensures forall i :: lo <= i < hi && ColName(i) in ks ==> i in r
    ensures |r| <= if lo <= hi then hi - lo else 0
    decreases hi - lo
  {
    if lo >= hi then []
    else (if ColName(lo) in ks then [lo] else []) + Present(ks, lo + 1, hi)
  }

  /**
   * The series of `plot_time_svg`: the requested names that resolve; when none
   * does, the columns `col1..col{m}` that exist, paired by position with the
   * requested names.
   */
  function TimeSeries(ks: seq<string>, ycols: seq<string>): (r: seq<Series>)
    ensures |r| <= |ycols|
    ensures forall k :: 0 <= k < |r| ==> r[k].key in ks
  {
    var named := Named(ks, ycols);
    if |named| > 0 then
      forall k | 0 <= k < |named| ensures named[k].key in ks {
        assert CaseGet(ks, named[k].legend) == Some(named[k].key);
      }
      named
    else
      var have := Present(ks, 1, |ycols| + 1);
      seq(|have|, i requires 0 <= i < |have| => Series(ColName(have[i]), ycols[i]))
  }

  /**
   * When no requested name resolves, the `i`-th series takes the `i`-th
   * requested label and the `i`-th existing `colN` with `1 <= N <= |ycols|`,
   * in ascending `N`.
   */
  lemma TimeSeriesFallback(ks: seq<string>, ycols: seq<string>)
    requires forall i :: 0 <= i < |ycols| ==> CaseGet(ks, ycols[i]).None?
    ensures var r := TimeSeries(ks, ycols); var have := Present(ks, 1, |ycols| + 1);
      |r| == |have|
      && (forall k :: 0 <= k < |r| ==> r[k] == Series(ColName(have[k]), ycols[k]))
      && (forall n :: 1 <= n <= |ycols| && ColName(n) in ks ==> n in have)
  {
  }

  /** When some requested name resolves, the series are exactly the resolved names, in request order. */
  lemma TimeSeriesNamed(ks: seq<string>, ycols: seq<string>, i: nat)
    requires i < |ycols| && CaseGet(ks, ycols[i]).Some?
    ensures TimeSeries(ks, ycols) == Named(ks, ycols)
    ensures Series(CaseGet(ks, ycols[i]).value, ycols[i]) in TimeSeries(ks, ycols)
  {
    NamedMember(ks, ycols, Series(CaseGet(ks, ycols[i]).value, ycols[i]));
  }

  // ---------------------------------------------------------------------------
  // plot_fft_svg

  /** The largest transform `plot_fft_svg` takes. */
  const MaxFft: nat := 65536

  /** `N < 4` is an error; otherwise `min(65536, N - N % 2)`. */
  function FftLength(n: nat): (r: Result<nat, ReadError>)
    ensures r.Err? <==> n < 4
    ensures r.Err? ==> r.error == TooFewSamples
    ensures r.Ok? ==> r.value % 2 == 0 && 4 <= r.value <= n && r.value <= MaxFft
  {
    if n < 4 then Err(TooFewSamples)
    else
      var even := n - n % 2;
      Ok(if MaxFft < even then MaxFft else even)
  }

  /** No even length within both bounds is longer than the one chosen. */
  lemma FftLengthLargest(n: nat, m: nat)
    requires n >= 4 && m % 2 == 0 && m <= n && m <= MaxFft
    ensures m <= FftLength(n).value
  {
  }

  /** The samples the FFT sees: the column `_case_get` finds, cut to `FftLength`. */
  function FftInput(dat: Cols, ycol: string): (r: Result<seq<Num>, ReadError>)
    ensures r.Err? <==> CaseGet(Keys(dat), ycol).None? || |Get(dat, CaseGet(Keys(dat), ycol).value).value| < 4
    ensures r.Ok? ==> var y := Get(dat, CaseGet(Keys(dat), ycol).value).value;
      FftLength(|y|) == Ok(|r.value|) && r.value == y[..|r.value|]
  {
    match CaseGet(Keys(dat), ycol)
    case None => Err(MissingColumn(ycol))
    case Some(k) =>
      var y := Get(dat, k).value;
      match FftLength(|y|)
      case Err(e) => Err(e)
      case Ok(n) => Ok(y[..n])
  }

  // ---------------------------------------------------------------------------
  // plot_bode_svg

  /** The aliases `plot_bode_svg` allows for the frequency column. */
  const FreqAlts: seq<string> := ["freq", "frequency(Hz)", "Frequency"]

  /** The three columns `plot_bode_svg` looks up, before the mask; `None` when one of them is missing. */
  function BodeRaw(dat: Cols, fcol: string, yr: string, yi: string, alts: seq<string>): (c: Option<seq<seq<Num>>>)
    requires exists n :: Height(dat, n)
    ensures c.None? <==> LookupWithAlts(Keys(dat), fcol, alts).None? || CaseGet(Keys(dat), yr).None? || CaseGet(Keys(dat), yi).None?
    ensures c.Some? ==> |c.value| == 3 && Aligned(c.value)
    ensures c.Some? ==> Some(c.value[0]) == Get(dat, LookupWithAlts(Keys(dat), fcol, alts).value)
    ensures c.Some? ==> Some(c.value[1]) == Get(dat, CaseGet(Keys(dat), yr).value)
    ensures c.Some? ==> Some(c.value[2]) == Get(dat, CaseGet(Keys(dat), yi).value)
  {
    var kf := LookupWithAlts(Keys(dat), fcol, alts);
    var kr := CaseGet(Keys(dat), yr);
    var ki := CaseGet(Keys(dat), yi);
    if kf.None? || kr.None? || ki.None? then None
    else
      var f, re, im := Get(dat, kf.value).value, Get(dat, kr.value).value, Get(dat, ki.value).value;
      assert Aligned([f, re, im]) by {
        var n :| Height(dat, n);
        HeightGet(dat, kf.value);
        HeightGet(dat, kr.value);
        HeightGet(dat, ki.value);
        ThreeAligned(f, re, im, n);
      }
      Some([f, re, im])
  }

  /**
   * The columns of `plot_bode_svg`: the frequency (with aliases), the real and
   * imaginary parts (without), then the row mask or the placeholder.
   * The result is `[f, re, im]`.
   */
  function BodeColumns(dat: Cols, fcol: string, yr: string, yi: string, alts: seq<string>): (r: Result<seq<seq<Num>>, ReadError>)
    requires exists n :: Height(dat, n)
    ensures r.Err? <==> LookupWithAlts(Keys(dat), fcol, alts).None? || CaseGet(Keys(dat), yr).None? || CaseGet(Keys(dat), yi).None?
    ensures r.Ok? ==> |r.value| == 3 && Aligned(r.value) && |r.value[0]| > 0
    ensures r.Ok? ==> forall i :: 0 <= i < |r.value[0]| ==> Valid(r.value, i)
    ensures r.Ok? ==> BodeRaw(dat, fcol, yr, yi, alts).Some? && r.value == Mask(BodeRaw(dat, fcol, yr, yi, alts).value)
  {
    match BodeRaw(dat, fcol, yr, yi, alts)
    case None => Err(MissingColumn(fcol))
    case Some(raw) =>
      MaskValid(raw);
      Ok(Mask(raw))
  }

  /** Three columns of one height form one array. */
  lemma ThreeAligned(a: seq<Num>, b: seq<Num>, c: seq<Num>, n: nat)
    requires |a| == n && |b| == n && |c| == n
    ensures Aligned([a, b, c])
  {
    var cols := [a, b, c];
    assert forall k :: 0 <= k < 3 ==> |cols[k]| == n;
  }

  // ---------------------------------------------------------------------------
  // parse_four_log

  /** The four groups of the row pattern: the harmonic number and three numeric texts, in column order. */
  datatype FourMatch = FourMatch(n: nat, mag: string, db: string, phase: string)

  /**
   * The two regular expressions of `parse_four_log`: the row pattern anchored at
   * the start of a line, and the number after `at frequency`.
   */
  datatype LogPatterns = LogPatterns(row: string -> Option<FourMatch>, fundamental: string -> Option<string>)

  /** A stored row: `(n, db, phase, mag)`, i.e. columns 1, 3, 4 and 2. */
  datatype FourRow = FourRow(n: nat, db: Num, phase: Num, mag: Num)

  /** The scan state: the rows so far, the last fundamental read, and whether rows are being captured. */
  datatype FourScan = FourScan(rows: seq<FourRow>, fund: Option<Num>, capture: bool)

  /** What one line does to the scan: go on, or stop at a blank line after the table. */
  datatype Next = Continue(s: FourScan) | Stop(s: FourScan)

  /** The text that opens a table. */
  const Marker: string := "Fourier components of"

  /** `not (node and node.lower() not in line.lower())`: no node given, or the node is named in the line. */
  predicate Selected(node: string, line: string) {
    |node| == 0 || Contains(Lower(line), Lower(node))
  }

  /** `float()` of the three numeric groups, in the order the source converts them. */
  function Convert(g: FloatGrammar, m: FourMatch): (r: Result<FourRow, ReadError>)
    ensures r.Ok? <==> g.parses(m.mag) && g.parses(m.db) && g.parses(m.phase)
    ensures r.Ok? ==> r.value == FourRow(m.n, g.value(m.db), g.value(m.phase), g.value(m.mag))
    ensures r.Err? ==> r.error.NotAFloat?
  {
    if !g.parses(m.mag) then Err(NotAFloat(m.mag))
    else if !g.parses(m.db) then Err(NotAFloat(m.db))
    else if !g.parses(m.phase) then Err(NotAFloat(m.phase))
    else Ok(FourRow(m.n, g.value(m.db), g.value(m.phase), g.value(m.mag)))
  }

  /** The fundamental after a selected marker line: the number when it converts, `None` when not, unchanged when absent. */
  function Fundamental(g: FloatGrammar, p: LogPatterns, line: string, prev: Option<Num>): Option<Num> {
    match p.fundamental(line)
    case None => prev
    case Some(t) => if g.parses(t) then Some(g.value(t)) else None
  }

  /** One pass of the loop body. */
  function Step(g: FloatGrammar, p: LogPatterns, node: string, s: FourScan, line: string): (r: Result<Next, ReadError>)
    ensures r.Err? ==> r.error.NotAFloat?
    ensures r.Ok? && r.value.Stop? ==> r.value.s == s && s.capture && |s.rows| > 0 && AllSpace(line)
    ensures r.Ok? && Contains(line, Marker) ==> r.value == Continue(r.value.s) && r.value.s.rows == s.rows
    ensures r.Ok? && Contains(line, Marker) ==> r.value.s.capture == Selected(node, line)
    ensures r.Ok? && !Contains(line, Marker) ==> r.value.s.capture == s.capture && r.value.s.fund == s.fund
    ensures r.Ok? && !s.capture && !Contains(line, Marker) ==> r.value == Continue(s)
    ensures r.Ok? ==>
      || r.value.s.rows == s.rows
      || (s.capture && p.row(line).Some? && Convert(g, p.row(line).value).Ok?
          && r.value.s.rows == s.rows + [Convert(g, p.row(line).value).value])
    ensures Contains(line, Marker) && !Selected(node, line) ==> r == Ok(Continue(s.(capture := false)))
    ensures Contains(line, Marker) && Selected(node, line) ==>
      r == Ok(Continue(FourScan(s.rows, Fundamental(g, p, line, s.fund), true)))
    ensures s.capture && !Contains(line, Marker) && p.row(line).Some? ==>
      match Convert(g, p.row(line).value)
      case Ok(row) => r == Ok(Continue(s.(rows := s.rows + [row])))
      case Err(e) => r == Err(e)
    ensures s.capture && !Contains(line, Marker) && p.row(line).None? ==>
      r.Ok? && r.value.s == s && (r.value.Stop? <==> AllSpace(line) && |s.rows| > 0)
  {
    if Contains(line, Marker) then
      if !Selected(node, line) then Ok(Continue(s.(capture := false)))
      else Ok(Continue(FourScan(s.rows, Fundamental(g, p, line, s.fund), true)))
    else if !s.capture then Ok(Continue(s))
    else
      match p.row(line)
      case Some(m) =>
        (match Convert(g, m)
         case Err(e) => Err(e)
         case Ok(row) => Ok(Continue(s.(rows := s.rows + [row]))))
      case None =>
        if AllSpace(line) && |s.rows| > 0 then Ok(Stop(s)) else Ok(Continue(s))
  }

  /** The loop over the remaining lines. */
  function Scan(g: FloatGrammar, p: LogPatterns, node: string, s: FourScan, lines: seq<string>): (r: Result<FourScan, ReadError>)
    ensures r.Ok? ==> |s.rows| <= |r.value.rows| && r.value.rows[..|s.rows|] == s.rows
    ensures r.Err? ==> r.error.NotAFloat?
    decreases |lines|
  {
    if |lines| == 0 then Ok(s)
    else
      match Step(g, p, node, s, lines[0])
      case Err(e) => Err(e)
      case Ok(Stop(s1)) => Ok(s1)
      case Ok(Continue(s1)) =>
        var r := Scan(g, p, node, s1, lines[1..]);
        if r.Ok? then
          assert r.value.rows[..|s.rows|] == r.value.rows[..|s1.rows|][..|s.rows|];
          r
        else r
  }

  /** The result of `parse_four_log`: the fundamental and the rows. */
  datatype FourLog = FourLog(freq: Option<Num>, rows: seq<FourRow>)

  /** `parse_four_log` on the lines of the log. */
  function ParseFourLog(g: FloatGrammar, p: LogPatterns, node: string, lines: seq<string>): (r: Result<FourLog, ReadError>)
    ensures r.Err? ==> r.error.NotAFloat?
  {
    match Scan(g, p, node, FourScan([], None, false), lines)
    case Err(e) => Err(e)
    case Ok(s) => Ok(FourLog(s.fund, s.rows))
  }

  /** The marker has letters, so a blank line never holds it. */
  lemma BlankHasNoMarker(line: string)
    requires AllSpace(line)
    ensures !Contains(line, Marker)
  {
    if Contains(line, Marker) {
      var i :| 0 <= i <= |line| - |Marker| && OccursAt(line, Marker, i);
      OccursFirst(line, Marker, i);
      assert false;
    }
  }

  /** An occurrence starts with the first character of what occurs. */
  lemma OccursFirst(s: string, sub: string, i: nat)
    requires |sub| > 0 && i <= |s| - |sub| && OccursAt(s, sub, i)
    ensures s[i] == sub[0]
  {
    assert s[i..i + |sub|][0] == s[i];
  }

  /** Outside a table, lines without the marker change nothing: rows are captured only after a marker. */
  lemma {:induction false} NoMarkerNoRows(g: FloatGrammar, p: LogPatterns, node: string, s: FourScan, lines: seq<string>)
    requires !s.capture
    requires forall i :: 0 <= i < |lines| ==> !Contains(lines[i], Marker)
    ensures Scan(g, p, node, s, lines) == Ok(s)
    decreases |lines|
  {
    if |lines| > 0 {
      assert Step(g, p, node, s, lines[0]) == Ok(Continue(s));
      NoMarkerNoRows(g, p, node, s, lines[1..]);
    }
  }

  /** A log without a marker yields no fundamental and no rows. */
  lemma ParseFourNoMarker(g: FloatGrammar, p: LogPatterns, node: string, lines: seq<string>)
    requires forall i :: 0 <= i < |lines| ==> !Contains(lines[i], Marker)
    ensures ParseFourLog(g, p, node, lines) == Ok(FourLog(None, []))
  {
    NoMarkerNoRows(g, p, node, FourScan([], None, false), lines);
  }

  /** Once a row is captured, a blank line that the row pattern rejects ends the scan: later lines are ignored. */
  lemma StopAtBlank(g: FloatGrammar, p: LogPatterns, node: string, s: FourScan, line: string, rest: seq<string>)
    requires s.capture && |s.rows| > 0 && AllSpace(line) && p.row(line).None?
    ensures Scan(g, p, node, s, [line] + rest) == Ok(s)
  {
    BlankHasNoMarker(line);
    assert ([line] + rest)[0] == line;
  }

  /** Every captured row is the conversion of a row-pattern match on some line; ScanBlock gives the order. */
  lemma {:induction false} ScanRowSource(g: FloatGrammar, p: LogPatterns, node: string, s: FourScan, lines: seq<string>, k: nat)
    returns (i: nat)
    requires Scan(g, p, node, s, lines).Ok?
    requires |s.rows| <= k < |Scan(g, p, node, s, lines).value.rows|
    ensures i < |lines| && p.row(lines[i]).Some?
    ensures Convert(g, p.row(lines[i]).value) == Ok(Scan(g, p, node, s, lines).value.rows[k])
    decreases |lines|
  {
    var r := Scan(g, p, node, s, lines).value;
    var step := Step(g, p, node, s, lines[0]).value;
    if step.Stop? {
      assert false;
    }
    var s1 := step.s;
    var r1 := Scan(g, p, node, s1, lines[1..]);
    assert r1.Ok? && r1.value == r;
    if k < |s1.rows| {
      assert s1.rows != s.rows;
      assert s1.rows == s.rows + [Convert(g, p.row(lines[0]).value).value];
      assert k == |s.rows|;
      assert r.rows[k] == r.rows[..|s1.rows|][k] == s1.rows[k];
      i := 0;
    } else {
      var j := ScanRowSource(g, p, node, s1, lines[1..], k);
      assert lines[1..][j] == lines[j + 1];
      i := j + 1;
    }
  }

  /** A line that ends a table once a row is stored: blank, and not a row. */
  predicate Blank(p: LogPatterns, line: string) {
    p.row(line).None? && AllSpace(line)
  }

  /** The rows a block of lines yields: the conversion of every line the row pattern matches, in line order. */
  function MatchedRows(g: FloatGrammar, p: LogPatterns, lines: seq<string>): (r: seq<FourRow>)
    ensures |r| <= |lines|
    decreases |lines|
  {
    if |lines| == 0 then []
    else
      (match p.row(lines[0])
       case Some(m) => (if Convert(g, m).Ok? then [Convert(g, m).value] else [])
       case None => [])
      + MatchedRows(g, p, lines[1..])
  }

  /**
   * The lines of one table: no marker, every row match converts, and no line
   * that would end the table comes after a stored row (`stored` says whether
   * rows were stored before the block).
   */
  predicate TableBody(g: FloatGrammar, p: LogPatterns, stored: bool, block: seq<string>) {
    (forall i :: 0 <= i < |block| ==> !Contains(block[i], Marker))
    && (forall i :: 0 <= i < |block| && p.row(block[i]).Some? ==> Convert(g, p.row(block[i]).value).Ok?)
    && (forall j, i :: 0 <= j < i < |block| && p.row(block[j]).Some? ==> !Blank(p, block[i]))
    && (stored ==> forall i :: 0 <= i < |block| ==> !Blank(p, block[i]))
  }

  /** The rest of a table body after its first line is one, stored once that line is a row. */
  lemma TableBodyTail(g: FloatGrammar, p: LogPatterns, stored: bool, block: seq<string>)
    requires |block| > 0 && TableBody(g, p, stored, block)
    ensures TableBody(g, p, stored || p.row(block[0]).Some?, block[1..])
  {
    forall j, i | 0 <= j < i < |block[1..]| && p.row(block[1..][j]).Some?
      ensures !Blank(p, block[1..][i])
    {
      assert block[1..][j] == block[j + 1] && block[1..][i] == block[i + 1];
    }
    if stored || p.row(block[0]).Some? {
      forall i | 0 <= i < |block[1..]|
        ensures !Blank(p, block[1..][i])
      {
        assert block[1..][i] == block[i + 1];
      }
    }
  }

  /**
   * While capturing, a table body stores every row it matches, in line order,
   * and the scan ends there: at the end of the log, or at a blank line once
   * some row is stored.
   */
  lemma {:induction false} ScanBlock(g: FloatGrammar, p: LogPatterns, node: string, s: FourScan, block: seq<string>, tail: seq<string>)
    requires s.capture && TableBody(g, p, |s.rows| > 0, block)
    requires |tail| == 0 || (Blank(p, tail[0]) && |s.rows| + |MatchedRows(g, p, block)| > 0)
    ensures Scan(g, p, node, s, block + tail) == Ok(s.(rows := s.rows + MatchedRows(g, p, block)))
    decreases |block|
  {
    if |block| == 0 {
      assert block + tail == tail;
      assert s.rows + MatchedRows(g, p, block) == s.rows;
      if |tail| > 0 {
        assert tail == [tail[0]] + tail[1..];
        StopAtBlank(g, p, node, s, tail[0], tail[1..]);
      }
    } else {
      var line := block[0];
      assert (block + tail)[0] == line;
      assert (block + tail)[1..] == block[1..] + tail;
      var s1 := match p.row(line) case Some(m) => s.(rows := s.rows + [Convert(g, m).value]) case None => s;
      assert Step(g, p, node, s, line) == Ok(Continue(s1));
      assert s1.rows + MatchedRows(g, p, block[1..]) == s.rows + MatchedRows(g, p, block);
      TableBodyTail(g, p, |s.rows| > 0, block);
      ScanBlock(g, p, node, s1, block[1..], tail);
    }
  }

  /** Lines without the marker, outside a table, are skipped. */
  lemma {:induction false} SkipNoMarker(g: FloatGrammar, p: LogPatterns, node: string, s: FourScan, pre: seq<string>, rest: seq<string>)
    requires !s.capture
    requires forall i :: 0 <= i < |pre| ==> !Contains(pre[i], Marker)
    ensures Scan(g, p, node, s, pre + rest) == Scan(g, p, node, s, rest)
    decreases |pre|
  {
    if |pre| > 0 {
      assert (pre + rest)[0] == pre[0];
      assert (pre + rest)[1..] == pre[1..] + rest;
      assert Step(g, p, node, s, pre[0]) == Ok(Continue(s));
      SkipNoMarker(g, p, node, s, pre[1..], rest);
    } else {
      assert pre + rest == rest;
    }
  }

  /**
   * A log whose first marker line is selected: the fundamental is the one on
   * that line, and the rows are every row of the table after it, in line
   * order, up to the blank line that ends it.
   */
  lemma ParseFourBlock(g: FloatGrammar, p: LogPatterns, node: string, pre: seq<string>, header: string,
                       block: seq<string>, tail: seq<string>)
    requires forall i :: 0 <= i < |pre| ==> !Contains(pre[i], Marker)
    requires Contains(header, Marker) && Selected(node, header)
    requires TableBody(g, p, false, block)
    requires |tail| == 0 || (Blank(p, tail[0]) && |MatchedRows(g, p, block)| > 0)
    ensures ParseFourLog(g, p, node, pre + [header] + block + tail)
         == Ok(FourLog(Fundamental(g, p, header, None), MatchedRows(g, p, block)))
  {
    var s0 := FourScan([], None, false);
    var s1 := FourScan([], Fundamental(g, p, header, None), true);
    assert pre + [header] + block + tail == pre + ([header] + (block + tail));
    SkipNoMarker(g, p, node, s0, pre, [header] + (block + tail));
    assert ([header] + (block + tail))[0] == header;
    assert ([header] + (block + tail))[1..] == block + tail;
    assert Step(g, p, node, s0, header) == Ok(Continue(s1));
    ScanBlock(g, p, node, s1, block, tail);
    assert s1.rows + MatchedRows(g, p, block) == MatchedRows(g, p, block);
  }
}

=== FILE: shapers.dfy ===
/**
 * The memoryless shapers of chain_hendrix.py and hendrix_lab.py: `octavia`,
 * `hard_clip` and `compressor_soft`. Each maps every sample on its own and then
 * normalises the buffer by its peak.
 */
module Shapers {
  import opened Dsp

  /** Full-wave rectification followed by `tanh(6*(|x| - 0.1))`, before normalisation. */
  function Rectify(m: Math, x: seq<real>): (y: seq<real>)
    ensures |y| == |x|
    ensures forall i :: 0 <= i < |x| ==> y[i] == m.tanh(6.0 * (Abs(x[i]) - 0.1))
  {
    seq(|x|, i requires 0 <= i < |x| => m.tanh(6.0 * (Abs(x[i]) - 0.1)))
  }

  /** `octavia(x)`: the rectified, saturated signal normalised by its peak. */
  function Octavia(m: Math, x: seq<real>): (y: seq<real>)
    requires |x| > 0
    ensures |y| == |x|
    ensures forall i :: 0 <= i < |x| ==> -1.0 < y[i] < 1.0
  {
    Norm(Rectify(m, x))
  }

  /**
   * The octave-up effect sees only magnitudes: two inputs whose samples agree in
   * absolute value give the same output.
   */
  lemma OctaviaSeesMagnitude(m: Math, x1: seq<real>, x2: seq<real>)
    requires |x1| == |x2| > 0
    requires forall i :: 0 <= i < |x1| ==> Abs(x1[i]) == Abs(x2[i])
    ensures Octavia(m, x1) == Octavia(m, x2)
  {
    assert Rectify(m, x1) == Rectify(m, x2);
  }

  /** In particular the effect is even: `octavia(-x) == octavia(x)`. */
  lemma OctaviaEven(m: Math, x: seq<real>)
    requires |x| > 0
    ensures Octavia(m, Neg(x)) == Octavia(m, x)
  {
    OctaviaSeesMagnitude(m, Neg(x), x);
  }

  /** `np.clip(x, lo, hi)` over a buffer. */
  function ClipAll(x: seq<real>, lo: real, hi: real): (y: seq<real>)
    ensures |y| == |x|
    ensures forall i :: 0 <= i < |x| ==> y[i] == Clip(x[i], lo, hi)
  {
    seq(|x|, i requires 0 <= i < |x| => Clip(x[i], lo, hi))
  }

  /**
   * `hard_clip(x, th)`: clamp to [-th, th], then normalise. For th >= 0 the clamp
   * keeps every sample in range and leaves in-range samples untouched.
   */
  function HardClip(x: seq<real>, th: real): (y: seq<real>)
    requires |x| > 0
    ensures |y| == |x|
    ensures forall i :: 0 <= i < |x| ==> -1.0 < y[i] < 1.0
  {
    Norm(ClipAll(x, -th, th))
  }

  /** With ordered bounds every clamped sample lies in [lo, hi], and in-range samples are kept. */
  lemma ClampInRange(x: seq<real>, lo: real, hi: real)
    requires lo <= hi
    ensures forall i :: 0 <= i < |x| ==> lo <= ClipAll(x, lo, hi)[i] <= hi
    ensures forall i :: 0 <= i < |x| && lo <= x[i] <= hi ==> ClipAll(x, lo, hi)[i] == x[i]
  {
  }

  /** Clamping twice is clamping once. */
  lemma ClipIdempotent(x: seq<real>, lo: real, hi: real)
    ensures ClipAll(ClipAll(x, lo, hi), lo, hi) == ClipAll(x, lo, hi)
  {
    var once := ClipAll(x, lo, hi);
    assert forall i :: 0 <= i < |x| ==> Clip(once[i], lo, hi) == once[i];
  }

  /** A signal already within the threshold passes the clipper as a plain normalisation. */
  lemma HardClipBelowThreshold(x: seq<real>, th: real)
    requires |x| > 0
    requires forall i :: 0 <= i < |x| ==> Abs(x[i]) <= th
    ensures HardClip(x, th) == Norm(x)
  {
    assert ClipAll(x, -th, th) == x;
  }

  /** Elementwise `np.tanh`. */
  function TanhAll(m: Math, x: seq<real>): (y: seq<real>)
    ensures |y| == |x|
    ensures forall i :: 0 <= i < |x| ==> y[i] == m.tanh(x[i])
  {
    seq(|x|, i requires 0 <= i < |x| => m.tanh(x[i]))
  }

  /** `10**(drive_db/20)`: the linear gain of a level in decibels. */
  function DbGain(m: Math, driveDb: real): (g: real)
    ensures g == m.pow10(driveDb / 20.0)
    ensures WellBehaved(m) ==> g > 0.0
  {
    m.pow10(driveDb / 20.0)
  }

  /** The compressor before normalisation: gain, then tanh only for the "soft" knee. */
  function Compress(m: Math, x: seq<real>, driveDb: real, knee: string): (y: seq<real>)
    ensures |y| == |x|
    ensures knee == "soft" ==> y == TanhAll(m, Scale(DbGain(m, driveDb), x))
    ensures knee != "soft" ==> y == Scale(DbGain(m, driveDb), x)
  {
    var y := Scale(DbGain(m, driveDb), x);
    if knee == "soft" then TanhAll(m, y) else y
  }

  /**
   * Both knees preserve the order of samples: with a positive gain and an
   * increasing tanh, `x[i] <= x[j]` exactly when the compressed samples compare
   * the same way.
   */
  lemma CompressKeepsOrder(m: Math, x: seq<real>, driveDb: real, knee: string, i: nat, j: nat)
    requires WellBehaved(m) && i < |x| && j < |x|
    ensures x[i] <= x[j] <==> Compress(m, x, driveDb, knee)[i] <= Compress(m, x, driveDb, knee)[j]
  {
    var g := DbGain(m, driveDb);
    var y := Scale(g, x);
    ScaleKeepsOrder(g, x[i], x[j]);
    if knee == "soft" {
      TanhKeepsOrder(m, y[i], y[j]);
    }
  }

  lemma TanhKeepsOrder(m: Math, u: real, v: real)
    requires WellBehaved(m)
    ensures u <= v <==> m.tanh(u) <= m.tanh(v)
  {
    if v < u {
      assert m.tanh(v) < m.tanh(u);
    } else if u < v {
      assert m.tanh(u) < m.tanh(v);
    }
  }

  lemma ScaleKeepsOrder(g: real, u: real, v: real)
    requires g > 0.0
    ensures u <= v <==> g * u <= g * v
  {
    if u <= v {
      MulLe(g, u, v);
    } else {
      MulLt(g, v, u);
    }
  }

  /** `compressor_soft(x, drive_db, knee)`: the compressed signal normalised by its peak. */
  function Compressor(m: Math, x: seq<real>, driveDb: real, knee: string): (y: seq<real>)
    requires |x| > 0
    ensures |y| == |x|
    ensures forall i :: 0 <= i < |x| ==> -1.0 < y[i] < 1.0
  {
    Norm(Compress(m, x, driveDb, knee))
  }

  /** The normalised compressor keeps the order of the input samples too. */
  lemma CompressorKeepsOrder(m: Math, x: seq<real>, driveDb: real, knee: string, i: nat, j: nat)
    requires WellBehaved(m) && |x| > 0 && i < |x| && j < |x|
    ensures x[i] <= x[j] <==> Compressor(m, x, driveDb, knee)[i] <= Compressor(m, x, driveDb, knee)[j]
  {
    CompressKeepsOrder(m, x, driveDb, knee, i, j);
    NormMonotone(Compress(m, x, driveDb, knee), i, j);
  }
}

=== FILE: sort.dfy ===
/**
 * Sorting by a float key: `np.argsort(f)` in merge_bode.py and wah_q_table.py,
 * and `rows.sort(key=...)` in wah_q_table.py. The sort is modelled as a stable
 * insertion sort of positions, ordered by `Numbers.NumLe`. Python's list sort
 * is stable; `np.argsort` defaults to quicksort, which is not, so for numpy
 * the order among equal keys is one admissible choice and not a promise.
 */
module Sorting {
  import opened Numbers

  /** `range(n)`. */
  function Range(n: nat): (r: seq<nat>)
    ensures |r| == n
    ensures forall i :: 0 <= i < n ==> r[i] == i
  {
    seq(n, i requires 0 <= i < n => i)
  }

  /** `p` lists every position below `n` exactly once. */
  predicate IsPermutation(p: seq<nat>, n: nat) {
    multiset(p) == multiset(Range(n))
  }

  predicate InBounds(p: seq<nat>, n: nat) {
    forall k :: 0 <= k < |p| ==> p[k] < n
  }

  /** Strictly before in the sort order. */
  predicate Less(a: Num, b: Num) {
    !NumLe(b, a)
  }

  /** The keys read through `p` are in ascending order. */
  predicate SortedBy(v: seq<Num>, p: seq<nat>)
    requires InBounds(p, |v|)
  {
    forall a, b :: 0 <= a < b < |p| ==> NumLe(v[p[a]], v[p[b]])
  }

  /** Equal keys keep their original relative order. */
  predicate StableBy(v: seq<Num>, p: seq<nat>)
    requires InBounds(p, |v|)
  {
    forall a, b :: 0 <= a < b < |p| && NumLe(v[p[b]], v[p[a]]) ==> p[a] < p[b]
  }

  /** Where position `i` goes in the sorted list `p`: after every key not greater than its own. */
  function InsertionPoint(v: seq<Num>, p: seq<nat>, i: nat): (m: nat)
    requires InBounds(p, |v|) && i < |v| && SortedBy(v, p)
    ensures m <= |p|
    ensures forall k :: 0 <= k < m ==> NumLe(v[p[k]], v[i])
    ensures forall k :: m <= k < |p| ==> Less(v[i], v[p[k]])
    decreases |p|
  {
    if |p| == 0 then 0
    else if Less(v[i], v[p[0]]) then 0
    else
      var rest := p[1..];
      assert forall k :: 0 <= k < |rest| ==> rest[k] == p[k + 1];
      1 + InsertionPoint(v, rest, i)
  }

  /** Insert position `i`, larger than every position already sorted, keeping order and stability. */
  function InsertSorted(v: seq<Num>, p: seq<nat>, i: nat): (r: seq<nat>)
    requires InBounds(p, |v|) && i < |v| && SortedBy(v, p) && StableBy(v, p)
    requires forall k :: 0 <= k < |p| ==> p[k] < i
    ensures |r| == |p| + 1
    ensures multiset(r) == multiset(p) + multiset{i}
    ensures InBounds(r, |v|) && SortedBy(v, r) && StableBy(v, r)
  {
    var m := InsertionPoint(v, p, i);
    var r := p[..m] + [i] + p[m..];
    assert p == p[..m] + p[m..];
    Splice(v, p, i, m, r);
    r
  }

  lemma Splice(v: seq<Num>, p: seq<nat>, i: nat, m: nat, r: seq<nat>)
    requires InBounds(p, |v|) && i < |v| && SortedBy(v, p) && StableBy(v, p)
    requires forall k :: 0 <= k < |p| ==> p[k] < i
    requires m <= |p| && r == p[..m] + [i] + p[m..]
    requires forall k :: 0 <= k < m ==> NumLe(v[p[k]], v[i])
    requires forall k :: m <= k < |p| ==> Less(v[i], v[p[k]])
    ensures InBounds(r, |v|) && SortedBy(v, r) && StableBy(v, r)
  {
    assert forall k :: 0 <= k < m ==> r[k] == p[k];
    assert r[m] == i;
    assert forall k :: m < k < |r| ==> r[k] == p[k - 1];
    forall a, b | 0 <= a < b < |r|
      ensures NumLe(v[r[a]], v[r[b]])
      ensures NumLe(v[r[b]], v[r[a]]) ==> r[a] < r[b]
    {
      if b == m {
        assert r[b] == i && r[a] == p[a];
      } else if a == m {
        assert r[a] == i && r[b] == p[b - 1];
        assert !NumLe(v[r[b]], v[r[a]]);
      }
    }
  }

  /** The positions `0..n-1` sorted by key. */
  function SortPrefix(v: seq<Num>, n: nat): (p: seq<nat>)
    requires n <= |v|
    ensures |p| == n && IsPermutation(p, n)
    ensures InBounds(p, n) && InBounds(p, |v|)
    ensures SortedBy(v, p) && StableBy(v, p)
    decreases n
  {
    if n == 0 then []
    else
      var prev := SortPrefix(v, n - 1);
      var r := InsertSorted(v, prev, n - 1);
      assert Range(n) == Range(n - 1) + [n - 1];
      InBoundsFromMultiset(r, n);
      r
  }

  /** Every element of a permutation of `range(n)` is below `n`. */
  lemma InBoundsFromMultiset(p: seq<nat>, n: nat)
    requires IsPermutation(p, n)
    ensures InBounds(p, n)
  {
    forall k | 0 <= k < |p|
      ensures p[k] < n
    {
      assert p[k] in multiset(p);
      assert p[k] in multiset(Range(n));
      assert p[k] in Range(n);
    }
  }

  /** `np.argsort(v)`, with ties kept in position order: a permutation of the positions that puts the keys in ascending order. */
  function ArgSort(v: seq<Num>): (p: seq<nat>)
    ensures |p| == |v| && IsPermutation(p, |v|) && InBounds(p, |v|)
    ensures SortedBy(v, p) && StableBy(v, p)
  {
    SortPrefix(v, |v|)
  }

  /** `xs[idx]`: numpy's integer-array indexing, used for a sort order and for a row mask. */
  function Gather<T>(xs: seq<T>, p: seq<nat>): (r: seq<T>)
    requires InBounds(p, |xs|)
    ensures |r| == |p|
    ensures forall k :: 0 <= k < |p| ==> r[k] == xs[p[k]]
  {
    seq(|p|, k requires 0 <= k < |p| => xs[p[k]])
  }

  /** Reading through a concatenation of positions reads through each part in turn. */
  lemma GatherAppend<T>(xs: seq<T>, a: seq<nat>, b: seq<nat>)
    requires InBounds(a, |xs|) && InBounds(b, |xs|)
    ensures InBounds(a + b, |xs|)
    ensures Gather(xs, a + b) == Gather(xs, a) + Gather(xs, b)
  {
  }

  /** Reading through positions that are a rearrangement of each other gives a rearrangement of the values. */
  lemma {:induction false} GatherSameMultiset<T>(xs: seq<T>, p: seq<nat>, q: seq<nat>)
    requires InBounds(p, |xs|) && InBounds(q, |xs|) && multiset(p) == multiset(q)
    ensures multiset(Gather(xs, p)) == multiset(Gather(xs, q))
    decreases |p|
  {
    if |p| > 0 {
      var last := |p| - 1;
      var j := p[last];
      var p1 := p[..last] + p[last + 1..];
      DropOne(p, last);
      var m := Position(q, j);
      var q1 := q[..m] + q[m + 1..];
      DropOne(q, m);
      Cancel(multiset(p1), multiset(q1), j);
      GatherRemove(xs, p, last);
      GatherRemove(xs, q, m);
      GatherSameMultiset(xs, p1, q1);
    } else {
      assert |q| == |multiset(q)| == 0;
    }
  }

  /** Where an element of a sequence sits. */
  lemma Position(q: seq<nat>, j: nat) returns (m: nat)
    requires j in multiset(q)
    ensures m < |q| && q[m] == j
  {
    assert j in q;
    var k :| 0 <= k < |q| && q[k] == j;
    m := k;
  }

  /** Multiset union with one element cancels. */
  lemma Cancel(a: multiset<nat>, b: multiset<nat>, j: nat)
    requires a + multiset{j} == b + multiset{j}
    ensures a == b
  {
    forall x
      ensures a[x] == b[x]
    {
      assert (a + multiset{j})[x] == (b + multiset{j})[x];
    }
  }

  /** Removing one position removes one occurrence from the multiset. */
  lemma DropOne(q: seq<nat>, m: nat)
    requires m < |q|
    ensures multiset(q[..m] + q[m + 1..]) + multiset{q[m]} == multiset(q)
  {
    assert q == q[..m] + [q[m]] + q[m + 1..];
  }

  /** The values read through `q` are those read through `q` without position `m`, plus the one at `q[m]`. */
  lemma GatherRemove<T>(xs: seq<T>, q: seq<nat>, m: nat)
    requires InBounds(q, |xs|) && m < |q|
    ensures InBounds(q[..m] + q[m + 1..], |xs|)
    ensures multiset(Gather(xs, q)) == multiset(Gather(xs, q[..m] + q[m + 1..])) + multiset{xs[q[m]]}
  {
    var a, b := q[..m], q[m + 1..];
    assert q == a + [q[m]] + b;
    GatherAppend(xs, a, [q[m]]);
    GatherAppend(xs, a + [q[m]], b);
    GatherAppend(xs, a, b);
    assert Gather(xs, [q[m]]) == [xs[q[m]]];
  }

  /** Reading through a permutation rearranges the values: the same multiset. */
  lemma GatherPermutation<T>(xs: seq<T>, p: seq<nat>)
    requires IsPermutation(p, |xs|) && InBounds(p, |xs|)
    ensures multiset(Gather(xs, p)) == multiset(xs)
  {
    var r := Range(|xs|);
    GatherSameMultiset(xs, p, r);
    assert Gather(xs, r) == xs;
  }
}

=== FILE: table.dfy ===
/**
 * Columns read from ngspice WRDATA text: the numeric matrix `np.asarray(data)`,
 * the insertion-ordered `dict` from column name to column, generated `colN`
 * names, and the case-insensitive key lookups the scripts share.
 */
module Table {
  import opened Wrappers
  import opened Text
  import opened Numbers
  import Decimal

  /** Why a reader or a column selector gives up: an exception or `sys.exit` in the source. */
  datatype ReadError =
    | EmptyFile                   // nothing left after the line filter, or an empty text
    | NoNumericRows               // no row survived the numeric parse
    | RaggedRows                  // rows of different widths: numpy cannot build the matrix
    | NotAFloat(token: string)    // `float(tok)` raised ValueError
    | NoDataRows                  // a header and no rows: `arr[:, j]` raises IndexError
    | MissingColumn(name: string) // a required column is absent (KeyError or an error exit)
    | AmbiguousTruth              // `bool()` of a numpy array with other than one element
    | TooFewSamples               // the FFT needs at least four samples
    | NoRecords                   // a log scan found nothing
    | Usage                       // wrong number of command-line arguments
    | LabelCountMismatch          // labels and inputs differ in number
    | NoUsableFrequency           // no column has both a finite and a positive value

  /** `arr` as a list of rows: every row has the same width. */
  predicate Rectangular(rows: seq<seq<Num>>, w: nat) {
    forall i :: 0 <= i < |rows| ==> |rows[i]| == w
  }

  /** `np.asarray(data, dtype=float)` on a non-empty list of rows: the width, or the ragged-row failure. */
  function MatrixWidth(data: seq<seq<Num>>): (r: Result<nat, ReadError>)
    requires |data| > 0
    ensures r.Ok? <==> Rectangular(data, |data[0]|)
    ensures r.Ok? ==> r.value == |data[0]|
    ensures r.Err? ==> r.error == RaggedRows
  {
    if Rectangular(data, |data[0]|) then Ok(|data[0]|) else Err(RaggedRows)
  }

  /** `arr[:, j]`. */
  function ColumnOf(rows: seq<seq<Num>>, w: nat, j: nat): (c: seq<Num>)
    requires Rectangular(rows, w) && j < w
    ensures |c| == |rows|
    ensures forall i :: 0 <= i < |rows| ==> c[i] == rows[i][j]
  {
    seq(|rows|, i requires 0 <= i < |rows| => rows[i][j])
  }

  /** Every column of the matrix, left to right. */
  function Columns(rows: seq<seq<Num>>, w: nat): (cs: seq<seq<Num>>)
    requires Rectangular(rows, w)
    ensures |cs| == w
    ensures forall j :: 0 <= j < w ==> cs[j] == ColumnOf(rows, w, j)
  {
    seq(w, j requires 0 <= j < w => ColumnOf(rows, w, j))
  }

  /** One dictionary entry. */
  datatype Column = Column(name: string, values: seq<Num>)

  /** A Python `dict` from column name to column, in insertion order. */
  type Cols = seq<Column>

  /** Every column of the dictionary has `n` rows, as the columns of one array do. */
  predicate Height(d: Cols, n: nat) {
    forall c :: c in d ==> |c.values| == n
  }

  /** `list(d.keys())`. */
  function Keys(d: Cols): (ks: seq<string>)
    ensures |ks| == |d|
    ensures forall i :: 0 <= i < |d| ==> ks[i] == d[i].name
  {
    seq(|d|, i requires 0 <= i < |d| => d[i].name)
  }

  predicate Distinct(s: seq<string>) {
    forall i, j :: 0 <= i < j < |s| ==> s[i] != s[j]
  }

  /** Two different names are distinct. */
  lemma DistinctPair(s: seq<string>)
    requires |s| == 2 && s[0] != s[1]
    ensures Distinct(s)
  {
  }

  /** A dictionary never holds a key twice. */
  predicate UniqueKeys(d: Cols) {
    Distinct(Keys(d))
  }

  /** The position of a key. */
  function Find(d: Cols, k: string): (r: Option<nat>)
    ensures r.Some? ==> r.value < |d| && d[r.value].name == k
    ensures r.Some? ==> forall j :: 0 <= j < r.value ==> d[j].name != k
    ensures r.None? ==> forall j :: 0 <= j < |d| ==> d[j].name != k
    decreases |d|
  {
    if |d| == 0 then None
    else if d[0].name == k then Some(0)
    else
      match Find(d[1..], k)
      case None => None
      case Some(i) => Some(i + 1)
  }

  /** `k in d`. */
  predicate Has(d: Cols, k: string) {
    Find(d, k).Some?
  }

  /** `d.get(k)`. */
  function Get(d: Cols, k: string): (r: Option<seq<Num>>)
    ensures r.Some? <==> k in Keys(d)
  {
    match Find(d, k)
    case None => None
    case Some(i) => Some(d[i].values)
  }

  /** What `d.get(k)` returns is the column stored under `k`. */
  lemma GetEntry(d: Cols, k: string)
    requires Get(d, k).Some?
    ensures Column(k, Get(d, k).value) in d
  {
    var i := Find(d, k).value;
    assert d[i] == Column(k, Get(d, k).value);
  }

  /** A stored column has the dictionary's height. */
  lemma HeightGet(d: Cols, k: string)
    requires Get(d, k).Some?
    ensures forall n :: Height(d, n) ==> |Get(d, k).value| == n
  {
    GetEntry(d, k);
  }

  /** In a dictionary each entry is found at its own position. */
  lemma FindUnique(d: Cols, j: nat)
    requires UniqueKeys(d) && j < |d|
    ensures Find(d, d[j].name) == Some(j)
  {
    forall i | 0 <= i < |d| && i != j
      ensures d[i].name != d[j].name
    {
      if i < j {
        assert Keys(d)[i] != Keys(d)[j];
      } else {
        assert Keys(d)[j] != Keys(d)[i];
      }
    }
  }

  /** `d[k] = v`: overwrite in place when `k` is present, append otherwise. */
  function Put(d: Cols, k: string, v: seq<Num>): (r: Cols)
    requires UniqueKeys(d)
    ensures UniqueKeys(r)
    ensures Keys(r) == if k in Keys(d) then Keys(d) else Keys(d) + [k]
    ensures Get(r, k) == Some(v)
    ensures forall k2 :: k2 != k ==> Get(r, k2) == Get(d, k2)
    ensures forall c :: c in r ==> c in d || c.values == v
  {
    match Find(d, k)
    case Some(i) =>
      var r := d[i := Column(k, v)];
      assert Keys(r) == Keys(d);
      FindUnique(r, i);
      PutOthers(d, r, k);
      r
    case None =>
      var r := d + [Column(k, v)];
      assert Keys(r) == Keys(d) + [k];
      FindUnique(r, |d|);
      PutOthers(d, r, k);
      r
  }

  /** Keys other than `k` keep their entries when `r` only changes or adds the entry of `k`. */
  lemma PutOthers(d: Cols, r: Cols, k: string)
    requires UniqueKeys(d) && UniqueKeys(r) && |d| <= |r|
    requires forall j :: 0 <= j < |d| ==> if d[j].name == k then r[j].name == k else r[j] == d[j]
    requires forall j :: |d| <= j < |r| ==> r[j].name == k
    ensures forall k2 :: k2 != k ==> Get(r, k2) == Get(d, k2)
  {
    forall k2 | k2 != k
      ensures Get(r, k2) == Get(d, k2)
    {
      match Find(d, k2)
      case Some(j) =>
        FindUnique(r, j);
      case None =>
        forall j | 0 <= j < |r|
          ensures r[j].name != k2
        {
          if j < |d| && d[j].name != k {
            assert r[j] == d[j];
          }
        }
    }
  }

  /** `{name: arr[:, i] for i, name in enumerate(names)}`: later duplicates overwrite earlier ones. */
  function FromNames(names: seq<string>, columns: seq<seq<Num>>): (r: Cols)
    requires |names| == |columns|
    ensures UniqueKeys(r)
    ensures forall c :: c in r ==> c.values in columns
  {
    InsertValues([], names, columns, columns);
    Insert([], names, columns)
  }

  /** Store the columns under their names into `d`, left to right. */
  function Insert(d: Cols, names: seq<string>, columns: seq<seq<Num>>): (r: Cols)
    requires |names| == |columns| && UniqueKeys(d)
    ensures UniqueKeys(r)
    decreases |names|
  {
    if |names| == 0 then d
    else Insert(Put(d, names[0], columns[0]), names[1..], columns[1..])
  }

  /** Two dictionaries with the same keys in the same order and the same entries are equal. */
  lemma DictExt(a: Cols, b: Cols)
    requires UniqueKeys(a) && UniqueKeys(b) && Keys(a) == Keys(b)
    requires forall k :: Get(a, k) == Get(b, k)
    ensures a == b
  {
    assert |a| == |Keys(a)| == |b|;
    forall i | 0 <= i < |a|
      ensures a[i] == b[i]
    {
      assert a[i].name == Keys(a)[i] == b[i].name;
      FindUnique(a, i);
      FindUnique(b, i);
      assert Get(a, a[i].name) == Get(b, b[i].name);
    }
  }

  /** Storing the same column under the same key again changes nothing. */
  lemma PutTwice(d: Cols, k: string, v: seq<Num>)
    requires UniqueKeys(d)
    ensures Put(Put(d, k, v), k, v) == Put(d, k, v)
  {
    var once := Put(d, k, v);
    var twice := Put(once, k, v);
    assert k in Keys(once) by {
      assert Get(once, k).Some?;
    }
    forall k2
      ensures Get(twice, k2) == Get(once, k2)
    {
      if k2 != k {
        assert Get(twice, k2) == Get(once, k2);
      }
    }
    DictExt(twice, once);
  }

  /** Storing one more column is one more `Put` after the others. */
  lemma {:induction false} InsertSnoc(d: Cols, names: seq<string>, columns: seq<seq<Num>>, k: string, v: seq<Num>)
    requires |names| == |columns| && UniqueKeys(d)
    ensures Insert(d, names + [k], columns + [v]) == Put(Insert(d, names, columns), k, v)
    decreases |names|
  {
    if |names| == 0 {
      assert names + [k] == [k] && columns + [v] == [v];
    } else {
      assert (names + [k])[1..] == names[1..] + [k];
      assert (columns + [v])[1..] == columns[1..] + [v];
      InsertSnoc(Put(d, names[0], columns[0]), names[1..], columns[1..], k, v);
    }
  }

  /** A key none of the names mentions keeps its entry. */
  lemma {:induction false} InsertAbsent(d: Cols, names: seq<string>, columns: seq<seq<Num>>, k: string)
    requires |names| == |columns| && UniqueKeys(d)
    requires forall j :: 0 <= j < |names| ==> names[j] != k
    ensures Get(Insert(d, names, columns), k) == Get(d, k)
    decreases |names|
  {
    if |names| > 0 {
      var rest := names[1..];
      assert forall j :: 0 <= j < |rest| ==> rest[j] == names[j + 1];
      InsertAbsent(Put(d, names[0], columns[0]), rest, columns[1..], k);
    }
  }

  /** A name's entry holds the column of its last occurrence. */
  lemma {:induction false} InsertLast(d: Cols, names: seq<string>, columns: seq<seq<Num>>, i: nat)
    requires |names| == |columns| && UniqueKeys(d) && i < |names|
    requires forall j :: i < j < |names| ==> names[j] != names[i]
    ensures Get(Insert(d, names, columns), names[i]) == Some(columns[i])
    decreases |names|
  {
    var rest, cs := names[1..], columns[1..];
    var d1 := Put(d, names[0], columns[0]);
    if i == 0 {
      assert forall j :: 0 <= j < |rest| ==> rest[j] == names[j + 1];
      InsertAbsent(d1, rest, cs, names[0]);
    } else {
      assert rest[i - 1] == names[i] && cs[i - 1] == columns[i];
      assert forall j :: i - 1 < j < |rest| ==> rest[j] == names[j + 1];
      InsertLast(d1, rest, cs, i - 1);
    }
  }

  /** A name's column is the one of its last occurrence. */
  lemma FromNamesLast(names: seq<string>, columns: seq<seq<Num>>, i: nat)
    requires |names| == |columns| && i < |names|
    requires forall j :: i < j < |names| ==> names[j] != names[i]
    ensures Get(FromNames(names, columns), names[i]) == Some(columns[i])
  {
    InsertLast([], names, columns, i);
  }

  /** The names are exactly the keys. */
  lemma FromNamesKeys(names: seq<string>, columns: seq<seq<Num>>, k: string)
    requires |names| == |columns|
    ensures Get(FromNames(names, columns), k).Some? <==> k in names
  {
    if k in names {
      var i := LastIndex(names, k);
      FromNamesLast(names, columns, i);
    } else {
      InsertAbsent([], names, columns, k);
    }
  }

  /** The position of the last occurrence of `k`. */
  lemma LastIndex(names: seq<string>, k: string) returns (i: nat)
    requires k in names
    ensures i < |names| && names[i] == k
    ensures forall j :: i < j < |names| ==> names[j] != k
  {
    var j :| 0 <= j < |names| && names[j] == k;
    i := j;
    while i + 1 < |names| && k in names[i + 1..]
      invariant i < |names| && names[i] == k
      decreases |names| - i
    {
      var s := names[i + 1..];
      var m :| 0 <= m < |s| && s[m] == k;
      i := i + 1 + m;
    }
    if i + 1 < |names| {
      forall j | i < j < |names|
        ensures names[j] != k
      {
        assert names[j] == names[i + 1..][j - i - 1];
      }
    }
  }

  /** Every stored entry holds a column of the pool the entries and the new columns come from. */
  lemma {:induction false} InsertValues(d: Cols, names: seq<string>, columns: seq<seq<Num>>, pool: seq<seq<Num>>)
    requires |names| == |columns| && UniqueKeys(d)
    requires forall c :: c in d ==> c.values in pool
    requires forall j :: 0 <= j < |columns| ==> columns[j] in pool
    ensures forall c :: c in Insert(d, names, columns) ==> c.values in pool
    decreases |names|
  {
    if |names| > 0 {
      var d1 := Put(d, names[0], columns[0]);
      var cs := columns[1..];
      assert forall j :: 0 <= j < |cs| ==> cs[j] == columns[j + 1];
      InsertValues(d1, names[1..], cs, pool);
    }
  }

  /** With distinct names every column is kept, under its own name and in order. */
  lemma {:induction false} InsertDistinct(d: Cols, names: seq<string>, columns: seq<seq<Num>>)
    requires |names| == |columns| && UniqueKeys(d) && Distinct(names)
    requires forall j :: 0 <= j < |names| ==> names[j] !in Keys(d)
    ensures Keys(Insert(d, names, columns)) == Keys(d) + names
    decreases |names|
  {
    if |names| > 0 {
      var d1 := Put(d, names[0], columns[0]);
      var rest := names[1..];
      assert Keys(d1) == Keys(d) + [names[0]] by {
        assert names[0] !in Keys(d);
      }
      assert forall j :: 0 <= j < |rest| ==> rest[j] !in Keys(d1) by {
        FreshAfterPut(Keys(d), names);
      }
      assert Distinct(rest) by {
        DistinctTail(names);
      }
      InsertDistinct(d1, rest, columns[1..]);
      InsertCons(d, names, columns);
      ConsTail(Keys(d), names);
    }
  }

  /** Storing a non-empty list of columns stores the first, then the rest. */
  lemma InsertCons(d: Cols, names: seq<string>, columns: seq<seq<Num>>)
    requires |names| == |columns| > 0 && UniqueKeys(d)
    ensures Insert(d, names, columns) == Insert(Put(d, names[0], columns[0]), names[1..], columns[1..])
  {
  }

  lemma ConsTail(a: seq<string>, s: seq<string>)
    requires |s| > 0
    ensures a + [s[0]] + s[1..] == a + s
  {
    assert [s[0]] + s[1..] == s;
  }

  /** The names after the first are still fresh once the first is stored. */
  lemma FreshAfterPut(ks: seq<string>, names: seq<string>)
    requires |names| > 0 && Distinct(names)
    requires forall j :: 0 <= j < |names| ==> names[j] !in ks
    ensures forall j :: 0 <= j < |names| - 1 ==> names[1..][j] !in ks + [names[0]]
  {
    forall j | 0 <= j < |names| - 1
      ensures names[1..][j] !in ks + [names[0]]
    {
      assert names[1..][j] == names[j + 1];
    }
  }

  /** Dropping the first name keeps the names distinct. */
  lemma DistinctTail(names: seq<string>)
    requires |names| > 0 && Distinct(names)
    ensures Distinct(names[1..])
  {
    forall i, j | 0 <= i < j < |names| - 1
      ensures names[1..][i] != names[1..][j]
    {
      assert names[1..][i] == names[i + 1] && names[1..][j] == names[j + 1];
    }
  }

  lemma FromNamesDistinct(names: seq<string>, columns: seq<seq<Num>>)
    requires |names| == |columns| && Distinct(names)
    ensures Keys(FromNames(names, columns)) == names
    ensures forall i :: 0 <= i < |names| ==> Get(FromNames(names, columns), names[i]) == Some(columns[i])
  {
    InsertDistinct([], names, columns);
    assert Keys([]) + names == names;
    forall i | 0 <= i < |names|
      ensures Get(FromNames(names, columns), names[i]) == Some(columns[i])
    {
      FromNamesLast(names, columns, i);
    }
  }

  /** `[f"col{i}" for i in range(n)]`. */
  function ColNames(n: nat): (names: seq<string>)
    ensures |names| == n
    ensures forall i :: 0 <= i < n ==> names[i] == "col" + Decimal.NatToString(i)
  {
    seq(n, i requires 0 <= i < n => "col" + Decimal.NatToString(i))
  }

  /** Generated names never clash. */
  lemma ColNamesDistinct(n: nat)
    ensures Distinct(ColNames(n))
  {
    var c := ColNames(n);
    forall i, j | 0 <= i < j < n
      ensures c[i] != c[j]
    {
      if c[i] == c[j] {
        assert c[i][3..] == Decimal.NatToString(i);
        assert c[j][3..] == Decimal.NatToString(j);
        Decimal.NatToStringInjective(i, j);
      }
    }
  }

  /** Index of the first key equal to `key` ignoring ASCII case. */
  function FirstCaseMatch(ks: seq<string>, key: string): (r: Option<nat>)
    ensures r.Some? ==> r.value < |ks| && Lower(ks[r.value]) == Lower(key)
    ensures r.Some? ==> forall j :: 0 <= j < r.value ==> Lower(ks[j]) != Lower(key)
    ensures r.None? ==> forall j :: 0 <= j < |ks| ==> Lower(ks[j]) != Lower(key)
    decreases |ks|
  {
    if |ks| == 0 then None
    else if Lower(ks[0]) == Lower(key) then Some(0)
    else
      match FirstCaseMatch(ks[1..], key)
      case None => None
      case Some(i) => Some(i + 1)
  }

  /**
   * `_case_get` of plot_spice.py: the exact key when present, else the first key
   * equal ignoring case in dict order, else `None`.
   */
  function CaseGet(ks: seq<string>, key: string): (r: Option<string>)
    ensures key in ks ==> r == Some(key)
    ensures r.Some? ==> r.value in ks && Lower(r.value) == Lower(key)
    ensures r.None? <==> forall j :: 0 <= j < |ks| ==> Lower(ks[j]) != Lower(key)
    ensures key !in ks && r.Some? ==>
      exists i :: 0 <= i < |ks| && r.value == ks[i] && forall j :: 0 <= j < i ==> Lower(ks[j]) != Lower(key)
  {
    if key in ks then Some(key)
    else
      match FirstCaseMatch(ks, key)
      case None => None
      case Some(i) => Some(ks[i])
  }

  /**
   * The lookup of `_k` in plot_bode_svg and of `getcol` in bode_quotient.py: the
   * name, then each alternative in order, each tried exactly and then ignoring case.
   */
  function LookupWithAlts(ks: seq<string>, name: string, alts: seq<string>): (r: Option<string>)
    ensures r.None? <==> CaseGet(ks, name).None? && forall a :: 0 <= a < |alts| ==> CaseGet(ks, alts[a]).None?
    ensures CaseGet(ks, name).Some? ==> r == CaseGet(ks, name)
    ensures r.Some? ==> r.value in ks
  {
    FirstFound(ks, [name] + alts)
  }

  /** The first of `names` that `CaseGet` resolves. */
  function FirstFound(ks: seq<string>, names: seq<string>): (r: Option<string>)
    ensures r.None? <==> forall a :: 0 <= a < |names| ==> CaseGet(ks, names[a]).None?
    ensures r.Some? ==>
      exists a :: 0 <= a < |names| && CaseGet(ks, names[a]) == r && forall b :: 0 <= b < a ==> CaseGet(ks, names[b]).None?
    ensures r.Some? ==> r.value in ks
    decreases |names|
  {
    if |names| == 0 then None
    else
      match CaseGet(ks, names[0])
      case Some(k) => Some(k)
      case None =>
        var r := FirstFound(ks, names[1..]);
        assert forall a :: 0 < a < |names| ==> names[a] == names[1..][a - 1];
        r
  }
}

=== FILE: tempbias.dfy ===
/**
 * temp_bias_plot.py `parse_op_log`: scan an ngspice log for `.step temp`
 * blocks. A line matching the temperature pattern starts a block: it closes
 * the previous block, which becomes a record when it has a temperature and
 * all three node values, and no node pattern is searched on it. On any other
 * line each node pattern that matches replaces that node's value, so the last
 * match in a block wins. After the last line the open block is closed the
 * same way; finding no record is an error exit.
 *
 * The regular expressions are parameters: each gives the captured number text
 * of its first match in a line, or nothing. The temperature pattern is case
 * sensitive and the node patterns are not; that difference lives in the
 * matchers. `float()` of a captured text that is not a number raises, which
 * the program does not catch.
 */
module TempBias {
  import opened Wrappers
  import opened Numbers
  import opened Table

  /** `pattern.search(line)`, giving `m.group(1)` when it matches. */
  type Matcher = string -> Option<string>

  /** `tpat`, `c2pat`, `b1pat` and `inpat`. */
  datatype Patterns = Patterns(temp: Matcher, c2: Matcher, b1: Matcher, iin: Matcher)

  /** One temperature point: the temperature, V(C2), V(B1) and I(VSIG). */
  datatype Record = Record(t: Num, vc2: Num, vb1: Num, iin: Num)

  /** `cur_t`, `cur_c2`, `cur_b1`, `cur_i`. */
  datatype Pending = Pending(t: Option<Num>, vc2: Option<Num>, vb1: Option<Num>, iin: Option<Num>)

  /** The scanner's state: the records closed so far and the open block. */
  datatype Scan = Scan(records: seq<Record>, cur: Pending)

  /** `cur_t is not None and None not in (cur_c2, cur_b1, cur_i)`. */
  function Complete(p: Pending): (r: Option<Record>)
    ensures r.Some? <==> p.t.Some? && p.vc2.Some? && p.vb1.Some? && p.iin.Some?
  {
    if p.t.Some? && p.vc2.Some? && p.vb1.Some? && p.iin.Some? then
      Some(Record(p.t.value, p.vc2.value, p.vb1.value, p.iin.value))
    else None
  }

  /** Close a block: append its record when it is complete. */
  function Close(records: seq<Record>, p: Pending): seq<Record> {
    match Complete(p)
    case Some(rec) => records + [rec]
    case None => records
  }

  /** `float(text)`, which raises `ValueError` on text that is not a number. */
  function ToFloat(g: FloatGrammar, text: string): (r: Result<Num, ReadError>)
    ensures r.Ok? <==> g.parses(text)
    ensures r.Ok? ==> r.value == g.value(text)
    ensures r.Err? ==> r.error == NotAFloat(text)
  {
    if g.parses(text) then Ok(g.value(text)) else Err(NotAFloat(text))
  }

  /** `cur = float(m.group(1)) if m else cur`. */
  function Update(g: FloatGrammar, m: Matcher, line: string, cur: Option<Num>): (r: Result<Option<Num>, ReadError>)
    ensures m(line).None? ==> r == Ok(cur)
    ensures m(line).Some? ==> r == (if g.parses(m(line).value) then Ok(Some(g.value(m(line).value))) else Err(NotAFloat(m(line).value)))
  {
    match m(line)
    case None => Ok(cur)
    case Some(text) =>
      match ToFloat(g, text)
      case Ok(v) => Ok(Some(v))
      case Err(e) => Err(e)
  }

  /** One pass of the loop body. */
  function StepLine(g: FloatGrammar, p: Patterns, s: Scan, line: string): Result<Scan, ReadError> {
    match p.temp(line)
    case Some(text) =>
      (match ToFloat(g, text)
       case Err(e) => Err(e)
       case Ok(t) => Ok(Scan(Close(s.records, s.cur), Pending(Some(t), None, None, None))))
    case None =>
      match Update(g, p.c2, line, s.cur.vc2)
      case Err(e) => Err(e)
      case Ok(c2) =>
        match Update(g, p.b1, line, s.cur.vb1)
        case Err(e) => Err(e)
        case Ok(b1) =>
          match Update(g, p.iin, line, s.cur.iin)
          case Err(e) => Err(e)
          case Ok(i) => Ok(Scan(s.records, Pending(s.cur.t, c2, b1, i)))
  }

  /** The loop over the lines, in order, from an empty state. */
  function ScanLines(g: FloatGrammar, p: Patterns, lines: seq<string>): Result<Scan, ReadError>
    decreases |lines|
  {
    if |lines| == 0 then Ok(Scan([], Pending(None, None, None, None)))
    else
      match ScanLines(g, p, lines[..|lines| - 1])
      case Err(e) => Err(e)
      case Ok(s) => StepLine(g, p, s, lines[|lines| - 1])
  }

  /**
   * `parse_op_log` on the lines of the log: the records of every complete
   * block, or the error exit when there is none. The four arrays it returns
   * are the four fields of the records.
   */
  function ParseOpLog(g: FloatGrammar, p: Patterns, lines: seq<string>): (r: Result<seq<Record>, ReadError>)
    ensures r.Err? ==> r.error.NotAFloat? || r.error == NoRecords
    ensures r.Ok? ==> |r.value| > 0
  {
    match ScanLines(g, p, lines)
    case Err(e) =>
      ScanErrors(g, p, lines);
      Err(e)
    case Ok(s) =>
      var records := Close(s.records, s.cur);
      if |records| == 0 then Err(NoRecords) else Ok(records)
  }

  // ---------------------------------------------------------------------------
  // The block reading: the log cut at its temperature lines.

  /** The position of the last temperature line. */
  function LastTemp(p: Patterns, lines: seq<string>): (r: Option<nat>)
    ensures r.Some? ==> r.value < |lines| && p.temp(lines[r.value]).Some?
    ensures r.Some? ==> forall k :: r.value < k < |lines| ==> p.temp(lines[k]).None?
    ensures r.None? ==> forall k :: 0 <= k < |lines| ==> p.temp(lines[k]).None?
    decreases |lines|
  {
    if |lines| == 0 then None
    else if p.temp(lines[|lines| - 1]).Some? then Some(|lines| - 1)
    else
      var r := LastTemp(p, lines[..|lines| - 1]);
      assert forall k :: 0 <= k < |lines| - 1 ==> lines[..|lines| - 1][k] == lines[k];
      r
  }

  /** The value of the last line of a block on which `m` matches. */
  function Latest(g: FloatGrammar, m: Matcher, block: seq<string>): (r: Option<Num>)
    ensures r.Some? <==> exists k :: 0 <= k < |block| && m(block[k]).Some?
    decreases |block|
  {
    if |block| == 0 then None
    else
      match m(block[|block| - 1])
      case Some(text) => Some(g.value(text))
      case None =>
        var r := Latest(g, m, block[..|block| - 1]);
        assert forall k :: 0 <= k < |block| - 1 ==> block[..|block| - 1][k] == block[k];
        r
  }

  /** A block's record: its temperature and the last value of each node, when all three occur. */
  function BlockRecord(g: FloatGrammar, p: Patterns, t: Num, block: seq<string>): Pending {
    Pending(Some(t), Latest(g, p.c2, block), Latest(g, p.b1, block), Latest(g, p.iin, block))
  }

  /**
   * The records block by block: peel off the last temperature line and the
   * lines after it, and put that block's record after the records of the
   * lines before it.
   */
  function Blocks(g: FloatGrammar, p: Patterns, lines: seq<string>): seq<Record>
    decreases |lines|
  {
    match LastTemp(p, lines)
    case None => []
    case Some(j) =>
      Close(Blocks(g, p, lines[..j]), BlockRecord(g, p, g.value(p.temp(lines[j]).value), lines[j + 1..]))
  }

  /** Every number the program converts is a number: then nothing raises. */
  predicate LineParses(g: FloatGrammar, p: Patterns, line: string) {
    match p.temp(line)
    case Some(text) => g.parses(text)
    case None =>
      (p.c2(line).Some? ==> g.parses(p.c2(line).value)) &&
      (p.b1(line).Some? ==> g.parses(p.b1(line).value)) &&
      (p.iin(line).Some? ==> g.parses(p.iin(line).value))
  }

  predicate AllParse(g: FloatGrammar, p: Patterns, lines: seq<string>) {
    forall k :: 0 <= k < |lines| ==> LineParses(g, p, lines[k])
  }

  /** The open block's state before any temperature line, or after the last one. */
  function OpenBlock(g: FloatGrammar, p: Patterns, lines: seq<string>): Pending {
    match LastTemp(p, lines)
    case None => Pending(None, Latest(g, p.c2, lines), Latest(g, p.b1, lines), Latest(g, p.iin, lines))
    case Some(j) => BlockRecord(g, p, g.value(p.temp(lines[j]).value), lines[j + 1..])
  }

  /** The records of the blocks closed before the open one. */
  function ClosedBlocks(g: FloatGrammar, p: Patterns, lines: seq<string>): seq<Record> {
    match LastTemp(p, lines)
    case None => []
    case Some(j) => Blocks(g, p, lines[..j])
  }

  /** Closing the open block of the block reading gives all the blocks' records. */
  lemma CloseOpen(g: FloatGrammar, p: Patterns, lines: seq<string>)
    ensures Close(ClosedBlocks(g, p, lines), OpenBlock(g, p, lines)) == Blocks(g, p, lines)
  {
    if LastTemp(p, lines).None? {
      assert Complete(OpenBlock(g, p, lines)).None?;
    }
  }

  /** A line appended to a block updates the latest match only when `m` matches on it. */
  lemma LatestSnoc(g: FloatGrammar, m: Matcher, block: seq<string>, line: string)
    ensures Latest(g, m, block + [line]) == match m(line) case Some(x) => Some(g.value(x)) case None => Latest(g, m, block)
  {
    var all := block + [line];
    assert all[..|all| - 1] == block;
  }

  /** Appending a line that is not a temperature line keeps the last temperature line. */
  lemma LastTempSnoc(p: Patterns, lines: seq<string>, line: string)
    requires p.temp(line).None?
    ensures LastTemp(p, lines + [line]) == LastTemp(p, lines)
  {
    var all := lines + [line];
    assert all[..|all| - 1] == lines;
  }

  /** A line that is not a temperature line extends the open block and closes nothing. */
  lemma NodeLineExtends(g: FloatGrammar, p: Patterns, lines: seq<string>, line: string)
    requires p.temp(line).None?
    ensures ClosedBlocks(g, p, lines + [line]) == ClosedBlocks(g, p, lines)
    ensures var o, o' := OpenBlock(g, p, lines), OpenBlock(g, p, lines + [line]);
      o'.t == o.t &&
      o'.vc2 == (match p.c2(line) case Some(x) => Some(g.value(x)) case None => o.vc2) &&
      o'.vb1 == (match p.b1(line) case Some(x) => Some(g.value(x)) case None => o.vb1) &&
      o'.iin == (match p.iin(line) case Some(x) => Some(g.value(x)) case None => o.iin)
  {
    LastTempSnoc(p, lines, line);
    match LastTemp(p, lines)
    case None =>
      LatestSnoc(g, p.c2, lines, line);
      LatestSnoc(g, p.b1, lines, line);
      LatestSnoc(g, p.iin, lines, line);
    case Some(j) =>
      var all := lines + [line];
      assert all[..j] == lines[..j] && all[j] == lines[j];
      assert all[j + 1..] == lines[j + 1..] + [line];
      ExtendBlock(g, p, lines[j + 1..], line, g.value(p.temp(lines[j]).value));
  }

  /** A node line joins a block: each node's latest value changes only when it matches there. */
  lemma ExtendBlock(g: FloatGrammar, p: Patterns, b: seq<string>, line: string, t: Num)
    ensures BlockRecord(g, p, t, b + [line]) ==
      Pending(Some(t),
        (match p.c2(line) case Some(x) => Some(g.value(x)) case None => Latest(g, p.c2, b)),
        (match p.b1(line) case Some(x) => Some(g.value(x)) case None => Latest(g, p.b1, b)),
        (match p.iin(line) case Some(x) => Some(g.value(x)) case None => Latest(g, p.iin, b)))
  {
    LatestSnoc(g, p.c2, b, line);
    LatestSnoc(g, p.b1, b, line);
    LatestSnoc(g, p.iin, b, line);
  }

  /** On a line whose numbers all convert, one step is the block reading's step. */
  lemma StepParses(g: FloatGrammar, p: Patterns, s: Scan, line: string)
    requires LineParses(g, p, line) && p.temp(line).None?
    ensures StepLine(g, p, s, line) == Ok(Scan(s.records, Pending(s.cur.t,
      (match p.c2(line) case Some(x) => Some(g.value(x)) case None => s.cur.vc2),
      (match p.b1(line) case Some(x) => Some(g.value(x)) case None => s.cur.vb1),
      (match p.iin(line) case Some(x) => Some(g.value(x)) case None => s.cur.iin))))
  {
  }

  /** A line with a text that does not convert makes its step fail. */
  lemma StepFails(g: FloatGrammar, p: Patterns, s: Scan, line: string)
    requires !LineParses(g, p, line)
    ensures StepLine(g, p, s, line).Err?
  {
  }

  /** A temperature line closes the open block and starts an empty one. */
  lemma TempLineStarts(g: FloatGrammar, p: Patterns, lines: seq<string>, line: string)
    requires p.temp(line).Some?
    ensures LastTemp(p, lines + [line]) == Some(|lines|)
    ensures ClosedBlocks(g, p, lines + [line]) == Blocks(g, p, lines)
    ensures OpenBlock(g, p, lines + [line]) == Pending(Some(g.value(p.temp(line).value)), None, None, None)
  {
    var all := lines + [line];
    assert all[..|lines|] == lines;
    assert all[|lines| + 1..] == [];
  }

  /** The scanner's state is the block reading of the lines so far. */
  lemma {:induction false} ScanIsBlocks(g: FloatGrammar, p: Patterns, lines: seq<string>)
    requires AllParse(g, p, lines)
    ensures ScanLines(g, p, lines) == Ok(Scan(ClosedBlocks(g, p, lines), OpenBlock(g, p, lines)))
    decreases |lines|
  {
    if |lines| > 0 {
      var pre, line := lines[..|lines| - 1], lines[|lines| - 1];
      assert lines == pre + [line];
      assert LineParses(g, p, line);
      assert AllParse(g, p, pre) by {
        forall k | 0 <= k < |pre| ensures LineParses(g, p, pre[k]) {
          assert pre[k] == lines[k];
        }
      }
      ScanIsBlocks(g, p, pre);
      var st := ScanLines(g, p, pre).value;
      if p.temp(line).Some? {
        TempLineStarts(g, p, pre, line);
        CloseOpen(g, p, pre);
      } else {
        NodeLineExtends(g, p, pre, line);
        StepParses(g, p, st, line);
      }
    }
  }

  /** A scan fails only on a captured text that is not a number. */
  lemma {:induction false} ScanErrors(g: FloatGrammar, p: Patterns, lines: seq<string>)
    ensures ScanLines(g, p, lines).Err? ==> ScanLines(g, p, lines).error.NotAFloat?
    decreases |lines|
  {
    if |lines| > 0 {
      ScanErrors(g, p, lines[..|lines| - 1]);
    }
  }

  /** A line with a captured text that is not a number makes the scan fail. */
  lemma {:induction false} BadLineFails(g: FloatGrammar, p: Patterns, lines: seq<string>, k: nat)
    requires k < |lines| && !LineParses(g, p, lines[k])
    ensures ScanLines(g, p, lines).Err?
    decreases |lines|
  {
    var pre := lines[..|lines| - 1];
    if k < |lines| - 1 {
      assert pre[k] == lines[k];
      BadLineFails(g, p, pre, k);
    } else if ScanLines(g, p, pre).Ok? {
      StepFails(g, p, ScanLines(g, p, pre).value, lines[k]);
    }
  }

  /**
   * The scan agrees with the block reading: the program raises exactly when
   * some converted text is not a number, and otherwise returns the records of
   * the complete blocks in log order, or exits when there is none.
   */
  lemma ParseIsBlocks(g: FloatGrammar, p: Patterns, lines: seq<string>)
    ensures var r := ParseOpLog(g, p, lines);
      (r.Err? && r.error.NotAFloat?) <==> !AllParse(g, p, lines)
    ensures AllParse(g, p, lines) ==>
      ParseOpLog(g, p, lines) ==
        (if |Blocks(g, p, lines)| == 0 then Err(NoRecords) else Ok(Blocks(g, p, lines)))
  {
    if AllParse(g, p, lines) {
      ScanIsBlocks(g, p, lines);
      CloseOpen(g, p, lines);
    } else {
      var k :| 0 <= k < |lines| && !LineParses(g, p, lines[k]);
      BadLineFails(g, p, lines, k);
      ScanErrors(g, p, lines);
    }
  }

  // ---------------------------------------------------------------------------
  // Consequences of the block reading.

  /** The number of temperature lines. */
  function TempCount(p: Patterns, lines: seq<string>): (n: nat)
    ensures n <= |lines|
    decreases |lines|
  {
    if |lines| == 0 then 0
    else TempCount(p, lines[..|lines| - 1]) + (if p.temp(lines[|lines| - 1]).Some? then 1 else 0)
  }

  /** A temperature line at `j` puts at least one more temperature line in the log than before `j`. */
  lemma {:induction false} TempCountBefore(p: Patterns, lines: seq<string>, j: nat)
    requires j < |lines| && p.temp(lines[j]).Some?
    ensures TempCount(p, lines[..j]) + 1 <= TempCount(p, lines)
    decreases |lines|
  {
    var init := lines[..|lines| - 1];
    if j < |lines| - 1 {
      assert init[j] == lines[j];
      assert init[..j] == lines[..j];
      TempCountBefore(p, init, j);
    } else {
      assert init == lines[..j];
    }
  }

  /** There are no more records than temperature lines. */
  lemma {:induction false} BlocksBound(g: FloatGrammar, p: Patterns, lines: seq<string>)
    ensures |Blocks(g, p, lines)| <= TempCount(p, lines) <= |lines|
    decreases |lines|
  {
    match LastTemp(p, lines)
    case None =>
    case Some(j) =>
      BlocksBound(g, p, lines[..j]);
      TempCountBefore(p, lines, j);
  }

  /** Each record's temperature is the number on some temperature line. */
  lemma {:induction false} BlocksTemps(g: FloatGrammar, p: Patterns, lines: seq<string>, k: nat)
    requires k < |Blocks(g, p, lines)|
    ensures exists i :: (0 <= i < |lines| && p.temp(lines[i]).Some? &&
      g.value(p.temp(lines[i]).value) == Blocks(g, p, lines)[k].t)
    decreases |lines|
  {
    var j := LastTemp(p, lines).value;
    var pre := Blocks(g, p, lines[..j]);
    if k < |pre| {
      BlocksTemps(g, p, lines[..j], k);
      var i :| 0 <= i < j && p.temp(lines[..j][i]).Some? &&
        g.value(p.temp(lines[..j][i]).value) == pre[k].t;
      assert lines[..j][i] == lines[i];
    } else {
      assert p.temp(lines[j]).Some?;
    }
  }

  /** A log whose only temperature line is followed by all three node values gives one record holding the last of each. */
  lemma OneBlock(g: FloatGrammar, p: Patterns, head: seq<string>, line: string, block: seq<string>)
    requires forall k :: 0 <= k < |head| ==> p.temp(head[k]).None?
    requires forall k :: 0 <= k < |block| ==> p.temp(block[k]).None?
    requires p.temp(line).Some?
    requires var b := BlockRecord(g, p, g.value(p.temp(line).value), block); b.vc2.Some? && b.vb1.Some? && b.iin.Some?
    ensures var b := BlockRecord(g, p, g.value(p.temp(line).value), block);
      Blocks(g, p, head + [line] + block) ==
        [Record(g.value(p.temp(line).value), b.vc2.value, b.vb1.value, b.iin.value)]
  {
    var all := head + [line] + block;
    var t := g.value(p.temp(line).value);
    assert Blocks(g, p, all) == Close(Blocks(g, p, head), BlockRecord(g, p, t, block)) by {
      LastTempOfBlock(p, head, line, block);
      assert all[|head|] == line;
      assert all[..|head|] == head;
      assert all[|head| + 1..] == block;
    }
    assert Blocks(g, p, head) == [] by {
      NoTempNoBlocks(g, p, head);
    }
  }

  lemma NoTempNoBlocks(g: FloatGrammar, p: Patterns, lines: seq<string>)
    requires forall k :: 0 <= k < |lines| ==> p.temp(lines[k]).None?
    ensures Blocks(g, p, lines) == []
  {
  }

  lemma LastTempOfBlock(p: Patterns, head: seq<string>, line: string, block: seq<string>)
    requires forall k :: 0 <= k < |block| ==> p.temp(block[k]).None?
    requires p.temp(line).Some?
    ensures LastTemp(p, head + [line] + block) == Some(|head|)
  {
    LastTempAppend(p, head + [line], block);
    var front := head + [line];
    assert front[..|front| - 1] == head;
  }

  /** The last temperature line of a concatenation is in the second part when it has one. */
  lemma {:induction false} LastTempAppend(p: Patterns, xs: seq<string>, ys: seq<string>)
    ensures LastTemp(p, xs + ys) ==
      match LastTemp(p, ys) case Some(k) => Some(|xs| + k) case None => LastTemp(p, xs)
    decreases |ys|
  {
    var all := xs + ys;
    if |ys| == 0 {
      assert all == xs;
    } else {
      var ys' := ys[..|ys| - 1];
      assert all[..|all| - 1] == xs + ys';
      assert all[|all| - 1] == ys[|ys| - 1];
      LastTempAppend(p, xs, ys');
    }
  }
}

=== FILE: text.dfy ===
/**
 * The string operations the ngspice readers rely on: Python's `str.strip()`,
 * `str.split()` (and `re.split(r'\s+', ...)` on a stripped line), ASCII
 * lower-casing, `startswith`, substring search and the `[A-Za-z]` test.
 */
module Text {

  /** Python's whitespace in the Latin-1 range: `\t\n\v\f\r`, `\x1c`-`\x1f`, space, `\x85`, `\xa0`. */
  predicate IsSpace(c: char) {
    var n := c as int;
    (0x09 <= n <= 0x0d) || (0x1c <= n <= 0x20) || n == 0x85 || n == 0xa0
  }

  /** `s.lstrip()`: the suffix left after dropping leading whitespace. */
  function LStrip(s: string): (r: string)
    ensures |r| <= |s| && r == s[|s| - |r|..]
    ensures forall k :: 0 <= k < |s| - |r| ==> IsSpace(s[k])
    ensures |r| == 0 || !IsSpace(r[0])
    decreases |s|
  {
    if |s| > 0 && IsSpace(s[0]) then LStrip(s[1..]) else s
  }

  /** `s.rstrip()`: the prefix left after dropping trailing whitespace. */
  function RStrip(s: string): (r: string)
    ensures |r| <= |s| && r == s[..|r|]
    ensures forall k :: |r| <= k < |s| ==> IsSpace(s[k])
    ensures |r| == 0 || !IsSpace(r[|r| - 1])
    decreases |s|
  {
    if |s| > 0 && IsSpace(s[|s| - 1]) then RStrip(s[..|s| - 1]) else s
  }

  /** `s.strip()`. */
  function Strip(s: string): string {
    RStrip(LStrip(s))
  }

  /** Nothing but whitespace (or nothing at all). */
  predicate AllSpace(s: string) {
    forall k :: 0 <= k < |s| ==> IsSpace(s[k])
  }

  /** A stripped string has no whitespace at either end. */
  predicate Stripped(s: string) {
    |s| == 0 || (!IsSpace(s[0]) && !IsSpace(s[|s| - 1]))
  }

  /** A string already free of surrounding whitespace is its own `strip()`. */
  lemma StrippedFixed(s: string)
    requires Stripped(s)
    ensures Strip(s) == s
  {
  }

  /** `strip()` leaves a stripped string that keeps the same inner text. */
  lemma StripSound(s: string)
    ensures Stripped(Strip(s))
    ensures exists i, j :: 0 <= i <= j <= |s| && Strip(s) == s[i..j]
    ensures AllSpace(s) <==> Strip(s) == []
  {
    var l := LStrip(s);
    var r := RStrip(l);
    var i := |s| - |l|;
    assert r == s[i..i + |r|];
    if r != [] {
      assert r[0] == l[0];
      assert !IsSpace(s[i]);
    }
  }

  /** Stripping twice is stripping once. */
  lemma StripIdempotent(s: string)
    ensures Strip(Strip(s)) == Strip(s)
  {
    StripSound(s);
    StrippedFixed(Strip(s));
  }

  /** The first word: the longest prefix without whitespace. */
  function Word(s: string): (w: string)
    ensures |w| <= |s| && w == s[..|w|]
    ensures forall k :: 0 <= k < |w| ==> !IsSpace(w[k])
    ensures |w| == |s| || IsSpace(s[|w|])
    ensures |s| > 0 && !IsSpace(s[0]) ==> |w| > 0
    decreases |s|
  {
    if |s| == 0 || IsSpace(s[0]) then [] else [s[0]] + Word(s[1..])
  }

  /** A word: non-empty, no whitespace inside. */
  predicate IsWord(t: string) {
    |t| > 0 && forall k :: 0 <= k < |t| ==> !IsSpace(t[k])
  }

  /** `s.split()`: the maximal runs of non-whitespace, in order. */
  function Split(s: string): (toks: seq<string>)
    ensures forall i :: 0 <= i < |toks| ==> IsWord(toks[i])
    decreases |s|
  {
    var t := LStrip(s);
    if |t| == 0 then []
    else
      var w := Word(t);
      LeadingWord(t);
      var rest := Split(t[|w|..]);
      WordsCons(w, rest);
      [w] + rest
  }

  /** A text starting with a non-space starts with a word. */
  lemma LeadingWord(t: string)
    requires |t| > 0 && !IsSpace(t[0])
    ensures IsWord(Word(t)) && |Word(t)| <= |t|
  {
  }

  lemma WordsCons(w: string, rest: seq<string>)
    requires IsWord(w) && forall i :: 0 <= i < |rest| ==> IsWord(rest[i])
    ensures forall i :: 0 <= i < |[w] + rest| ==> IsWord(([w] + rest)[i])
  {
    assert forall i :: 0 <= i < |rest| ==> ([w] + rest)[i + 1] == rest[i];
  }

  /** A line splits into no tokens exactly when it is blank. */
  lemma SplitEmpty(s: string)
    ensures |Split(s)| == 0 <==> AllSpace(s)
  {
    var t := LStrip(s);
    if |t| > 0 {
      assert !IsSpace(s[|s| - |t|]);
    }
  }

  /** `" ".join(toks)`. */
  function Join(toks: seq<string>): string
    decreases |toks|
  {
    if |toks| == 0 then []
    else if |toks| == 1 then toks[0]
    else toks[0] + " " + Join(toks[1..])
  }

  /** Splitting words joined by single spaces gives the words back. */
  lemma {:induction false} SplitJoin(toks: seq<string>)
    requires forall i :: 0 <= i < |toks| ==> IsWord(toks[i])
    ensures Split(Join(toks)) == toks
    decreases |toks|
  {
    if |toks| == 1 {
      SplitWord(toks[0]);
    } else if |toks| > 1 {
      SplitJoin(toks[1..]);
      SplitCons(toks[0], Join(toks[1..]));
      HeadTail(toks);
    }
  }

  lemma HeadTail<T>(s: seq<T>)
    requires |s| > 0
    ensures [s[0]] + s[1..] == s
  {
  }

  lemma SplitWord(w: string)
    requires IsWord(w)
    ensures Split(w) == [w]
  {
    WordOfWord(w, []);
    assert w + [] == w;
    assert w[|w|..] == [];
  }

  /** A word followed by a space and more text splits into that word and the rest's split. */
  lemma SplitCons(w: string, rest: string)
    requires IsWord(w)
    ensures Split(w + " " + rest) == [w] + Split(rest)
  {
    var tail := " " + rest;
    var s := w + tail;
    assert w + " " + rest == s;
    WordOfWord(w, tail);
    assert s[|w|..] == tail;
    assert Split(s) == [w] + Split(tail);
    assert tail[1..] == rest;
    SplitSkipsSpace(tail);
  }

  /** Leading whitespace does not change the split. */
  lemma SplitSkipsSpace(s: string)
    requires |s| > 0 && IsSpace(s[0])
    ensures Split(s) == Split(s[1..])
  {
  }

  lemma {:induction false} WordOfWord(w: string, tail: string)
    requires IsWord(w)
    requires |tail| == 0 || IsSpace(tail[0])
    ensures LStrip(w + tail) == w + tail
    ensures Word(w + tail) == w
    decreases |w|
  {
    if |w| > 1 {
      assert (w + tail)[1..] == w[1..] + tail;
      WordOfWord(w[1..], tail);
    } else {
      assert (w + tail)[1..] == tail;
    }
  }

  /** ASCII `str.lower()` on one character. */
  function LowerChar(c: char): (d: char)
    ensures 'A' <= c <= 'Z' ==> 'a' <= d <= 'z'
    ensures !('A' <= c <= 'Z') ==> d == c
  {
    if 'A' <= c <= 'Z' then (c as int + 32) as char else c
  }

  /** `s.lower()`, ASCII letters only. */
  function Lower(s: string): (r: string)
    ensures |r| == |s|
    ensures forall k :: 0 <= k < |s| ==> r[k] == LowerChar(s[k])
  {
    seq(|s|, k requires 0 <= k < |s| => LowerChar(s[k]))
  }

  /** Lower-casing is idempotent, so comparing lowered keys is an equivalence. */
  lemma LowerIdempotent(s: string)
    ensures Lower(Lower(s)) == Lower(s)
  {
    assert forall k :: 0 <= k < |s| ==> LowerChar(LowerChar(s[k])) == LowerChar(s[k]);
  }

  /** `s.startswith(p)`. */
  predicate StartsWith(s: string, p: string) {
    |p| <= |s| && s[..|p|] == p
  }

  /** `s.startswith(tuple_of_prefixes)`. */
  predicate StartsWithAny(s: string, ps: seq<string>)
    decreases |ps|
  {
    |ps| > 0 && (StartsWith(s, ps[0]) || StartsWithAny(s, ps[1..]))
  }

  /** `sub in s`. */
  predicate Contains(s: string, sub: string) {
    exists i :: 0 <= i <= |s| - |sub| && OccursAt(s, sub, i)
  }

  predicate OccursAt(s: string, sub: string, i: nat)
    requires i <= |s| - |sub|
  {
    s[i..i + |sub|] == sub
  }

  predicate IsLetter(c: char) {
    ('A' <= c <= 'Z') || ('a' <= c <= 'z')
  }

  /** `re.search(r'[A-Za-z]', s)` succeeds. */
  predicate HasLetter(s: string) {
    exists k :: 0 <= k < |s| && IsLetter(s[k])
  }

  /** Lower-casing neither adds nor removes letters. */
  lemma LowerKeepsLetters(s: string)
    ensures HasLetter(Lower(s)) <==> HasLetter(s)
  {
    if HasLetter(s) {
      var k :| 0 <= k < |s| && IsLetter(s[k]);
      assert IsLetter(Lower(s)[k]);
    }
    if HasLetter(Lower(s)) {
      var k :| 0 <= k < |s| && IsLetter(Lower(s)[k]);
      assert IsLetter(s[k]);
    }
  }
}

=== FILE: vibe.dfy ===
/**
 * The uni-vibe (`univibe` with its inner `allpass`, identical in chain_hendrix.py
 * and hendrix_lab.py): four first-order all-pass stages, each run over
 * 128-sample blocks with a coefficient set at the block start and a state that
 * restarts at zero in every block, then a slow amplitude throb and `norm`.
 */
module Vibe {
  import opened Dsp
  import opened Blocks
  import opened Wrappers

  /** `blk = 128`. */
  const VibeBlock: nat := 128

  /** `bases`, the stage frequencies in the order the stages run. */
  const Bases: seq<real> := [220.0, 440.0, 700.0, 1100.0]

  /** `univibe`'s keyword arguments; `depth` is the wet share each stage mixes in. */
  datatype VibeParams = VibeParams(rate: real, depth: real)

  /** The defaults the chain registry and hendrix_lab.py's `main` use. */
  const VibeDefaults: VibeParams := VibeParams(4.0, 0.9)

  /** `lfo[i] = 0.6 + 0.4*sin(2π·rate·i/SR)`. */
  function Lfo(m: Math, p: VibeParams, i: nat): (l: real)
    ensures WellBehaved(m) ==> 0.2 <= l <= 1.0
  {
    var t := 2.0 * Pi * p.rate * (i as real / SR as real);
    assert WellBehaved(m) ==> -1.0 <= m.sin(t) <= 1.0;
    0.6 + 0.4 * m.sin(t)
  }

  /** `w0 = 2π·fc/SR`, the stage's normalised angular frequency. */
  function W0(fc: real): real {
    2.0 * Pi * fc / SR as real
  }

  /**
   * `a = (1 - sin w0)/(1 + sin w0)`. numpy turns the division by zero at
   * `sin w0 = -1` into a non-finite coefficient; the model stops there instead.
   */
  function Coefficient(m: Math, fc: real): (r: Result<real, Fault>)
    ensures r.Err? <==> m.sin(W0(fc)) == -1.0
    ensures r.Ok? ==> r.value * (1.0 + m.sin(W0(fc))) == 1.0 - m.sin(W0(fc))
  {
    var s := m.sin(W0(fc));
    if 1.0 + s == 0.0 then Err(NonFinite) else Ok((1.0 - s) / (1.0 + s))
  }

  /** For `0 < w0 < π` the sine is positive, so the coefficient exists and lies in [0, 1). */
  lemma CoefficientRange(m: Math, fc: real)
    requires WellBehaved(m) && 0.0 < W0(fc) < Pi
    ensures Coefficient(m, fc).Ok?
    ensures 0.0 <= Coefficient(m, fc).value < 1.0
  {
    var s := m.sin(W0(fc));
    assert 0.0 < s <= 1.0;
    var a := Coefficient(m, fc).value;
    var d := 1.0 + s;
    assert a == (1.0 - s) / d;
    DivRange(1.0 - s, d);
  }

  lemma DivRange(u: real, d: real)
    requires 0.0 <= u < d
    ensures 0.0 <= u / d < 1.0
  {
  }

  /**
   * `allpass`'s inner loop, `out[n] = -a·seg[n] + xm1 + a·ym1`, where `xm1` and
   * `ym1` hold the previous input and output and start at zero.
   */
  function AllpassAt(seg: seq<real>, a: real, n: nat): real
    requires n < |seg|
  {
    if n == 0 then -a * seg[0]
    else -a * seg[n] + seg[n - 1] + a * AllpassAt(seg, a, n - 1)
  }

  /** The all-pass output for a whole block, started from rest. */
  function Allpass(seg: seq<real>, a: real): (out: seq<real>)
    ensures |out| == |seg|
    ensures |seg| > 0 ==> out[0] == -a * seg[0]
    ensures forall n, k {:trigger out[n], out[k]} :: 0 <= k && n == k + 1 < |seg| ==>
      out[n] == -a * seg[n] + seg[k] + a * out[k]
  {
    seq(|seg|, n requires 0 <= n < |seg| => AllpassAt(seg, a, n))
  }

  /** The source loop, with the two state variables `xm1` and `ym1`. */
  method AllpassLoop(seg: seq<real>, a: real) returns (out: seq<real>)
    ensures out == Allpass(seg, a)
  {
    out := [];
    var xm1, ym1 := 0.0, 0.0;
    var n := 0;
    while n < |seg|
      invariant 0 <= n <= |seg| && |out| == n
      invariant forall k :: 0 <= k < n ==> out[k] == AllpassAt(seg, a, k)
      invariant n == 0 ==> xm1 == 0.0 && ym1 == 0.0
      invariant n > 0 ==> xm1 == seg[n - 1] && ym1 == AllpassAt(seg, a, n - 1)
    {
      var v := -a * seg[n] + xm1 + a * ym1;
      if n == 0 {
        assert a * ym1 == 0.0;
      }
      assert v == AllpassAt(seg, a, n);
      out := out + [v];
      xm1, ym1 := seg[n], v;
      n := n + 1;
    }
  }

  /** The filter is causal: its output up to `n` depends only on the input up to `n`. */
  lemma {:induction false} AllpassCausal(seg: seq<real>, a: real, n: nat, len: nat)
    requires n < len <= |seg|
    ensures AllpassAt(seg, a, n) == AllpassAt(seg[..len], a, n)
  {
    if n > 0 {
      AllpassCausal(seg, a, n - 1, len);
    }
  }

  /**
   * A constant input is passed at DC: the distance of the output from the input
   * level shrinks by the factor `a` at every step after the first.
   */
  lemma {:induction false} AllpassDc(seg: seq<real>, a: real, v: real, n: nat)
    requires n < |seg| && forall k :: 0 <= k < |seg| ==> seg[k] == v
    ensures n == 0 ==> AllpassAt(seg, a, n) - v == -(1.0 + a) * v
    ensures n > 0 ==> AllpassAt(seg, a, n) - v == a * (AllpassAt(seg, a, n - 1) - v)
  {
    if n > 0 {
      assert seg[n] == v && seg[n - 1] == v;
    } else {
      assert seg[0] == v;
    }
  }

  /** One sample of the dry/wet mix: `(1-d)*dry + d*wet`. */
  function Blend(d: real, dry: real, wet: real): real {
    (1.0 - d) * dry + d * wet
  }

  /** `(1-d)*seg + d*out`: the dry/wet mix `allpass` returns. */
  function Mix(seg: seq<real>, out: seq<real>, d: real): (z: seq<real>)
    requires |out| == |seg|
    ensures |z| == |seg|
    ensures d == 0.0 ==> z == seg
    ensures d == 1.0 ==> z == out
  {
    var z := seq(|seg|, n requires 0 <= n < |seg| => Blend(d, seg[n], out[n]));
    assert d == 0.0 ==> z == seg by {
      if d == 0.0 {
        assert forall n :: 0 <= n < |seg| ==> z[n] == seg[n];
      }
    }
    assert d == 1.0 ==> z == out by {
      if d == 1.0 {
        assert forall n :: 0 <= n < |seg| ==> z[n] == out[n];
      }
    }
    z
  }

  /** The coefficient of the block starting at sample `s`. */
  function CoeffAt(coeffs: seq<real>, s: nat): real {
    if s / VibeBlock < |coeffs| then coeffs[s / VibeBlock] else 0.0
  }

  /** One stage's block transform: `allpass(y[i:i+blk], fc, depth)` with the block's coefficient. */
  function StageFilter(coeffs: seq<real>, d: real): (f: (nat, seq<real>) -> seq<real>)
    ensures LengthPreserving(f)
  {
    (s: nat, seg: seq<real>) => Mix(seg, Allpass(seg, CoeffAt(coeffs, s)), d)
  }

  /** One stage over the whole buffer: `z[i:i+blk] = allpass(...)` for every block. */
  function Stage(x: seq<real>, coeffs: seq<real>, d: real): (z: seq<real>)
    ensures |z| == |x|
  {
    Blockwise(x, VibeBlock, StageFilter(coeffs, d))
  }

  /** How many blocks `range(0, n, 128)` visits: ceil(n/128). */
  function VibeBlocks(n: nat): nat {
    (n + VibeBlock - 1) / VibeBlock
  }

  lemma VibeBlocksCover(n: nat, i: nat)
    requires i < n
    ensures i / VibeBlock < VibeBlocks(n)
  {
  }

  /**
   * The all-pass state restarts in every block: stage output `i` mixes `x[i]`
   * with the all-pass run from rest over `i`'s block only, up to `i`, using the
   * coefficient of that block.
   */
  lemma StageSample(x: seq<real>, coeffs: seq<real>, d: real, i: nat)
    requires |coeffs| == VibeBlocks(|x|) && i < |x|
    ensures i / VibeBlock < |coeffs|
    ensures Stage(x, coeffs, d)[i]
         == Blend(d, x[i], AllpassAt(x[BlockStart(i, VibeBlock)..i + 1], coeffs[i / VibeBlock], i - BlockStart(i, VibeBlock)))
  {
    VibeBlocksCover(|x|, i);
    var s := BlockStart(i, VibeBlock);
    var e := BlockEnd(s, VibeBlock, |x|);
    StageInBlock(x, coeffs, d, i, s, e);
    BlockPrefix(x, s, e, i, coeffs[i / VibeBlock]);
  }

  lemma StageInBlock(x: seq<real>, coeffs: seq<real>, d: real, i: nat, s: nat, e: nat)
    requires |coeffs| == VibeBlocks(|x|) && i < |x|
    requires s == BlockStart(i, VibeBlock) && e == BlockEnd(s, VibeBlock, |x|)
    ensures i / VibeBlock < |coeffs|
    ensures Stage(x, coeffs, d)[i] == Blend(d, x[i], AllpassAt(x[s..e], coeffs[i / VibeBlock], i - s))
  {
    VibeBlocksCover(|x|, i);
    BlockwiseAt(x, VibeBlock, StageFilter(coeffs, d), i, s, e);
    StageFilterSample(x, coeffs, d, s, e, i / VibeBlock, i);
  }

  /** The stage filter of the block `x[s..e]` at sample `i` of the buffer. */
  lemma StageFilterSample(x: seq<real>, coeffs: seq<real>, d: real, s: nat, e: nat, j: nat, i: nat)
    requires s == j * VibeBlock && j < |coeffs| && s <= i < e <= |x|
    ensures StageFilter(coeffs, d)(s, x[s..e])[i - s] == Blend(d, x[i], AllpassAt(x[s..e], coeffs[j], i - s))
  {
    StageFilterAt(coeffs, d, s, j, x[s..e], i - s);
    assert x[s..e][i - s] == x[i];
  }

  lemma BlockPrefix(x: seq<real>, s: nat, e: nat, i: nat, a: real)
    requires s <= i < e <= |x|
    ensures AllpassAt(x[s..e], a, i - s) == AllpassAt(x[s..i + 1], a, i - s)
  {
    AllpassCausal(x[s..e], a, i - s, i - s + 1);
    assert x[s..e][..i - s + 1] == x[s..i + 1];
  }

  lemma StageFilterAt(coeffs: seq<real>, d: real, s: nat, j: nat, blk: seq<real>, n: nat)
    requires s == j * VibeBlock && j < |coeffs| && n < |blk|
    ensures StageFilter(coeffs, d)(s, blk)[n] == Blend(d, blk[n], AllpassAt(blk, coeffs[j], n))
  {
    DivUnique(s, VibeBlock, j, 0);
    assert CoeffAt(coeffs, s) == coeffs[j];
    var out := Allpass(blk, coeffs[j]);
    assert StageFilter(coeffs, d)(s, blk) == Mix(blk, out, d);
    assert out[n] == AllpassAt(blk, coeffs[j], n);
  }

  /** Two inputs that agree on a block give the same stage output on that block. */
  lemma StageBlockLocal(x1: seq<real>, x2: seq<real>, coeffs: seq<real>, d: real, k: nat)
    requires |x1| == |x2| && k * VibeBlock < |x1|
    requires x1[k * VibeBlock..BlockEnd(k * VibeBlock, VibeBlock, |x1|)] == x2[k * VibeBlock..BlockEnd(k * VibeBlock, VibeBlock, |x2|)]
    ensures forall i :: k * VibeBlock <= i < BlockEnd(k * VibeBlock, VibeBlock, |x1|) ==>
      Stage(x1, coeffs, d)[i] == Stage(x2, coeffs, d)[i]
  {
    BlockLocal(x1, x2, VibeBlock, StageFilter(coeffs, d), k);
  }

  /** The stages run one after another, each on the previous stage's output (`y = z`). */
  function Stages(x: seq<real>, cs: seq<seq<real>>, d: real): (y: seq<real>)
    ensures |y| == |x|
    decreases |cs|
  {
    if |cs| == 0 then x else Stages(Stage(x, cs[0], d), cs[1..], d)
  }

  /** Running one more stage after a cascade is the cascade followed by that stage: a left fold. */
  lemma {:induction false} StagesSnoc(x: seq<real>, cs: seq<seq<real>>, c: seq<real>, d: real)
    ensures Stages(x, cs + [c], d) == Stage(Stages(x, cs, d), c, d)
    decreases |cs|
  {
    if |cs| == 0 {
      assert Stages(Stage(x, c, d), [], d) == Stage(x, c, d);
    } else {
      assert (cs + [c])[1..] == cs[1..] + [c];
      StagesSnoc(Stage(x, cs[0], d), cs[1..], c, d);
    }
  }

  /** The coefficients of one stage, block by block. */
  function StageCoeffs(m: Math, p: VibeParams, base: real, n: nat): (r: Result<seq<real>, Fault>)
    ensures r.Ok? <==> forall j :: 0 <= j < VibeBlocks(n) ==> BlockCoeff(m, p, base, j).Ok?
    ensures r.Ok? ==> |r.value| == VibeBlocks(n)
    ensures r.Ok? ==> forall j :: 0 <= j < VibeBlocks(n) ==> BlockCoeff(m, p, base, j) == Ok(r.value[j])
  {
    var g := (j: nat) => BlockCoeff(m, p, base, j);
    forall j: nat
      ensures g(j) == BlockCoeff(m, p, base, j)
    {
    }
    var r := Collect(g, VibeBlocks(n), 0);
    assert r.Ok? ==> forall j :: 0 <= j < VibeBlocks(n) ==> g(j) == Ok(r.value[j - 0]);
    r
  }

  /** Block `j`'s coefficient: `fc = base*(0.5 + lfo[i])` at its first sample `i = 128*j`. */
  function BlockCoeff(m: Math, p: VibeParams, base: real, j: nat): Result<real, Fault> {
    Coefficient(m, base * (0.5 + Lfo(m, p, j * VibeBlock)))
  }

  /** The coefficients of all four stages, in base order. */
  function AllCoeffs(m: Math, p: VibeParams, n: nat): (r: Result<seq<seq<real>>, Fault>)
    ensures r.Ok? <==> forall k, j :: 0 <= k < |Bases| && 0 <= j < VibeBlocks(n) ==> BlockCoeff(m, p, Bases[k], j).Ok?
    ensures r.Ok? ==> |r.value| == |Bases|
    ensures r.Ok? ==> forall k :: 0 <= k < |Bases| ==> StageCoeffs(m, p, Bases[k], n) == Ok(r.value[k])
  {
    var g := (k: nat) => if k < |Bases| then StageCoeffs(m, p, Bases[k], n) else Err(NonFinite);
    forall k: nat | k < |Bases|
      ensures g(k) == StageCoeffs(m, p, Bases[k], n)
    {
    }
    var r := Collect(g, |Bases|, 0);
    assert r.Ok? ==> forall k :: 0 <= k < |Bases| ==> g(k) == Ok(r.value[k - 0]);
    assert r.Ok? <== forall k :: 0 <= k < |Bases| ==> g(k).Ok?;
    r
  }

  /** `0.9*(1 + 0.15*sin(2π·(rate/2)·t))`: the throb applied after the stages. */
  function ThrobGain(m: Math, p: VibeParams, i: nat): (g: real)
    ensures WellBehaved(m) ==> 0.765 <= g <= 1.035
  {
    var t := 2.0 * Pi * (p.rate / 2.0) * (i as real / SR as real);
    assert WellBehaved(m) ==> -1.0 <= m.sin(t) <= 1.0;
    0.9 * (1.0 + 0.15 * m.sin(t))
  }

  function Throb(m: Math, p: VibeParams, y: seq<real>): (z: seq<real>)
    ensures |z| == |y|
    ensures forall i :: 0 <= i < |y| ==> z[i] == y[i] * ThrobGain(m, p, i)
  {
    seq(|y|, i requires 0 <= i < |y| => y[i] * ThrobGain(m, p, i))
  }

  /** `cs` holds every stage's coefficients for an `n`-sample buffer, in base order. */
  predicate StagedCoeffs(m: Math, p: VibeParams, n: nat, cs: seq<seq<real>>) {
    && |cs| == |Bases|
    && forall k :: 0 <= k < |Bases| ==> StageCoeffs(m, p, Bases[k], n) == Ok(cs[k])
  }

  /** The vibe before `norm`. */
  function VibeRaw(m: Math, p: VibeParams, x: seq<real>, cs: seq<seq<real>>): (y: seq<real>)
    ensures |y| == |x|
  {
    Throb(m, p, Stages(x, cs, p.depth))
  }

  /**
   * `univibe(x, rate_hz, depth)`: fails exactly when some stage's coefficient
   * at some block start is not finite; otherwise the normalised cascade.
   */
  function Univibe(m: Math, x: seq<real>, p: VibeParams): (r: Result<seq<real>, Fault>)
    requires |x| > 0
    ensures r.Err? <==> exists k, j :: 0 <= k < |Bases| && 0 <= j < VibeBlocks(|x|) && BlockCoeff(m, p, Bases[k], j).Err?
    ensures r.Ok? ==> |r.value| == |x| && forall i :: 0 <= i < |x| ==> -1.0 < r.value[i] < 1.0
    ensures r.Ok? ==> exists cs ::
      StagedCoeffs(m, p, |x|, cs) && Scale(Divisor(VibeRaw(m, p, x, cs)), r.value) == VibeRaw(m, p, x, cs)
  {
    var all := AllCoeffs(m, p, |x|);
    if all.Err? then Err(all.error)
    else
      var cs := all.value;
      assert StagedCoeffs(m, p, |x|, cs);
      Ok(Norm(VibeRaw(m, p, x, cs)))
  }

  /**
   * With the default rate every stage frequency lies between 154 and 1650 Hz,
   * far below Nyquist, so the vibe never stops on a non-empty buffer.
   */
  lemma DefaultVibeFinite(m: Math, x: seq<real>)
    requires WellBehaved(m) && |x| > 0
    ensures Univibe(m, x, VibeDefaults).Ok?
  {
    assert forall k, j :: 0 <= k < |Bases| && 0 <= j ==> BlockCoeff(m, VibeDefaults, Bases[k], j).Ok? by {
      forall k: nat, j: nat | k < |Bases|
        ensures BlockCoeff(m, VibeDefaults, Bases[k], j).Ok?
      {
        BasesRange(k);
        DefaultCoeffFinite(m, Bases[k], j);
      }
    }
    UnivibeOk(m, x, VibeDefaults);
  }

  lemma BasesRange(k: nat)
    requires k < |Bases|
    ensures 220.0 <= Bases[k] <= 1100.0
  {
  }

  /** With every coefficient finite, the vibe succeeds. */
  lemma UnivibeOk(m: Math, x: seq<real>, p: VibeParams)
    requires |x| > 0
    requires forall k, j :: 0 <= k < |Bases| && 0 <= j ==> BlockCoeff(m, p, Bases[k], j).Ok?
    ensures Univibe(m, x, p).Ok?
  {
  }

  lemma DefaultCoeffFinite(m: Math, base: real, j: nat)
    requires WellBehaved(m) && 220.0 <= base <= 1100.0
    ensures BlockCoeff(m, VibeDefaults, base, j).Ok?
  {
    var l := Lfo(m, VibeDefaults, j * VibeBlock);
    var w := 0.5 + l;
    assert 0.7 <= w <= 1.5;
    var fc := base * w;
    assert 154.0 <= fc by {
      MulLe(base, 0.7, w);
      assert base * 0.7 <= fc;
    }
    assert fc <= 1650.0 by {
      MulLe(base, w, 1.5);
      assert fc <= base * 1.5;
    }
    CoefficientRange(m, fc);
  }
}

=== FILE: wah.dfy ===
/**
 * The auto-wah (`bandpass_sos` and `wah_auto` of chain_hendrix.py and
 * hendrix_lab.py): a band-pass whose centre follows a sine sweep, redesigned at
 * the start of every 256-sample block and run over that block from rest. The
 * two files differ in one respect: chain_hendrix.py converts each centre to a
 * Python float before the design, hendrix_lab.py passes the numpy float on.
 */
module Wah {
  import opened Dsp
  import opened Blocks
  import opened Wrappers

  /** Half the sample rate, the unit scipy normalises critical frequencies by. */
  const Nyquist: real := SR as real / 2.0

  /** `blk = 256`. */
  const WahBlock: nat := 256

  /** The two edges, in Hz, of one band-pass design. */
  datatype Band = Band(lo: real, hi: real)

  /**
   * `wah_auto`'s keyword arguments, and whether the centre reaches
   * `bandpass_sos` as a numpy float (hendrix_lab.py) rather than a Python
   * float (chain_hendrix.py).
   */
  datatype WahParams = WahParams(flo: real, fhi: real, rate: real, q: real, numpyCentre: bool)

  /** The defaults, as the chain registry calls `wah_auto`. */
  const WahDefaults: WahParams := WahParams(350.0, 2000.0, 1.2, 2.5, false)

  /**
   * `bandpass_sos` edges: a band `fc/q` wide around `fc`, its lower edge raised
   * to at least 30 Hz and its upper edge lowered to at most 100 Hz below Nyquist.
   */
  function BandEdges(fc: real, q: real): (b: Band)
    requires q != 0.0
    ensures 30.0 <= b.lo && b.hi <= Nyquist - 100.0
    ensures b.lo >= fc - fc / q / 2.0 && (b.lo == 30.0 || b.lo == fc - fc / q / 2.0)
    ensures b.hi <= fc + fc / q / 2.0 && (b.hi == Nyquist - 100.0 || b.hi == fc + fc / q / 2.0)
  {
    var bw := fc / q;
    var low := if 30.0 >= fc - bw / 2.0 then 30.0 else fc - bw / 2.0;
    var high := if Nyquist - 100.0 <= fc + bw / 2.0 then Nyquist - 100.0 else fc + bw / 2.0;
    Band(low, high)
  }

  /** scipy `butter` accepts a digital design only when both normalised edges lie in (0, 1). */
  predicate Designable(b: Band) {
    && 0.0 < b.lo / Nyquist < 1.0
    && 0.0 < b.hi / Nyquist < 1.0
  }

  /**
   * The clamps already keep the lower edge positive and the upper edge below
   * Nyquist, so a design fails only when the whole band lies above Nyquist or
   * below 0 Hz.
   */
  lemma DesignableEdges(fc: real, q: real)
    requires q != 0.0
    ensures Designable(BandEdges(fc, q)) <==> BandEdges(fc, q).lo < Nyquist && BandEdges(fc, q).hi > 0.0
  {
  }

  /**
   * `bandpass_sos(fc, q)`. With `q == 0` a Python float centre raises
   * `ZeroDivisionError`; a numpy float centre divides to an infinity (or NaN
   * at `fc == 0`), which the clamps turn into the widest band for a centre at
   * or above 0 Hz and into an inverted band, refused by `butter`, below it.
   * Otherwise `butter` refuses edges outside (0, Nyquist).
   */
  function Design(fc: real, q: real, numpyCentre: bool): (r: Result<Band, Fault>)
    ensures q == 0.0 && !numpyCentre ==> r == Err(ZeroDivision)
    ensures q == 0.0 && numpyCentre ==> (r.Ok? <==> fc >= 0.0)
    ensures q == 0.0 && r.Ok? ==> r.value == Band(30.0, Nyquist - 100.0)
    ensures q != 0.0 ==> (r.Ok? <==> Designable(BandEdges(fc, q)))
    ensures q != 0.0 && r.Ok? ==> r.value == BandEdges(fc, q)
    ensures r.Ok? ==> 30.0 <= r.value.lo && r.value.hi < Nyquist
  {
    if q == 0.0 then
      if !numpyCentre then Err(ZeroDivision)
      else if fc >= 0.0 then Ok(Band(30.0, Nyquist - 100.0))
      else Err(InvalidParameter("band edges must lie strictly between 0 and Nyquist"))
    else
      var b := BandEdges(fc, q);
      if Designable(b) then Ok(b) else Err(InvalidParameter("band edges must lie strictly between 0 and Nyquist"))
  }

  /** `centers[i]`: the sweep between `flo` and `fhi` at sample `i`, driven by `sin(2π·rate·i/SR)`. */
  function Center(m: Math, p: WahParams, i: nat): real {
    p.flo + Sweep(m, p, i) * (p.fhi - p.flo)
  }

  /** `0.5*(1 + sin(2π·rate·t))` at `t = i/SR`: the sweep position, 0 at `flo` and 1 at `fhi`. */
  function Sweep(m: Math, p: WahParams, i: nat): (u: real)
    ensures WellBehaved(m) ==> 0.0 <= u <= 1.0
  {
    var t := 2.0 * Pi * p.rate * (i as real / SR as real);
    assert WellBehaved(m) ==> -1.0 <= m.sin(t) <= 1.0;
    0.5 * (1.0 + m.sin(t))
  }

  /** With a true sine, every centre lies between `flo` and `fhi`. */
  lemma CenterInSweep(m: Math, p: WahParams, i: nat)
    requires WellBehaved(m) && p.flo <= p.fhi
    ensures p.flo <= Center(m, p, i) <= p.fhi
  {
    var u := Sweep(m, p, i);
    var w := p.fhi - p.flo;
    var v := u * w;
    assert 0.0 <= v <= w by {
      MulLe(w, 0.0, u);
      MulLe(w, u, 1.0);
    }
    assert Center(m, p, i) == p.flo + v;
  }

  /** How many blocks `range(0, n, 256)` visits: ceil(n/256). */
  function BlockCount(n: nat): (c: nat) {
    (n + WahBlock - 1) / WahBlock
  }

  /** Every sample lies in one of the visited blocks, and block `j` is visited iff it starts before `n`. */
  lemma BlockCountCovers(n: nat, i: nat, j: nat)
    ensures i < n ==> i / WahBlock < BlockCount(n)
    ensures j < BlockCount(n) <==> j * WahBlock < n
  {
  }

  /** The design used for the `j`-th block, taken at its first sample `j*256`. */
  function BlockDesign(m: Math, p: WahParams, j: nat): Result<Band, Fault> {
    Design(Center(m, p, j * WahBlock), p.q, p.numpyCentre)
  }

  /** `bands` holds the successful design of every block of an `n`-sample buffer, in order. */
  predicate DesignedBands(m: Math, p: WahParams, n: nat, bands: seq<Band>) {
    && |bands| == BlockCount(n)
    && forall j :: 0 <= j < |bands| ==> BlockDesign(m, p, j) == Ok(bands[j])
  }

  /**
   * The per-block transform: block `s` is filtered with band `bands[s/256]`, every
   * output sample depending only on the block's own samples up to it.
   */
  function BandFilter(m: Math, bands: seq<Band>): (f: (nat, seq<real>) -> seq<real>)
    ensures LengthPreserving(f)
  {
    (s: nat, b: seq<real>) =>
      var band := BandAt(bands, s);
      seq(|b|, i requires 0 <= i < |b| => m.bandpass(band.lo, band.hi, b[..i + 1]))
  }

  /** The band of the block starting at sample `s`. */
  function BandAt(bands: seq<Band>, s: nat): Band {
    if s / WahBlock < |bands| then bands[s / WahBlock] else Band(0.0, 0.0)
  }

  /**
   * The wah before `norm`, once every block's design has succeeded: sample `i`
   * is the band-pass, designed at the centre of `i`'s block start, run from rest
   * over the block's samples up to `i`.
   */
  function WahRaw(m: Math, p: WahParams, x: seq<real>, bands: seq<Band>): (y: seq<real>)
    requires DesignedBands(m, p, |x|, bands)
    ensures |y| == |x|
    ensures forall i :: 0 <= i < |x| ==>
      BlockDesign(m, p, i / WahBlock).Ok? &&
      y[i] == m.bandpass(BlockDesign(m, p, i / WahBlock).value.lo, BlockDesign(m, p, i / WahBlock).value.hi,
                         x[BlockStart(i, WahBlock)..i + 1])
  {
    var f := BandFilter(m, bands);
    var y := Blockwise(x, WahBlock, f);
    forall i | 0 <= i < |x|
      ensures BlockDesign(m, p, i / WahBlock).Ok?
      ensures y[i] == m.bandpass(BlockDesign(m, p, i / WahBlock).value.lo, BlockDesign(m, p, i / WahBlock).value.hi,
                                 x[BlockStart(i, WahBlock)..i + 1])
    {
      WahSample(m, bands, x, i);
      assert i / WahBlock < |bands|;
    }
    y
  }

  lemma WahSample(m: Math, bands: seq<Band>, x: seq<real>, i: nat)
    requires |bands| == BlockCount(|x|) && i < |x|
    ensures i / WahBlock < |bands|
    ensures Blockwise(x, WahBlock, BandFilter(m, bands))[i]
         == m.bandpass(bands[i / WahBlock].lo, bands[i / WahBlock].hi, x[BlockStart(i, WahBlock)..i + 1])
  {
    var s := BlockStart(i, WahBlock);
    var e := BlockEnd(s, WahBlock, |x|);
    BlockCountCovers(|x|, i, i / WahBlock);
    BlockwiseAt(x, WahBlock, BandFilter(m, bands), i, s, e);
    FilterSample(m, bands, x, s, e, i / WahBlock, i);
  }

  /** The band filter of the block `x[s..e]` at sample `i` of the buffer sees the block up to `i`. */
  lemma FilterSample(m: Math, bands: seq<Band>, x: seq<real>, s: nat, e: nat, j: nat, i: nat)
    requires s == j * WahBlock && j < |bands| && s <= i < e <= |x|
    ensures BandFilter(m, bands)(s, x[s..e])[i - s] == m.bandpass(bands[j].lo, bands[j].hi, x[s..i + 1])
  {
    FilterAt(m, bands, s, j, x[s..e], i - s);
    assert x[s..e][..i - s + 1] == x[s..i + 1];
  }

  lemma FilterAt(m: Math, bands: seq<Band>, s: nat, j: nat, blk: seq<real>, n: nat)
    requires s == j * WahBlock && j < |bands| && n < |blk|
    ensures BandFilter(m, bands)(s, blk)[n] == m.bandpass(bands[j].lo, bands[j].hi, blk[..n + 1])
  {
    DivUnique(s, WahBlock, j, 0);
  }

  /**
   * `wah_auto(x, f_lo, f_hi, rate_hz, q)`: fails exactly when some block's design
   * fails; otherwise the normalised block-wise band-pass of the same length.
   */
  function WahAuto(m: Math, x: seq<real>, p: WahParams): (r: Result<seq<real>, Fault>)
    requires |x| > 0
    ensures r.Err? <==> exists j :: 0 <= j < BlockCount(|x|) && BlockDesign(m, p, j).Err?
    ensures r.Ok? ==> |r.value| == |x| && forall i :: 0 <= i < |x| ==> -1.0 < r.value[i] < 1.0
    ensures r.Ok? ==> exists bands ::
      DesignedBands(m, p, |x|, bands) && Scale(Divisor(WahRaw(m, p, x, bands)), r.value) == WahRaw(m, p, x, bands)
  {
    var ds := AllDesigns(m, p, |x|);
    if ds.Err? then Err(ds.error)
    else
      var raw := WahRaw(m, p, x, ds.value);
      Ok(Norm(raw))
  }

  /** Every block's design, in block order, or the first failure. */
  function AllDesigns(m: Math, p: WahParams, n: nat): (r: Result<seq<Band>, Fault>)
    ensures r.Ok? <==> forall j :: 0 <= j < BlockCount(n) ==> BlockDesign(m, p, j).Ok?
    ensures r.Ok? ==> DesignedBands(m, p, n, r.value)
  {
    var g := (j: nat) => BlockDesign(m, p, j);
    var r := Collect(g, BlockCount(n), 0);
    forall j: nat
      ensures g(j) == BlockDesign(m, p, j)
    {
    }
    assert r.Ok? ==> forall j :: 0 <= j < BlockCount(n) ==> g(j) == Ok(r.value[j - 0]);
    r
  }

  /**
   * With the default sweep (350 to 2000 Hz, q = 2.5) every block's band is
   * designable, so the chain's wah never fails on a non-empty buffer.
   */
  lemma DefaultWahDesignable(m: Math, x: seq<real>)
    requires WellBehaved(m) && |x| > 0
    ensures WahAuto(m, x, WahDefaults).Ok?
  {
    forall j: nat
      ensures BlockDesign(m, WahDefaults, j).Ok?
    {
      DefaultBlockDesignable(m, j);
    }
  }

  lemma DefaultBlockDesignable(m: Math, j: nat)
    requires WellBehaved(m)
    ensures BlockDesign(m, WahDefaults, j).Ok?
    ensures 280.0 <= BlockDesign(m, WahDefaults, j).value.lo < BlockDesign(m, WahDefaults, j).value.hi <= 2400.0
  {
    var fc := Center(m, WahDefaults, j * WahBlock);
    CenterInSweep(m, WahDefaults, j * WahBlock);
    var b := BandEdges(fc, 2.5);
    assert b.lo == fc - fc / 2.5 / 2.0;
    assert b.hi == fc + fc / 2.5 / 2.0;
  }

  /**
   * Filter state never crosses a block boundary: two inputs that agree on a
   * block give the same wah output there, whatever they hold elsewhere.
   */
  lemma WahBlockLocal(m: Math, p: WahParams, x1: seq<real>, x2: seq<real>, bands: seq<Band>, k: nat)
    requires |x1| == |x2| && k * WahBlock < |x1|
    requires DesignedBands(m, p, |x1|, bands)
    requires x1[k * WahBlock..BlockEnd(k * WahBlock, WahBlock, |x1|)] == x2[k * WahBlock..BlockEnd(k * WahBlock, WahBlock, |x2|)]
    ensures forall i :: k * WahBlock <= i < BlockEnd(k * WahBlock, WahBlock, |x1|) ==>
      WahRaw(m, p, x1, bands)[i] == WahRaw(m, p, x2, bands)[i]
  {
    BlockLocal(x1, x2, WahBlock, BandFilter(m, bands), k);
    WahRawIsBlockwise(m, p, x1, bands);
    WahRawIsBlockwise(m, p, x2, bands);
  }

  lemma WahRawIsBlockwise(m: Math, p: WahParams, x: seq<real>, bands: seq<Band>)
    requires DesignedBands(m, p, |x|, bands)
    ensures WahRaw(m, p, x, bands) == Blockwise(x, WahBlock, BandFilter(m, bands))
  {
  }
}

=== FILE: wahq.dfy ===
/**
 * wah_q_table.py: the resonance of each measured wah position. Each input
 * file is read with the strict reader, its frequency and complex columns are
 * looked up, the curve is sorted by frequency, and the first maximum of the
 * level gives the centre frequency `f0`; scans to the -3 dB points give the
 * bandwidth and `Q = f0 / bw`. The rows are labelled and sorted by label.
 */
module WahQ {
  import opened Wrappers
  import opened Text
  import opened Numbers
  import opened FloatOps
  import opened Table
  import opened Sorting
  import Decimal
  import WrData
  import Lines
  import MergeBode

  // ---------------------------------------------------------------------------
  // column lookup: `cols.get(a) or cols.get(b) or ...`

  /**
   * `bool()` of what `cols.get` returned: `None` is false, a one-element array
   * is true unless its element is zero (NaN is true), and any other array
   * raises `ValueError`.
   */
  function Truth(v: Option<seq<Num>>): (r: Result<bool, ReadError>)
    ensures r.Err? <==> v.Some? && |v.value| != 1
    ensures r == Ok(true) ==> v.Some?
  {
    match v
    case None => Ok(false)
    case Some(a) => if |a| != 1 then Err(AmbiguousTruth) else Ok(a[0] != Fin(0.0))
  }

  /** `a or b or ... or z`: the truth value of every operand but the last is taken; the last is returned as it is. */
  function OrChain(vs: seq<Option<seq<Num>>>): (r: Result<Option<seq<Num>>, ReadError>)
    requires |vs| > 0
    ensures r.Ok? ==> r.value in vs
    ensures r.Err? ==> r.error == AmbiguousTruth
    decreases |vs|
  {
    if |vs| == 1 then Ok(vs[0])
    else
      match Truth(vs[0])
      case Err(e) => Err(e)
      case Ok(t) => if t then Ok(vs[0]) else OrChain(vs[1..])
  }

  /** What `cols.get(n)` returns for each name. */
  function Lookups(cols: Cols, names: seq<string>): (r: seq<Option<seq<Num>>>)
    ensures |r| == |names|
    ensures forall i :: 0 <= i < |names| ==> r[i] == Get(cols, names[i])
  {
    seq(|names|, i requires 0 <= i < |names| => Get(cols, names[i]))
  }

  /** The lookup as written at wah_q_table.py:100-104. */
  function OrGet(cols: Cols, names: seq<string>): (r: Result<Option<seq<Num>>, ReadError>)
    requires |names| > 0
  {
    OrChain(Lookups(cols, names))
  }

  /**
   * The discrepancy: when a name other than the last is present with two or
   * more rows, the `or` asks numpy for the truth of a whole column and the
   * lookup raises instead of returning the column.
   */
  lemma OrGetAmbiguous(cols: Cols, names: seq<string>)
    requires |names| >= 2 && Get(cols, names[0]).Some? && |Get(cols, names[0]).value| >= 2
    ensures OrGet(cols, names) == Err(AmbiguousTruth)
  {
    assert Lookups(cols, names)[0] == Get(cols, names[0]);
  }

  /** The same chain passes over a one-row column that holds zero as if it were absent. */
  lemma OrGetSkipsZero(cols: Cols, names: seq<string>)
    requires |names| >= 2 && Get(cols, names[0]) == Some([Fin(0.0)])
    ensures OrGet(cols, names) == OrGet(cols, names[1..])
  {
    var vs := Lookups(cols, names);
    assert vs[0] == Get(cols, names[0]);
    assert vs[1..] == Lookups(cols, names[1..]);
  }

  /** A two-row file with the default frequency name: the chain raises, the first-present lookup finds it. */
  lemma DefaultFrequencyRejected()
    ensures var cols := [Column("frequency", [Fin(100.0), Fin(200.0)])];
      OrGet(cols, ["frequency", "Frequency", "freq"]) == Err(AmbiguousTruth) &&
      FirstPresent(cols, ["frequency", "Frequency", "freq"]) == Some([Fin(100.0), Fin(200.0)])
  {
    var cols := [Column("frequency", [Fin(100.0), Fin(200.0)])];
    assert Keys(cols) == ["frequency"];
    assert Get(cols, "frequency") == Some([Fin(100.0), Fin(200.0)]) by {
      GetEntry(cols, "frequency");
    }
    OrGetAmbiguous(cols, ["frequency", "Frequency", "freq"]);
  }

  /** The evidently intended lookup: the column of the first name present. */
  function FirstPresent(cols: Cols, names: seq<string>): (r: Option<seq<Num>>)
    ensures r.None? <==> forall i :: 0 <= i < |names| ==> names[i] !in Keys(cols)
    ensures r.Some? ==> exists i :: 0 <= i < |names| && Get(cols, names[i]) == r &&
                                    forall j :: 0 <= j < i ==> names[j] !in Keys(cols)
  {
    match MergeBode.FirstExact(Keys(cols), names)
    case None => None
    case Some(i) => Get(cols, names[i])
  }

  /** When no name but the last is present, the chain as written and the intended lookup agree. */
  lemma OrGetAgrees(cols: Cols, names: seq<string>)
    requires |names| > 0 && forall i :: 0 <= i < |names| - 1 ==> names[i] !in Keys(cols)
    ensures OrGet(cols, names) == Ok(FirstPresent(cols, names))
  {
    OrChainAbsent(Lookups(cols, names));
    var l := |names| - 1;
    if names[l] !in Keys(cols) {
      assert FirstPresent(cols, names).None?;
    } else {
      var f := FirstPresent(cols, names);
      var i :| 0 <= i < |names| && Get(cols, names[i]) == f && forall j :: 0 <= j < i ==> names[j] !in Keys(cols);
      assert i == l;
    }
  }

  /** A chain whose operands before the last are all `None` returns the last. */
  lemma {:induction false} OrChainAbsent(vs: seq<Option<seq<Num>>>)
    requires |vs| > 0 && forall i :: 0 <= i < |vs| - 1 ==> vs[i].None?
    ensures OrChain(vs) == Ok(vs[|vs| - 1])
    decreases |vs|
  {
    if |vs| > 1 {
      OrChainAbsent(vs[1..]);
    }
  }

  // ---------------------------------------------------------------------------
  // find_band_edges and f0_bw_q

  /** The `1e-24` added to the slope's denominator. */
  const Eps: real := 0.000000000000000000000001

  /** The `1e-9` floor of the bandwidth. */
  const MinBandwidth: real := 0.000000001

  /** `peak_mag - 3.0`. */
  function Target(peak: Num): (t: Num)
    ensures peak.Fin? ==> t == Fin(peak.r - 3.0)
    ensures !peak.Fin? ==> t == peak
  {
    Sub(peak, Fin(3.0))
  }

  /** The left scan from `lo`: step left while the level is above the target, stopping at 0. */
  function ScanLeft(mag: seq<Num>, target: Num, lo: nat): (r: nat)
    requires lo < |mag|
    ensures r <= lo
    ensures r == 0 || !Gt(mag[r], target)
    ensures forall k :: r < k <= lo ==> Gt(mag[k], target)
    decreases lo
  {
    if lo > 0 && Gt(mag[lo], target) then ScanLeft(mag, target, lo - 1) else lo
  }

  /** The right scan from `hi`: step right while the level is above the target, stopping at the last index. */
  function ScanRight(mag: seq<Num>, target: Num, hi: nat): (r: nat)
    requires hi < |mag|
    ensures hi <= r < |mag|
    ensures r == |mag| - 1 || !Gt(mag[r], target)
    ensures forall k :: hi <= k < r ==> Gt(mag[k], target)
    decreases |mag| - hi
  {
    if hi < |mag| - 1 && Gt(mag[hi], target) then ScanRight(mag, target, hi + 1) else hi
  }

  /** The linear interpolation of the frequency at which the level crosses the target. */
  function Interp(x0: Num, x1: Num, y0: Num, y1: Num, target: Num): Num {
    Add(x0, Div(Mul(Sub(target, y0), Sub(x1, x0)), Add(Sub(y1, y0), Fin(Eps))))
  }

  /** On a rising crossing the interpolated frequency lies between the two samples. */
  lemma RisingBetween(x0: real, x1: real, y0: real, y1: real, t: real)
    requires x0 <= x1 && y0 <= t < y1
    ensures var r := Interp(Fin(x0), Fin(x1), Fin(y0), Fin(y1), Fin(t)); r.Fin? && x0 <= r.r <= x1
  {
    var d, w := y1 - y0 + Eps, x1 - x0;
    var p := (t - y0) * w;
    MulMono(t - y0, d, w);
    DivBounds(p, d, w);
    assert Interp(Fin(x0), Fin(x1), Fin(y0), Fin(y1), Fin(t)) == Fin(x0 + p / d);
  }

  /**
   * On a falling crossing the same holds once the target is `Eps` above the
   * lower sample: the constant in the denominator shifts the crossing by that much.
   */
  lemma FallingBetween(x0: real, x1: real, y0: real, y1: real, t: real)
    requires x0 <= x1 && y1 + Eps <= t < y0
    ensures var r := Interp(Fin(x0), Fin(x1), Fin(y0), Fin(y1), Fin(t)); r.Fin? && x0 <= r.r <= x1
  {
    var d, w := y1 - y0 + Eps, x1 - x0;
    var p := (t - y0) * w;
    MulMono(y0 - t, -d, w);
    assert (y0 - t) * w == -p;
    DivBounds(-p, -d, w);
    NegDiv(p, d);
    assert Interp(Fin(x0), Fin(x1), Fin(y0), Fin(y1), Fin(t)) == Fin(x0 + p / d);
  }

  lemma NegDiv(p: real, d: real)
    requires d != 0.0
    ensures p / d == (-p) / (-d)
  {
    var q := (-p) / (-d);
    assert q * (-d) == -p;
    assert q * d == p;
  }

  lemma MulMono(a: real, b: real, c: real)
    requires 0.0 <= a <= b && 0.0 <= c
    ensures 0.0 <= a * c <= b * c
  {
  }

  lemma DivBounds(p: real, d: real, w: real)
    requires 0.0 < d && 0.0 <= p <= d * w
    ensures 0.0 <= p / d <= w
  {
    var q := p / d;
    assert q * d == p;
    if q > w {
      assert q * d > w * d;
    }
  }

  /** The lower -3 dB frequency: interpolated when the left scan moved, `f[0]` when it did not. */
  function LowerEdge(f: seq<Num>, mag: seq<Num>, peak: nat): (flo: Num)
    requires |f| == |mag| && peak < |f|
    ensures var t := Target(mag[peak]); var lo := ScanLeft(mag, t, peak);
      lo == peak ==> flo == f[0]
    ensures var t := Target(mag[peak]); var lo := ScanLeft(mag, t, peak);
      (lo < peak && f[lo].Fin? && f[lo + 1].Fin? && f[lo].r <= f[lo + 1].r && mag[lo].Fin? && mag[lo + 1].Fin? &&
       t.Fin? && !Gt(mag[lo], t)) ==> flo.Fin? && f[lo].r <= flo.r <= f[lo + 1].r
  {
    var t := Target(mag[peak]);
    var lo := ScanLeft(mag, t, peak);
    if lo < peak then
      var flo := Interp(f[lo], f[lo + 1], mag[lo], mag[lo + 1], t);
      if f[lo].Fin? && f[lo + 1].Fin? && f[lo].r <= f[lo + 1].r && mag[lo].Fin? && mag[lo + 1].Fin? && t.Fin? && !Gt(mag[lo], t) then
        RisingBetween(f[lo].r, f[lo + 1].r, mag[lo].r, mag[lo + 1].r, t.r);
        flo
      else flo
    else f[0]
  }

  /** The upper -3 dB frequency: interpolated when the right scan moved, the last `f` when it did not. */
  function UpperEdge(f: seq<Num>, mag: seq<Num>, peak: nat): (fhi: Num)
    requires |f| == |mag| && peak < |f|
    ensures var t := Target(mag[peak]); var hi := ScanRight(mag, t, peak);
      hi == peak ==> fhi == f[|f| - 1]
    ensures var t := Target(mag[peak]); var hi := ScanRight(mag, t, peak);
      (hi > peak && f[hi - 1].Fin? && f[hi].Fin? && f[hi - 1].r <= f[hi].r && mag[hi - 1].Fin? && mag[hi].Fin? &&
       t.Fin? && mag[hi].r + Eps <= t.r) ==> fhi.Fin? && f[hi - 1].r <= fhi.r <= f[hi].r
  {
    var t := Target(mag[peak]);
    var hi := ScanRight(mag, t, peak);
    if hi > peak then
      var fhi := Interp(f[hi - 1], f[hi], mag[hi - 1], mag[hi], t);
      if f[hi - 1].Fin? && f[hi].Fin? && f[hi - 1].r <= f[hi].r && mag[hi - 1].Fin? && mag[hi].Fin? && t.Fin? && mag[hi].r + Eps <= t.r then
        FallingBetween(f[hi - 1].r, f[hi].r, mag[hi - 1].r, mag[hi].r, t.r);
        fhi
      else fhi
    else f[|f| - 1]
  }

  /** `max(fhi - flo, 1e-9)`: never below the floor, and NaN only when the difference is. */
  function Bandwidth(flo: Num, fhi: Num): (bw: Num)
    ensures bw.NaN? <==> Sub(fhi, flo).NaN?
    ensures !bw.NaN? ==> Positive(bw)
    ensures bw.Fin? ==> bw.r >= MinBandwidth
    ensures Sub(fhi, flo).Fin? && fhi.r - flo.r >= MinBandwidth ==> bw == Fin(fhi.r - flo.r)
  {
    Max(Sub(fhi, flo), Fin(MinBandwidth))
  }

  /** `Q = f0 / bw`, so that `Q * bw` gives back `f0`. */
  function Quality(f0: Num, bw: Num): (q: Num)
    requires bw.Fin? ==> bw.r >= MinBandwidth
    ensures f0.Fin? && bw.Fin? ==> q.Fin? && q.r * bw.r == f0.r
    ensures f0.NaN? || bw.NaN? ==> q.NaN?
  {
    Div(f0, bw)
  }

  /** What `find_band_edges` returns: `f0, flo, fhi, bw, Q`. */
  datatype Measurement = Measurement(f0: Num, flo: Num, fhi: Num, bw: Num, q: Num)

  /**
   * `find_band_edges`: the centre frequency, the two -3 dB frequencies, the
   * bandwidth, floored at `1e-9`, and `Q`.
   */
  function FindBandEdges(f: seq<Num>, mag: seq<Num>, peak: nat): (b: Measurement)
    requires |f| == |mag| && peak < |f|
    ensures b.f0 == f[peak] && b.flo == LowerEdge(f, mag, peak) && b.fhi == UpperEdge(f, mag, peak)
    ensures b.bw == Bandwidth(b.flo, b.fhi) && b.q == Quality(b.f0, b.bw)
    ensures !b.bw.NaN? ==> Positive(b.bw)
  {
    var flo := LowerEdge(f, mag, peak);
    var fhi := UpperEdge(f, mag, peak);
    var bw := Bandwidth(flo, fhi);
    Measurement(f[peak], flo, fhi, bw, Quality(f[peak], bw))
  }

  /**
   * `np.argmax` continued from position `i` with the best so far at `m`: a
   * later value replaces the best only when it is strictly greater, and a NaN
   * counts as greater than everything, so the first NaN is kept.
   */
  function ArgMaxFrom(v: seq<Num>, i: nat, m: nat): (r: nat)
    requires m < i <= |v|
    requires forall k :: 0 <= k < i ==> NumLe(v[k], v[m])
    requires forall k :: 0 <= k < m ==> Less(v[k], v[m])
    ensures r < |v|
    ensures forall k :: 0 <= k < |v| ==> NumLe(v[k], v[r])
    ensures forall k :: 0 <= k < r ==> Less(v[k], v[r])
    decreases |v| - i
  {
    if i == |v| then m
    else if Less(v[m], v[i]) then
      NewMaximum(v, i, m);
      ArgMaxFrom(v, i + 1, i)
    else ArgMaxFrom(v, i + 1, m)
  }

  /** A value strictly above the best so far is strictly above everything before it. */
  lemma NewMaximum(v: seq<Num>, i: nat, m: nat)
    requires m < i < |v| && Less(v[m], v[i])
    requires forall k :: 0 <= k < i ==> NumLe(v[k], v[m])
    ensures forall k :: 0 <= k <= i ==> NumLe(v[k], v[i])
    ensures forall k :: 0 <= k < i ==> Less(v[k], v[i])
  {
    forall k | 0 <= k <= i
      ensures NumLe(v[k], v[i])
      ensures k < i ==> Less(v[k], v[i])
    {
      NumLeTotal(v[k], v[m], v[i]);
      NumLeTotal(v[i], v[k], v[m]);
    }
  }

  /** `np.argmax`: the first position of the largest value. */
  function ArgMax(v: seq<Num>): (r: nat)
    requires |v| > 0
    ensures r < |v|
    ensures forall k :: 0 <= k < |v| ==> NumLe(v[k], v[r])
    ensures forall k :: 0 <= k < r ==> Less(v[k], v[r])
  {
    ArgMaxFrom(v, 1, 0)
  }

  /** A level with a NaN peaks at its first NaN. */
  lemma ArgMaxFirstNaN(v: seq<Num>, j: nat)
    requires j < |v| && v[j].NaN? && forall k :: 0 <= k < j ==> !v[k].NaN?
    ensures ArgMax(v) == j
  {
    var r := ArgMax(v);
    assert NumLe(v[j], v[r]);
  }

  /** `f0_bw_q`: the band around the first maximum. */
  function F0BwQ(f: seq<Num>, mag: seq<Num>): (b: Measurement)
    requires |f| == |mag| > 0
    ensures b == FindBandEdges(f, mag, ArgMax(mag))
    ensures forall k :: 0 <= k < |mag| ==> NumLe(mag[k], mag[ArgMax(mag)])
  {
    var p := ArgMax(mag);
    FindBandEdges(f, mag, p)
  }

  // ---------------------------------------------------------------------------
  // one input

  /** The names tried after the command-line name of each column. */
  datatype WahAliases = WahAliases(f: seq<string>, re: seq<string>, im: seq<string>)

  const MainAliases: WahAliases := WahAliases(["Frequency", "freq"], ["re:re", "real(v(out))", "re"], ["im:im", "imag(v(out))", "im"])

  /**
   * The level of each row: `db(hypot(re, im))`, that is
   * `20*log10(max(hypot(re, im), 1e-24))`, left to the caller.
   */
  type Level = (Num, Num) -> Num

  /** A lookup chain that returned a column. */
  predicate Found(o: Result<Option<seq<Num>>, ReadError>) {
    o.Ok? && o.value.Some?
  }

  /**
   * The body of the loop of `main` for one file, as written: the frequency
   * chain and its `None` check, then both complex chains, then their `None`
   * check; then the curve sorted by frequency and the band around the peak.
   */
  function Measure(cols: Cols, level: Level, names: MergeBode.ColumnNames, al: WahAliases): (r: Result<Measurement, ReadError>)
    requires exists n :: n > 0 && Height(cols, n)
    ensures r.Err? <==> !Found(OrGet(cols, [names.fcol] + al.f)) || !Found(OrGet(cols, [names.recol] + al.re))
                        || !Found(OrGet(cols, [names.imcol] + al.im))
    ensures r.Err? ==> r.error.AmbiguousTruth? || r.error.MissingColumn?
    ensures r.Err? && r.error.MissingColumn? ==> r.error.name in {names.fcol, names.recol, names.imcol}
    ensures OrGet(cols, [names.fcol] + al.f) == Ok(None) ==> r == Err(MissingColumn(names.fcol))
    ensures r.Ok? ==> !r.value.bw.NaN? ==> Positive(r.value.bw)
  {
    match OrGet(cols, [names.fcol] + al.f)
    case Err(e) => Err(e)
    case Ok(None) => Err(MissingColumn(names.fcol))
    case Ok(Some(fv)) =>
      match (OrGet(cols, [names.recol] + al.re), OrGet(cols, [names.imcol] + al.im))
      case (Err(e), _) => Err(e)
      case (_, Err(e)) => Err(e)
      case (Ok(None), _) => Err(MissingColumn(names.recol))
      case (_, Ok(None)) => Err(MissingColumn(names.imcol))
      case (Ok(Some(rv)), Ok(Some(iv))) =>
        var n :| n > 0 && Height(cols, n);
        OrGetHeight(cols, [names.fcol] + al.f, n);
        OrGetHeight(cols, [names.recol] + al.re, n);
        OrGetHeight(cols, [names.imcol] + al.im, n);
        Ok(Resonance(fv, rv, iv, level))
  }

  /** A column returned by a chain has the height of the file. */
  lemma OrGetHeight(cols: Cols, names: seq<string>, n: nat)
    requires |names| > 0 && Height(cols, n) && Found(OrGet(cols, names))
    ensures |OrGet(cols, names).value.value| == n
  {
    var vs := Lookups(cols, names);
    var i :| 0 <= i < |vs| && vs[i] == OrGet(cols, names).value;
    GetEntry(cols, names[i]);
  }

  /**
   * The same body with each chain replaced by the first-present lookup, the
   * evidently intended behaviour.
   */
  function MeasureFixed(cols: Cols, level: Level, names: MergeBode.ColumnNames, al: WahAliases): (r: Result<Measurement, ReadError>)
    requires exists n :: n > 0 && Height(cols, n)
    ensures r.Err? <==> FirstPresent(cols, [names.fcol] + al.f).None? || FirstPresent(cols, [names.recol] + al.re).None?
                        || FirstPresent(cols, [names.imcol] + al.im).None?
    ensures r.Err? ==> r.error.MissingColumn?
    ensures r.Err? ==> r.error.name in {names.fcol, names.recol, names.imcol}
    ensures r.Ok? ==> !r.value.bw.NaN? ==> Positive(r.value.bw)
    ensures r.Ok? ==> var fv, rv, iv := FirstPresent(cols, [names.fcol] + al.f).value,
                                       FirstPresent(cols, [names.recol] + al.re).value,
                                       FirstPresent(cols, [names.imcol] + al.im).value;
      |fv| == |rv| == |iv| &&
      exists k :: (0 <= k < |fv| && r.value.f0 == fv[k] &&
                   forall j :: 0 <= j < |fv| ==> NumLe(level(rv[j], iv[j]), level(rv[k], iv[k])))
  {
    var fo := FirstPresent(cols, [names.fcol] + al.f);
    var ro := FirstPresent(cols, [names.recol] + al.re);
    var io := FirstPresent(cols, [names.imcol] + al.im);
    if fo.None? then Err(MissingColumn(names.fcol))
    else if ro.None? then Err(MissingColumn(names.recol))
    else if io.None? then Err(MissingColumn(names.imcol))
    else
      var n :| n > 0 && Height(cols, n);
      FirstPresentHeight(cols, [names.fcol] + al.f, n);
      FirstPresentHeight(cols, [names.recol] + al.re, n);
      FirstPresentHeight(cols, [names.imcol] + al.im, n);
      Ok(Resonance(fo.value, ro.value, io.value, level))
  }

  /**
   * When, in each chain, only the last name may be a key, the body as written
   * and the corrected one measure the same band or fail the same way.
   */
  lemma MeasureAgrees(cols: Cols, level: Level, names: MergeBode.ColumnNames, al: WahAliases)
    requires exists n :: n > 0 && Height(cols, n)
    requires forall i :: 0 <= i < |al.f| ==> ([names.fcol] + al.f)[i] !in Keys(cols)
    requires forall i :: 0 <= i < |al.re| ==> ([names.recol] + al.re)[i] !in Keys(cols)
    requires forall i :: 0 <= i < |al.im| ==> ([names.imcol] + al.im)[i] !in Keys(cols)
    ensures Measure(cols, level, names, al) == MeasureFixed(cols, level, names, al)
  {
    OrGetAgrees(cols, [names.fcol] + al.f);
    OrGetAgrees(cols, [names.recol] + al.re);
    OrGetAgrees(cols, [names.imcol] + al.im);
  }

  /** A column found by the lookup has the height of the file. */
  lemma FirstPresentHeight(cols: Cols, names: seq<string>, n: nat)
    requires Height(cols, n) && FirstPresent(cols, names).Some?
    ensures |FirstPresent(cols, names).value| == n
  {
    var i :| 0 <= i < |names| && Get(cols, names[i]) == FirstPresent(cols, names);
    GetEntry(cols, names[i]);
  }

  /**
   * Lines 107-112: the level of each row, both arrays put in frequency order
   * by one permutation, then `f0_bw_q`. The centre frequency is the frequency
   * of a row whose level is largest.
   */
  function Resonance(fv: seq<Num>, rv: seq<Num>, iv: seq<Num>, level: Level): (b: Measurement)
    requires |fv| == |rv| == |iv| > 0
    ensures !b.bw.NaN? ==> Positive(b.bw)
    ensures exists k :: 0 <= k < |fv| && b.f0 == fv[k] &&
                        forall j :: 0 <= j < |fv| ==> NumLe(level(rv[j], iv[j]), level(rv[k], iv[k]))
  {
    var mag := Levels(rv, iv, level);
    var order := ArgSort(fv);
    var fs, ms := Gather(fv, order), Gather(mag, order);
    var p := ArgMax(ms);
    PeakOfSorted(mag, order, p);
    assert fs[p] == fv[order[p]];
    F0BwQ(fs, ms)
  }

  /** The level of each row. */
  function Levels(rv: seq<Num>, iv: seq<Num>, level: Level): (mag: seq<Num>)
    requires |rv| == |iv|
    ensures |mag| == |rv| && forall k :: 0 <= k < |rv| ==> mag[k] == level(rv[k], iv[k])
  {
    seq(|rv|, k requires 0 <= k < |rv| => level(rv[k], iv[k]))
  }

  /** The largest value read through a permutation is the largest value. */
  lemma PeakOfSorted(mag: seq<Num>, order: seq<nat>, p: nat)
    requires |order| == |mag| && IsPermutation(order, |mag|) && InBounds(order, |mag|) && p < |order|
    requires forall k :: 0 <= k < |order| ==> NumLe(mag[order[k]], mag[order[p]])
    ensures forall j :: 0 <= j < |mag| ==> NumLe(mag[j], mag[order[p]])
  {
    forall j | 0 <= j < |mag|
      ensures NumLe(mag[j], mag[order[p]])
    {
      var k := Covers(order, |mag|, j);
    }
  }

  /** Every position below `n` appears in a permutation of `range(n)`. */
  lemma Covers(order: seq<nat>, n: nat, j: nat) returns (k: nat)
    requires IsPermutation(order, n) && j < n
    ensures k < |order| && order[k] == j
  {
    assert Range(n)[j] == j;
    assert j in multiset(Range(n));
    assert j in order;
    k :| 0 <= k < |order| && order[k] == j;
  }

  /** `read_wrdata` and the measurement for one file, as written. */
  function Analyse(g: FloatGrammar, level: Level, input: MergeBode.Input, names: MergeBode.ColumnNames, al: WahAliases): (r: Result<Measurement, ReadError>)
    ensures r.Err? ==> r.error.EmptyFile? || r.error.NoNumericRows? || r.error.RaggedRows? || r.error.AmbiguousTruth? || r.error.MissingColumn?
    ensures WrData.ReadStrict(g, input.lines).Err? ==> r == Err(WrData.ReadStrict(g, input.lines).error)
    ensures WrData.ReadStrict(g, input.lines).Ok? ==>
      r == Measure(WrData.ReadStrict(g, input.lines).value, level, names, al)
    ensures r.Ok? ==> !r.value.bw.NaN? ==> Positive(r.value.bw)
  {
    var rd := WrData.ReadStrict(g, input.lines);
    if rd.Err? then
      WrData.ReadStrictErrors(g, input.lines);
      Err(rd.error)
    else
      Measure(rd.value, level, names, al)
  }

  /** The corrected reader and the corrected lookups for one file. */
  function AnalyseFixed(g: FloatGrammar, level: Level, input: MergeBode.Input, names: MergeBode.ColumnNames, al: WahAliases): (r: Result<Measurement, ReadError>)
    ensures r.Err? ==> r.error.EmptyFile? || r.error.NoNumericRows? || r.error.RaggedRows? || r.error.MissingColumn?
    ensures WrData.ReadStrictFixed(g, input.lines).Err? ==> r == Err(WrData.ReadStrictFixed(g, input.lines).error)
    ensures WrData.ReadStrictFixed(g, input.lines).Ok? ==>
      r == MeasureFixed(WrData.ReadStrictFixed(g, input.lines).value, level, names, al)
    ensures r.Ok? ==> !r.value.bw.NaN? ==> Positive(r.value.bw)
  {
    var rd := WrData.ReadStrictFixed(g, input.lines);
    if rd.Err? then
      WrData.ReadStrictFixedErrors(g, input.lines);
      Err(rd.error)
    else
      MeasureFixed(rd.value, level, names, al)
  }

  // ---------------------------------------------------------------------------
  // labels and the table

  /** Every character is a decimal digit. */
  predicate Digits(s: string) {
    forall i :: 0 <= i < |s| ==> Decimal.IsDigit(s[i])
  }

  /** The first `.` of a text, if any. */
  function FirstDot(s: string): (r: Option<nat>)
    ensures r.Some? ==> r.value < |s| && s[r.value] == '.' && forall k :: 0 <= k < r.value ==> s[k] != '.'
    ensures r.None? ==> forall k :: 0 <= k < |s| ==> s[k] != '.'
    decreases |s|
  {
    if |s| == 0 then None
    else if s[0] == '.' then Some(0)
    else
      match FirstDot(s[1..])
      case None => None
      case Some(i) => Some(i + 1)
  }

  /** The text after an optional leading sign. */
  function Unsigned(s: string): (t: string)
    ensures |s| > 0 && (s[0] == '-' || s[0] == '+') ==> t == s[1..]
    ensures |s| == 0 || (s[0] != '-' && s[0] != '+') ==> t == s
  {
    if |s| > 0 && (s[0] == '-' || s[0] == '+') then s[1..] else s
  }

  /**
   * `re.fullmatch(r'[-+]?\d*\.?\d+', s)`: an optional sign, then digits with
   * at most one `.`, which must be followed by at least one digit.
   */
  predicate PlainNumber(s: string) {
    var t := Unsigned(s);
    |t| > 0 &&
    match FirstDot(t)
    case None => Digits(t)
    case Some(i) => i < |t| - 1 && Digits(t[..i]) && Digits(t[i + 1..])
  }

  /** A sign, digits, a `.` and at least one digit make a plain number: `12.5`, `-.5`, `+3.25`. */
  lemma PlainDecimal(sign: string, a: string, b: string)
    requires sign == "" || sign == "-" || sign == "+"
    requires Digits(a) && Digits(b) && |b| > 0
    ensures PlainNumber(sign + a + "." + b)
  {
    var t := a + "." + b;
    assert PlainNumber(t) by {
      DecimalParts(a, b);
    }
    assert sign + a + "." + b == sign + t;
    SignedPlain(sign, t);
  }

  /** Digits, a `.` and digits: no sign in front, and the first `.` splits the two runs. */
  lemma DecimalParts(a: string, b: string)
    requires Digits(a) && Digits(b) && |b| > 0
    ensures var t := a + "." + b;
      t[0] != '-' && t[0] != '+' && FirstDot(t) == Some(|a|) && |a| < |t| - 1 &&
      t[..|a|] == a && t[|a| + 1..] == b
  {
    var t := a + "." + b;
    assert t[|a|] == '.';
    assert forall k :: 0 <= k < |a| ==> t[k] == a[k];
    DotAfterDigits(a, b);
    assert t[..|a|] == a && t[|a| + 1..] == b;
  }

  /** A plain number without a sign stays plain behind one. */
  lemma SignedPlain(sign: string, t: string)
    requires sign == "" || sign == "-" || sign == "+"
    requires |t| > 0 && t[0] != '-' && t[0] != '+' && PlainNumber(t)
    ensures PlainNumber(sign + t)
  {
    UnsignedOf(sign, t);
  }

  /** A sign and at least one digit make a plain number: `12`, `-7`. */
  lemma PlainInteger(sign: string, b: string)
    requires sign == "" || sign == "-" || sign == "+"
    requires Digits(b) && |b| > 0
    ensures PlainNumber(sign + b)
  {
    UnsignedOf(sign, b);
    assert forall k :: 0 <= k < |b| ==> b[k] != '.';
  }

  lemma UnsignedOf(sign: string, t: string)
    requires sign == "" || sign == "-" || sign == "+"
    requires |t| > 0 && t[0] != '-' && t[0] != '+'
    ensures Unsigned(sign + t) == t
  {
    if sign == "" {
      assert sign + t == t;
    } else {
      assert (sign + t)[1..] == t;
    }
  }

  lemma DotAfterDigits(a: string, b: string)
    requires Digits(a)
    ensures FirstDot(a + "." + b) == Some(|a|)
  {
    var t := a + "." + b;
    assert t[|a|] == '.';
    assert forall k :: 0 <= k < |a| ==> t[k] == a[k] && t[k] != '.';
  }

  /** A label, kept as text unless it looks like a plain number. */
  datatype Position = Number(x: Num) | Text(s: string)

  /** `float(pos) if re.fullmatch(...) else pos`. */
  function ToPosition(g: FloatGrammar, s: string): (p: Position)
    ensures p.Number? <==> PlainNumber(s)
    ensures p.Text? ==> p.s == s
  {
    if PlainNumber(s) then Number(g.value(s)) else Text(s)
  }

  /** `float(r[0])`, which raises for text `float` does not accept. */
  function SortKey(g: FloatGrammar, p: Position): (k: Option<Num>)
    ensures k.None? <==> p.Text? && !g.parses(p.s)
  {
    match p
    case Number(x) => Some(x)
    case Text(s) => if g.parses(s) then Some(g.value(s)) else None
  }

  /** One row of the table. */
  datatype WahRow = WahRow(pos: Position, band: Measurement)

  /** Every row has a sort key. */
  predicate Keyed(g: FloatGrammar, rows: seq<WahRow>) {
    forall i :: 0 <= i < |rows| ==> SortKey(g, rows[i].pos).Some?
  }

  /** No sort key is NaN: `float` of the label `nan` would be. */
  predicate NoNaNKey(g: FloatGrammar, rows: seq<WahRow>)
    requires Keyed(g, rows)
  {
    forall i :: 0 <= i < |rows| ==> !SortKey(g, rows[i].pos).value.NaN?
  }

  /**
   * `rows.sort(key=lambda r: float(r[0]))` inside `try`: Python computes every
   * key before moving anything, so one label without a key leaves the rows
   * as they are; otherwise a stable sort by key. Python's sort compares with
   * `<`, which is not an order once a key is NaN, so the order is promised
   * only for keys that are not NaN.
   */
  function SortRows(g: FloatGrammar, rows: seq<WahRow>): (r: seq<WahRow>)
    ensures multiset(r) == multiset(rows)
    ensures !Keyed(g, rows) ==> r == rows
    ensures Keyed(g, rows) ==> Keyed(g, r)
    ensures Keyed(g, rows) && NoNaNKey(g, rows) ==>
      forall a, b :: 0 <= a < b < |r| ==> NumLe(SortKey(g, r[a].pos).value, SortKey(g, r[b].pos).value)
  {
    if !Keyed(g, rows) then rows
    else
      var keys := seq(|rows|, i requires 0 <= i < |rows| && Keyed(g, rows) => SortKey(g, rows[i].pos).value);
      var order := ArgSort(keys);
      var r := Gather(rows, order);
      GatherPermutation(rows, order);
      assert forall k :: 0 <= k < |r| ==> SortKey(g, r[k].pos) == Some(keys[order[k]]);
      r
  }

  /** A table already in key order is left alone when the keys are strictly ascending. */
  lemma SortRowsSorted(g: FloatGrammar, rows: seq<WahRow>)
    requires Keyed(g, rows)
    requires forall a, b :: 0 <= a < b < |rows| ==> Less(SortKey(g, rows[a].pos).value, SortKey(g, rows[b].pos).value)
    ensures SortRows(g, rows) == rows
  {
    var keys := seq(|rows|, i requires 0 <= i < |rows| && Keyed(g, rows) => SortKey(g, rows[i].pos).value);
    var order := ArgSort(keys);
    MergeBode.SortedStrictIdentity(keys, order);
    assert Gather(rows, order) == rows;
  }

  /** `args.labels or [Path(p).stem for p in args.inputs]`: no labels, or an empty list, means the file stems. */
  function Labels(given: seq<string>, inputs: seq<MergeBode.Input>): (r: seq<string>)
    ensures |given| > 0 ==> r == given
    ensures |given| == 0 ==> r == Stems(inputs)
  {
    if |given| > 0 then given else Stems(inputs)
  }

  /** The file stem of each input. */
  function Stems(inputs: seq<MergeBode.Input>): (r: seq<string>)
    ensures |r| == |inputs|
    ensures forall i :: 0 <= i < |inputs| ==> r[i] == MergeBode.Stem(inputs[i].spec)
    decreases |inputs|
  {
    if |inputs| == 0 then [] else [MergeBode.Stem(inputs[0].spec)] + Stems(inputs[1..])
  }

  /** Rows sorted by label key: once the table is keyed, the keys ascend. */
  predicate SortedByLabel(g: FloatGrammar, rows: seq<WahRow>)
    requires Keyed(g, rows)
  {
    forall a, b :: 0 <= a < b < |rows| ==> NumLe(SortKey(g, rows[a].pos).value, SortKey(g, rows[b].pos).value)
  }

  /** Each file measured in turn, as written; the first failure ends the run. */
  function MeasureAll(g: FloatGrammar, level: Level, inputs: seq<MergeBode.Input>, names: MergeBode.ColumnNames,
                      al: WahAliases): (r: Result<seq<Measurement>, ReadError>)
    ensures r.Ok? ==> |r.value| == |inputs|
    ensures r.Ok? ==> forall k :: 0 <= k < |inputs| ==> Analyse(g, level, inputs[k], names, al) == Ok(r.value[k])
    ensures r.Err? <==> exists k :: 0 <= k < |inputs| && Analyse(g, level, inputs[k], names, al).Err?
    ensures r.Err? ==> exists k :: (0 <= k < |inputs| && Analyse(g, level, inputs[k], names, al) == Err(r.error)
                                    && forall j :: 0 <= j < k ==> Analyse(g, level, inputs[j], names, al).Ok?)
  {
    var measure := (i: MergeBode.Input) => Analyse(g, level, i, names, al);
    var r := MergeBode.Curves(measure, inputs);
    assert forall k :: 0 <= k < |inputs| ==> measure(inputs[k]) == Analyse(g, level, inputs[k], names, al);
    r
  }

  /** Each file measured with the corrected reader and lookups. */
  function MeasureAllFixed(g: FloatGrammar, level: Level, inputs: seq<MergeBode.Input>, names: MergeBode.ColumnNames,
                           al: WahAliases): (r: Result<seq<Measurement>, ReadError>)
    ensures r.Ok? ==> |r.value| == |inputs|
    ensures r.Ok? ==> forall k :: 0 <= k < |inputs| ==> AnalyseFixed(g, level, inputs[k], names, al) == Ok(r.value[k])
    ensures r.Err? <==> exists k :: 0 <= k < |inputs| && AnalyseFixed(g, level, inputs[k], names, al).Err?
    ensures r.Err? ==> exists k :: (0 <= k < |inputs| && AnalyseFixed(g, level, inputs[k], names, al) == Err(r.error)
                                    && forall j :: 0 <= j < k ==> AnalyseFixed(g, level, inputs[j], names, al).Ok?)
  {
    var measure := (i: MergeBode.Input) => AnalyseFixed(g, level, i, names, al);
    var r := MergeBode.Curves(measure, inputs);
    assert forall k :: 0 <= k < |inputs| ==> measure(inputs[k]) == AnalyseFixed(g, level, inputs[k], names, al);
    r
  }

  /**
   * `main` up to the CSV, given the outcome of the loop over the files: at
   * least one input, as many labels as inputs, then the measured bands, each
   * paired with the label of its own input, sorted by label.
   */
  function WahTable(g: FloatGrammar, inputs: seq<MergeBode.Input>, given: seq<string>,
                    measured: Result<seq<Measurement>, ReadError>): (r: Result<seq<WahRow>, ReadError>)
    requires measured.Ok? ==> |measured.value| == |inputs|
    ensures |inputs| == 0 ==> r == Err(Usage)
    ensures |inputs| > 0 && |given| > 0 && |given| != |inputs| ==> r == Err(LabelCountMismatch)
    ensures |inputs| > 0 && (|given| == 0 || |given| == |inputs|) ==> (r.Err? <==> measured.Err?)
    ensures |inputs| > 0 && (|given| == 0 || |given| == |inputs|) && measured.Err? ==> r == Err(measured.error)
    ensures r.Ok? ==> measured.Ok? && |r.value| == |inputs| == |Labels(given, inputs)|
    ensures r.Ok? ==> RowsFrom(g, Labels(given, inputs), measured.value, r.value)
    ensures r.Ok? ==> multiset(r.value) == multiset(Zipped(g, Labels(given, inputs), measured.value))
    ensures r.Ok? && !Keyed(g, Zipped(g, Labels(given, inputs), measured.value)) ==>
      r.value == Zipped(g, Labels(given, inputs), measured.value)
    ensures r.Ok? && Keyed(g, r.value) && NoNaNKey(g, r.value) ==> SortedByLabel(g, r.value)
  {
    if |inputs| == 0 then Err(Usage)
    else
      var labels := Labels(given, inputs);
      if |labels| != |inputs| then Err(LabelCountMismatch)
      else
        match measured
        case Err(e) => Err(e)
        case Ok(bands) => Ok(Tabulate(g, labels, bands))
  }

  /** `main` as written. */
  function Run(g: FloatGrammar, level: Level, inputs: seq<MergeBode.Input>, given: seq<string>,
               names: MergeBode.ColumnNames, al: WahAliases): (r: Result<seq<WahRow>, ReadError>)
  {
    WahTable(g, inputs, given, MeasureAll(g, level, inputs, names, al))
  }

  /** `main` with the corrected reader and lookups. */
  function RunFixed(g: FloatGrammar, level: Level, inputs: seq<MergeBode.Input>, given: seq<string>,
                    names: MergeBode.ColumnNames, al: WahAliases): (r: Result<seq<WahRow>, ReadError>)
  {
    WahTable(g, inputs, given, MeasureAllFixed(g, level, inputs, names, al))
  }

  /** Each row of a finished run holds the label of one input and the band measured from that input's file. */
  lemma RunPairs(g: FloatGrammar, level: Level, inputs: seq<MergeBode.Input>, given: seq<string>,
                 names: MergeBode.ColumnNames, al: WahAliases, k: nat) returns (i: nat)
    requires Run(g, level, inputs, given, names, al).Ok? && k < |Run(g, level, inputs, given, names, al).value|
    ensures i < |inputs| == |Labels(given, inputs)|
    ensures Run(g, level, inputs, given, names, al).value[k].pos == ToPosition(g, Labels(given, inputs)[i])
    ensures Analyse(g, level, inputs[i], names, al) == Ok(Run(g, level, inputs, given, names, al).value[k].band)
  {
    var m := MeasureAll(g, level, inputs, names, al);
    var r := WahTable(g, inputs, given, m);
    i :| 0 <= i < |inputs| && r.value[k] == WahRow(ToPosition(g, Labels(given, inputs)[i]), m.value[i]);
  }

  /** The same pairing for the corrected run. */
  lemma RunFixedPairs(g: FloatGrammar, level: Level, inputs: seq<MergeBode.Input>, given: seq<string>,
                      names: MergeBode.ColumnNames, al: WahAliases, k: nat) returns (i: nat)
    requires RunFixed(g, level, inputs, given, names, al).Ok? && k < |RunFixed(g, level, inputs, given, names, al).value|
    ensures i < |inputs| == |Labels(given, inputs)|
    ensures RunFixed(g, level, inputs, given, names, al).value[k].pos == ToPosition(g, Labels(given, inputs)[i])
    ensures AnalyseFixed(g, level, inputs[i], names, al) == Ok(RunFixed(g, level, inputs, given, names, al).value[k].band)
  {
    var m := MeasureAllFixed(g, level, inputs, names, al);
    var r := WahTable(g, inputs, given, m);
    i :| 0 <= i < |inputs| && r.value[k] == WahRow(ToPosition(g, Labels(given, inputs)[i]), m.value[i]);
  }

  /** Every row pairs some input's label with that same input's band. */
  predicate RowsFrom(g: FloatGrammar, labels: seq<string>, bands: seq<Measurement>, rows: seq<WahRow>)
    requires |labels| == |bands|
  {
    forall k :: 0 <= k < |rows| ==> exists i :: 0 <= i < |bands| && rows[k] == WahRow(ToPosition(g, labels[i]), bands[i])
  }

  /** `zip(labels, bands)` as table rows, in input order. */
  function Zipped(g: FloatGrammar, labels: seq<string>, bands: seq<Measurement>): (rows: seq<WahRow>)
    requires |labels| == |bands|
    ensures |rows| == |bands|
    ensures forall i :: 0 <= i < |bands| ==> rows[i] == WahRow(ToPosition(g, labels[i]), bands[i])
  {
    seq(|bands|, i requires 0 <= i < |bands| => WahRow(ToPosition(g, labels[i]), bands[i]))
  }

  /** The rows of `zip(labels, bands)`, then the sort. */
  function Tabulate(g: FloatGrammar, labels: seq<string>, bands: seq<Measurement>): (r: seq<WahRow>)
    requires |labels| == |bands|
    ensures |r| == |bands|
    ensures multiset(r) == multiset(Zipped(g, labels, bands))
    ensures !Keyed(g, Zipped(g, labels, bands)) ==> r == Zipped(g, labels, bands)
    ensures RowsFrom(g, labels, bands, r)
    ensures Keyed(g, r) && NoNaNKey(g, r) ==> SortedByLabel(g, r)
  {
    var rows := Zipped(g, labels, bands);
    var r := SortRows(g, rows);
    SameElements(r, rows);
    SortedRowsSorted(g, rows);
    r
  }

  /** Every element of a permutation is an element of the original. */
  lemma SameElements<T>(a: seq<T>, b: seq<T>)
    requires multiset(a) == multiset(b)
    ensures forall k :: 0 <= k < |a| ==> a[k] in b
  {
    forall k | 0 <= k < |a|
      ensures a[k] in b
    {
      assert a[k] in multiset(b);
    }
  }

  /** Once the sorted rows all have keys and none is NaN, they are in key order. */
  lemma SortedRowsSorted(g: FloatGrammar, rows: seq<WahRow>)
    ensures Keyed(g, SortRows(g, rows)) && NoNaNKey(g, SortRows(g, rows)) ==> SortedByLabel(g, SortRows(g, rows))
  {
    var r := SortRows(g, rows);
    if !(Keyed(g, r) && NoNaNKey(g, r)) { return; }
    SameElements(rows, r);
    assert Keyed(g, rows);
    forall i | 0 <= i < |rows|
      ensures !SortKey(g, rows[i].pos).value.NaN?
    {
      assert rows[i] in r;
      var k :| 0 <= k < |r| && rows[i] == r[k];
    }
  }
}

=== FILE: wrappers.dfy ===
/** Failure-carrying results shared by every module of the model. */
module Wrappers {

  /** An optional value: the source's `None` or a present value. */
  datatype Option<+T> = None | Some(value: T)

  /** Either a value or the error the source raises (or exits with). */
  datatype Result<+T, +E> = Ok(value: T) | Err(error: E) {
    predicate IsFailure() { Err? }

    function PropagateFailure<U>(): Result<U, E>
      requires Err?
    {
      Err(error)
    }

    function Extract(): T
      requires Ok?
    {
      value
    }
  }

  /** Every result in turn; the first error ends the walk. */
  function AllOk<T, E>(rs: seq<Result<T, E>>): (r: Result<seq<T>, E>)
    ensures r.Ok? ==> |r.value| == |rs| && forall i :: 0 <= i < |rs| ==> rs[i] == Ok(r.value[i])
    ensures r.Err? <==> exists i :: 0 <= i < |rs| && rs[i].Err?
    ensures r.Err? ==> exists i :: 0 <= i < |rs| && rs[i] == Err(r.error)
    decreases |rs|
  {
    if |rs| == 0 then Ok([])
    else
      var rest := AllOk(rs[1..]);
      assert forall i :: 0 < i < |rs| ==> rs[i] == rs[1..][i - 1];
      match rs[0]
      case Err(e) => Err(e)
      case Ok(v) =>
        match rest
        case Err(e) => Err(e)
        case Ok(vs) => Ok([v] + vs)
  }
}

=== FILE: wrcollapse.dfy ===
/**
 * wr_collapse.py: reduce an ngspice WRDATA file to the three columns
 * `frequency re im`. The lines go through the shared filter (dropping `index`
 * lines too); a first line holding an ASCII letter is a header. Every other
 * line keeps its float tokens, and a line with none is skipped. When the
 * header names a frequency, a real and an imaginary column, each row
 * contributes those three values; otherwise each row contributes its first
 * three values. Rows too short for the chosen positions are skipped.
 */
module WrCollapse {
  import opened Wrappers
  import opened Text
  import opened Numbers
  import opened Lines
  import opened Table
  import opened WrData

  /** The lower-cased header names accepted for each output column. */
  datatype Candidates = Candidates(f: seq<string>, re: seq<string>, im: seq<string>)

  /** `f_cands`, `r_cands` and `i_cands`. */
  const Wanted: Candidates := Candidates(
    ["frequency", "freq", "f"],
    ["real(v(out))", "re:re", "re", "real"],
    ["imag(v(out))", "im:im", "im", "imag"])

  /** One output line: the frequency and the real and imaginary parts. */
  datatype Triple = Triple(freq: Num, re: Num, im: Num)

  /** The positions in a data row of the frequency, real and imaginary values. */
  datatype Mapping = Mapping(f: nat, re: nat, im: nat)

  /** The fallback when the header does not name all three columns. */
  const FirstThree: Mapping := Mapping(0, 1, 2)

  /** `max(f_idx, r_idx, i_idx)`. */
  function Widest(m: Mapping): (w: nat)
    ensures m.f <= w && m.re <= w && m.im <= w
    ensures w == m.f || w == m.re || w == m.im
  {
    if m.f >= m.re && m.f >= m.im then m.f else if m.re >= m.im then m.re else m.im
  }

  /** The ragged-row guard: a row is used only when every chosen position exists. */
  predicate Fits(row: seq<Num>, m: Mapping) {
    Widest(m) < |row|
  }

  function Pick(row: seq<Num>, m: Mapping): Triple
    requires Fits(row, m)
  {
    Triple(row[m.f], row[m.re], row[m.im])
  }

  // ---------------------------------------------------------------------------
  // Mapping header names to positions.

  /** The first position whose lower-cased name is one of `cands`. */
  function FirstIndex(names: seq<string>, cands: seq<string>): (r: Option<nat>)
    ensures r.Some? ==> r.value < |names| && Lower(names[r.value]) in cands
    ensures r.Some? ==> forall j :: 0 <= j < r.value ==> Lower(names[j]) !in cands
    ensures r.None? <==> forall j :: 0 <= j < |names| ==> Lower(names[j]) !in cands
    decreases |names|
  {
    if |names| == 0 then None
    else if Lower(names[0]) in cands then Some(0)
    else
      match FirstIndex(names[1..], cands)
      case None => None
      case Some(i) => Some(i + 1)
  }

  /**
   * The header scan: each column takes the first header position carrying one
   * of its names, and the mapping exists only when all three are found.
   */
  function MapColumns(c: Candidates, header: Option<seq<string>>): (m: Option<Mapping>)
    ensures m.Some? <==> (header.Some? && |header.value| > 0 &&
      FirstIndex(header.value, c.f).Some? &&
      FirstIndex(header.value, c.re).Some? &&
      FirstIndex(header.value, c.im).Some?)
    ensures m.Some? ==> Widest(m.value) < |header.value|
    ensures m.Some? ==> (Lower(header.value[m.value.f]) in c.f &&
      Lower(header.value[m.value.re]) in c.re && Lower(header.value[m.value.im]) in c.im)
  {
    if header.None? || |header.value| == 0 then None
    else
      var h := header.value;
      match (FirstIndex(h, c.f), FirstIndex(h, c.re), FirstIndex(h, c.im))
      case (Some(f), Some(r), Some(i)) => Some(Mapping(f, r, i))
      case _ => None
  }

  /**
   * The source's loop over `enumerate(lname)`: an index is recorded for a
   * column only while that column is still unset. It finds the same first
   * positions as `FirstIndex`.
   */
  method ScanHeader(c: Candidates, header: seq<string>) returns (f: Option<nat>, r: Option<nat>, i: Option<nat>)
    ensures f == FirstIndex(header, c.f)
    ensures r == FirstIndex(header, c.re)
    ensures i == FirstIndex(header, c.im)
  {
    f, r, i := None, None, None;
    var idx := 0;
    while idx < |header|
      invariant 0 <= idx <= |header|
      invariant f == FirstIndex(header[..idx], c.f)
      invariant r == FirstIndex(header[..idx], c.re)
      invariant i == FirstIndex(header[..idx], c.im)
    {
      f := Note(header, idx, c.f, f);
      r := Note(header, idx, c.re, r);
      i := Note(header, idx, c.im, i);
      idx := idx + 1;
    }
    assert header[..idx] == header;
  }

  /** One step of the scan for one column: `if x_idx is None and h in cands: x_idx = idx`. */
  method Note(header: seq<string>, idx: nat, cands: seq<string>, cur: Option<nat>) returns (next: Option<nat>)
    requires idx < |header| && cur == FirstIndex(header[..idx], cands)
    ensures next == FirstIndex(header[..idx + 1], cands)
  {
    FirstIndexSnoc(header, idx, cands);
    next := cur;
    if cur.None? && Lower(header[idx]) in cands {
      next := Some(idx);
    }
  }

  /** Extending the scanned prefix by one name changes the result only while it is still unset. */
  lemma FirstIndexSnoc(names: seq<string>, idx: nat, cands: seq<string>)
    requires idx < |names|
    ensures FirstIndex(names[..idx + 1], cands) ==
      match FirstIndex(names[..idx], cands)
      case Some(j) => Some(j)
      case None => if Lower(names[idx]) in cands then Some(idx) else None
  {
    var a, b := names[..idx], names[..idx + 1];
    assert forall j :: 0 <= j < idx ==> b[j] == a[j];
    var fa, fb := FirstIndex(a, cands), FirstIndex(b, cands);
    if fa.Some? {
      assert Lower(b[fa.value]) in cands;
    } else if Lower(names[idx]) in cands {
      assert Lower(b[idx]) in cands;
    }
  }

  // ---------------------------------------------------------------------------
  // Emitting rows.

  /** The mapped branch: each row that fits gives its three chosen values, in order. */
  function Select(data: seq<seq<Num>>, m: Mapping): (out: seq<Triple>)
    ensures |out| <= |data|
    decreases |data|
  {
    if |data| == 0 then []
    else (if Fits(data[0], m) then [Pick(data[0], m)] else []) + Select(data[1..], m)
  }

  /** The fallback branch: `if len(row) < 3: continue`, then the first three numbers. */
  function Fallback(data: seq<seq<Num>>): (out: seq<Triple>)
    ensures |out| <= |data|
    decreases |data|
  {
    if |data| == 0 then []
    else
      (if |data[0]| < 3 then [] else [Triple(data[0][0], data[0][1], data[0][2])]) + Fallback(data[1..])
  }

  /** The fallback is the mapped branch with positions 0, 1 and 2. */
  lemma {:induction false} FallbackIsFirstThree(data: seq<seq<Num>>)
    ensures Fallback(data) == Select(data, FirstThree)
    decreases |data|
  {
    if |data| > 0 {
      assert Widest(FirstThree) == 2;
      FallbackIsFirstThree(data[1..]);
    }
  }

  /** A row of three or more numbers fits the fallback positions and gives its first three. */
  lemma FirstThreeFits(row: seq<Num>)
    requires |row| >= 3
    ensures Fits(row, FirstThree) && Pick(row, FirstThree) == Triple(row[0], row[1], row[2])
  {
    assert Widest(FirstThree) == 2;
  }

  /** A triple is emitted exactly when some row fits the mapping and gives it. */
  lemma SelectMember(data: seq<seq<Num>>, m: Mapping, t: Triple)
    ensures t in Select(data, m) <==> exists i :: 0 <= i < |data| && Fits(data[i], m) && Pick(data[i], m) == t
  {
    if t in Select(data, m) {
      var i := SelectSource(data, m, t);
    }
    if exists i :: 0 <= i < |data| && Fits(data[i], m) && Pick(data[i], m) == t {
      var i :| 0 <= i < |data| && Fits(data[i], m) && Pick(data[i], m) == t;
      SelectKeeps(data, m, i);
    }
  }

  lemma {:induction false} SelectSource(data: seq<seq<Num>>, m: Mapping, t: Triple) returns (i: nat)
    requires t in Select(data, m)
    ensures i < |data| && Fits(data[i], m) && Pick(data[i], m) == t
    decreases |data|
  {
    var rest := data[1..];
    var head := if Fits(data[0], m) then [Pick(data[0], m)] else [];
    assert Select(data, m) == head + Select(rest, m);
    if t in head {
      i := 0;
    } else {
      var j := SelectSource(rest, m, t);
      assert rest[j] == data[j + 1];
      i := j + 1;
    }
  }

  lemma {:induction false} SelectKeeps(data: seq<seq<Num>>, m: Mapping, i: nat)
    requires i < |data| && Fits(data[i], m)
    ensures Pick(data[i], m) in Select(data, m)
    decreases i
  {
    var rest := data[1..];
    var head := if Fits(data[0], m) then [Pick(data[0], m)] else [];
    assert Select(data, m) == head + Select(rest, m);
    if i > 0 {
      assert data[i] == rest[i - 1];
      SelectKeeps(rest, m, i - 1);
    }
  }

  /** When every row fits, one triple per row comes out, in row order. */
  lemma {:induction false} SelectAllFit(data: seq<seq<Num>>, m: Mapping)
    requires forall i :: 0 <= i < |data| ==> Fits(data[i], m)
    ensures |Select(data, m)| == |data|
    ensures forall i :: 0 <= i < |data| ==> Select(data, m)[i] == Pick(data[i], m)
    decreases |data|
  {
    if |data| > 0 {
      var rest := data[1..];
      assert forall i :: 0 <= i < |rest| ==> rest[i] == data[i + 1];
      SelectAllFit(rest, m);
      assert Select(data, m) == [Pick(data[0], m)] + Select(rest, m);
    }
  }

  // ---------------------------------------------------------------------------
  // The program.

  /** The positions used: the header's, or the first three. */
  function Chosen(c: Candidates, header: Option<seq<string>>): Mapping {
    match MapColumns(c, header)
    case Some(m) => m
    case None => FirstThree
  }

  /** The output rows for a header and the numeric rows. */
  function Emit(c: Candidates, header: Option<seq<string>>, data: seq<seq<Num>>): (out: seq<Triple>)
    ensures out == Select(data, Chosen(c, header))
  {
    match MapColumns(c, header)
    case Some(m) => Select(data, m)
    case None => FallbackIsFirstThree(data); Fallback(data)
  }

  /** wr_collapse.py's reading rules: the letter header rule and the lenient row parser. */
  function CollapseDialect(g: FloatGrammar): Dialect {
    Dialect(LetterHeader(), LenientRow(g), true)
  }

  /** The same with plot_spice.py's header rule: a header has a token that is not a float. */
  function CollapseFixedDialect(g: FloatGrammar): Dialect {
    Dialect(FloatHeader(g), LenientRow(g), true)
  }

  /**
   * `main` after the argument check, on the cleaned lines: an error exit when
   * nothing is left or no row has a number, else the emitted rows. The count
   * the program reports is the number of rows.
   */
  function CollapseLines(d: Dialect, c: Candidates, lines: seq<string>): (r: Result<seq<Triple>, ReadError>)
    ensures r == Err(EmptyFile) <==> |lines| == 0
    ensures r == Err(NoNumericRows) <==> |lines| > 0 && |Data(d, lines)| == 0
    ensures r.Err? ==> r.error.EmptyFile? || r.error.NoNumericRows?
    ensures r.Ok? ==> |lines| > 0 && |r.value| <= |Data(d, lines)| <= |lines|
  {
    if |lines| == 0 then Err(EmptyFile)
    else if |Data(d, lines)| == 0 then Err(NoNumericRows)
    else Ok(Emit(c, Header(d, lines), Data(d, lines)))
  }

  /** wr_collapse.py as written: `argc` counts the program name, so two paths make three. */
  function Collapse(g: FloatGrammar, argc: nat, raw: seq<string>): (r: Result<seq<Triple>, ReadError>)
    ensures argc != 3 <==> r == Err(Usage)
    ensures argc == 3 ==> (r == Err(EmptyFile) <==> |CleanLines(raw, true)| == 0)
    ensures argc == 3 && r.Ok? ==> |r.value| <= |raw|
  {
    if argc != 3 then Err(Usage) else CollapseLines(CollapseDialect(g), Wanted, CleanLines(raw, true))
  }

  /** The corrected program: a line of numbers in exponent notation is data, not a header. */
  function CollapseFixed(g: FloatGrammar, argc: nat, raw: seq<string>): (r: Result<seq<Triple>, ReadError>)
    ensures argc != 3 <==> r == Err(Usage)
    ensures argc == 3 ==> (r == Err(EmptyFile) <==> |CleanLines(raw, true)| == 0)
    ensures argc == 3 && r.Ok? ==> |r.value| <= |raw|
  {
    if argc != 3 then Err(Usage) else CollapseLines(CollapseFixedDialect(g), Wanted, CleanLines(raw, true))
  }

  /**
   * Every output row is the chosen values of some numeric row that fits, and
   * every numeric row that fits gives an output row.
   */
  lemma CollapseRows(d: Dialect, c: Candidates, lines: seq<string>, t: Triple)
    requires CollapseLines(d, c, lines).Ok?
    ensures var data, m := Data(d, lines), Chosen(c, Header(d, lines));
      t in CollapseLines(d, c, lines).value <==>
        exists i :: 0 <= i < |data| && Fits(data[i], m) && Pick(data[i], m) == t
  {
    SelectMember(Data(d, lines), Chosen(c, Header(d, lines)), t);
  }

  /** A header naming the three columns selects them by name from every row. */
  lemma NamedColumns(d: Dialect, c: Candidates, lines: seq<string>)
    requires |lines| > 0 && MapColumns(c, Header(d, lines)).Some?
    ensures var h := Header(d, lines).value; var m := Chosen(c, Header(d, lines));
      Lower(h[m.f]) in c.f && Lower(h[m.re]) in c.re && Lower(h[m.im]) in c.im
  {
  }

  /** Without such a header the first three numbers of each row are used. */
  lemma UnnamedColumns(d: Dialect, c: Candidates, lines: seq<string>)
    requires |lines| > 0 && MapColumns(c, Header(d, lines)).None?
    ensures Chosen(c, Header(d, lines)) == Mapping(0, 1, 2)
  {
  }

  // ---------------------------------------------------------------------------
  // The letter header rule drops a row.

  /** Header words that are numbers name no frequency column. */
  predicate NoFrequencyName(c: Candidates, h: seq<string>) {
    FirstIndex(h, c.f).None?
  }

  /** A run that finds rows emits the chosen values of the rows that fit. */
  lemma CollapseLinesOk(d: Dialect, c: Candidates, lines: seq<string>, data: seq<seq<Num>>, m: Mapping)
    requires |lines| > 0 && data == Data(d, lines) && |data| > 0 && m == Chosen(c, Header(d, lines))
    ensures CollapseLines(d, c, lines) == Ok(Select(data, m))
  {
  }

  /** Without a frequency name the fallback positions are used. */
  lemma ChosenWithoutFrequency(c: Candidates, h: seq<string>)
    requires FirstIndex(h, c.f).None?
    ensures Chosen(c, Some(h)) == FirstThree
  {
  }

  /** The header line is not data, and names no frequency column. */
  lemma HeaderLineFacts(d: Dialect, c: Candidates, x: string, y: string, v: seq<Num>)
    requires d.isHeader(x) && d.row(y) == Some(v)
    requires NoFrequencyName(c, Split(x))
    ensures Data(d, [x, y]) == [v]
    ensures Chosen(c, Header(d, [x, y])) == FirstThree
  {
    DataAfterHeader(d, x, y, v);
    assert Header(d, [x, y]) == Some(Split(x));
    ChosenWithoutFrequency(c, Split(x));
  }

  /** Both lines are data. */
  lemma DataLinesFacts(d: Dialect, c: Candidates, x: string, y: string, u: seq<Num>, v: seq<Num>)
    requires !d.isHeader(x) && d.row(x) == Some(u) && d.row(y) == Some(v)
    ensures Data(d, [x, y]) == [u, v]
    ensures Chosen(c, Header(d, [x, y])) == FirstThree
  {
    assert Body(d, [x, y]) == [x, y];
    RowsOfTwo(x, y, d.row);
  }

  lemma SelectOne(v: seq<Num>)
    requires |v| >= 3
    ensures Select([v], FirstThree) == [Triple(v[0], v[1], v[2])]
  {
    FirstThreeFits(v);
    SelectAllFit([v], FirstThree);
  }

  lemma SelectTwo(u: seq<Num>, v: seq<Num>)
    requires |u| >= 3 && |v| >= 3
    ensures Select([u, v], FirstThree) == [Triple(u[0], u[1], u[2]), Triple(v[0], v[1], v[2])]
  {
    FirstThreeFits(u);
    FirstThreeFits(v);
    SelectAllFit([u, v], FirstThree);
  }

  /** A header naming no frequency column over one row: the fallback gives that row's first three values. */
  lemma HeaderOverOneRow(d: Dialect, c: Candidates, x: string, y: string, v: seq<Num>)
    requires d.isHeader(x) && d.row(y) == Some(v) && |v| >= 3
    requires NoFrequencyName(c, Split(x))
    ensures CollapseLines(d, c, [x, y]) == Ok([Triple(v[0], v[1], v[2])])
  {
    HeaderLineFacts(d, c, x, y, v);
    SelectOne(v);
    CollapseLinesOk(d, c, [x, y], [v], FirstThree);
  }

  /** Two rows and no header: the first three values of each. */
  lemma TwoRowsNoHeader(d: Dialect, c: Candidates, x: string, y: string, u: seq<Num>, v: seq<Num>)
    requires !d.isHeader(x) && d.row(x) == Some(u) && d.row(y) == Some(v) && |u| >= 3 && |v| >= 3
    ensures CollapseLines(d, c, [x, y]) == Ok([Triple(u[0], u[1], u[2]), Triple(v[0], v[1], v[2])])
  {
    DataLinesFacts(d, c, x, y, u, v);
    SelectTwo(u, v);
    CollapseLinesOk(d, c, [x, y], [u, v], FirstThree);
  }

  /**
   * The discrepancy: two cleaned lines of numbers, each parsing to a row of at
   * least three values, the first in exponent notation (`1e3 0.5 0.25`, as
   * ngspice writes them). The letter `e` makes the first line the header; its
   * words name no column, so the fallback emits only the second line's row and
   * the first row `u` is lost.
   */
  lemma ExponentRowDropped(g: FloatGrammar, c: Candidates, x: string, y: string, u: seq<Num>, v: seq<Num>)
    requires LenientRow(g)(x) == Some(u) && LenientRow(g)(y) == Some(v) && |u| >= 3 && |v| >= 3
    requires HasLetter(x) && NoFrequencyName(c, Split(x))
    ensures CollapseLines(CollapseDialect(g), c, [x, y]) == Ok([Triple(v[0], v[1], v[2])])
  {
    HeaderOverOneRow(CollapseDialect(g), c, x, y, v);
  }

  /** The corrected rule reads a first line whose words are all floats as data, and emits both rows. */
  lemma ExponentRowKept(g: FloatGrammar, c: Candidates, x: string, y: string, u: seq<Num>, v: seq<Num>)
    requires LenientRow(g)(x) == Some(u) && LenientRow(g)(y) == Some(v) && |u| >= 3 && |v| >= 3
    requires forall k :: 0 <= k < |Split(x)| ==> g.parses(Split(x)[k])
    ensures CollapseLines(CollapseFixedDialect(g), c, [x, y]) ==
      Ok([Triple(u[0], u[1], u[2]), Triple(v[0], v[1], v[2])])
  {
    assert !FloatHeader(g)(x);
    TwoRowsNoHeader(CollapseFixedDialect(g), c, x, y, u, v);
  }
}

=== FILE: wrdata.dfy ===
/**
 * The `read_wrdata` readers of plot_spice.py, merge_bode.py and wah_q_table.py.
 * They share one shape: clean the lines, decide whether the first line is a
 * header, parse the remaining lines into rows, build the matrix and name its
 * columns. They differ in three places, captured by a `Dialect`: the header
 * rule, how a line becomes a row, and whether an `Index` column is dropped.
 */
module WrData {
  import opened Wrappers
  import opened Text
  import opened Numbers
  import opened Lines
  import opened Table
  import Decimal

  /** One line read as a data row, or `None` when the reader skips the line. */
  type RowParser = string -> Option<seq<Num>>

  datatype Dialect = Dialect(isHeader: string -> bool, row: RowParser, dropsIndex: bool)

  /** The rows of the lines the parser accepts, in order. */
  function RowsOf(lines: seq<string>, row: RowParser): (r: seq<seq<Num>>)
    ensures |r| <= |lines|
    decreases |lines|
  {
    if |lines| == 0 then []
    else
      (match row(lines[0]) case Some(v) => [v] case None => []) + RowsOf(lines[1..], row)
  }

  /** A row comes out exactly when some line parses to it. */
  lemma RowsOfMember(lines: seq<string>, row: RowParser, v: seq<Num>)
    ensures v in RowsOf(lines, row) <==> exists i :: 0 <= i < |lines| && row(lines[i]) == Some(v)
  {
    if v in RowsOf(lines, row) {
      var i := RowsOfSource(lines, row, v);
    }
    if exists i :: 0 <= i < |lines| && row(lines[i]) == Some(v) {
      var i :| 0 <= i < |lines| && row(lines[i]) == Some(v);
      RowsOfKeeps(lines, row, i);
    }
  }

  lemma {:induction false} RowsOfSource(lines: seq<string>, row: RowParser, v: seq<Num>) returns (i: nat)
    requires v in RowsOf(lines, row)
    ensures i < |lines| && row(lines[i]) == Some(v)
    decreases |lines|
  {
    var rest := lines[1..];
    var head := match row(lines[0]) case Some(u) => [u] case None => [];
    assert RowsOf(lines, row) == head + RowsOf(rest, row);
    if v in head {
      i := 0;
    } else {
      var j := RowsOfSource(rest, row, v);
      var x := rest[j];
      assert x == lines[j + 1];
      i := j + 1;
    }
  }

  lemma {:induction false} RowsOfKeeps(lines: seq<string>, row: RowParser, i: nat)
    requires i < |lines| && row(lines[i]).Some?
    ensures row(lines[i]).value in RowsOf(lines, row)
    decreases i
  {
    var rest := lines[1..];
    var head := match row(lines[0]) case Some(u) => [u] case None => [];
    assert RowsOf(lines, row) == head + RowsOf(rest, row);
    if i > 0 {
      assert lines[i] == rest[i - 1];
      RowsOfKeeps(rest, row, i - 1);
    }
  }

  /** The first line is data when it parses as a row: it becomes the first row. */
  lemma RowsOfFirst(lines: seq<string>, row: RowParser)
    requires |lines| > 0 && row(lines[0]).Some?
    ensures |RowsOf(lines, row)| > 0 && RowsOf(lines, row)[0] == row(lines[0]).value
  {
  }

  /** The header tokens, when the dialect takes the first line as a header. */
  function Header(d: Dialect, lines: seq<string>): Option<seq<string>>
    requires |lines| > 0
  {
    if d.isHeader(lines[0]) then Some(Split(lines[0])) else None
  }

  /** The lines read as data: all of them, or all but the header. */
  function Body(d: Dialect, lines: seq<string>): seq<string>
    requires |lines| > 0
  {
    if d.isHeader(lines[0]) then lines[1..] else lines
  }

  function Data(d: Dialect, lines: seq<string>): seq<seq<Num>>
    requires |lines| > 0
  {
    RowsOf(Body(d, lines), d.row)
  }

  /** The names given to the matrix columns, after skipping `skip` leading columns. */
  datatype Layout = Layout(names: seq<string>, skip: nat)

  /** `header[0].lower() in ('index', 'no.')`. */
  predicate IndexName(h: string) {
    Lower(h) == "index" || Lower(h) == "no."
  }

  /**
   * A missing header, or one whose width differs from the data, becomes
   * `col0..`; a header of the right width starting with an index name loses
   * that name and the first column when the dialect says so.
   */
  function LayoutOf(header: Option<seq<string>>, w: nat, dropsIndex: bool): (l: Layout)
    ensures l.skip <= 1 && |l.names| + l.skip == w
  {
    match header
    case None => Layout(ColNames(w), 0)
    case Some(h) =>
      if |h| != w then Layout(ColNames(w), 0)
      else if dropsIndex && |h| > 0 && IndexName(h[0]) then Layout(h[1..], 1)
      else Layout(h, 0)
  }

  /** `read_wrdata` on the cleaned lines, for one dialect. */
  function Read(d: Dialect, lines: seq<string>): (r: Result<Cols, ReadError>)
    ensures r == Err(EmptyFile) <==> |lines| == 0
    ensures r == Err(NoNumericRows) <==> |lines| > 0 && |Data(d, lines)| == 0
    ensures r == Err(RaggedRows) <==> |lines| > 0 && |Data(d, lines)| > 0 && !Rectangular(Data(d, lines), |Data(d, lines)[0]|)
    ensures r.Ok? ==> UniqueKeys(r.value)
    ensures r.Ok? ==> Height(r.value, |Data(d, lines)|)
  {
    if |lines| == 0 then Err(EmptyFile)
    else
      var data := Data(d, lines);
      if |data| == 0 then Err(NoNumericRows)
      else if !Rectangular(data, |data[0]|) then Err(RaggedRows)
      else
        var w := |data[0]|;
        var l := LayoutOf(Header(d, lines), w, d.dropsIndex);
        var cs := Columns(data, w)[l.skip..];
        Ok(FromNames(l.names, cs))
  }

  /**
   * A first line that is not a header is the first data row, and the columns
   * are named `col0..` after its width.
   */
  lemma ReadHeaderless(d: Dialect, lines: seq<string>, v: seq<Num>)
    requires |lines| > 0 && !d.isHeader(lines[0]) && d.row(lines[0]) == Some(v)
    ensures var r := Read(d, lines);
      r.Ok? ==>
        Keys(r.value) == ColNames(|v|) &&
        forall j :: 0 <= j < |v| ==> Get(r.value, ColNames(|v|)[j]) == Some(ColumnOf(Data(d, lines), |v|, j))
  {
    var data := Data(d, lines);
    RowsOfFirst(lines, d.row);
    if Read(d, lines).Ok? {
      var w := |v|;
      ColNamesDistinct(w);
      FromNamesDistinct(ColNames(w), Columns(data, w)[0..]);
    }
  }

  /** The first value stored under a key, if any. */
  function FirstValue(d: Cols, k: string): Option<Num> {
    match Get(d, k)
    case Some(c) => if |c| > 0 then Some(c[0]) else None
    case None => None
  }

  /** Column `j` of a headerless read starts with the `j`-th value of the first line. */
  lemma HeaderlessFirstValues(d: Dialect, lines: seq<string>, v: seq<Num>)
    requires |lines| > 0 && !d.isHeader(lines[0]) && d.row(lines[0]) == Some(v)
    ensures var r := Read(d, lines);
      r.Ok? ==>
        Keys(r.value) == ColNames(|v|) &&
        forall j :: 0 <= j < |v| ==> FirstValue(r.value, ColNames(|v|)[j]) == Some(v[j])
  {
    ReadHeaderless(d, lines, v);
    RowsOfFirst(lines, d.row);
  }

  /** A header of distinct names matching the data width names the columns in order. */
  lemma ReadNamed(d: Dialect, lines: seq<string>)
    requires |lines| > 0 && d.isHeader(lines[0])
    requires var h := Split(lines[0]); Distinct(h) && |h| > 0
    requires var data := Data(d, lines); |data| > 0 && Rectangular(data, |Split(lines[0])|)
    requires !(d.dropsIndex && IndexName(Split(lines[0])[0]))
    ensures var h, r := Split(lines[0]), Read(d, lines);
      r.Ok? && Keys(r.value) == h &&
      forall j :: 0 <= j < |h| ==> Get(r.value, h[j]) == Some(ColumnOf(Data(d, lines), |h|, j))
  {
    var h, data := Split(lines[0]), Data(d, lines);
    var cs := Columns(data, |h|);
    assert Read(d, lines) == Ok(FromNames(h, cs)) by {
      assert LayoutOf(Header(d, lines), |h|, d.dropsIndex) == Layout(h, 0);
      assert cs[0..] == cs;
    }
    NamedColumns(h, data);
  }

  /** Naming every column after its header name. */
  lemma NamedColumns(h: seq<string>, data: seq<seq<Num>>)
    requires Distinct(h) && Rectangular(data, |h|)
    ensures var r := FromNames(h, Columns(data, |h|));
      Keys(r) == h &&
      forall j :: 0 <= j < |h| ==> Get(r, h[j]) == Some(ColumnOf(data, |h|, j))
  {
    FromNamesDistinct(h, Columns(data, |h|));
  }

  /** An `Index` header (for a dialect that drops it) names the columns after the first. */
  lemma ReadIndexDropped(d: Dialect, lines: seq<string>)
    requires |lines| > 0 && d.isHeader(lines[0]) && d.dropsIndex
    requires var h := Split(lines[0]); Distinct(h) && |h| > 0 && IndexName(h[0])
    requires var data := Data(d, lines); |data| > 0 && Rectangular(data, |Split(lines[0])|)
    ensures var h, r := Split(lines[0]), Read(d, lines);
      r.Ok? && Keys(r.value) == h[1..] &&
      forall j :: 1 <= j < |h| ==> Get(r.value, h[j]) == Some(ColumnOf(Data(d, lines), |h|, j))
  {
    var h, data := Split(lines[0]), Data(d, lines);
    assert Read(d, lines) == Ok(FromNames(h[1..], Columns(data, |h|)[1..])) by {
      assert LayoutOf(Header(d, lines), |h|, d.dropsIndex) == Layout(h[1..], 1);
    }
    IndexDroppedColumns(h, data);
  }

  /** Naming all columns but the first after all names but the first. */
  lemma IndexDroppedColumns(h: seq<string>, data: seq<seq<Num>>)
    requires Distinct(h) && |h| > 0 && Rectangular(data, |h|)
    ensures var r := FromNames(h[1..], Columns(data, |h|)[1..]);
      Keys(r) == h[1..] &&
      forall j :: 1 <= j < |h| ==> Get(r, h[j]) == Some(ColumnOf(data, |h|, j))
  {
    var names, cs := h[1..], Columns(data, |h|)[1..];
    assert Distinct(names) by {
      DistinctTail(h);
    }
    var r := FromNames(names, cs);
    FromNamesDistinct(names, cs);
    DropFirstEntries(r, h, Columns(data, |h|));
    forall j | 1 <= j < |h|
      ensures Get(r, h[j]) == Some(ColumnOf(data, |h|, j))
    {
      assert Get(r, h[j]) == Some(Columns(data, |h|)[j]);
    }
  }

  /** Entries stored under the names after the first are the columns after the first. */
  lemma DropFirstEntries(r: Cols, h: seq<string>, cs: seq<seq<Num>>)
    requires |h| == |cs| > 0
    requires forall i :: 0 <= i < |h| - 1 ==> Get(r, h[1..][i]) == Some(cs[1..][i])
    ensures forall j :: 1 <= j < |h| ==> Get(r, h[j]) == Some(cs[j])
  {
    forall j | 1 <= j < |h|
      ensures Get(r, h[j]) == Some(cs[j])
    {
      assert h[1..][j - 1] == h[j] && cs[1..][j - 1] == cs[j];
    }
  }

  /** A header whose width differs from the data is replaced by `col0..`. */
  lemma ReadWidthMismatch(d: Dialect, lines: seq<string>, w: nat)
    requires |lines| > 0 && d.isHeader(lines[0])
    requires var data := Data(d, lines); |data| > 0 && Rectangular(data, w) && w != |Split(lines[0])|
    ensures var r := Read(d, lines); r.Ok? && Keys(r.value) == ColNames(w)
  {
    var data := Data(d, lines);
    ColNamesDistinct(w);
    FromNamesDistinct(ColNames(w), Columns(data, w)[0..]);
  }

  // ---------------------------------------------------------------------------
  // The dialects.

  /** plot_spice.py: a header has at least one token that is not a float. */
  function FloatHeader(g: FloatGrammar): string -> bool {
    line => HasNonFloat(g, line)
  }

  /** Some token of the line does not parse as a float. */
  predicate HasNonFloat(g: FloatGrammar, line: string) {
    exists k :: 0 <= k < |Split(line)| && !g.parses(Split(line)[k])
  }

  /** plot_spice.py and wr_collapse.py: a row keeps its float tokens; a line without any is skipped. */
  function LenientRow(g: FloatGrammar): RowParser {
    line => var v := Floats(g, Split(line)); if |v| == 0 then None else Some(v)
  }

  /** merge_bode.py and wah_q_table.py: a header contains an ASCII letter. */
  function LetterHeader(): string -> bool {
    line => HasLetter(line)
  }

  /** merge_bode.py and wah_q_table.py: a row must be all floats, else it is skipped. */
  function StrictRow(g: FloatGrammar): RowParser {
    line => StrictValues(g, line)
  }

  /** The values of a line whose every token is a float, if it has any. */
  function StrictValues(g: FloatGrammar, line: string): Option<seq<Num>> {
    match AllFloats(g, Split(line))
    case Ok(v) => if |v| == 0 then None else Some(v)
    case Err(_) => None
  }

  function SpiceDialect(g: FloatGrammar): Dialect {
    Dialect(FloatHeader(g), LenientRow(g), true)
  }

  /** `read_wrdata` of plot_spice.py: `Index` lines are kept by the filter and dropped as a column. */
  function ReadSpice(g: FloatGrammar, raw: seq<string>): (r: Result<Cols, ReadError>)
    ensures r == Err(EmptyFile) <==> |CleanLines(raw, false)| == 0
    ensures r.Ok? ==> UniqueKeys(r.value) && Height(r.value, |Data(SpiceDialect(g), CleanLines(raw, false))|)
  {
    Read(SpiceDialect(g), CleanLines(raw, false))
  }

  /**
   * A first line whose tokens are all floats is data: the columns are
   * `col0..` and each starts with that line's value.
   */
  lemma SpiceNumericFirstLine(g: FloatGrammar, raw: seq<string>)
    requires var lines := CleanLines(raw, false);
      |lines| > 0 && forall k :: 0 <= k < |Split(lines[0])| ==> g.parses(Split(lines[0])[k])
    ensures var toks := Split(CleanLines(raw, false)[0]); var r := ReadSpice(g, raw);
      r.Ok? ==>
        Keys(r.value) == ColNames(|toks|) &&
        forall j :: 0 <= j < |toks| ==> FirstValue(r.value, ColNames(|toks|)[j]) == Some(g.value(toks[j]))
  {
    var lines := CleanLines(raw, false);
    var v := NumericFirstRow(g, lines);
    HeaderlessFirstTokens(g, SpiceDialect(g), lines, v);
    assert ReadSpice(g, raw) == Read(SpiceDialect(g), lines);
  }

  /** A first line that is a row of every token's value starts every `colN` column with its token's value. */
  lemma HeaderlessFirstTokens(g: FloatGrammar, d: Dialect, lines: seq<string>, v: seq<Num>)
    requires |lines| > 0 && !d.isHeader(lines[0]) && d.row(lines[0]) == Some(v)
    requires var toks := Split(lines[0]); |v| == |toks| && forall j :: 0 <= j < |v| ==> v[j] == g.value(toks[j])
    ensures var toks := Split(lines[0]); var r := Read(d, lines);
      r.Ok? ==>
        Keys(r.value) == ColNames(|toks|) &&
        forall j :: 0 <= j < |toks| ==> FirstValue(r.value, ColNames(|toks|)[j]) == Some(g.value(toks[j]))
  {
    HeaderlessFirstValues(d, lines, v);
    var r := Read(d, lines);
    if r.Ok? {
      FirstValuesAs(g, r.value, Split(lines[0]), v);
    }
  }

  /** Columns starting with the parsed values start with the values of the tokens. */
  lemma FirstValuesAs(g: FloatGrammar, r: Cols, toks: seq<string>, v: seq<Num>)
    requires |v| == |toks| && forall j :: 0 <= j < |v| ==> v[j] == g.value(toks[j])
    requires Keys(r) == ColNames(|v|)
    requires forall j :: 0 <= j < |v| ==> FirstValue(r, ColNames(|v|)[j]) == Some(v[j])
    ensures Keys(r) == ColNames(|toks|)
    ensures forall j :: 0 <= j < |toks| ==> FirstValue(r, ColNames(|toks|)[j]) == Some(g.value(toks[j]))
  {
  }

  /** A clean line of floats is no header for plot_spice.py, and its row holds every token's value. */
  lemma NumericFirstRow(g: FloatGrammar, lines: seq<string>) returns (v: seq<Num>)
    requires |lines| > 0 && |lines[0]| > 0 && Stripped(lines[0])
    requires forall k :: 0 <= k < |Split(lines[0])| ==> g.parses(Split(lines[0])[k])
    ensures !SpiceDialect(g).isHeader(lines[0]) && SpiceDialect(g).row(lines[0]) == Some(v)
    ensures var toks := Split(lines[0]); |v| == |toks| && forall j :: 0 <= j < |v| ==> v[j] == g.value(toks[j])
  {
    var toks := Split(lines[0]);
    SplitEmpty(lines[0]);
    assert !AllSpace(lines[0]) by {
      assert !IsSpace(lines[0][0]);
    }
    FloatsOfAll(g, toks);
    v := Floats(g, toks);
  }

  function StrictDialect(g: FloatGrammar): Dialect {
    Dialect(LetterHeader(), StrictRow(g), false)
  }

  /** `read_wrdata` of merge_bode.py and wah_q_table.py, as written: the letter rule decides the header. */
  function ReadStrict(g: FloatGrammar, raw: seq<string>): (r: Result<Cols, ReadError>)
    ensures r == Err(EmptyFile) <==> |CleanLines(raw, true)| == 0
    ensures r.Ok? ==> UniqueKeys(r.value) && Height(r.value, |Data(StrictDialect(g), CleanLines(raw, true))|)
    ensures r.Ok? ==> |Data(StrictDialect(g), CleanLines(raw, true))| > 0
  {
    Read(StrictDialect(g), CleanLines(raw, true))
  }

  /** The strict dialect with plot_spice.py's float header rule in place of the letter rule. */
  function FloatStrictDialect(g: FloatGrammar): Dialect {
    Dialect(FloatHeader(g), StrictRow(g), false)
  }

  /** The same reader with plot_spice.py's header rule, so that exponent notation is read as data. */
  function ReadStrictFixed(g: FloatGrammar, raw: seq<string>): (r: Result<Cols, ReadError>)
    ensures r == Err(EmptyFile) <==> |CleanLines(raw, true)| == 0
    ensures r.Ok? ==> UniqueKeys(r.value) && Height(r.value, |Data(FloatStrictDialect(g), CleanLines(raw, true))|)
    ensures r.Ok? ==> |Data(FloatStrictDialect(g), CleanLines(raw, true))| > 0
  {
    Read(FloatStrictDialect(g), CleanLines(raw, true))
  }

  /** The strict reader fails only with the three reading errors. */
  lemma ReadStrictErrors(g: FloatGrammar, raw: seq<string>)
    requires ReadStrict(g, raw).Err?
    ensures var e := ReadStrict(g, raw).error; e.EmptyFile? || e.NoNumericRows? || e.RaggedRows?
  {
    ReadErrors(StrictDialect(g), CleanLines(raw, true));
  }

  /** The same for the corrected reader. */
  lemma ReadStrictFixedErrors(g: FloatGrammar, raw: seq<string>)
    requires ReadStrictFixed(g, raw).Err?
    ensures var e := ReadStrictFixed(g, raw).error; e.EmptyFile? || e.NoNumericRows? || e.RaggedRows?
  {
    ReadErrors(FloatStrictDialect(g), CleanLines(raw, true));
  }

  lemma ReadRows(d: Dialect, lines: seq<string>)
    requires Read(d, lines).Ok?
    ensures exists n :: n > 0 && Height(Read(d, lines).value, n)
  {
    var r := Read(d, lines);
    assert r != Err(NoNumericRows) && r != Err(EmptyFile);
    assert Height(r.value, |Data(d, lines)|);
  }

  lemma ReadErrors(d: Dialect, lines: seq<string>)
    requires Read(d, lines).Err?
    ensures var e := Read(d, lines).error; e.EmptyFile? || e.NoNumericRows? || e.RaggedRows?
  {
  }

  /** The rows of a two-line body are the rows of its lines. */
  lemma RowsOfTwo(x: string, y: string, row: RowParser)
    requires row(x).Some? && row(y).Some?
    ensures RowsOf([x, y], row) == [row(x).value, row(y).value]
  {
    assert [x, y][1..] == [y];
    assert RowsOf([y], row) == [row(y).value];
  }

  /** With a header first, the one line after it is the only row. */
  lemma DataAfterHeader(d: Dialect, x: string, y: string, v: seq<Num>)
    requires d.isHeader(x) && d.row(y) == Some(v)
    ensures Data(d, [x, y]) == [v]
  {
    assert Body(d, [x, y]) == [y];
    assert RowsOf([y], d.row) == [v];
  }

  /** Column `j` of a one-row matrix is that row's `j`-th value. */
  lemma ColumnOfOneRow(v: seq<Num>, j: nat)
    requires j < |v|
    ensures ColumnOf([v], |v|, j) == [v[j]]
  {
  }

  /** Column `j` of a two-row matrix holds the rows' `j`-th values. */
  lemma ColumnOfTwoRows(u: seq<Num>, v: seq<Num>, j: nat)
    requires j < |u| == |v|
    ensures ColumnOf([u, v], |u|, j) == [u[j], v[j]]
  {
  }

  /** A header line over one data row: each header name holds that row's value. */
  lemma ReadHeaderOneRow(d: Dialect, x: string, y: string, v: seq<Num>)
    requires d.isHeader(x) && d.row(y) == Some(v)
    requires var h := Split(x); Distinct(h) && |h| > 0 && |h| == |v|
    requires !(d.dropsIndex && IndexName(Split(x)[0]))
    ensures var h, r := Split(x), Read(d, [x, y]);
      r.Ok? && Keys(r.value) == h &&
      forall j :: 0 <= j < |h| ==> Get(r.value, h[j]) == Some([v[j]])
  {
    DataAfterHeader(d, x, y, v);
    ReadNamed(d, [x, y]);
    OneRowColumns(Read(d, [x, y]).value, Split(x), v);
  }

  /** Entries holding the columns of a one-row matrix hold that row's values. */
  lemma OneRowColumns(r: Cols, h: seq<string>, v: seq<Num>)
    requires |h| == |v|
    requires forall j :: 0 <= j < |h| ==> Get(r, h[j]) == Some(ColumnOf([v], |h|, j))
    ensures forall j :: 0 <= j < |h| ==> Get(r, h[j]) == Some([v[j]])
  {
    forall j | 0 <= j < |h| {
      ColumnOfOneRow(v, j);
    }
  }

  /** Two lines that both parse as rows, the first no header, are read as two rows under `col0..`. */
  lemma ReadTwoRows(d: Dialect, x: string, y: string, u: seq<Num>, v: seq<Num>)
    requires !d.isHeader(x) && d.row(x) == Some(u) && d.row(y) == Some(v) && |u| == |v|
    ensures var r := Read(d, [x, y]);
      r.Ok? && Keys(r.value) == ColNames(|u|) &&
      forall j :: 0 <= j < |u| ==> Get(r.value, ColNames(|u|)[j]) == Some([u[j], v[j]])
  {
    assert Body(d, [x, y]) == [x, y];
    RowsOfTwo(x, y, d.row);
    assert Rectangular([u, v], |u|);
    ReadHeaderless(d, [x, y], u);
    forall j | 0 <= j < |u| {
      ColumnOfTwoRows(u, v, j);
    }
  }

  /** A line of float words is a strict row of their values. */
  lemma StrictRowValues(g: FloatGrammar, y: string) returns (v: seq<Num>)
    requires |Split(y)| > 0 && forall k :: 0 <= k < |Split(y)| ==> g.parses(Split(y)[k])
    ensures StrictRow(g)(y) == Some(v) && |v| == |Split(y)|
    ensures forall i :: 0 <= i < |v| ==> v[i] == g.value(Split(y)[i])
  {
    v := AllFloats(g, Split(y)).value;
  }

  /**
   * The discrepancy: a headerless file of two cleaned lines whose first line
   * is in exponent notation, such as `1e3 0.5` followed by `2e3 0.25`. Every
   * token is a float, yet the letter rule takes the first line as the header,
   * names the columns after its numbers and keeps only the second row.
   */
  lemma ExponentLineTakenAsHeader(g: FloatGrammar, x: string, y: string)
    requires var h, t := Split(x), Split(y); |h| == |t| > 0 && Distinct(h) && HasLetter(x)
    requires forall k :: 0 <= k < |Split(x)| ==> g.parses(Split(x)[k])
    requires forall k :: 0 <= k < |Split(y)| ==> g.parses(Split(y)[k])
    ensures var h, t, r := Split(x), Split(y), Read(StrictDialect(g), [x, y]);
      r.Ok? && Keys(r.value) == h &&
      forall j :: 0 <= j < |h| ==> Get(r.value, h[j]) == Some([g.value(t[j])])
  {
    var v := StrictRowValues(g, y);
    var d := StrictDialect(g);
    assert d.isHeader(x);
    ReadHeaderOneRow(d, x, y, v);
    var h, t, r := Split(x), Split(y), Read(d, [x, y]);
    forall j | 0 <= j < |h|
      ensures Get(r.value, h[j]) == Some([g.value(t[j])])
    {
      assert Get(r.value, h[j]) == Some([v[j]]);
    }
  }

  /** The float rule reads the same two lines as two rows under `col0..`. */
  lemma ExponentLineReadAsData(g: FloatGrammar, x: string, y: string)
    requires |Split(x)| == |Split(y)| > 0
    requires forall k :: 0 <= k < |Split(x)| ==> g.parses(Split(x)[k])
    requires forall k :: 0 <= k < |Split(y)| ==> g.parses(Split(y)[k])
    ensures var h, t, r := Split(x), Split(y), Read(FloatStrictDialect(g), [x, y]);
      r.Ok? && Keys(r.value) == ColNames(|h|) &&
      forall j :: 0 <= j < |h| ==> Get(r.value, ColNames(|h|)[j]) == Some([g.value(h[j]), g.value(t[j])])
  {
    var f := FloatStrictDialect(g);
    var u := StrictRowValues(g, x);
    var v := StrictRowValues(g, y);
    assert !f.isHeader(x);
    ReadTwoRows(f, x, y, u, v);
    TwoRowsAsValues(g, Read(f, [x, y]).value, Split(x), Split(y), u, v);
  }

  /** Columns holding the parsed pairs hold the values of the two token lists. */
  lemma TwoRowsAsValues(g: FloatGrammar, r: Cols, h: seq<string>, t: seq<string>, u: seq<Num>, v: seq<Num>)
    requires |u| == |v| == |h| == |t|
    requires forall i :: 0 <= i < |u| ==> u[i] == g.value(h[i]) && v[i] == g.value(t[i])
    requires forall j :: 0 <= j < |u| ==> Get(r, ColNames(|u|)[j]) == Some([u[j], v[j]])
    ensures forall j :: 0 <= j < |h| ==> Get(r, ColNames(|h|)[j]) == Some([g.value(h[j]), g.value(t[j])])
  {
  }
}
